=== FILE: README.md ===
# Journey: mentions, AI actions, boards and the Linear CLI in Dafny

This project models the sequential logic of the Journey personal-planning app
(a Next.js front end over a Supabase database) and of the small Python
command-line tool that files issues in Linear, and proves properties of that
model.

- **Mention language.** Text such as `see task#12 and goal#3` refers to
  entities by kind and per-user short code. The model covers parsing with exact
  positions (`MentionParser`), de-duplication, the partial mention that drives
  autocomplete, the color classes and links of a resolved mention
  (`MentionResolver`), the split of a message into text and mention segments
  (`MentionSegments`), and the server actions that assign short codes, route
  searches, shorten journal and memory titles and resolve a batch of mentions
  against a table of short codes (`MentionActions`).
- **AI chat.** The assistant proposes write actions that the user confirms,
  rejects or later reverts. `AiActions` models that lifecycle over in-memory
  tables (`pending` to `confirmed` or `rejected`, `confirmed` to `reverted`),
  including what confirming and reverting do to the task and project tables.
  The writes are checked against the columns of the schema: their types, the
  NOT NULL columns and the project foreign key, in the order PostgreSQL
  reports them.
  `AiTools` holds the tool catalogue, the read tools' filters and the
  descriptions of write actions. `ChatRoute` covers the model allow-list, the
  tool-call loop that queues write actions, and the entity and action kinds.
  `ChatState` is the client hook's thread and context state.
- **Pages.** The goals page sorts horizons and filters goals (`GoalsPage`). The
  Kanban board filters by domain, partitions cards into columns and applies
  the drag rule (`KanbanBoard`). `Autocomplete` flattens grouped search results
  and clamps the keyboard selection. `ChatInput` splices a chosen mention into
  the message and decides what Enter does.
- **Anchor migration.** The one-off script turns a thread's entity anchor into
  a path (`AnchorMigration`).
- **Telegram login.** The server builds the Login Widget data-check string,
  compares its signature, applies the five-minute freshness window and refuses to
  link an account that another user already owns (`TelegramAuth`).
- **Linear CLI.** `.env` loading, the fixed label and state tables and the
  client's key check (`LinearConfig`). Each command validates its arguments
  locally, builds its GraphQL document, reads the answer and prints
  (`LinearCommands`). `LinearCli` is the dispatcher with its exit codes.

Shared pieces live in `Base` (option and result types, filtering), `Text`
(characters, decimal numerals, strip, split and join, code-point order),
`Json` (a JSON value, `JSON.stringify`, JavaScript `String()` and truthiness),
`JsNumber` (JavaScript's conversion of a value to a number) and `Uuid` (the
texts PostgreSQL's `uuid` type accepts, following section 8.12 of the
PostgreSQL documentation, and the value each denotes).
`MentionTypes` holds the mention records.

Database tables are sequences of rows or maps. The server, the language model,
the Linear API, HMAC-SHA-256, the clock, fresh ids and browser storage are
parameters: functions passed in, or sequences of answers consumed in order.
A command's effect is the list of GraphQL documents it sends, the lines it
prints and how it ends.

## Model

| member | source | states |
|---|---|---|
| MentionTypes.TypeNameLetters | apps/journey/src/lib/mentions/parser.ts:5 | every kind's keyword is at least four lower-case ASCII letters, as the alternation spells them |
| MentionParser.KeywordAt | apps/journey/src/lib/mentions/parser.ts:5 | a keyword reported at a position is one of the four mentionable kinds and is spelled there in any letter case |
| MentionParser.KeywordAmong | apps/journey/src/lib/mentions/parser.ts:5 | the alternatives are tried in their written order and the one reported is spelled at the position |
| MentionParser.KeywordStartsWithLetter | apps/journey/src/lib/mentions/parser.ts:5 | a keyword can only start on a letter, so `#` and digits never start one |
| MentionParser.DigitRun | apps/journey/src/lib/mentions/parser.ts:5 | `\d+` takes the maximal run of digits: all digits, and the next character (if any) is not one |
| MentionParser.MatchAt | apps/journey/src/lib/mentions/parser.ts:5 | a match found at a position starts there, is non-empty and ends inside the text |
| MentionParser.MatchAfter | apps/journey/src/lib/mentions/parser.ts:5 | after the keyword, a match needs `#`, a non-empty digit run and a `\b` after it |
| MentionParser.MatchAtParts | apps/journey/src/lib/mentions/parser.ts:18-26 | a match is keyword, `#` and digits; its kind is the keyword's, its short code the digits' decimal value, its raw text the matched slice, its end the start plus the length |
| MentionParser.TokenOfSlice | apps/journey/src/lib/mentions/parser.ts:18-24 | the text from a keyword through its digits is a mention token whose short code is the decimal value of the digits |
| MentionParser.MatchIsWellPlaced | apps/journey/src/lib/mentions/parser.ts:17-27 | every match records exactly the slice it came from, is a well-formed token and is the match at its own start |
| MentionParser.NoMatchInside | apps/journey/src/lib/mentions/parser.ts:5 | no match begins strictly inside another match |
| MentionParser.AfterMatch | apps/journey/src/lib/mentions/parser.ts:17 | any later match starts at or after the end of the match at `i`, so moving `lastIndex` to the end skips no match |
| MentionParser.ParseFromSound | apps/journey/src/lib/mentions/parser.ts:17-28 | every mention the `exec` loop collects from `i` on is a well-placed match at or after `i`, in text order without overlap |
| MentionParser.ParseFromComplete | apps/journey/src/lib/mentions/parser.ts:17-28 | every position at or after `i` where the pattern matches is the start of one of the collected mentions |
| MentionParser.ParseMentions | apps/journey/src/lib/mentions/parser.ts:10-31 | the mentions are well placed, ordered and non-overlapping, and their starts are exactly the positions where the pattern matches |
| MentionParser.HasMentionsIffParsed | apps/journey/src/lib/mentions/parser.ts:36-39 | `hasMentions` holds exactly when `parseMentions` returns at least one mention |
| MentionParser.ParsedStrictlyIncreasing | apps/journey/src/lib/mentions/parser.ts:10-31 | any two parsed mentions come in increasing start order and the earlier ends before the later starts |
| MentionParser.UniqueMentions | apps/journey/src/lib/mentions/parser.ts:46-57 | the seen-set loop returns exactly the reference list of first occurrences of each (kind, short code) key |
| MentionParser.GetUniqueMentions | apps/journey/src/lib/mentions/parser.ts:44-58 | the unique mentions of a text are the first occurrences of each key among its parsed mentions |
| MentionParser.FirstOccurrencesProperties | apps/journey/src/lib/mentions/parser.ts:41-58 | the first occurrences are a subsequence of the parse, each one's key is new at its position, they cover every key of the parse and no key appears twice |
| MentionParser.SliceEnd | apps/journey/src/lib/mentions/parser.ts:69 | `slice(0, cursor)` ends inside the text and at the cursor whenever the cursor is inside the text |
| MentionParser.TrailingDigits | apps/journey/src/lib/mentions/parser.ts:72 | `(\d*)$` takes the whole run of digits that ends the text: all digits, and the character before it is not one |
| MentionParser.KeywordBefore | apps/journey/src/lib/mentions/parser.ts:72 | a keyword reported before `#` is mentionable and ends, in any letter case, right before it |
| MentionParser.KeywordBeforeComplete | apps/journey/src/lib/mentions/parser.ts:72 | whichever keyword ends before `#` is the one reported, since no keyword is a suffix of another |
| MentionParser.PartialAtEnd | apps/journey/src/lib/mentions/parser.ts:72-79 | a reported partial mention ends the text with keyword, `#` and its digits, and its start is the length minus the matched length |
| MentionParser.DetectPartialMention | apps/journey/src/lib/mentions/parser.ts:64-83 | a reported partial mention ends the text before the cursor, with the digits typed so far as its query and the keyword's position as its start |
| MentionParser.PartialDigits | apps/journey/src/lib/mentions/parser.ts:72-76 | the query of a partial mention is the whole trailing digit run |
| MentionParser.PartialAtEndIff | apps/journey/src/lib/mentions/parser.ts:72-79 | whenever the text ends in keyword, `#` and digits, exactly that kind, query and start are reported |
| MentionParser.DetectPartialIff | apps/journey/src/lib/mentions/parser.ts:64-83 | together with DetectPartialMention's contract: a partial mention is reported exactly when the text before the cursor ends in keyword, `#` and digits |
| MentionResolver.GetEntityUrl | apps/journey/src/lib/mentions/resolver.ts:7-20 | each mentionable kind links below its own path prefix followed by the id; other kinds link to the root |
| MentionResolver.ParseGetEntityUrl | apps/journey/src/lib/mentions/resolver.ts:7-20 | a mentionable entity's link reads back as its kind and id |
| MentionResolver.GetEntityUrlInjective | apps/journey/src/lib/mentions/resolver.ts:7-20 | two different mentionable entities never share a link |
| MentionResolver.CreateResolvedMention | apps/journey/src/lib/mentions/resolver.ts:26-53 | the mention is kept; it is found exactly when data is given, and then carries the data's id, title, status and link, otherwise all four are null |
| MentionResolver.ResolvedUrlReadsBack | apps/journey/src/lib/mentions/resolver.ts:34-41 | a found mention's link leads back to the mention's kind and the id that was found |
| MentionResolver.Unresolved | apps/journey/src/lib/mentions/resolver.ts:45-52 | a mention with nothing found keeps the mention, is not found, and has no id, title, status or link |
| MentionResolver.GetMentionColorClasses | apps/journey/src/lib/mentions/resolver.ts:58-74 | a kind's badge is the light shade and its text the dark shade of its colour family |
| MentionResolver.GetNotFoundClasses | apps/journey/src/lib/mentions/resolver.ts:79-81 | a mention not found shows a light red badge with dark red, struck-through text |
| MentionResolver.ColorClassesDistinct | apps/journey/src/lib/mentions/resolver.ts:58-81 | different kinds get different colours, and no kind looks like a mention that was not found |
| MentionSegments.ResolvedMap | apps/journey/src/hooks/useMentions.ts:83-85 | every record's key is in the lookup, each entry is stored under its own key, and a record whose key does not come again later is the one stored (later records win) |
| MentionSegments.ResolvedMapKeys | apps/journey/src/hooks/useMentions.ts:83-85 | every key of the lookup is the key of one of the resolved records |
| MentionSegments.RenderStep | apps/journey/src/hooks/useMentions.ts:91-118 | the plain text before a mention, the mention written as its raw text, and what follows render back to the text from `lastIndex` on |
| MentionSegments.SegmentsFromRender | apps/journey/src/hooks/useMentions.ts:87-124 | writing each mention segment as its parsed mention's raw text gives back the text from `lastIndex` on |
| MentionSegments.SegmentsFromMentions | apps/journey/src/hooks/useMentions.ts:90-119 | the mention segments are the parsed mentions in order, each the resolved record of its key or a not-found record built from it |
| MentionSegments.SegmentsFromNoEmptyText | apps/journey/src/hooks/useMentions.ts:92-97 | no plain segment produced by the loop is empty |
| MentionSegments.BuildSegmentsRender | apps/journey/src/hooks/useMentions.ts:74-127 | whatever was resolved, the segments render back to the original text |
| MentionSegments.BuildSegmentsMentions | apps/journey/src/hooks/useMentions.ts:79-124 | with resolved mentions, there is one mention segment per parsed mention, with its key, holding the resolved record or the not-found fallback, and no empty plain segment |
| MentionActions.MaxCode | apps/journey/src/actions/mentions.ts:21-29 | `COALESCE(MAX(short_code), 0)`: no code of the user's kind exceeds it, and it is 0 or one of those codes |
| MentionActions.AssignShortCode | apps/journey/src/actions/mentions.ts:14-42 | the new code is at least 1, above every code the user has for the kind, 1 when there are none, and stored in one appended row |
| MentionActions.AssignKeepsCodesUnique | apps/journey/src/actions/mentions.ts:31-41 | if no user has a code twice for one kind, that stays so after an assignment |
| MentionActions.GetShortCode | apps/journey/src/actions/mentions.ts:47-65 | a code is returned exactly when the user has a row of the kind for the entity, and it is the first such row's code |
| MentionActions.GetEntityIdByShortCode | apps/journey/src/actions/mentions.ts:70-88 | an entity is returned exactly when the user has a row of the kind with the code, and it is the entity of the first such row |
| MentionActions.LookupAppended | apps/journey/src/actions/mentions.ts:47-88 | a row appended with a code and entity no earlier row of the user's kind uses is what both lookups find |
| MentionActions.LookupCodeAppended | apps/journey/src/actions/mentions.ts:70-88 | a row appended with a code no earlier row of the user's kind uses is what the code lookup finds |
| MentionActions.AssignThenLookup | apps/journey/src/actions/mentions.ts:14-88 | after an assignment the new code looks up to the entity, and an entity that had no code of its kind reads the new code back |
| MentionActions.SearchEntitiesForMention | apps/journey/src/actions/mentions.ts:93-113 | a non-empty all-digit query searches short codes by prefix and anything else searches titles, with the kind kept and a limit of ten; the prefix is the query's decimal value, and spells the query unless it has a leading zero |
| MentionActions.ShortCodeCanonical | apps/journey/src/actions/mentions.ts:105 | `parseInt` of a numeral without a leading zero spells back to the numeral |
| MentionActions.DecimalValuePositive | apps/journey/src/actions/mentions.ts:105 | a numeral without a leading zero has a value of at least 1 |
| MentionActions.ShortCodesWithPrefix | apps/journey/src/actions/mentions.ts:171-181 | at most `limit` rows, each the user's, of the kind, from the table, with a code whose decimal spelling starts with the prefix's; when fewer than `limit` come back, every such row is among them |
| MentionActions.ShortCodesWithPrefixIsLimitedWhere | apps/journey/src/actions/mentions.ts:171-181 | the rows returned are the first `limit` of the rows the `WHERE` clause keeps, in table order |
| MentionActions.TypeMatch | apps/journey/src/actions/mentions.ts:131-136 | a kind is named only by a query of three or more characters whose lower-case form starts that kind's name, and only task, project, goal and memory qualify |
| MentionActions.TypeMatchIff | apps/journey/src/actions/mentions.ts:134-136 | a query names a kind exactly when it is three or more characters and, lower-cased, starts the kind's name; the order of the search does not matter |
| MentionActions.SearchAllEntities | apps/journey/src/actions/mentions.ts:126-162 | a query naming a kind fills one group and any other query searches all four, keeping the query |
| MentionActions.RunAllSearch | apps/journey/src/actions/mentions.ts:138-161 | a named kind lists its ten newest with an empty query in its own group, the others empty; otherwise each of the four groups gets up to five title matches |
| MentionActions.OneGroupOnly | apps/journey/src/actions/mentions.ts:138-147 | a query naming a kind leaves every other group empty, and never names journal entries |
| MentionActions.Truncate50 | apps/journey/src/actions/mentions.ts:336 | content of at most 50 characters is kept; longer content becomes its first 50 characters and `...` |
| MentionActions.Truncate50Idempotent | apps/journey/src/actions/mentions.ts:336 | truncating a truncated title changes nothing |
| MentionActions.SelectTitleRows | apps/journey/src/actions/mentions.ts:214-221 | at most `limit` rows from the table, each matching the `ILIKE` pattern `%query%` unless the query is empty; when fewer than `limit` come back, every matching row is among them |
| MentionActions.SelectTitleRowsIsLimitedWhere | apps/journey/src/actions/mentions.ts:214-221 | the rows returned are the first `limit` matching rows, in the order given |
| MentionActions.PlainHead | apps/journey/src/actions/mentions.ts:195 | under LIKE, a pattern that starts with text free of `%`, `_` and `\` matches exactly the texts that start with that text and whose remainder matches the rest of the pattern |
| MentionActions.LeadingPercent | apps/journey/src/actions/mentions.ts:195 | under LIKE, a leading `%` matches exactly when the rest of the pattern matches some suffix of the text |
| MentionActions.TrailingPercent | apps/journey/src/actions/mentions.ts:195 | under LIKE, `%` alone matches any text |
| MentionActions.PlainQueryIsSubstring | apps/journey/src/actions/mentions.ts:195-217 | a query free of `%`, `_` and `\` matches a title under `ILIKE '%query%'` exactly when the lower-cased title contains the lower-cased query |
| MentionActions.UnderscoreIsWildcard | apps/journey/src/actions/mentions.ts:195-217 | the query `a_c` matches the title `abc`, which does not contain it: `_` in the query stands for any one character |
| MentionActions.PercentIsWildcard | apps/journey/src/actions/mentions.ts:195-217 | the query `50%` matches the title `50 ways`: `%` in the query stands for any text |
| MentionActions.EscapedUnderscoreIsLiteral | apps/journey/src/actions/mentions.ts:195-217 | the query `a\_c` matches `A_C` but not `abc`: a backslash makes the next character literal |
| MentionActions.WithShortCodes | apps/journey/src/actions/mentions.ts:223-231 | rows without a short code are dropped and each result comes from a row with one |
| MentionActions.WithShortCodesComplete | apps/journey/src/actions/mentions.ts:223-231 | every row with a short code yields a result |
| MentionActions.SearchByTitle | apps/journey/src/actions/mentions.ts:189-379 | never more than the limit, all of the searched kind, and journal and memory results have no status and a title of at most 53 characters; the results are exactly the converted rows with a short code among the first `limit` rows matching the pattern |
| MentionActions.CodeToEntityId | apps/journey/src/actions/mentions.ts:506-509 | the map from codes to ids has a code exactly when one of the user's rows of the kind has it, and maps it to the entity of the last such row, as later rows overwrite earlier ones |
| MentionActions.ResolveOneAsWritten | apps/journey/src/actions/mentions.ts:516-539 | as written, a found mention's link is built from its short code |
| MentionActions.ResolveOneFound | apps/journey/src/actions/mentions.ts:516-539 | a mention is found exactly when its code maps to a non-empty id with entity details; then it carries that id and a link that reads back as its kind and id |
| MentionActions.LastWithKey | apps/journey/src/actions/mentions.ts:518-522 | the record a key ends with comes from the last mention with that key |
| MentionActions.ResolveMentions | apps/journey/src/actions/mentions.ts:473-548 | one result per input, in input order, each with the input's key, found exactly when resolvable, and carrying the input itself when no later input shares its key |
| MentionActions.ResolveMentionsAsWritten | apps/journey/src/actions/mentions.ts:473-548 | as written, one result per input, and a found result links to the page named by the short code |
| MentionActions.AsWrittenUrlUsesShortCode | apps/journey/src/actions/mentions.ts:527 | `task#1` naming the task `abc` links to `/tasks/1` as written and to `/tasks/abc` once corrected |
| Uuid.Groups | apps/journey/src/db/schema.ts:113 | a text read as groups of four hexadecimal digits yields four digits per group, all lower-case |
| Uuid.UuidDigits | apps/journey/src/db/schema.ts:113 | a text the uuid column accepts denotes 32 lower-case hexadecimal digits |
| Uuid.SpellReadsBack | apps/journey/src/db/schema.ts:113 | digits written in groups of four, with or without a hyphen after each group, read back as those digits |
| Uuid.CanonicalReadsBack | apps/journey/src/db/schema.ts:5 | the form in which the database prints an id reads back as that id |
| Uuid.BracedReadsBack | apps/journey/src/db/schema.ts:113 | the same spelling between braces denotes the same uuid |
| Uuid.ShortTextRefused | apps/journey/src/db/schema.ts:27 | the text `3` is not a uuid |
| AiActions.Or | apps/journey/src/actions/ai-chat.ts:112-118 | the "or default" of a payload property is the property when it is truthy and the default otherwise |
| AiActions.SetField | apps/journey/src/actions/ai-chat.ts:128 | `{...obj, key: value}` reads `value` under the key and leaves every other key as it was |
| AiActions.SetColumns | apps/journey/src/actions/ai-chat.ts:127-129 | an `UPDATE ... SET` keeps the row's columns in order and gives each column the new value when one is set for it, its old value otherwise |
| AiActions.IntegerInput | apps/journey/src/db/schema.ts:15 | what the integer column stores: a number or numeral in the 32-bit range is stored as that integer, a numeral outside it is the out-of-range error, and other text or a value that is neither number nor text is the input-syntax error |
| AiActions.IntegerTextReadsBack | apps/journey/src/db/schema.ts:15 | the decimal text of every integer reads back as that integer |
| AiActions.InputError | apps/journey/src/db/schema.ts:4-23 | a column refuses a value by its type alone: null passes, a uuid column takes exactly the text spelling a uuid, an integer column what it reads as an integer, and text and timestamp columns anything |
| AiActions.InputErrorOf | apps/journey/src/db/schema.ts:4-23 | a row's input error is the first member its column cannot read, and there is none exactly when every member is readable |
| AiActions.NullErrorOf | apps/journey/src/db/schema.ts:4-23 | a row's null error is the first null in a NOT NULL column, and there is none exactly when there is no such null |
| AiActions.RowError | apps/journey/src/db/schema.ts:4-23 | a written row is refused exactly when some member is, and a value its column cannot read is reported before any null |
| AiActions.RefError | apps/journey/src/db/schema.ts:20 | a written project id that names no project is the foreign-key error `tasks_project_id_projects_id_fk`, and only that |
| AiActions.NewTaskRow | apps/journey/src/actions/ai-chat.ts:109-121 | the inserted task has the insert's members in order, with the fresh id, the payload's title as given (null when absent), its project id or null, and priority 0 and status `backlog` when the payload's are falsy |
| AiActions.NewTaskRowError | apps/journey/src/actions/ai-chat.ts:109-121 | the table's verdict on the task a create inserts can be read off the payload: the fresh id, then the priority, then the project id must be readable, and then the title must not be null |
| AiActions.Truthy | apps/journey/src/actions/ai-chat.ts:33-34 | the "or null" of an optional text keeps a non-empty one and drops an absent or empty one |
| AiActions.EntityIdColumn | apps/journey/src/actions/ai-chat.ts:86 | the entity id, or null when it is falsy, as the uuid column stores it: null exactly for a falsy value, the uuid error exactly for a truthy value that is not a string spelling a uuid, and otherwise a value denoting the same uuid as the string |
| AiActions.PrintedIdStored | apps/journey/src/actions/ai-chat.ts:86 | an entity id as the database prints it is stored unchanged |
| AiActions.NumericIdRefused | apps/journey/src/actions/ai-chat.ts:86 | a non-zero number passed as the entity id makes the insert fail with the uuid error |
| AiActions.CreateAction | apps/journey/src/actions/ai-chat.ts:73-93 | a new action is `pending`, keeps the payload, has no snapshots and no execution time, stores its entity id as the uuid column reads it, and is stored under the fresh id; an entity id the column refuses is the uuid error, and otherwise a taken id is the duplicate-key error |
| AiActions.RejectAction | apps/journey/src/actions/ai-chat.ts:174-182 | rejecting marks the action `rejected` whatever its state and changes nothing else; an unknown id changes nothing and returns nothing |
| AiActions.UpdateRow | apps/journey/src/actions/ai-chat.ts:124-131 | an update fails when a value it sets is one its column cannot read, even when no row has the id; with the row it also fails on a null for a NOT NULL column and then on a project that does not exist, with those errors; a missing row otherwise changes nothing and takes no snapshots; a success keeps the old row as the before snapshot and stores the updated row, the after snapshot, in its place |
| AiActions.ConfirmAction | apps/journey/src/actions/ai-chat.ts:95-172 | an unknown action is "Action not found" and a non-pending one "Action already processed"; a task create fails with the table's error for its row whenever there is one, and succeeds exactly when the row is accepted, its id is free and its project exists; success marks the action `confirmed` with the execution time, keeps its id, payload and kinds, and leaves every other action alone |
| AiActions.ConfirmCreateDefaults | apps/journey/src/actions/ai-chat.ts:107-123 | confirming a task create succeeds exactly when the fresh id is free and the table accepts the row and its project; it then inserts exactly that row under the fresh id, records the id and the row as the after snapshot, and leaves projects and goals as they were |
| AiActions.ConfirmCreateErrors | apps/journey/src/actions/ai-chat.ts:107-123 | a task create fails with the first error read off its payload; without one, a taken id is the duplicate-key error, then an unknown project the foreign-key error, and the create succeeds exactly when neither occurs |
| AiActions.TextPriorityRefused | apps/journey/src/actions/ai-chat.ts:114 | a task create whose priority is the text `high` fails the integer column |
| AiActions.MissingTitleRefused | apps/journey/src/actions/ai-chat.ts:111 | a task create without a title fails on the NOT NULL `title` column |
| AiActions.UnknownProjectRefused | apps/journey/src/actions/ai-chat.ts:117 | a task create whose project id is a uuid naming no project fails on the foreign key |
| AiActions.NullTitleUpdateRefused | apps/journey/src/actions/ai-chat.ts:127-129 | a task update that sets the title to null fails on the NOT NULL `title` column |
| AiActions.RevertAction | apps/journey/src/actions/ai-chat.ts:184-215 | reverting needs the action, a `confirmed` status and a snapshot unless it was a create, with the three errors otherwise; success marks it `reverted` with the time and touches neither projects nor goals |
| AiActions.RevertCreateRemoves | apps/journey/src/actions/ai-chat.ts:195-197 | reverting a confirmed task create deletes exactly the task under its id |
| AiActions.RemoveInserted | apps/journey/src/actions/ai-chat.ts:196-197 | deleting a key that was just inserted gives back the table it was inserted into |
| AiActions.RevertUndoesCreate | apps/journey/src/actions/ai-chat.ts:107-123 | confirming a task create and then reverting it leaves the task table as it was |
| AiActions.RevertUndoesDelete | apps/journey/src/actions/ai-chat.ts:132-136 | confirming a task delete and then reverting it re-inserts the snapshot, leaving the task table as it was |
| AiActions.ConfirmUpdateWrites | apps/journey/src/actions/ai-chat.ts:124-131 | confirming a task update the table accepts writes the payload and `updatedAt` over the task and keeps the task as it was as the before snapshot |
| AiActions.RevertUpdateWrites | apps/journey/src/actions/ai-chat.ts:198-202 | reverting a confirmed task update writes its before snapshot, with a new `updatedAt`, over the task |
| AiActions.WriteBackRestores | apps/journey/src/actions/ai-chat.ts:199-201 | writing a row's own values back over a row with the same columns gives every column other than `updatedAt` its old value |
| AiActions.GetSetColumns | apps/journey/src/actions/ai-chat.ts:127-129 | a column of an updated row reads the value the update sets for it, else its old value, and a column the row lacks stays absent |
| AiActions.SetColumnsAccepted | apps/journey/src/db/schema.ts:4-23 | an update whose values the table accepts, over a row it holds, leaves a row whose members it accepts |
| AiActions.SetColumnsRef | apps/journey/src/db/schema.ts:20 | an update over a row that names a known project, setting no unknown project, leaves a row that names a known project |
| AiActions.ValidRowSameProjects | apps/journey/src/db/schema.ts:20 | whether the database would hold a row depends on it only through which projects exist |
| AiActions.UpdateKeepsValid | apps/journey/src/actions/ai-chat.ts:124-156 | an update that succeeds on a table of valid rows keeps the table's ids and leaves every row valid |
| AiActions.ExecuteKeepsTablesValid | apps/journey/src/actions/ai-chat.ts:107-157 | a write that succeeds keeps every task, project and goal row one the database would hold |
| AiActions.ConfirmKeepsTablesValid | apps/journey/src/actions/ai-chat.ts:95-172 | confirming an action keeps every task, project and goal row one the database would hold |
| AiActions.RevertUndoesUpdate | apps/journey/src/actions/ai-chat.ts:124-131 | confirming a task update the table accepts and then reverting it restores every column except `updatedAt` and touches no other task |
| AiActions.TransitionsAllowed | apps/journey/src/actions/ai-chat.ts:95-215 | confirm, revert and reject only move an action along pending to confirmed, confirmed to reverted, or anything to rejected |
| AiActions.FindAnchored | apps/journey/src/actions/ai-chat.ts:22-25 | the thread found is the first one with both the anchor id and the anchor type; none is found only when no thread has both |
| AiActions.GetOrCreateThread | apps/journey/src/actions/ai-chat.ts:16-41 | with both anchors given, an existing thread anchored to both is returned and nothing is inserted; otherwise one new thread, with empty anchors stored as null, is appended |
| AiTools.IsWriteTool | apps/journey/src/lib/ai/tools.ts:230-232 | a name is a write tool exactly when one of the write tool definitions carries it |
| AiTools.ToolListsAgree | apps/journey/src/lib/ai/tools.ts:4-228 | the name lists are the definitions' names in order, no tool is offered twice, and every required parameter is a declared one |
| AiTools.ReadToolsAreNotWriteTools | apps/journey/src/lib/ai/tools.ts:227-232 | no read tool is taken for a write tool, so read tools never wait for confirmation |
| AiTools.SearchTasks | apps/journey/src/lib/ai/tool-executor.ts:15-38 | `searchTasks` answers a task list, and fails only with the `TypeError` text of a truthy non-string query |
| AiTools.FieldFilteredSelects | apps/journey/src/lib/ai/tool-executor.ts:19-27 | the three chained `if (arg) rows = rows.filter(...)` steps are one filter by the conjunction of the supplied field tests |
| AiTools.SearchTasksSelects | apps/journey/src/lib/ai/tool-executor.ts:15-38 | `searchTasks` returns exactly the rows that pass every supplied filter and contain the query case-insensitively in the title, in table order |
| AiTools.GetTask | apps/journey/src/lib/ai/tool-executor.ts:40-47 | the query is refused exactly when the id is not a uuid; otherwise "Task not found" exactly when no row has the same uuid, and else a row of the table with it |
| AiTools.GetTaskByPrintedId | apps/journey/src/lib/ai/tool-executor.ts:40-47 | a task is found by the id the database prints for it |
| AiTools.ShortTaskIdRefused | apps/journey/src/lib/ai/tool-executor.ts:40-42 | the id `3`, a short code rather than a uuid, makes the query fail instead of answering "Task not found" |
| AiTools.GetProjects | apps/journey/src/lib/ai/tool-executor.ts:49-57 | the projects returned are the table's, restricted to the given status when one is supplied |
| AiTools.GetProject | apps/journey/src/lib/ai/tool-executor.ts:59-74 | the query is refused exactly when the id is not a uuid; otherwise "Project not found" exactly when no project has the same uuid, and else such a project with exactly the tasks whose project id is that uuid |
| AiTools.GetGoals | apps/journey/src/lib/ai/tool-executor.ts:76-87 | the goals returned are the table's, restricted to the horizon and the status when each is supplied |
| AiTools.ExecuteReadTool | apps/journey/src/lib/ai/tool-executor.ts:12-95 | "Unknown tool: name" exactly when the name is neither a read tool nor `getProjects` |
| AiTools.Changes | apps/journey/src/lib/ai/tool-executor.ts:103-106 | the change list holds `k: v` for every argument except the target key, and nothing else |
| AiTools.DescribeUpdateListsChanges | apps/journey/src/lib/ai/tool-executor.ts:102-119 | an update's description starts with the verb and the target id and shows every argument other than the target |
| AiTools.DescribeShowsTarget | apps/journey/src/lib/ai/tool-executor.ts:97-123 | every write tool's description shows its target: the task or project id, or the title of the task to create |
| ChatRoute.ChooseModel | apps/journey/src/app/api/ai/chat/route.ts:32-61 | the model used is always an allowed one: the requested name when it is allowed, the default otherwise |
| ChatRoute.IncludesIffContains | apps/journey/src/app/api/ai/chat/route.ts:232-235 | the scan behind `includes` holds exactly when the text occurs somewhere in the name |
| ChatRoute.WriteToolsClassified | apps/journey/src/app/api/ai/chat/route.ts:231-244 | classifying a write tool by the words in its name gives the verb and the entity kind it was written for |
| ChatRoute.ProjectKind | apps/journey/src/app/api/ai/chat/route.ts:231-244 | `updateProject` is an update of a project: it includes no `Task` and starts with `update` |
| ChatRoute.TaskKind | apps/journey/src/app/api/ai/chat/route.ts:231-244 | a six-letter verb followed by `Task` is a task action of that verb |
| ChatRoute.PickEntityId | apps/journey/src/app/api/ai/chat/route.ts:127 | the entity id is the task id when truthy, else the project id when truthy, else the goal id as given |
| ChatRoute.QueuedWrites | apps/journey/src/app/api/ai/chat/route.ts:118-137 | the queue has at most one entry per call, and only write tools are queued |
| ChatRoute.QueuedWritesSnoc | apps/journey/src/app/api/ai/chat/route.ts:118-137 | one more call adds one entry exactly when it is a function call of a write tool |
| ChatRoute.QueueRound | apps/journey/src/app/api/ai/chat/route.ts:118-153 | one round of tool calls extends the queue to the queue of all calls so far |
| ChatRoute.FinalIndex | apps/journey/src/app/api/ai/chat/route.ts:115 | the loop ends at the first completion without tool calls |
| ChatRoute.RunToolLoop | apps/journey/src/app/api/ai/chat/route.ts:99-181 | the turn's text is the final completion's content or empty, the queue holds the write calls of the rounds before it, and the token totals count every completion up to the final one, a missing count as 0 |
| ChatRoute.ProposeActions | apps/journey/src/app/api/ai/chat/route.ts:196-213 | the actions are created in queue order, each pending and stored with its fresh id, message, kinds, payload and entity id as the uuid column reads it; other tables and existing actions stay; the run fails exactly when the ids clash or some entity id is refused, with the uuid error when the ids are fresh |
| ChatRoute.ThreadFor | apps/journey/src/app/api/ai/chat/route.ts:64-66 | a truthy thread id is used as given; otherwise a new thread is appended whose anchor kind is the path and whose anchor id is empty |
| ChatRoute.Post | apps/journey/src/app/api/ai/chat/route.ts:58-229 | the reply names the thread, the saved message and the final text, and proposes one action per queued write; it is a 500 error exactly when the action ids clash or a queued entity id is not a uuid, with the uuid error's message when the ids are fresh; without a thread id one new thread is added, even when the completions then break off |
| ChatRoute.QueuedWritesPrefix | apps/journey/src/app/api/ai/chat/route.ts:115-179 | the rounds before the final completion queue no more writes than all completions |
| ChatState.SetContext | apps/journey/src/hooks/useAIChatState.ts:52-60 | moving to another page forgets the thread, the list and the messages; staying on the same page changes nothing |
| ChatState.SetContextIdempotent | apps/journey/src/hooks/useAIChatState.ts:52-60 | setting the same page twice is the same as setting it once |
| ChatState.OpenChat | apps/journey/src/hooks/useAIChatState.ts:107-109 | opening shows the panel and changes nothing else |
| ChatState.CloseChat | apps/journey/src/hooks/useAIChatState.ts:111-113 | closing hides the panel and changes nothing else |
| ChatState.ToggleChat | apps/journey/src/hooks/useAIChatState.ts:115-117 | toggling flips visibility and changes nothing else |
| ChatState.ToggleProperties | apps/journey/src/hooks/useAIChatState.ts:107-117 | toggling twice changes nothing, and toggling is opening a closed panel or closing an open one |
| ChatState.ClearMessages | apps/journey/src/hooks/useAIChatState.ts:207-213 | clearing empties the messages and leaves no current thread, nothing else changing |
| ChatState.ThreadToLoad | apps/journey/src/hooks/useAIChatState.ts:76-81 | the thread opened is one of the listed ones: the last one viewed on this page when it is still listed, else the first |
| ChatState.LoadThreads | apps/journey/src/hooks/useAIChatState.ts:63-105 | without a page or with a thread open nothing loads; an empty list is stored; otherwise the thread chosen from the last viewed one either is not found and nothing changes, or the list is stored and that thread becomes current with its messages |
| ChatState.UserMessage | apps/journey/src/hooks/useAIChatState.ts:123-130 | the user's message carries their text, no tool calls, and the current thread or an empty thread id |
| ChatState.SendMessage | apps/journey/src/hooks/useAIChatState.ts:119-189 | the user's message is appended at once; a reply appends the assistant's message and makes its thread current, reloading the list for a first message on a page; an error only stops loading |
| ChatState.SwitchThread | apps/journey/src/hooks/useAIChatState.ts:215-231 | a thread the server finds becomes current with its messages; otherwise nothing changes |
| ChatState.CreateNewThread | apps/journey/src/hooks/useAIChatState.ts:233-248 | with a page and a thread the server created, the new empty thread goes first in the list and becomes current with no messages, nothing else changing; without a page, or when the call fails, nothing happens |
| ChatState.Remaining | apps/journey/src/hooks/useAIChatState.ts:256 | the remaining list is exactly the listed threads other than the current one |
| ChatState.ArchiveCurrentThread | apps/journey/src/hooks/useAIChatState.ts:250-281 | once the server archives it, the current thread leaves the list; when another thread remains and its load succeeds it becomes current with the loaded messages; otherwise the first remaining one becomes current with no messages; when archiving fails nothing changes |
| ChatState.CreateThenArchive | apps/journey/src/hooks/useAIChatState.ts:233-281 | creating a thread and archiving it straight away gives the list back |
| GoalsPage.OrderIndex | apps/journey/src/app/goals/page.tsx:11-16 | a horizon's place in the fixed order, -1 exactly for a horizon outside it |
| GoalsPage.BeforeIrreflexive | apps/journey/src/app/goals/page.tsx:14-21 | no horizon sorts before itself |
| GoalsPage.BeforeAsymmetric | apps/journey/src/app/goals/page.tsx:14-21 | two horizons never sort before each other |
| GoalsPage.BeforeTransitive | apps/journey/src/app/goals/page.tsx:14-21 | the comparator's order is transitive |
| GoalsPage.BeforeTotal | apps/journey/src/app/goals/page.tsx:14-21 | of two different horizons one sorts before the other |
| GoalsPage.NotBeforeChain | apps/journey/src/app/goals/page.tsx:14-21 | "not before" chains, so the comparator is a consistent total order |
| GoalsPage.Insert | apps/journey/src/app/goals/page.tsx:14-21 | inserting into a sorted list keeps it sorted and adds exactly the one element |
| GoalsPage.SortHorizons | apps/journey/src/app/goals/page.tsx:13-22 | the sorted horizons are a permutation of the input, in comparator order |
| GoalsPage.SortedDistinctOrder | apps/journey/src/app/goals/page.tsx:14-21 | in the sorted tabs, known horizons come first in daily-to-yearly order and unknown ones follow in string order |
| GoalsPage.Dedup | apps/journey/src/app/goals/page.tsx:43 | `[...new Set(xs)]` keeps every value and none twice, in the order of their first occurrences |
| GoalsPage.ActiveHorizons | apps/journey/src/app/goals/page.tsx:42-44 | the tabs are exactly the horizons that have an active goal, each once, sorted |
| GoalsPage.DistinctPermutation | apps/journey/src/app/goals/page.tsx:42-44 | sorting a list without repeats leaves no repeats |
| GoalsPage.FilteredGoals | apps/journey/src/app/goals/page.tsx:50-52 | the goals shown are exactly the active ones, and under any tab but "all" only that horizon's |
| GoalsPage.HorizonNamedAll | apps/journey/src/app/goals/page.tsx:28-52 | a horizon that is itself named "all" is the All tab: selecting it shows every active goal, of whatever horizon |
| GoalsPage.SaveEdit | apps/journey/src/app/goals/page.tsx:60-64 | saving an edit keeps every id in place, gives the goals with the edited id the dialog's title, description, horizon and status, and leaves every other goal as it was |
| GoalsPage.SaveNew | apps/journey/src/app/goals/page.tsx:65-70 | a new goal is appended after the existing ones, its horizon's tab is selected, and an active new goal is among the goals that tab shows |
| GoalsPage.DeleteGoal | apps/journey/src/app/goals/page.tsx:75-82 | deleting keeps exactly the goals with another id |
| GoalsPage.DeleteUndoesSaveNew | apps/journey/src/app/goals/page.tsx:65-82 | deleting a goal just created gives the list back |
| KanbanBoard.FilteredTasks | apps/journey/src/components/kanban/board.tsx:43-45 | "all" shows the board unchanged; any other domain shows exactly that domain's tasks |
| KanbanBoard.TasksByStatus | apps/journey/src/components/kanban/board.tsx:47-50 | one column per status, holding exactly the shown tasks of that status |
| KanbanBoard.ColumnsCoverShown | apps/journey/src/components/kanban/board.tsx:43-50 | when every task has a column status, the four columns together hold every shown card once |
| KanbanBoard.StatusCounts | apps/journey/src/components/kanban/board.tsx:47-50 | the four status filters split a list whose statuses are all columns |
| KanbanBoard.FindTask | apps/journey/src/components/kanban/board.tsx:53-64 | a card is found exactly when some task has the dragged id, and it is the first task with that id |
| KanbanBoard.SetStatus | apps/journey/src/components/kanban/board.tsx:67-69 | the optimistic move gives the dragged id's tasks the new status and leaves every other task |
| KanbanBoard.DragEndAsWritten | apps/journey/src/components/kanban/board.tsx:57-76 | a drop off a column, onto the card's own column or with no such card does nothing; an accepted move sets the status; a rejected one puts back the tasks the board was first given |
| KanbanBoard.AsWrittenDropsNewCard | apps/journey/src/components/kanban/board.tsx:73 | a card created after the board was shown and dragged while the server fails disappears, where the intended rollback keeps it |
| KanbanBoard.DragEnd | apps/journey/src/components/kanban/board.tsx:57-76 | the ids stay in place; a move happens only when it is allowed and the server accepts it, and then only the dragged card's status changes |
| KanbanBoard.RejectedMoveRestores | apps/journey/src/components/kanban/board.tsx:70-74 | a move the server rejects leaves the board as it was before the drop |
| KanbanBoard.MoveBackUndoes | apps/journey/src/components/kanban/board.tsx:57-76 | dragging a card back to the column it came from undoes an accepted move |
| KanbanBoard.Merge | apps/journey/src/components/kanban/board.tsx:97 | the dialog's title, description, domain and priority replace the task's; id and status stay |
| KanbanBoard.SaveEdit | apps/journey/src/components/kanban/board.tsx:94-98 | saving an edit keeps every id in place and merges the dialog's fields into exactly the tasks with the edited id |
| KanbanBoard.SaveNew | apps/journey/src/components/kanban/board.tsx:99-102 | a new task is appended after the existing ones |
| KanbanBoard.DeleteTask | apps/journey/src/components/kanban/board.tsx:106-112 | deleting keeps exactly the tasks with another id |
| KanbanBoard.DeleteUndoesSaveNew | apps/journey/src/components/kanban/board.tsx:99-112 | deleting a task just created gives the board back |
| KanbanBoard.SaveEditIdempotent | apps/journey/src/components/kanban/board.tsx:94-98 | saving the same edit twice is saving it once |
| Autocomplete.Concat | apps/journey/src/components/mentions/universal-autocomplete.tsx:33-38 | the flattened list is as long as the four groups together |
| Autocomplete.StartIndex | apps/journey/src/components/mentions/universal-autocomplete.tsx:184-187 | each group starts where the previous group ends, the first at 0 |
| Autocomplete.Tagged | apps/journey/src/components/mentions/universal-autocomplete.tsx:34-37 | a group's i-th result is tagged with its start plus i |
| Autocomplete.Flatten | apps/journey/src/components/mentions/universal-autocomplete.tsx:33-38 | every result appears once in display order, and each one's `groupIndex` is its own position in the flattened list |
| Autocomplete.RenderAgreesWithFlatten | apps/journey/src/components/mentions/universal-autocomplete.tsx:119-187 | the row a group draws at `startIndex + index` is the result Enter would pick there, so the highlight and the selection agree |
| Autocomplete.ConcatAt | apps/journey/src/components/mentions/universal-autocomplete.tsx:33-38 | position `startIndex + index` of the concatenated groups holds the group's `index`-th result |
| Autocomplete.Step | apps/journey/src/components/mentions/universal-autocomplete.tsx:78-85 | ArrowDown moves down one but never past the last row, ArrowUp moves up one but never above 0, other keys leave the selection |
| Autocomplete.HandleKey | apps/journey/src/components/mentions/universal-autocomplete.tsx:75-100 | Enter and Tab pick exactly the selected result when the selection is on the list; only Escape closes |
| Autocomplete.Pick | apps/journey/src/components/mentions/universal-autocomplete.tsx:89-91 | a result is picked exactly when the selection is a position in the list, and it is the result at that position |
| Autocomplete.NavigateStaysInRange | apps/journey/src/components/mentions/universal-autocomplete.tsx:78-85 | from a selection on the list, any run of key presses keeps it on the list |
| Autocomplete.EnterPicksAfterNavigation | apps/journey/src/components/mentions/universal-autocomplete.tsx:50-92 | after fresh results and any key presses, Enter picks a result whenever there is one |
| Autocomplete.EmptyListArrowDown | apps/journey/src/components/mentions/universal-autocomplete.tsx:80-89 | with no results ArrowDown sets the selection to -1 and Enter then picks nothing |
| Autocomplete.ReceiveResults | apps/journey/src/components/mentions/universal-autocomplete.tsx:44-72 | a cancelled search only leaves loading on; an answer replaces the results and selects the first; an error empties the results and keeps the selection |
| Autocomplete.Hover | apps/journey/src/components/mentions/universal-autocomplete.tsx:144 | hovering a row selects exactly the position whose result that row shows, and changes nothing else |
| Autocomplete.Placeholder | apps/journey/src/components/mentions/universal-autocomplete.tsx:176-189 | "Searching..." while loading; with no results "No results found" for a query and the hint for an empty one; no placeholder otherwise |
| ChatInput.CheckForAutocomplete | apps/journey/src/components/ai-chat/chat-input.tsx:43-67 | the text is kept, and the autocomplete opens only when the text before the cursor ends in a keyword, `#` and digits, for that keyword and those digits |
| ChatInput.CheckOpensOnPartial | apps/journey/src/components/ai-chat/chat-input.tsx:43-67 | whenever the text before the cursor ends in a partial mention, the autocomplete opens for it at the keyword's position |
| ChatInput.Submit | apps/journey/src/components/ai-chat/chat-input.tsx:35-41 | non-blank text in an enabled box is sent trimmed and the box emptied; otherwise nothing is sent and nothing changes; what is sent neither starts nor ends with white space |
| ChatInput.MentionText | apps/journey/src/components/ai-chat/chat-input.tsx:79 | the inserted mention is the keyword, `#` and the short code's digits |
| ChatInput.SelectMention | apps/journey/src/components/ai-chat/chat-input.tsx:73-94 | the text from the keyword to the cursor becomes the mention, the autocomplete closes, and the cursor moves right after the mention; without an open autocomplete nothing happens |
| ChatInput.SelectReplacesPartial | apps/journey/src/components/ai-chat/chat-input.tsx:73-94 | after a choice the text before the new cursor is the old text before the keyword plus the mention, and the text after it is the old text after the cursor |
| ChatInput.SelectReopensAutocomplete | apps/journey/src/components/ai-chat/chat-input.tsx:69-94 | after a choice, checking again at the new cursor reopens the autocomplete for the chosen kind with the chosen short code as its query |
| ChatInput.PartialOfMention | apps/journey/src/lib/mentions/parser.ts:69-72 | text that ends in a whole mention ends in a partial mention whose query is its digits |
| ChatInput.KeyDown | apps/journey/src/components/ai-chat/chat-input.tsx:96-117 | with the autocomplete open the arrows, Tab and Enter are left to it and Escape closes it; otherwise Enter without Shift sends |
| ChatInput.PressKey | apps/journey/src/components/ai-chat/chat-input.tsx:96-117 | nothing is sent while the autocomplete is open, and Escape always leaves it closed with the text unchanged |
| AnchorMigration.AnchorPath | apps/journey/scripts/migrate-anchor-path.ts:49-60 | no anchor kind gives `/projects`, a journal `/journal`, and any other kind `/<kind>s/<id>` with a missing id printed as `null`; every path starts with `/` |
| AnchorMigration.EntityOfPath | apps/journey/scripts/migrate-anchor-path.ts:5-7 | a detail-page path names a project, a task or a goal |
| AnchorMigration.AnchorPathRoundTrip | apps/journey/scripts/migrate-anchor-path.ts:5-7 | the path of a project, task or goal anchor names that same entity again, so two such anchors never share a path |
| AnchorMigration.FillPath | apps/journey/scripts/migrate-anchor-path.ts:39-65 | after the data step every row has a path: a row that had one keeps it, and a row without one gets its anchor's path |
| AnchorMigration.CountUnmigrated | apps/journey/scripts/migrate-anchor-path.ts:39-64 | the rows without a path are never more than the table's rows |
| AnchorMigration.Migrate | apps/journey/scripts/migrate-anchor-path.ts:18-92 | a table that has the path column and no entity columns is left alone; one with neither gets the path column, committed, and then fails, and the run after that stops as already completed; a table with the entity columns is migrated, and only then: the new table holds each row once, in order, with its id, title and times, and a path that is the old one when there was one and the anchor's path otherwise, and a second run stops as already completed |
| AnchorMigration.MigratedCount | apps/journey/scripts/migrate-anchor-path.ts:47-67 | the count reported is the number of rows that had no path, which is every row when the path column was just added |
| TelegramAuth.WithoutHash | apps/journey/src/app/api/auth/telegram/route.ts:19 | the rest of the fields is exactly the received fields other than `hash`, and keeps the keys distinct |
| TelegramAuth.InsertByKey | apps/journey/src/app/api/auth/telegram/route.ts:29-30 | inserting a field with a new key into a key-sorted list keeps it sorted and adds exactly that field |
| TelegramAuth.SortByKey | apps/journey/src/app/api/auth/telegram/route.ts:29-30 | the sorted fields are the same fields, in strictly increasing key order |
| TelegramAuth.SortedUnique | apps/journey/src/app/api/auth/telegram/route.ts:29-30 | two key-sorted lists with the same fields are the same list, so the sort's result is determined by the fields |
| TelegramAuth.CheckStringHasField | apps/journey/src/app/api/auth/telegram/route.ts:29-32 | every received field except `hash` is signed: its `key=value` line is in the check string |
| TelegramAuth.CheckStringOrderFree | apps/journey/src/app/api/auth/telegram/route.ts:29-32 | the check string depends on the fields received and not on the order they arrive in |
| TelegramAuth.CheckStringIgnoresHash | apps/journey/src/app/api/auth/telegram/route.ts:19-32 | the hash is not part of what it signs: adding any `hash` leaves the check string unchanged |
| JsNumber.StringToNumber | apps/journey/src/app/api/auth/telegram/route.ts:23 | an `auth_date` string is converted as the subtraction converts it: blank text is zero, a run of digits is its decimal value, and only the spellings of `Infinity` are infinite |
| JsNumber.LiteralValue | apps/journey/src/app/api/auth/telegram/route.ts:23 | trimmed text is zero when empty, its decimal value when all digits, and infinite exactly for the signed or unsigned spellings of `Infinity` |
| JsNumber.ToNumber | apps/journey/src/app/api/auth/telegram/route.ts:23 | the conversion throws exactly for a value that cannot become a primitive; otherwise an absent `auth_date` is NaN, a number is itself, a string is converted as text and an object is NaN |
| JsNumber.IntegerSpelling | apps/journey/src/app/api/auth/telegram/route.ts:23 | the decimal text of any integer, negative ones included, converts back to that integer |
| JsNumber.DigitsSpelling | apps/journey/src/app/api/auth/telegram/route.ts:23 | the decimal digits of a number convert back to that number |
| JsNumber.NegativeSpelling | apps/journey/src/app/api/auth/telegram/route.ts:23 | a minus sign before the digits of a positive number converts to its negation |
| JsNumber.PaddedIntegerSpelling | apps/journey/src/app/api/auth/telegram/route.ts:23 | white space and line terminators around the text of an integer change nothing |
| JsNumber.ExponentSpelling | apps/journey/src/app/api/auth/telegram/route.ts:23 | `mek` and `me-k` convert to `m` times ten to the power `k` or `-k` |
| JsNumber.SignedDecimalSpelling | apps/journey/src/app/api/auth/telegram/route.ts:23 | `-1.5e3` converts to minus 1500: a sign, a fraction and an exponent together |
| JsNumber.PointSpelling | apps/journey/src/app/api/auth/telegram/route.ts:23 | `.5` converts to one half |
| JsNumber.HexSpelling | apps/journey/src/app/api/auth/telegram/route.ts:23 | `0x1F` converts to 31 |
| JsNumber.TrailingTextIsNaN | apps/journey/src/app/api/auth/telegram/route.ts:23 | `12abc`, a literal followed by other text, is NaN |
| JsNumber.SecondPointIsNaN | apps/journey/src/app/api/auth/telegram/route.ts:23 | `1.2.3`, with a second point, is NaN |
| JsNumber.ArraySpelling | apps/journey/src/app/api/auth/telegram/route.ts:23 | an empty array converts to zero and a one-element array to its element |
| JsNumber.ToStringMemberThrows | apps/journey/src/app/api/auth/telegram/route.ts:23 | an object with its own `toString` member, and an array holding one, cannot be converted; an object with only a `valueOf` member is NaN |
| TelegramAuth.Verify | apps/journey/src/app/api/auth/telegram/route.ts:18-39 | the check throws exactly when `auth_date` cannot be converted, or when the date is fresh enough and a signed field cannot be printed; a date more than 300 seconds old is refused; otherwise data verifies exactly when its `hash` is the signature of its check string (a NaN age is never too old, a date of minus infinity always is) |
| TelegramAuth.TextDateAsNumber | apps/journey/src/app/api/auth/telegram/route.ts:23 | an `auth_date` sent as the decimal text of a number is judged exactly as the number |
| TelegramAuth.NegativeTextDateRefused | apps/journey/src/app/api/auth/telegram/route.ts:23 | with `auth_date` the text `-5`, the data is refused whatever its signature |
| TelegramAuth.SignedDataVerifies | apps/journey/src/app/api/auth/telegram/route.ts:18-39 | data the widget signed within five minutes, sent with its own signature, verifies in whatever order its fields arrive |
| TelegramAuth.ArrivedMembers | apps/journey/src/app/api/auth/telegram/route.ts:19-23 | the fields that arrive hold the signed `hash` and the `auth_date` |
| TelegramAuth.HashAppended | apps/journey/src/app/api/auth/telegram/route.ts:19 | adding a `hash` to fields that have none keeps the keys distinct |
| TelegramAuth.LinkedTo | apps/journey/src/app/api/auth/telegram/route.ts:64-65 | the rows found are exactly the profiles holding the account |
| TelegramAuth.Upsert | apps/journey/src/app/api/auth/telegram/route.ts:75-89 | the user's row is rewritten in place with the account, the username and the time; a user without a row gets one appended |
| TelegramAuth.Post | apps/journey/src/app/api/auth/telegram/route.ts:41-103 | 401 without a user and 500 without a bot token; a check that throws answers 500 and a check that fails 400; only a verified request can link or be refused as 409; a verified request is refused exactly when the first row holding the account is another user's, and otherwise links by the upsert; nothing but a link changes the table |
| TelegramAuth.ObjectDateFails | apps/journey/src/app/api/auth/telegram/route.ts:23-101 | an `auth_date` that is an object with its own `toString` member makes the handler answer 500 and leaves the table as it was |
| TelegramAuth.OneHolder | apps/journey/src/app/api/auth/telegram/route.ts:63-72 | in a table where no account is linked twice, two rows holding one account are the same row |
| TelegramAuth.ConflictIff | apps/journey/src/app/api/auth/telegram/route.ts:63-72 | in such a table the 409 answer means exactly that some other user holds the account |
| TelegramAuth.PostKeepsLinksUnique | apps/journey/src/app/api/auth/telegram/route.ts:63-89 | linking keeps one row per user and never links one account to two users |
| TelegramAuth.LinkInPlace | apps/journey/src/app/api/auth/telegram/route.ts:82-89 | rewriting the user's own row with an account no other user holds keeps both uniqueness rules |
| TelegramAuth.LinkAppended | apps/journey/src/app/api/auth/telegram/route.ts:75-81 | appending a row for a new user with an account no row holds keeps both uniqueness rules |
| TelegramAuth.GetStatus | apps/journey/src/app/api/auth/telegram/route.ts:106-133 | 401 exactly without a user; not linked without a profile; with one profile per user, linked exactly when the user's profile holds a truthy id, with that id and username |
| TelegramAuth.UniqueUser | apps/journey/src/app/api/auth/telegram/route.ts:114-115 | with `userId` as the key, the profiles found for a user are one profile |
| TelegramAuth.Unlink | apps/journey/src/app/api/auth/telegram/route.ts:136-158 | the user's rows lose the account and the username; every other row stays |
| TelegramAuth.UnlinkThenStatus | apps/journey/src/app/api/auth/telegram/route.ts:106-158 | after unlinking, the user reads as not linked |
| TelegramAuth.PostThenStatus | apps/journey/src/app/api/auth/telegram/route.ts:41-133 | after a successful link with a truthy account id, the user reads as linked to that account and username |
| TelegramAuth.UpsertThenStatus | apps/journey/src/app/api/auth/telegram/route.ts:75-128 | after the upsert of a truthy id, the user's status shows that id |
| LinearConfig.EnvEntryShape | scripts/linear/__init__.py:12-16 | a line sets nothing exactly when, stripped, it is blank, a comment or has no `=`; otherwise its key is the text before the first `=` (so holds no `=`) and its value the rest, with quotes stripped |
| LinearConfig.Entries | scripts/linear/__init__.py:12-16 | one setting, or none, per line of the file, in file order |
| LinearConfig.LastIndex | scripts/linear/__init__.py:12-16 | the last line that sets the key, with no later line setting it; none when no line does |
| LinearConfig.LoadEnvLastWins | scripts/linear/__init__.py:9-16 | after a load that succeeds, a key the file sets holds the value of its last line, overwriting the environment; a key it never sets keeps its environment value or stays absent |
| LinearConfig.LoadEnv | scripts/linear/__init__.py:12-16 | loading fails exactly when some line sets an empty key or a key or value holding a NUL character, and then with the exception of the first such line: `ValueError` for a NUL, else `OSError` for the empty name |
| LinearConfig.EmptyKeyRaises | scripts/linear/__init__.py:14-16 | a line `=x` passes the line filter with the empty key, and loading it raises `OSError` |
| LinearConfig.NulRefusedBeforeEmptyName | scripts/linear/__init__.py:14-16 | a line `=` followed by a NUL sets the empty key, and loading it raises `ValueError`, as the NUL is refused before the name |
| LinearConfig.Refusal | scripts/linear/__init__.py:16 | a setting is refused exactly when its key is empty or its key or value holds a NUL; a NUL gives `ValueError` and an empty key without one `OSError` |
| LinearConfig.AssignLastWins | scripts/linear/__init__.py:12-16 | applying the settings in order leaves each key with the value of its last setting, and every other key as it was |
| LinearConfig.LastIndexCons | scripts/linear/__init__.py:12-16 | the last setting of a list is the last setting of its tail, or its head when the tail has none |
| LinearConfig.LoadDotEnv | scripts/linear/__init__.py:9-16 | without a `.env` file the environment is unchanged; with one it is the file loaded into the environment |
| LinearConfig.Lookup | scripts/linear/__init__.py:22-33 | a table lookup finds a value exactly for a key of the table, and it is that key's value |
| LinearConfig.TablesAreClosed | scripts/linear/__init__.py:22-33 | the labels are exactly work, side and chores and the states exactly backlog, todo, progress and done, each once and in that order |
| LinearConfig.NewClient | scripts/linear/__init__.py:39-42 | the client gets the API key exactly when it is set and non-empty, and otherwise fails with "LINEAR_API_KEY not set" |
| LinearCli.Main | scripts/linear.py:29-40 | no command or a help flag prints help and exits 0; an unknown command prints its name then help, sends nothing and exits 1; a known command runs with the arguments after its name; only a known command sends queries |
| LinearCli.Program | scripts/linear.py:1-44 | a `.env` setting the environment refuses raises its `ValueError` or `OSError` before any command and exits 1; otherwise the command runs on the loaded environment, and without a `.env` on the process environment |
| LinearCli.CommandTable | scripts/linear.py:7-30 | six distinct commands, none of them a help flag, so every name reaches exactly one of help, a command or the unknown-command message |
| LinearCli.ExitCodes | scripts/linear.py:29-40 | a run that exits does so with 0 exactly for help: the dispatcher's and the commands' own rejections all exit 1 |
| LinearCli.HandlerGetsRest | scripts/linear.py:40 | `linear.py create T work` hands the command exactly the title and the label |
| LinearCommands.ExitCode | scripts/linear.py:29-40 | the process exits 0 exactly when the command returned or exited with 0; an uncaught exception exits non-zero |
| LinearCommands.PyIter | scripts/linear/list.py:21-23 | a list iterates over its items, a string over its characters, a dictionary over its keys; anything else raises |
| LinearCommands.PyInt | scripts/linear/create.py:15 | `int()` accepts only stripped text of an optional sign and digits, at least one, and reads it as the signed decimal value |
| LinearCommands.PyStripKeeps | scripts/linear/create.py:15 | text without white space at either end is its own strip |
| LinearCommands.PyIntReadsDecimal | scripts/linear/create.py:15 | `int()` reads back every number written in decimal, so every priority the usage line offers is accepted |
| LinearCommands.PyIntReadsInt | scripts/linear/create.py:15 | `int()` reads back the decimal text of every integer, negative ones included |
| LinearCommands.Report | scripts/linear/create.py:36-42 | a mutation's answer prints one success line, or the failure line followed by the whole answer, or raises without printing |
| LinearCommands.Mutate | scripts/linear/create.py:22-42 | a mutation sends exactly its one document and returns or raises |
| LinearCommands.ReportSuccess | scripts/linear/create.py:36-39 | a successful answer prints the line built from its issue |
| LinearCommands.ReportRejected | scripts/linear/create.py:40-42 | a rejected answer prints the failure line and then the whole answer |
| LinearCommands.LabelError | scripts/linear/create.py:17-19 | the label error lists the label names in table order: "Label must be: work, side, chores" |
| LinearCommands.FillContains | scripts/linear/create.py:23-34 | every value put into an f-string occurs in the text |
| LinearCommands.CreateMutationEmbeds | scripts/linear/create.py:23-34 | the `issueCreate` document carries the title, the team, the project, the label's id and the priority |
| LinearCommands.Create | scripts/linear/create.py:7-42 | fewer than two arguments print the usage and exit 1; a priority that is not an integer raises `ValueError: invalid literal for int() with base 10:` with the argument quoted; a document is sent only with a known label (compared lower-cased), an integer priority when one is given, and an API key; it creates the issue with that label's id and the given priority or 3; an unknown label prints the label error and exits 1 |
| LinearCommands.CreateDefaultsPriority | scripts/linear/create.py:15-39 | `create T label` creates the issue with priority 3 and prints `Created: <identifier> - <title>` |
| LinearCommands.CreateReportsFailure | scripts/linear/create.py:40-42 | a rejected create prints "Failed to create issue" and then the whole answer |
| LinearCommands.StateNames | scripts/linear/status.py:10-17 | the usage line and the status error list the state names backlog, todo, progress and done in table order, with the separator between each pair |
| LinearCommands.StatusMutationEmbeds | scripts/linear/status.py:22-29 | the document names the issue and the new state's id |
| LinearCommands.StatusLineOf | scripts/linear/status.py:32-35 | a moved issue prints as `<identifier>: <title> -> <state>`, the state empty when the answer has none |
| LinearCommands.Status | scripts/linear/status.py:7-38 | fewer than two arguments print the usage and exit 1; an unknown state (compared lower-cased) prints the status error and exits 1; otherwise, with a key, exactly the move to that state's id is sent |
| LinearCommands.StatusReportsMove | scripts/linear/status.py:31-35 | a successful move prints the issue's identifier, title and new state |
| LinearCommands.StatusReportsFailure | scripts/linear/status.py:36-38 | a rejected move prints "Failed to update status" and then the whole answer |
| LinearCommands.Update | scripts/linear/update.py:7-32 | fewer than two arguments print the usage and exit 1; otherwise, with a key, exactly the rename of the issue to the given title is sent |
| LinearCommands.UpdateReportsRename | scripts/linear/update.py:26-29 | a successful rename prints `Updated: <identifier> - <title>` |
| LinearCommands.Identifiers | scripts/linear/delete.py:13 | one identifier per comma-separated part of the argument, each stripped, and at least one |
| LinearCommands.NormalizeIdempotent | scripts/linear/delete.py:18-19 | the `DEF-` prefix is added once: a normalised identifier is left alone, and a number and its `DEF-` form name the same issue |
| LinearCommands.DeleteOne | scripts/linear/delete.py:16-37 | each identifier is looked up first; it then prints exactly one of not found, deleted or failed to delete, or raises without printing, having sent at most the lookup and the delete |
| LinearCommands.DeleteEach | scripts/linear/delete.py:16-37 | the loop prints at most one line per identifier, and exactly one each when nothing raises |
| LinearCommands.DeleteEachOutcomes | scripts/linear/delete.py:16-37 | the k-th line printed is an outcome for the k-th identifier |
| LinearCommands.NotFoundContinues | scripts/linear/delete.py:25-27 | an identifier the API does not know prints `not found` and the loop goes on with the next one |
| LinearCommands.NotFoundLine | scripts/linear/delete.py:22-27 | a lookup answered with a null issue prints `<identifier>: not found` and sends nothing more |
| LinearCommands.DeletedLine | scripts/linear/delete.py:22-37 | a found issue is deleted by the id the lookup returned, and the line says whether the API accepted the delete |
| LinearCommands.Delete | scripts/linear/delete.py:7-37 | no argument prints the usage and exits 1; nothing is sent without an API key; otherwise the lines are the identifiers' outcomes in order, one per identifier unless an exception ends the loop |
| LinearCommands.PrintEach | scripts/linear/list.py:21-25 | one line per item in order until a line cannot be built, which raises |
| LinearCommands.ListNodes | scripts/linear/list.py:8-25 | a listing sends only its query, and only with an API key |
| LinearCommands.LabelSuffix | scripts/linear/list.py:24 | the suffix is empty exactly for an issue without labels and shows every label otherwise |
| LinearCommands.LabelNames | scripts/linear/list.py:23 | the join succeeds exactly when every label node has a string `name`, and then the names are those names, one per node, in order; a non-string name raises TypeError |
| LinearCommands.LabelValues | scripts/linear/list.py:23 | the comprehension reads every node's `name`, one per node in order, and raises the first failed lookup |
| LinearCommands.JoinableStrings | scripts/linear/list.py:23 | `join` accepts a list exactly when every item is a string, and then yields those strings |
| LinearCommands.LabelNameNotString | scripts/linear/list.py:23 | a label whose `name` is not a string makes the join raise TypeError |
| LinearCommands.ListIssues | scripts/linear/list.py:6-25 | `list` sends only the project's issue query, and only with an API key |
| LinearCommands.IssueLineOf | scripts/linear/list.py:22-25 | an issue prints as `<identifier>: <title> (<state>)` followed by its labels when it has any |
| LinearCommands.ListPrintsEachIssue | scripts/linear/list.py:20-25 | with a key, and when every issue's line can be built (so every label name is a string), `list` prints exactly one line per issue of the project, each that issue's line |
| LinearCommands.ListNodesOf | scripts/linear/list.py:20-25 | when the answer holds the nodes where the listing looks, it prints their lines |
| LinearCommands.ListStates | scripts/linear/states.py:6-17 | `states` sends only the team's state query, and only with an API key, and either returns or raises |
| LinearCommands.StateLineOf | scripts/linear/states.py:16-17 | a state prints as `<name> (<type>): <id>` |
| LinearCommands.ListStatesPrintsEachState | scripts/linear/states.py:6-17 | with a key, `states` sends only its query and prints exactly one line per state of the answer, in order, each that state's line |
| Text.Split | scripts/linear/delete.py:13 | `split(",")` gives at least one part, and no part holds the separator |
| Text.JoinSplit | scripts/linear/delete.py:13 | joining the parts of a split with the separator gives back the argument |
| Text.DecimalValueOfNatToString | apps/journey/src/lib/mentions/parser.ts:48 | reading back the decimal digits of a number gives the number |

## Left out

- Network, database and language-model calls. They are inputs: a `server` function for GraphQL answers, sequences of completions, and rows for search results. Transport failures other than a GraphQL error body are not modelled.
- HMAC-SHA-256 and SHA-256 in the Telegram check are a `sign` function parameter. The constant-time property of the comparison is not modelled.
- The clock, fresh ids (`crypto.randomUUID`, database defaults) and `localStorage` are inputs.
- Database ordering and `ILIKE` are modelled on ASCII text only. PostgreSQL folds case by the database's locale, which the model does not. The `ILIKE` pattern itself is modelled with its wildcards `%` and `_` and its escape `\`.
- MentionActions.ShortCodesWithPrefix: the query has no `ORDER BY`, so PostgreSQL may return any `limit` of the matching rows. The model returns the first ones in table order.
- The uuid and integer input errors are modelled by the start of PostgreSQL's message, "invalid input syntax for type uuid" or "... integer", without the `: "<value>"` that follows it.
- AiTools.GetTask: an absent `taskId` is treated as a refused query. The driver's text for a refused query, which `String(error)` reports, is not modelled; `QueryRefused` carries the argument instead.
- AiTools.GetProject: an absent `projectId` is treated as a refused query, and the driver's text for it is not modelled, as for `getTask`.
- AiActions.ConfirmAction: the action is looked up by its exact id. An action id that is not a uuid makes the database raise instead, and a differently spelled uuid would find the action there; the model takes action ids as the database prints them.
- AiActions.RejectAction: the action is looked up by its exact id, as for `confirmAction`.
- AiActions.RevertAction: the action is looked up by its exact id, as for `confirmAction`.
- Case folding is ASCII throughout. For the mention regular expressions that is exact: without the `u` flag, their case-insensitive match never folds a non-ASCII character onto an ASCII one, and their keywords are ASCII.
- MentionActions.TypeMatch: the query is lower-cased on ASCII only. `toLowerCase()` (apps/journey/src/actions/mentions.ts:131) folds every letter; the Kelvin sign, for one, becomes `k`.
- AiTools.SearchTasks: the title and the query are lower-cased on ASCII only. `toLowerCase()` (apps/journey/src/lib/ai/tool-executor.ts:31-33) folds every letter.
- Positions and lengths count characters (Unicode code points), while JavaScript's string indices, `length` and `selectionStart` count UTF-16 code units. The two agree on text of the Basic Multilingual Plane and drift apart after each character outside it, such as most emoji. Each member below is affected.
- MentionParser.ParseMentions: a mention's start and end are character positions, not the UTF-16 offsets of `match.index`.
- MentionParser.DetectPartialMention: the cursor and the partial mention's start are character positions, not UTF-16 offsets.
- MentionParser.SliceEnd: `slice(0, cursor)` is cut at a character position, so it never splits a surrogate pair, as the source's slice can.
- MentionActions.Truncate50: the limit counts characters. The source counts UTF-16 code units, so a title with characters outside the Basic Multilingual Plane is cut earlier there, possibly inside a surrogate pair.
- ChatInput.SelectMention: the cursor is a character position, not the UTF-16 offset `selectionStart` reports.
- ChatInput.CheckForAutocomplete: the cursor is a character position, not the UTF-16 offset `selectionStart` reports.
- TelegramAuth.SortByKey: keys are compared by code point. JavaScript's default `sort()` compares UTF-16 code units, and the two orders differ for a character from U+E000 to U+FFFF against one outside the Basic Multilingual Plane.
- Json: numbers are integers. A fractional or exponent-form JSON number in a request body or in tool-call arguments is not modelled. An `auth_date` sent as text in any numeric spelling is modelled (`JsNumber`).
- Json.JsString: every integer prints in full decimal. JavaScript prints a number of magnitude 10^21 or more in exponent form (`1e+21`).
- JsNumber.StringToNumber: numbers are exact reals. Rounding to binary64, and the overflow of a literal beyond about 1.8e308 to an infinity, are not modelled.
- TelegramAuth.Verify: the age `now - auth_date` is computed exactly rather than in binary64, and `now` (the floored clock in seconds) is an input.
- MentionActions.SearchEntitiesForMention: the short-code prefix is exact. `parseInt` of a query of more than 15 digits loses precision above 2^53 in JavaScript.
- MentionParser.MatchAtParts: a mention's short code is the exact value of its digits. `parseInt` (apps/journey/src/lib/mentions/parser.ts:19) rounds a value above 2^53 to binary64, and gives `Infinity` for more than about 309 digits.
- MentionParser.TokenOfSlice: the short code is exact, as above. Two digit runs that round to the same binary64 value are distinct codes in the model but one in the source.
- MentionParser.GetUniqueMentions: keys use exact short codes. Two long codes that `parseInt` rounds alike share a key in the source, so the source keeps one mention where the model keeps two.
- AiTools.DescribeWriteAction: a target or argument that cannot be converted to a primitive (an object with its own `toString` member, or an array holding one) makes the template literal throw, and the route answers 500 (apps/journey/src/app/api/ai/chat/route.ts:134). The model prints such a value as `String()` prints any object.
- ChatRoute.Post: the 500 answer for a write action whose description throws, as above, is not modelled.
- ChatRoute.Post: tool calls arrive with their arguments already parsed. A call whose `function.arguments` is not valid JSON makes `JSON.parse` throw (apps/journey/src/app/api/ai/chat/route.ts:121), so the route answers 500; that failure is not modelled.
- GoalsPage.SaveEdit: a status the dialog leaves out keeps the goal's own. In the source the spread would write `undefined`, but the dialog always sends a status when it edits a goal (apps/journey/src/components/goals/goal-dialog.tsx:64), so the case does not arise.
- AiActions.GetOrCreateThread: the thread is looked up and inserted with the `anchorEntityType` and `anchorEntityId` properties apps/journey/src/actions/ai-chat.ts uses. The `ai_threads` table of apps/journey/src/db/schema.ts:78-86 has `anchor_path` instead and no such columns, and its NOT NULL `user_id` is not set by the insert. The model follows the action's code, not the schema, and so does not model the failures that mismatch would cause.
- AiActions.FindAnchored: the threads are searched by the same two anchor properties, which the schema's `ai_threads` table does not have, as above.
- AiActions.InputError: a text column stores the JSON value the row holds, where the database stores its text. Timestamps are not checked, so a value a timestamp column cannot read is accepted.
- AiActions.IntegerInput: PostgreSQL 16's non-decimal (`0x1F`) and underscore (`1_000`) numerals are refused. A boolean, array or object is the input-syntax error here, while the driver's handling of such a value gives other messages.
- AiActions.KnownProject: a project id is compared as a uuid, but a stored uuid is kept as the text written, not normalised to lower case.
- AiActions.UpdateRow: an update whose payload sets `id` writes the new id into the row but leaves the row under its old key; the database would move the row.
- AiActions.RevertAction: the writes a revert makes (the delete, the update from the snapshot, the re-insert) are not checked against the columns. They put back values the table held before.
- AiActions.NewTaskRow: `user_id` is NOT NULL without a default in the schema, and the insert does not set it. The model takes the row as the database would store it once `user_id` is supplied.
- `getEntityDetails` (apps/journey/src/actions/mentions.ts:381-468) and `getEntityDetailsById` (apps/journey/src/actions/mentions.ts:550-628) are database joins. They are a map from kind and id to details.
- The asynchronous effect in `useMentions` (apps/journey/src/hooks/useMentions.ts:14-62) is left out, because it concerns concurrency and fetching. Only the segment building is modelled.
- The `loadingPathRef` guards against overlapping loads in apps/journey/src/hooks/useAIChatState.ts (lines 50, 68-73 and 98-100) are not modelled. They only matter for interleaved asynchronous calls.
- `getThreadMessages`, `createMessage` and `getActionsByMessage` in apps/journey/src/actions/ai-chat.ts are plain reads and writes of one table. They are not modelled separately.
- ChatRoute.Post: the assembly of the message history and system prompt (apps/journey/src/app/api/ai/chat/route.ts:69-104) is not modelled. Neither is the saving of the user message, nor the exact tool-result messages sent back to the model (lines 138-163).
- Python's `str.lower()` and `str.isdigit()` are modelled on ASCII; Unicode digits are not modelled.
- LinearCommands.PyInt: `int()` of a digit string is its decimal value. Python's `int()` also accepts `_` separators between digits, which are not modelled.
- Exceptions are modelled by name and message, not by traceback text.
- Json.Get returns the first pair for a duplicated key, while JavaScript and Python keep the last. Parsed bodies with duplicate keys are treated as errors where it matters.
- LinearCommands: `print(result)` of a raw answer is a line carrying the JSON value. Python's exact dict repr is simplified.
- GoalsPage.SortHorizons: horizons are sorted by code-point order. The page sorts with `localeCompare`, whose order depends on the locale.
- GoalsPage.SortedDistinctOrder: the order of the sorted horizons is code-point order, not the locale's `localeCompare` order.
- GoalsPage.Before: compares by code point. `localeCompare` compares by the locale's collation, which the model does not.
- LinearCommands.Create: the priority is not range-checked, by the tool itself or by the model. Titles and identifiers are interpolated into GraphQL strings without escaping, as in the tool. The document text is modelled, the server's reading of it is not.
- LinearConfig.LoadDotEnv: whether `.env` exists is an input (`Option` of its lines), not a file-system read.
- TelegramAuth.Post: a JSON body that is not an object, or an object with duplicate keys, answers 500 in the model. In the route, a body that is not an object but not `null` fails verification (400), while `null` throws (500).
- TelegramAuth.Unlink: the 401 answer for a request without a signed-in user is not modelled, because the user is an input string. The 500 answers from the catch blocks of GET and DELETE are not modelled either.
- KanbanBoard: console logging, dialog open and close state and the view switcher are not modelled.
- AnchorMigration: console output and `PRAGMA foreign_keys` handling are not modelled. The migration is a pure function from the old rows to the new rows.

## Findings

| source | as written | input that shows it | evidently intended | confidence | as-written member | corrected member |
|---|---|---|---|---|---|---|
| apps/journey/src/actions/mentions.ts:527 | a resolved mention's link is built from the mention's short code | `task#1` where short code 1 names the task with id `abc` links to `/tasks/1` | the link uses the entity id, `/tasks/abc`, as `getEntityUrl` does for every other caller | not executed | MentionActions.ResolveMentionsAsWritten, MentionActions.AsWrittenUrlUsesShortCode | MentionActions.ResolveMentions, MentionActions.ResolveOneFound |
| apps/journey/src/components/kanban/board.tsx:73 | a move the server rejects resets the board to the tasks it was first given | a board first shown empty, with card `t1` created since, dragged from todo to done while the server fails: the board becomes empty | the rejected move is rolled back, leaving the board as it was before the drop | not executed | KanbanBoard.DragEndAsWritten, KanbanBoard.AsWrittenDropsNewCard | KanbanBoard.DragEnd, KanbanBoard.RejectedMoveRestores |

=== FILE: ai_actions.dfy ===
/** The life cycle of a write proposed by the assistant
    (apps/journey/src/actions/ai-chat.ts): an action is created `pending`,
    confirmed (which performs the write and keeps snapshots) or rejected, and
    a confirmed action can be reverted. Tables are maps from id to row; the
    fresh ids and the clock are parameters. */
module AiActions {
  import opened Base
  import opened Json
  import opened Uuid
  import opened Text

  /** A row as a JSON object: column name to value, in column order. */
  type Row = seq<(string, Json)>

  datatype ActionType = Create | Update | Delete
  datatype ActionEntity = TaskEntity | ProjectEntity | GoalEntity | JournalEntity
  datatype Status = Pending | Confirmed | Rejected | Reverted

  /** A row of `ai_actions`; the payload and snapshots are kept as the
      values their JSON text encodes. */
  datatype Action = Action(
    id: string,
    messageId: string,
    actionType: ActionType,
    entityType: ActionEntity,
    entityId: Option<string>,
    payload: Row,
    status: Status,
    snapshotBefore: Option<Row>,
    snapshotAfter: Option<Row>,
    createdAt: string,
    executedAt: Option<string>,
    revertedAt: Option<string>)

  datatype Db = Db(
    actions: map<string, Action>,
    tasks: map<string, Row>,
    projects: map<string, Row>,
    goals: map<string, Row>)

  datatype ActionError =
    | NotFound | AlreadyProcessed | NotConfirmed | NoSnapshot | DuplicateKey
    | InvalidUuid | InvalidInteger | IntegerOutOfRange(text: string)
    | NotNull(column: string, relation: string)
    | ForeignKey(relation: string, constraint: string)

  /** The message each error is thrown with; from `DuplicateKey` on they are
      the database's own errors. */
  function ErrorMessage(e: ActionError): string {
    match e
    case NotFound => "Action not found"
    case AlreadyProcessed => "Action already processed"
    case NotConfirmed => "Can only revert confirmed actions"
    case NoSnapshot => "No snapshot available for revert"
    case DuplicateKey => "duplicate key value violates unique constraint"
    case InvalidUuid => "invalid input syntax for type uuid"
    case InvalidInteger => "invalid input syntax for type integer"
    case IntegerOutOfRange(text) => "value \"" + text + "\" is out of range for type integer"
    case NotNull(column, relation) =>
      "null value in column \"" + column + "\" of relation \"" + relation + "\" violates not-null constraint"
    case ForeignKey(relation, constraint) =>
      "insert or update on table \"" + relation + "\" violates foreign key constraint \"" + constraint + "\""
  }

  // ---------------------------------------------------------------------------
  // Columns (apps/journey/src/db/schema.ts)
  // ---------------------------------------------------------------------------

  /** The column types a write is checked against. Text columns take any
      value (their `enum` lists are TypeScript types, not constraints). */
  datatype ColumnType = TextType | IntegerType | UuidType | TimestampType

  /** A column: its name in the database, its type and whether it is NOT
      NULL. */
  datatype Column = Column(sqlName: string, typ: ColumnType, notNull: bool)

  /** A table: its name, its columns under the property names rows use, and
      the property (with the constraint's name) whose value must name a row
      of `projects`, if any. */
  datatype Table = Table(relation: string, columns: map<string, Column>, projectRef: Option<(string, string)>)

  const TasksTable: Table := Table("tasks", map[
    "id" := Column("id", UuidType, true),
    "userId" := Column("user_id", UuidType, true),
    "title" := Column("title", TextType, true),
    "description" := Column("description", TextType, false),
    "status" := Column("status", TextType, true),
    "domain" := Column("domain", TextType, false),
    "priority" := Column("priority", IntegerType, true),
    "scheduledFor" := Column("scheduled_for", TextType, false),
    "boardScope" := Column("board_scope", TextType, false),
    "projectId" := Column("project_id", UuidType, false),
    "createdAt" := Column("created_at", TimestampType, true),
    "updatedAt" := Column("updated_at", TimestampType, true)],
    Some(("projectId", "tasks_project_id_projects_id_fk")))

  const ProjectsTable: Table := Table("projects", map[
    "id" := Column("id", UuidType, true),
    "userId" := Column("user_id", UuidType, true),
    "name" := Column("name", TextType, true),
    "description" := Column("description", TextType, false),
    "type" := Column("type", TextType, true),
    "status" := Column("status", TextType, true),
    "goals" := Column("goals", TextType, false),
    "createdAt" := Column("created_at", TimestampType, true),
    "updatedAt" := Column("updated_at", TimestampType, true)],
    None)

  const GoalsTable: Table := Table("goals", map[
    "id" := Column("id", UuidType, true),
    "userId" := Column("user_id", UuidType, true),
    "title" := Column("title", TextType, true),
    "description" := Column("description", TextType, false),
    "horizon" := Column("horizon", TextType, true),
    "status" := Column("status", TextType, true),
    "createdAt" := Column("created_at", TimestampType, true),
    "updatedAt" := Column("updated_at", TimestampType, true)],
    None)

  /** The column a property names; properties that name no column are left
      out of the statement. */
  function ColumnNamed(t: Table, name: string): Option<Column> {
    if name in t.columns then Some(t.columns[name]) else None
  }

  /** The range of PostgreSQL's `integer` (a signed 32-bit value). */
  const MinInteger: int := -0x8000_0000
  const MaxInteger: int := 0x7fff_ffff

  /** The white space integer input skips around the numeral. */
  predicate IsPgSpace(c: char) {
    c == ' ' || c == '\t' || c == '\n' || c == '\r' || c as int == 0x0B || c as int == 0x0C
  }

  /** The integer a text spells as input to an integer column: an optional
      sign and decimal digits, with white space around them. */
  function IntegerText(s: string): (r: Option<int>)
  {
    var t := Strip(s, IsPgSpace);
    if |t| > 1 && (t[0] == '-' || t[0] == '+') && AllDigits(t[1..]) then
      var v: int := DecimalValue(t[1..]);
      Some(if t[0] == '-' then -v else v)
    else if |t| > 0 && AllDigits(t) then Some(DecimalValue(t))
    else None
  }

  /** The text of an integer reads back as that integer. */
  lemma IntegerTextReadsBack(n: int)
    ensures IntegerText(IntToString(n)) == Some(n)
  {
    var s := IntToString(n);
    StripUnpadded(s);
    if n < 0 {
      DecimalValueOfNatToString(-n);
      assert s[1..] == NatToString(-n);
    } else {
      DecimalValueOfNatToString(n);
      assert s[0] != '-' && s[0] != '+' by { assert IsDigit(s[0]); }
    }
  }

  /** A numeral with no white space at either end is its own strip. */
  lemma StripUnpadded(s: string)
    requires |s| > 0 && !IsPgSpace(s[0]) && !IsPgSpace(s[|s| - 1])
    ensures Strip(s, IsPgSpace) == s
  {
    StripPadded("", s, "", IsPgSpace);
    assert "" + s + "" == s;
  }

  /** The integer an integer column stores for a value, or the error it
      raises. A number is sent as the text JavaScript prints, which from
      10^21 on is in exponent form. */
  function IntegerInput(v: Json): (r: Result<int, ActionError>)
    ensures r.Ok? ==> MinInteger <= r.value <= MaxInteger
    ensures r.Ok? ==> v == JNum(r.value) || (v.JStr? && IntegerText(v.s) == Some(r.value))
    ensures v.JNum? && MinInteger <= v.n <= MaxInteger ==> r == Ok(v.n)
    ensures v.JStr? && IntegerText(v.s).None? ==> r == Err(InvalidInteger)
    ensures !v.JNum? && !v.JStr? ==> r == Err(InvalidInteger)
  {
    match v
    case JNum(n) =>
      if n <= -1_000_000_000_000_000_000_000 || n >= 1_000_000_000_000_000_000_000 then Err(InvalidInteger)
      else if MinInteger <= n <= MaxInteger then Ok(n)
      else Err(IntegerOutOfRange(IntToString(n)))
    case JStr(s) =>
      (match IntegerText(s)
       case None => Err(InvalidInteger)
       case Some(n) => if MinInteger <= n <= MaxInteger then Ok(n) else Err(IntegerOutOfRange(s)))
    case _ => Err(InvalidInteger)
  }

  /** The error a column's type raises on a value; null is left to the NOT
      NULL check. */
  function InputError(c: Column, v: Json): (r: Option<ActionError>)
    ensures v == JNull ==> r.None?
    ensures c.typ == UuidType && v != JNull ==> (r.None? <==> v.JStr? && IsUuid(v.s))
    ensures c.typ == IntegerType && v != JNull ==> (r.None? <==> IntegerInput(v).Ok?)
    ensures c.typ == TextType || c.typ == TimestampType ==> r.None?
  {
    if v == JNull then None
    else match c.typ
      case IntegerType => (match IntegerInput(v) case Ok(_) => None case Err(e) => Some(e))
      case UuidType => if v.JStr? && IsUuid(v.s) then None else Some(InvalidUuid)
      case _ => None
  }

  function MemberInputError(t: Table, m: (string, Json)): Option<ActionError> {
    match ColumnNamed(t, m.0)
    case None => None
    case Some(c) => InputError(c, m.1)
  }

  function MemberNullError(t: Table, m: (string, Json)): Option<ActionError> {
    match ColumnNamed(t, m.0)
    case None => None
    case Some(c) => if c.notNull && m.1 == JNull then Some(NotNull(c.sqlName, t.relation)) else None
  }

  /** A member the table stores as it is: it names no column, or its value
      is valid input for its column and not a null in a NOT NULL column. */
  predicate Accepted(t: Table, m: (string, Json)) {
    MemberInputError(t, m).None? && MemberNullError(t, m).None?
  }

  /** The first member whose value its column cannot read. The values are
      read when the statement is bound, so this error comes first, and it
      comes even when no row is written. */
  function InputErrorOf(t: Table, row: Row): (r: Option<ActionError>)
    ensures r.None? <==> forall i :: 0 <= i < |row| ==> MemberInputError(t, row[i]).None?
    ensures r.Some? ==> exists i :: (0 <= i < |row| && r == MemberInputError(t, row[i])
      && forall j :: 0 <= j < i ==> MemberInputError(t, row[j]).None?)
  {
    match FindIndex(row, (m: (string, Json)) => MemberInputError(t, m).Some?)
    case Some(i) => MemberInputError(t, row[i])
    case None => None
  }

  /** The first member that puts a null into a NOT NULL column. */
  function NullErrorOf(t: Table, row: Row): (r: Option<ActionError>)
    ensures r.None? <==> forall i :: 0 <= i < |row| ==> MemberNullError(t, row[i]).None?
    ensures r.Some? ==> exists i :: (0 <= i < |row| && r == MemberNullError(t, row[i])
      && forall j :: 0 <= j < i ==> MemberNullError(t, row[j]).None?)
  {
    match FindIndex(row, (m: (string, Json)) => MemberNullError(t, m).Some?)
    case Some(i) => MemberNullError(t, row[i])
    case None => None
  }

  /** What the table makes of the members a statement writes: the first
      value its column cannot read, else the first null in a NOT NULL
      column, else nothing. */
  function RowError(t: Table, row: Row): (r: Option<ActionError>)
    ensures r.None? <==> forall i :: 0 <= i < |row| ==> Accepted(t, row[i])
    ensures InputErrorOf(t, row).Some? ==> r == InputErrorOf(t, row)
  {
    if InputErrorOf(t, row).Some? then InputErrorOf(t, row) else NullErrorOf(t, row)
  }

  /** Some row of `projects` has the uuid `s` spells. */
  predicate KnownProject(db: Db, s: string) {
    exists k :: k in db.projects && SameUuid(k, s)
  }

  /** The foreign-key error of a written row: a project id that names no
      project. It is checked after the row is written. */
  function RefError(db: Db, t: Table, row: Row): (r: Option<ActionError>)
    ensures r.Some? <==> (t.projectRef.Some? && Get(row, t.projectRef.value.0).Some?
      && Get(row, t.projectRef.value.0).value.JStr? && !KnownProject(db, Get(row, t.projectRef.value.0).value.s))
    ensures r.Some? ==> r == Some(ForeignKey(t.relation, t.projectRef.value.1))
  {
    match t.projectRef
    case None => None
    case Some((p, constraint)) =>
      match Get(row, p)
      case Some(JStr(s)) => if KnownProject(db, s) then None else Some(ForeignKey(t.relation, constraint))
      case _ => None
  }

  /** A row the table holds: every member accepted and its project known. */
  predicate ValidRow(db: Db, t: Table, row: Row) {
    RowError(t, row).None? && RefError(db, t, row).None?
  }

  /** Every row of the three tables is one the database would hold. */
  predicate ValidTables(db: Db) {
    && (forall k :: k in db.tasks ==> ValidRow(db, TasksTable, db.tasks[k]))
    && (forall k :: k in db.projects ==> ValidRow(db, ProjectsTable, db.projects[k]))
    && (forall k :: k in db.goals ==> ValidRow(db, GoalsTable, db.goals[k]))
  }

  // ---------------------------------------------------------------------------
  // Rows
  // ---------------------------------------------------------------------------

  /** `v || d` on a property that may be absent. */
  function Or(v: Option<Json>, d: Json): (r: Json)
    ensures JsTruthyOpt(v) ==> r == v.value
    ensures !JsTruthyOpt(v) ==> r == d
  {
    if JsTruthyOpt(v) then v.value else d
  }

  /** `{...obj, key: value}`: replaces the member in place or appends it. */
  function SetField(obj: Row, key: string, value: Json): (r: Row)
    ensures Get(r, key) == Some(value)
    ensures forall k :: k != key ==> Get(r, k) == Get(obj, k)
    decreases |obj|
  {
    if |obj| == 0 then [(key, value)]
    else if obj[0].0 == key then [(key, value)] + obj[1..]
    else [obj[0]] + SetField(obj[1..], key, value)
  }

  /** `UPDATE ... SET updates`: every column of the row named in `updates`
      takes the new value; names that are not columns are ignored. */
  function SetColumns(row: Row, updates: Row): (r: Row)
    ensures |r| == |row|
    ensures forall i :: 0 <= i < |row| ==> r[i].0 == row[i].0
    ensures forall i :: 0 <= i < |row| ==> r[i].1 == Get(updates, row[i].0).GetOr(row[i].1)
  {
    seq(|row|, i requires 0 <= i < |row| => (row[i].0, Get(updates, row[i].0).GetOr(row[i].1)))
  }

  /** A row with the members of a task in the order the insert writes them. */
  predicate TaskLayout(row: Row) {
    && |row| == 11
    && row[0].0 == "id" && row[1].0 == "title" && row[2].0 == "description" && row[3].0 == "domain"
    && row[4].0 == "priority" && row[5].0 == "scheduledFor" && row[6].0 == "boardScope"
    && row[7].0 == "projectId" && row[8].0 == "status" && row[9].0 == "createdAt" && row[10].0 == "updatedAt"
  }

  /** The task row a confirmed `create` inserts: the payload's values with
      the defaults of the source for missing or falsy ones. The title is
      taken as it is, and a missing title is written as null. */
  function NewTaskRow(payload: Row, id: string, now: string): (row: Row)
    ensures TaskLayout(row)
    ensures Get(row, "id") == Some(JStr(id))
    ensures Get(row, "title") == Some(Get(payload, "title").GetOr(JNull))
    ensures Get(row, "priority") == Some(Or(Get(payload, "priority"), JNum(0)))
    ensures Get(row, "projectId") == Some(Or(Get(payload, "projectId"), JNull))
    ensures Get(row, "status") == Some(Or(Get(payload, "status"), JStr("backlog")))
  {
    var title := Get(payload, "title").GetOr(JNull);
    var priority := Or(Get(payload, "priority"), JNum(0));
    var projectId := Or(Get(payload, "projectId"), JNull);
    var status := Or(Get(payload, "status"), JStr("backlog"));
    var row := TaskRow(JStr(id), title, Or(Get(payload, "description"), JNull),
      Or(Get(payload, "domain"), JNull), priority, Or(Get(payload, "scheduledFor"), JNull),
      Or(Get(payload, "boardScope"), JNull), projectId, status, JStr(now));
    TaskRowGets(row, JStr(id), title, priority, projectId, status);
    row
  }

  /** The members of a task row in insert order, both timestamps `now`. */
  function TaskRow(id: Json, title: Json, description: Json, domain: Json, priority: Json,
                   scheduledFor: Json, boardScope: Json, projectId: Json, status: Json, now: Json): (row: Row)
    ensures TaskLayout(row)
    ensures row[0].1 == id && row[1].1 == title && row[2].1 == description && row[3].1 == domain
    ensures row[4].1 == priority && row[5].1 == scheduledFor && row[6].1 == boardScope
    ensures row[7].1 == projectId && row[8].1 == status && row[9].1 == now && row[10].1 == now
  {
    [ ("id", id), ("title", title), ("description", description), ("domain", domain),
      ("priority", priority), ("scheduledFor", scheduledFor), ("boardScope", boardScope),
      ("projectId", projectId), ("status", status), ("createdAt", now), ("updatedAt", now) ]
  }

  /** Reading back the members of a row laid out as a task row. */
  lemma TaskRowGets(row: Row, id: Json, title: Json, priority: Json, projectId: Json, status: Json)
    requires |row| == 11 && row[0] == ("id", id) && row[1] == ("title", title)
    requires row[2].0 == "description" && row[3].0 == "domain" && row[4] == ("priority", priority)
    requires row[5].0 == "scheduledFor" && row[6].0 == "boardScope" && row[7] == ("projectId", projectId)
    requires row[8] == ("status", status)
    ensures Get(row, "id") == Some(id)
    ensures Get(row, "title") == Some(title)
    ensures Get(row, "priority") == Some(priority)
    ensures Get(row, "projectId") == Some(projectId)
    ensures Get(row, "status") == Some(status)
  {
    GetAt(row, 0);
    GetAt(row, 1);
    GetAt(row, 4);
    GetAt(row, 7);
    GetAt(row, 8);
  }

  // ---------------------------------------------------------------------------
  // createAction / rejectAction
  // ---------------------------------------------------------------------------

  /** `s || null` on text that may be absent. */
  function Truthy(s: Option<string>): (r: Option<string>)
    ensures r.Some? <==> s.Some? && s.value != ""
    ensures r.Some? ==> r == s
  {
    if s.Some? && s.value != "" then s else None
  }

  /** What the `entity_id` column (a uuid) makes of `entityId || null`:
      null for a falsy value, the uuid a string spells, as the database
      prints it, and an error for anything else. The parameter is typed
      `string` but receives whatever the tool call's arguments hold; values
      other than strings reach the column as text that is never a uuid
      (JavaScript prints numbers of 22 digits or more in exponent form, and
      arrays and objects are sent with their brackets). */
  function EntityIdColumn(v: Option<Json>): (r: Result<Option<string>, ActionError>)
    ensures r == Ok(None) <==> !JsTruthyOpt(v)
    ensures r.Err? <==> JsTruthyOpt(v) && !(v.value.JStr? && IsUuid(v.value.s))
    ensures r.Err? ==> r.error == InvalidUuid
    ensures r.Ok? && r.value.Some? ==> v.Some? && v.value.JStr? && SameUuid(r.value.value, v.value.s)
  {
    if !JsTruthyOpt(v) then Ok(None)
    else match v.value
      case JStr(s) =>
        (match UuidDigits(s)
         case Some(d) =>
           CanonicalReadsBack(d);
           Ok(Some(Canonical(d)))
         case None => Err(InvalidUuid))
      case _ => Err(InvalidUuid)
  }

  /** An id in the form the database prints is stored as it is. */
  lemma PrintedIdStored(d: string)
    requires |d| == 32 && LowerHex(d)
    ensures EntityIdColumn(Some(JStr(Canonical(d)))) == Ok(Some(Canonical(d)))
  {
    var s := Canonical(d);
    CanonicalReadsBack(d);
    assert s != "" by {
      assert UuidDigits("").None?;
    }
    assert JsTruthyOpt(Some(JStr(s)));
  }

  /** A number where an id belongs is refused by the column. */
  lemma NumericIdRefused(n: int)
    requires n != 0
    ensures EntityIdColumn(Some(JNum(n))) == Err(InvalidUuid)
  {
  }

  /** `createAction(messageId, actionType, entityType, payload, entityId)`
      with `id` the fresh id and `now` the clock. The insert fails when the
      entity id is not a uuid (the parameter is refused before any row is
      written) or when the id is taken. */
  function CreateAction(db: Db, id: string, now: string, messageId: string, actionType: ActionType,
                        entityType: ActionEntity, payload: Row, entityId: Option<Json>)
    : (r: Result<(Action, Db), ActionError>)
    ensures r.Err? <==> EntityIdColumn(entityId).Err? || id in db.actions
    ensures EntityIdColumn(entityId).Err? ==> r == Err(InvalidUuid)
    ensures EntityIdColumn(entityId).Ok? && id in db.actions ==> r == Err(DuplicateKey)
    ensures r.Ok? ==>
      var (a, db') := r.value;
      && a.status == Pending && a.id == id && a.payload == payload
      && Ok(a.entityId) == EntityIdColumn(entityId)
      && a.snapshotBefore.None? && a.snapshotAfter.None? && a.executedAt.None?
      && db' == db.(actions := db.actions[id := a])
  {
    match EntityIdColumn(entityId)
    case Err(e) => Err(e)
    case Ok(stored) =>
      if id in db.actions then Err(DuplicateKey)
      else
        var a := Action(id, messageId, actionType, entityType, stored, payload, Pending,
                        None, None, now, None, None);
        Ok((a, db.(actions := db.actions[id := a])))
  }

  /** `rejectAction(actionId)`: marks the action rejected whatever its state;
      an unknown id changes nothing and returns nothing. */
  function RejectAction(db: Db, actionId: string): (r: (Option<Action>, Db))
    ensures actionId !in db.actions ==> r == (None, db)
    ensures actionId in db.actions ==>
      && r.0 == Some(db.actions[actionId].(status := Rejected))
      && r.1 == db.(actions := db.actions[actionId := r.0.value])
  {
    if actionId in db.actions then
      var a := db.actions[actionId].(status := Rejected);
      (Some(a), db.(actions := db.actions[actionId := a]))
    else (None, db)
  }

  // ---------------------------------------------------------------------------
  // confirmAction
  // ---------------------------------------------------------------------------

  /** What executing the write produced: the tables, the entity id and the
      snapshots. */
  datatype Effect = Effect(db: Db, entityId: Option<string>, before: Option<Row>, after: Option<Row>)

  /** `UPDATE table SET {...payload, updatedAt: now} WHERE id = ...`: the
      members naming columns must be valid input even when no row has the
      id; the row with the id, if any, takes them unless one is a null for
      a NOT NULL column or names a missing project. */
  function UpdateRow(db: Db, t: Table, table: map<string, Row>, id: string, payload: Row, now: string)
    : (r: Result<(map<string, Row>, Option<Row>, Option<Row>), ActionError>)
    ensures var written := SetField(payload, "updatedAt", JStr(now));
      r.Err? <==> (InputErrorOf(t, written).Some?
        || (id in table && (RowError(t, written).Some? || RefError(db, t, written).Some?)))
    ensures var written := SetField(payload, "updatedAt", JStr(now));
      RowError(t, written).Some? && (id in table || InputErrorOf(t, written).Some?) ==> r == Err(RowError(t, written).value)
    ensures r.Ok? && id !in table ==> r.value == (table, None, None)
    ensures r.Ok? && id in table ==>
      && r.value.1 == Some(table[id])
      && r.value.2 == Some(SetColumns(table[id], SetField(payload, "updatedAt", JStr(now))))
      && r.value.0 == table[id := r.value.2.value]
  {
    var written := SetField(payload, "updatedAt", JStr(now));
    if InputErrorOf(t, written).Some? then Err(InputErrorOf(t, written).value)
    else if id !in table then Ok((table, None, None))
    else if RowError(t, written).Some? then Err(RowError(t, written).value)
    else if RefError(db, t, written).Some? then Err(RefError(db, t, written).value)
    else
      var updated := SetColumns(table[id], written);
      Ok((table[id := updated], Some(table[id]), Some(updated)))
  }

  /** The write an action performs when it is confirmed. */
  /** The insert of a confirmed task `create`: the first error the row
      meets, or the table with the row added. */
  function InsertTask(db: Db, payload: Row, newId: string, now: string): (r: Result<Effect, ActionError>)
    ensures var row := NewTaskRow(payload, newId, now);
      && (RowError(TasksTable, row).Some? ==> r == Err(RowError(TasksTable, row).value))
      && (r.Ok? <==> RowError(TasksTable, row).None? && newId !in db.tasks && RefError(db, TasksTable, row).None?)
  {
    var row := NewTaskRow(payload, newId, now);
    if RowError(TasksTable, row).Some? then Err(RowError(TasksTable, row).value)
    else if newId in db.tasks then Err(DuplicateKey)
    else if RefError(db, TasksTable, row).Some? then Err(RefError(db, TasksTable, row).value)
    else Ok(Effect(db.(tasks := db.tasks[newId := row]), Some(newId), None, Some(row)))
  }

  function Execute(db: Db, a: Action, newId: string, now: string): Result<Effect, ActionError> {
    var target := Truthy(a.entityId);
    match (a.entityType, a.actionType)
    case (TaskEntity, Create) => InsertTask(db, a.payload, newId, now)
    case (TaskEntity, Update) =>
      if target.None? then Ok(Effect(db, a.entityId, None, None))
      else
        (match UpdateRow(db, TasksTable, db.tasks, target.value, a.payload, now)
         case Err(e) => Err(e)
         case Ok((t, before, after)) => Ok(Effect(db.(tasks := t), a.entityId, before, after)))
    case (TaskEntity, Delete) =>
      if target.None? || target.value !in db.tasks then Ok(Effect(db, a.entityId, None, None))
      else
        Ok(Effect(db.(tasks := db.tasks - {target.value}), a.entityId, Some(db.tasks[target.value]), None))
    case (ProjectEntity, Update) =>
      if target.None? then Ok(Effect(db, a.entityId, None, None))
      else
        (match UpdateRow(db, ProjectsTable, db.projects, target.value, a.payload, now)
         case Err(e) => Err(e)
         case Ok((t, before, after)) => Ok(Effect(db.(projects := t), a.entityId, before, after)))
    case (GoalEntity, Update) =>
      if target.None? then Ok(Effect(db, a.entityId, None, None))
      else
        (match UpdateRow(db, GoalsTable, db.goals, target.value, a.payload, now)
         case Err(e) => Err(e)
         case Ok((t, before, after)) => Ok(Effect(db.(goals := t), a.entityId, before, after)))
    case _ => Ok(Effect(db, a.entityId, None, None))
  }

  /** `confirmAction(actionId)` with `newId` the id a created task gets. */
  function ConfirmAction(db: Db, actionId: string, newId: string, now: string)
    : (r: Result<(Action, Db), ActionError>)
    ensures actionId !in db.actions ==> r == Err(NotFound)
    ensures actionId in db.actions && db.actions[actionId].status != Pending ==> r == Err(AlreadyProcessed)
    ensures (actionId in db.actions && db.actions[actionId].status == Pending
      && db.actions[actionId].entityType == TaskEntity && db.actions[actionId].actionType == Create) ==>
      var row := NewTaskRow(db.actions[actionId].payload, newId, now);
      && (RowError(TasksTable, row).Some? ==> r == Err(RowError(TasksTable, row).value))
      && (r.Ok? <==> RowError(TasksTable, row).None? && newId !in db.tasks && RefError(db, TasksTable, row).None?)
    ensures r.Ok? ==>
      var (a, db') := r.value;
      && actionId in db.actions && db.actions[actionId].status == Pending
      && a.status == Confirmed && a.executedAt == Some(now)
      && a.id == db.actions[actionId].id && a.payload == db.actions[actionId].payload
      && a.actionType == db.actions[actionId].actionType && a.entityType == db.actions[actionId].entityType
      && actionId in db'.actions && db'.actions[actionId] == a
      && (forall other :: other != actionId ==>
            (other in db'.actions <==> other in db.actions)
            && (other in db.actions ==> db'.actions[other] == db.actions[other]))
  {
    if actionId !in db.actions then Err(NotFound)
    else
      var a := db.actions[actionId];
      if a.status != Pending then Err(AlreadyProcessed)
      else
        ExecuteCreate(db, a, newId, now);
        match Execute(db, a, newId, now)
        case Err(e) => Err(e)
        case Ok(eff) => Ok(RecordConfirmed(db.actions, actionId, a, eff, now))
  }

  /** A task `create` executes as the insert. */
  lemma ExecuteCreate(db: Db, a: Action, newId: string, now: string)
    ensures a.entityType == TaskEntity && a.actionType == Create ==>
      Execute(db, a, newId, now) == InsertTask(db, a.payload, newId, now)
  {
  }

  /** The action marked confirmed with the effect's snapshots, stored under
      its key over the effect's state; no other action changes. */
  function RecordConfirmed(actions: map<string, Action>, actionId: string, a: Action, eff: Effect, now: string)
    : (r: (Action, Db))
    ensures r.0.status == Confirmed && r.0.executedAt == Some(now)
    ensures r.0.id == a.id && r.0.payload == a.payload && r.0.actionType == a.actionType && r.0.entityType == a.entityType
    ensures r.0.entityId == eff.entityId && r.0.snapshotBefore == eff.before && r.0.snapshotAfter == eff.after
    ensures r.1.actions == actions[actionId := r.0]
    ensures r.1.tasks == eff.db.tasks && r.1.projects == eff.db.projects && r.1.goals == eff.db.goals
  {
    var a' := a.(status := Confirmed, entityId := eff.entityId, snapshotBefore := eff.before,
                 snapshotAfter := eff.after, executedAt := Some(now));
    (a', eff.db.(actions := actions[actionId := a']))
  }

  /** Confirming a task `create` inserts the row with the payload's values
      and the defaults exactly when the table accepts it; the new task is the
      only one that changes. */
  lemma ConfirmCreateDefaults(db: Db, actionId: string, newId: string, now: string)
    requires actionId in db.actions
    requires db.actions[actionId].status == Pending
    requires db.actions[actionId].entityType == TaskEntity && db.actions[actionId].actionType == Create
    ensures var row := NewTaskRow(db.actions[actionId].payload, newId, now);
      ConfirmAction(db, actionId, newId, now).Ok? <==> newId !in db.tasks && ValidRow(db, TasksTable, row)
    ensures ConfirmAction(db, actionId, newId, now).Ok? ==>
      var (a, db') := ConfirmAction(db, actionId, newId, now).value;
      var row := NewTaskRow(db.actions[actionId].payload, newId, now);
      && a.entityId == Some(newId) && a.snapshotAfter == Some(row)
      && db'.tasks == db.tasks[newId := row]
      && db'.projects == db.projects && db'.goals == db.goals
  {
  }

  /** The member at `i` is the first the column types refuse. */
  lemma InputErrorAt(t: Table, row: Row, i: nat)
    requires i < |row| && MemberInputError(t, row[i]).Some?
    requires forall j :: 0 <= j < i ==> MemberInputError(t, row[j]).None?
    ensures InputErrorOf(t, row) == MemberInputError(t, row[i])
  {
    var r := InputErrorOf(t, row);
    var k :| 0 <= k < |row| && r == MemberInputError(t, row[k])
      && forall j :: 0 <= j < k ==> MemberInputError(t, row[j]).None?;
    assert k == i;
  }

  /** The member at `i` is the first null in a NOT NULL column. */
  lemma NullErrorAt(t: Table, row: Row, i: nat)
    requires i < |row| && MemberNullError(t, row[i]).Some?
    requires forall j :: 0 <= j < i ==> MemberNullError(t, row[j]).None?
    ensures NullErrorOf(t, row) == MemberNullError(t, row[i])
  {
    var r := NullErrorOf(t, row);
    var k :| 0 <= k < |row| && r == MemberNullError(t, row[k])
      && forall j :: 0 <= j < k ==> MemberNullError(t, row[j]).None?;
    assert k == i;
  }

  /** What a uuid column makes of a value. */
  function UuidError(v: Json): Option<ActionError> {
    if v == JNull || (v.JStr? && IsUuid(v.s)) then None else Some(InvalidUuid)
  }

  /** What an integer column makes of a value. */
  function IntegerError(v: Json): Option<ActionError> {
    if v == JNull then None else match IntegerInput(v) case Ok(_) => None case Err(e) => Some(e)
  }

  /** The error a confirmed task `create` meets, read off the payload
      directly: the id, then the priority, then the project id must be
      readable, and then the title must not be null. */
  function NewTaskError(payload: Row, id: string): Option<ActionError> {
    var priority := Or(Get(payload, "priority"), JNum(0));
    var project := Or(Get(payload, "projectId"), JNull);
    if !IsUuid(id) then Some(InvalidUuid)
    else if IntegerError(priority).Some? then IntegerError(priority)
    else if UuidError(project).Some? then Some(InvalidUuid)
    else if Get(payload, "title").GetOr(JNull) == JNull then Some(NotNull("title", "tasks"))
    else None
  }

  lemma TextMember(name: string, v: Json)
    requires name in {"title", "description", "domain", "status", "scheduledFor", "boardScope", "createdAt", "updatedAt"}
    ensures MemberInputError(TasksTable, (name, v)).None?
  {
  }

  lemma UuidMember(name: string, v: Json)
    requires name in {"id", "projectId"}
    ensures MemberInputError(TasksTable, (name, v)) == UuidError(v)
  {
  }

  lemma IntegerMember(v: Json)
    ensures MemberInputError(TasksTable, ("priority", v)) == IntegerError(v)
  {
  }

  /** The members of a task row other than the id, the priority and the
      project id are text and timestamps, which read any value. */
  lemma TaskLayoutTextMembers(row: Row)
    requires TaskLayout(row)
    ensures forall j :: 0 <= j < |row| && j !in {0, 4, 7} ==> MemberInputError(TasksTable, row[j]).None?
  {
    forall j | 0 <= j < |row| && j !in {0, 4, 7}
      ensures MemberInputError(TasksTable, row[j]).None?
    {
      TextMember(row[j].0, row[j].1);
    }
  }

  lemma NewTaskTextMembers(p: Row, id: string, now: string)
    ensures var row := NewTaskRow(p, id, now);
      forall j :: 0 <= j < |row| && j !in {0, 4, 7} ==> MemberInputError(TasksTable, row[j]).None?
  {
    TaskLayoutTextMembers(NewTaskRow(p, id, now));
  }

  lemma NewTaskTypedMembers(p: Row, id: string, now: string)
    ensures var row := NewTaskRow(p, id, now);
      && MemberInputError(TasksTable, row[0]) == UuidError(JStr(id))
      && MemberInputError(TasksTable, row[4]) == IntegerError(Or(Get(p, "priority"), JNum(0)))
      && MemberInputError(TasksTable, row[7]) == UuidError(Or(Get(p, "projectId"), JNull))
  {
    var row := NewTaskRow(p, id, now);
    UuidMember("id", row[0].1);
    IntegerMember(row[4].1);
    UuidMember("projectId", row[7].1);
  }

  /** In a row whose only typed members are at 0, 4 and 7, the first of
      them the column types refuse is the row's input error. */
  lemma InputErrorOfThree(t: Table, row: Row, e0: Option<ActionError>, e4: Option<ActionError>, e7: Option<ActionError>)
    requires |row| == 11
    requires forall j :: 0 <= j < |row| && j !in {0, 4, 7} ==> MemberInputError(t, row[j]).None?
    requires MemberInputError(t, row[0]) == e0 && MemberInputError(t, row[4]) == e4
    requires MemberInputError(t, row[7]) == e7
    ensures InputErrorOf(t, row) == (if e0.Some? then e0 else if e4.Some? then e4 else e7)
  {
    if e0.Some? {
      InputErrorAt(t, row, 0);
    } else if e4.Some? {
      InputErrorAt(t, row, 4);
    } else if e7.Some? {
      InputErrorAt(t, row, 7);
    }
  }

  /** The first member of a new task row the column types refuse is the id,
      else the priority, else the project id. */
  lemma NewTaskInputError(p: Row, id: string, now: string)
    ensures var row := NewTaskRow(p, id, now);
      var e0 := UuidError(JStr(id));
      var e4 := IntegerError(Or(Get(p, "priority"), JNum(0)));
      var e7 := UuidError(Or(Get(p, "projectId"), JNull));
      InputErrorOf(TasksTable, row) == (if e0.Some? then e0 else if e4.Some? then e4 else e7)
  {
    NewTaskTextMembers(p, id, now);
    NewTaskTypedMembers(p, id, now);
    InputErrorOfThree(TasksTable, NewTaskRow(p, id, now), UuidError(JStr(id)),
      IntegerError(Or(Get(p, "priority"), JNum(0))), UuidError(Or(Get(p, "projectId"), JNull)));
  }

  lemma NullableMember(name: string, v: Json)
    requires name in {"description", "domain", "scheduledFor", "boardScope", "projectId"} || v != JNull
    ensures MemberNullError(TasksTable, (name, v)).None?
  {
  }

  /** In a task row whose id, priority, status and timestamps are not null,
      only the title can be null in a NOT NULL column. */
  lemma TaskLayoutNullMembers(row: Row)
    requires TaskLayout(row)
    requires row[0].1 != JNull && row[4].1 != JNull && row[8].1 != JNull
    requires row[9].1 != JNull && row[10].1 != JNull
    ensures forall j :: 0 <= j < |row| && j != 1 ==> MemberNullError(TasksTable, row[j]).None?
  {
    forall j | 0 <= j < |row| && j != 1
      ensures MemberNullError(TasksTable, row[j]).None?
    {
      NullableMember(row[j].0, row[j].1);
    }
  }

  /** Only the title of a new task row can be null in a NOT NULL column. */
  lemma NewTaskNullMembers(p: Row, id: string, now: string)
    ensures var row := NewTaskRow(p, id, now);
      forall j :: 0 <= j < |row| && j != 1 ==> MemberNullError(TasksTable, row[j]).None?
  {
    var row := NewTaskRow(p, id, now);
    assert row[4].1 != JNull && row[8].1 != JNull;
    TaskLayoutNullMembers(row);
  }

  lemma TitleMember(v: Json)
    ensures MemberNullError(TasksTable, ("title", v)) == if v == JNull then Some(NotNull("title", "tasks")) else None
  {
  }

  lemma NewTaskTitleNull(p: Row, id: string, now: string)
    ensures MemberNullError(TasksTable, NewTaskRow(p, id, now)[1])
      == if Get(p, "title").GetOr(JNull) == JNull then Some(NotNull("title", "tasks")) else None
  {
    var row := NewTaskRow(p, id, now);
    assert row[1] == ("title", Get(p, "title").GetOr(JNull));
    TitleMember(row[1].1);
  }

  /** In a row where only the member at `i` can be refused, its error is the
      row's. */
  lemma OnlyNullError(t: Table, row: Row, i: nat)
    requires i < |row|
    requires forall j :: 0 <= j < |row| && j != i ==> MemberNullError(t, row[j]).None?
    ensures NullErrorOf(t, row) == MemberNullError(t, row[i])
  {
    if MemberNullError(t, row[i]).Some? {
      NullErrorAt(t, row, i);
    }
  }

  /** What the table makes of the row a confirmed task `create` writes is
      the error read off the payload directly. */
  lemma NewTaskRowError(p: Row, id: string, now: string)
    ensures RowError(TasksTable, NewTaskRow(p, id, now)) == NewTaskError(p, id)
  {
    var row := NewTaskRow(p, id, now);
    NewTaskInputError(p, id, now);
    NewTaskNullMembers(p, id, now);
    NewTaskTitleNull(p, id, now);
    OnlyNullError(TasksTable, row, 1);
  }

  /** A task `create` fails with the first error read off its payload, in
      the order the database raises them: a value a column cannot read, a
      null title, a taken id, a project that does not exist. */
  lemma ConfirmCreateErrors(db: Db, actionId: string, newId: string, now: string)
    requires actionId in db.actions
    requires db.actions[actionId].status == Pending
    requires db.actions[actionId].entityType == TaskEntity && db.actions[actionId].actionType == Create
    ensures var e := NewTaskError(db.actions[actionId].payload, newId);
      e.Some? ==> ConfirmAction(db, actionId, newId, now) == Err(e.value)
    ensures var row := NewTaskRow(db.actions[actionId].payload, newId, now);
      NewTaskError(db.actions[actionId].payload, newId).None? ==>
      && (newId in db.tasks ==> ConfirmAction(db, actionId, newId, now) == Err(DuplicateKey))
      && (newId !in db.tasks && RefError(db, TasksTable, row).Some? ==>
            ConfirmAction(db, actionId, newId, now) == Err(RefError(db, TasksTable, row).value))
      && (ConfirmAction(db, actionId, newId, now).Ok? <==> newId !in db.tasks && RefError(db, TasksTable, row).None?)
  {
    NewTaskRowError(db.actions[actionId].payload, newId, now);
  }

  /** The payload `{"title": "t", "priority": "high"}` is refused by the
      integer column, and the action stays pending. */
  lemma TextPriorityRefused(db: Db, actionId: string, newId: string, now: string)
    requires actionId in db.actions
    requires db.actions[actionId].status == Pending
    requires db.actions[actionId].entityType == TaskEntity && db.actions[actionId].actionType == Create
    requires db.actions[actionId].payload == [("title", JStr("t")), ("priority", JStr("high"))]
    requires IsUuid(newId)
    ensures ConfirmAction(db, actionId, newId, now) == Err(InvalidInteger)
  {
    ConfirmCreateErrors(db, actionId, newId, now);
    TextPriorityError(newId);
  }

  lemma TextPriorityError(newId: string)
    requires IsUuid(newId)
    ensures NewTaskError([("title", JStr("t")), ("priority", JStr("high"))], newId) == Some(InvalidInteger)
  {
    var p := [("title", JStr("t")), ("priority", JStr("high"))];
    assert Get(p, "priority") == Some(JStr("high"));
    WordIsNotInteger();
  }

  /** `"high"` is not an integer. */
  lemma WordIsNotInteger()
    ensures IntegerInput(JStr("high")) == Err(InvalidInteger)
  {
    StripUnpadded("high");
  }

  /** A task with no title is refused by the NOT NULL column. */
  lemma MissingTitleRefused(db: Db, actionId: string, newId: string, now: string)
    requires actionId in db.actions
    requires db.actions[actionId].status == Pending
    requires db.actions[actionId].entityType == TaskEntity && db.actions[actionId].actionType == Create
    requires db.actions[actionId].payload == []
    requires IsUuid(newId)
    ensures ConfirmAction(db, actionId, newId, now) == Err(NotNull("title", "tasks"))
  {
    ConfirmCreateErrors(db, actionId, newId, now);
    MissingTitleError(newId);
  }

  lemma MissingTitleError(newId: string)
    requires IsUuid(newId)
    ensures NewTaskError([], newId) == Some(NotNull("title", "tasks"))
  {
  }

  /** A task whose project id is a uuid naming no project is refused by the
      foreign key. */
  lemma UnknownProjectRefused(db: Db, actionId: string, newId: string, now: string, project: string)
    requires actionId in db.actions
    requires db.actions[actionId].status == Pending
    requires db.actions[actionId].entityType == TaskEntity && db.actions[actionId].actionType == Create
    requires db.actions[actionId].payload == [("title", JStr("t")), ("projectId", JStr(project))]
    requires IsUuid(newId) && IsUuid(project) && !KnownProject(db, project) && newId !in db.tasks
    ensures ConfirmAction(db, actionId, newId, now) == Err(ForeignKey("tasks", "tasks_project_id_projects_id_fk"))
  {
    var p := db.actions[actionId].payload;
    ConfirmCreateErrors(db, actionId, newId, now);
    KnownPayloadError(p, newId, project);
  }

  lemma KnownPayloadError(p: Row, newId: string, project: string)
    requires p == [("title", JStr("t")), ("projectId", JStr(project))]
    requires IsUuid(newId) && IsUuid(project)
    ensures NewTaskError(p, newId).None?
    ensures Or(Get(p, "projectId"), JNull) == JStr(project)
  {
    KnownPayloadGets(p, project);
    UuidNotEmpty(project);
    assert JsTruthyOpt(Some(JStr(project)));
    assert !JsTruthyOpt(None);
  }

  lemma KnownPayloadGets(p: Row, project: string)
    requires p == [("title", JStr("t")), ("projectId", JStr(project))]
    ensures Get(p, "projectId") == Some(JStr(project))
    ensures Get(p, "title") == Some(JStr("t"))
    ensures Get(p, "priority") == None
  {
    assert p[1..] == [("projectId", JStr(project))];
    assert p[1..][1..] == [];
  }

  lemma UuidNotEmpty(s: string)
    requires IsUuid(s)
    ensures s != ""
  {
    assert !IsUuid("");
  }

  /** An update that sets a task's title to null is refused by the NOT NULL
      column, and the task is left as it was. */
  lemma NullTitleUpdateRefused(db: Db, actionId: string, now: string)
    requires actionId in db.actions
    requires db.actions[actionId].status == Pending
    requires db.actions[actionId].entityType == TaskEntity && db.actions[actionId].actionType == Update
    requires db.actions[actionId].entityId.Some? && db.actions[actionId].entityId.value in db.tasks
    requires db.actions[actionId].entityId.value != ""
    requires db.actions[actionId].payload == [("title", JNull)]
    ensures ConfirmAction(db, actionId, "", now) == Err(NotNull("title", "tasks"))
  {
    var written := SetField([("title", JNull)], "updatedAt", JStr(now));
    assert written == [("title", JNull), ("updatedAt", JStr(now))];
    assert MemberNullError(TasksTable, written[0]) == Some(NotNull("title", "tasks"));
  }

  /** Reading a column of an updated row: the new value when the update
      sets one, the old one otherwise, and nothing for a column the row
      does not have. */
  lemma {:induction false} GetSetColumns(row: Row, updates: Row, k: string)
    ensures Get(SetColumns(row, updates), k)
      == if Get(row, k).Some? then Some(Get(updates, k).GetOr(Get(row, k).value)) else None
    decreases |row|
  {
    if |row| > 0 {
      assert SetColumns(row, updates)[1..] == SetColumns(row[1..], updates);
      GetSetColumns(row[1..], updates, k);
    }
  }

  /** An update the table accepts leaves a row it held with members it
      accepts. */
  lemma SetColumnsAccepted(t: Table, row: Row, written: Row)
    requires RowError(t, row).None? && RowError(t, written).None?
    ensures RowError(t, SetColumns(row, written)).None?
  {
    var updated := SetColumns(row, written);
    forall i | 0 <= i < |updated|
      ensures Accepted(t, updated[i])
    {
      assert Accepted(t, row[i]);
      match Get(written, row[i].0)
      case None =>
      case Some(v) =>
        var j :| 0 <= j < |written| && written[j] == (row[i].0, v);
        assert Accepted(t, written[j]);
    }
  }

  /** ... and names a known project when both the row and the update do. */
  lemma SetColumnsRef(db: Db, t: Table, row: Row, written: Row)
    requires RefError(db, t, row).None? && RefError(db, t, written).None?
    ensures RefError(db, t, SetColumns(row, written)).None?
  {
    if t.projectRef.Some? {
      GetSetColumns(row, written, t.projectRef.value.0);
    }
  }

  lemma SetColumnsValid(db: Db, t: Table, row: Row, written: Row)
    requires ValidRow(db, t, row) && ValidRow(db, t, written)
    ensures ValidRow(db, t, SetColumns(row, written))
  {
    SetColumnsAccepted(t, row, written);
    SetColumnsRef(db, t, row, written);
  }

  /** Whether a row is valid depends on the database only through which
      projects exist. */
  lemma ValidRowSameProjects(db: Db, db': Db, t: Table, row: Row)
    requires db'.projects.Keys == db.projects.Keys
    ensures ValidRow(db', t, row) == ValidRow(db, t, row)
  {
    match t.projectRef
    case None =>
    case Some((p, _)) =>
      match Get(row, p)
      case Some(JStr(s)) =>
        assert KnownProject(db', s) == KnownProject(db, s);
      case _ =>
  }

  /** Updating a row of a valid table with values it accepts keeps the table
      valid. */
  lemma UpdateKeepsValid(db: Db, t: Table, table: map<string, Row>, id: string, payload: Row, now: string)
    requires forall k :: k in table ==> ValidRow(db, t, table[k])
    requires UpdateRow(db, t, table, id, payload, now).Ok?
    ensures var table' := UpdateRow(db, t, table, id, payload, now).value.0;
      table'.Keys == table.Keys && forall k :: k in table' ==> ValidRow(db, t, table'[k])
  {
    if id in table {
      var written := SetField(payload, "updatedAt", JStr(now));
      SetColumnsValid(db, t, table[id], written);
    }
  }

  /** Performing a write the database accepts keeps every table holding
      only rows the database would hold. */
  lemma ExecuteKeepsTablesValid(db: Db, a: Action, newId: string, now: string)
    requires ValidTables(db)
    requires Execute(db, a, newId, now).Ok?
    ensures ValidTables(Execute(db, a, newId, now).value.db)
  {
    var target := Truthy(a.entityId);
    if a.entityType == TaskEntity && a.actionType == Create {
      CreateKeepsValid(db, a, newId, now);
    } else if target.Some? && a.actionType == Update && a.entityType in {TaskEntity, ProjectEntity, GoalEntity} {
      UpdateActionKeepsValid(db, a, newId, now);
    }
  }

  lemma CreateKeepsValid(db: Db, a: Action, newId: string, now: string)
    requires ValidTables(db)
    requires a.entityType == TaskEntity && a.actionType == Create
    requires Execute(db, a, newId, now).Ok?
    ensures ValidTables(Execute(db, a, newId, now).value.db)
  {
    var row := NewTaskRow(a.payload, newId, now);
    assert ValidRow(db, TasksTable, row) && Execute(db, a, newId, now).value.db == db.(tasks := db.tasks[newId := row]);
    InsertKeepsValid(db, newId, row);
  }

  lemma InsertKeepsValid(db: Db, id: string, row: Row)
    requires ValidTables(db) && ValidRow(db, TasksTable, row)
    ensures ValidTables(db.(tasks := db.tasks[id := row]))
  {
    TasksReplacedKeepValid(db, db.tasks[id := row]);
  }

  lemma UpdateActionKeepsValid(db: Db, a: Action, newId: string, now: string)
    requires ValidTables(db)
    requires Truthy(a.entityId).Some? && a.actionType == Update
    requires a.entityType in {TaskEntity, ProjectEntity, GoalEntity}
    requires Execute(db, a, newId, now).Ok?
    ensures ValidTables(Execute(db, a, newId, now).value.db)
  {
    var id := Truthy(a.entityId).value;
    if a.entityType == TaskEntity {
      var u := UpdateRow(db, TasksTable, db.tasks, id, a.payload, now);
      assert u.Ok? && Execute(db, a, newId, now).value.db == db.(tasks := u.value.0);
      UpdateKeepsValid(db, TasksTable, db.tasks, id, a.payload, now);
      TasksReplacedKeepValid(db, u.value.0);
    } else if a.entityType == ProjectEntity {
      var u := UpdateRow(db, ProjectsTable, db.projects, id, a.payload, now);
      assert u.Ok? && Execute(db, a, newId, now).value.db == db.(projects := u.value.0);
      UpdateKeepsValid(db, ProjectsTable, db.projects, id, a.payload, now);
      ProjectUpdateKeepsValid(db, db.(projects := u.value.0));
    } else {
      var u := UpdateRow(db, GoalsTable, db.goals, id, a.payload, now);
      assert u.Ok? && Execute(db, a, newId, now).value.db == db.(goals := u.value.0);
      UpdateKeepsValid(db, GoalsTable, db.goals, id, a.payload, now);
      GoalsReplacedKeepValid(db, u.value.0);
    }
  }

  lemma TasksReplacedKeepValid(db: Db, tasks: map<string, Row>)
    requires ValidTables(db)
    requires forall k :: k in tasks ==> ValidRow(db, TasksTable, tasks[k])
    ensures ValidTables(db.(tasks := tasks))
  {
    var db' := db.(tasks := tasks);
    forall k | k in db'.tasks ensures ValidRow(db', TasksTable, db'.tasks[k]) {
      ValidRowSameProjects(db, db', TasksTable, db'.tasks[k]);
    }
    forall k | k in db'.projects ensures ValidRow(db', ProjectsTable, db'.projects[k]) {
      ValidRowSameProjects(db, db', ProjectsTable, db'.projects[k]);
    }
    forall k | k in db'.goals ensures ValidRow(db', GoalsTable, db'.goals[k]) {
      ValidRowSameProjects(db, db', GoalsTable, db'.goals[k]);
    }
  }

  lemma GoalsReplacedKeepValid(db: Db, goals: map<string, Row>)
    requires ValidTables(db)
    requires forall k :: k in goals ==> ValidRow(db, GoalsTable, goals[k])
    ensures ValidTables(db.(goals := goals))
  {
    var db' := db.(goals := goals);
    forall k | k in db'.tasks ensures ValidRow(db', TasksTable, db'.tasks[k]) {
      ValidRowSameProjects(db, db', TasksTable, db'.tasks[k]);
    }
    forall k | k in db'.projects ensures ValidRow(db', ProjectsTable, db'.projects[k]) {
      ValidRowSameProjects(db, db', ProjectsTable, db'.projects[k]);
    }
    forall k | k in db'.goals ensures ValidRow(db', GoalsTable, db'.goals[k]) {
      ValidRowSameProjects(db, db', GoalsTable, db'.goals[k]);
    }
  }

  /** Rows stay valid when only the projects' rows change, to rows valid
      before, and the project ids stay the same. */
  lemma ProjectUpdateKeepsValid(db: Db, db': Db)
    requires ValidTables(db)
    requires forall k :: k in db'.projects ==> ValidRow(db, ProjectsTable, db'.projects[k])
    requires db'.projects.Keys == db.projects.Keys
    requires db' == db.(projects := db'.projects)
    ensures ValidTables(db')
  {
    forall k | k in db'.tasks ensures ValidRow(db', TasksTable, db'.tasks[k]) {
      ValidRowSameProjects(db, db', TasksTable, db'.tasks[k]);
    }
    forall k | k in db'.projects ensures ValidRow(db', ProjectsTable, db'.projects[k]) {
      ValidRowSameProjects(db, db', ProjectsTable, db'.projects[k]);
    }
    forall k | k in db'.goals ensures ValidRow(db', GoalsTable, db'.goals[k]) {
      ValidRowSameProjects(db, db', GoalsTable, db'.goals[k]);
    }
  }

  /** Confirming an action keeps every table holding only rows the database
      would hold. */
  lemma ConfirmKeepsTablesValid(db: Db, actionId: string, newId: string, now: string)
    requires ValidTables(db)
    requires ConfirmAction(db, actionId, newId, now).Ok?
    ensures ValidTables(ConfirmAction(db, actionId, newId, now).value.1)
  {
    var a := db.actions[actionId];
    ExecuteKeepsTablesValid(db, a, newId, now);
  }

  // ---------------------------------------------------------------------------
  // revertAction
  // ---------------------------------------------------------------------------

  /** `revertAction(actionId)`. */
  function RevertAction(db: Db, actionId: string, now: string): (r: Result<(Action, Db), ActionError>)
    ensures actionId !in db.actions ==> r == Err(NotFound)
    ensures actionId in db.actions && db.actions[actionId].status != Confirmed ==> r == Err(NotConfirmed)
    ensures actionId in db.actions && db.actions[actionId].status == Confirmed
      && db.actions[actionId].snapshotBefore.None? && db.actions[actionId].actionType != Create
      ==> r == Err(NoSnapshot)
    ensures r.Ok? ==>
      var (a, db') := r.value;
      && actionId in db.actions && db.actions[actionId].status == Confirmed
      && a == db.actions[actionId].(status := Reverted, revertedAt := Some(now))
      && db'.actions == db.actions[actionId := a]
      && db'.projects == db.projects && db'.goals == db.goals
  {
    if actionId !in db.actions then Err(NotFound)
    else
      var a := db.actions[actionId];
      if a.status != Confirmed then Err(NotConfirmed)
      else if a.snapshotBefore.None? && a.actionType != Create then Err(NoSnapshot)
      else
        var target := Truthy(a.entityId);
        var tasks :=
          if a.entityType != TaskEntity || target.None? then Ok(db.tasks)
          else
            var id := target.value;
            match a.actionType
            case Create => Ok(db.tasks - {id})
            case Update =>
              if id in db.tasks then
                Ok(db.tasks[id := SetColumns(db.tasks[id], SetField(a.snapshotBefore.value, "updatedAt", JStr(now)))])
              else Ok(db.tasks)
            case Delete =>
              var before := a.snapshotBefore.value;
              match Get(before, "id")
              case Some(JStr(key)) =>
                if key in db.tasks then Err(DuplicateKey) else Ok(db.tasks[key := before])
              case _ => Err(DuplicateKey);
        match tasks
        case Err(e) => Err(e)
        case Ok(t) =>
          var a' := a.(status := Reverted, revertedAt := Some(now));
          Ok((a', db.(tasks := t, actions := db.actions[actionId := a'])))
  }

  /** Every row is stored under the id it carries. */
  predicate WellKeyed(table: map<string, Row>) {
    forall k :: k in table ==> Get(table[k], "id") == Some(JStr(k))
  }

  /** Reverting a confirmed task `create` deletes the task it inserted, so the
      task table is back to what it was. */
  lemma RevertUndoesCreate(db: Db, actionId: string, newId: string, now1: string, now2: string)
    requires actionId in db.actions
    requires db.actions[actionId].status == Pending
    requires db.actions[actionId].entityType == TaskEntity && db.actions[actionId].actionType == Create
    requires newId != "" && newId !in db.tasks
    requires ValidRow(db, TasksTable, NewTaskRow(db.actions[actionId].payload, newId, now1))
    ensures ConfirmAction(db, actionId, newId, now1).Ok?
    ensures
      var db1 := ConfirmAction(db, actionId, newId, now1).value.1;
      var r := RevertAction(db1, actionId, now2);
      r.Ok? && r.value.1.tasks == db.tasks && r.value.0.status == Reverted
  {
    ConfirmCreateDefaults(db, actionId, newId, now1);
    var db1 := ConfirmAction(db, actionId, newId, now1).value.1;
    RevertCreateRemoves(db1, actionId, newId, now2);
    RemoveInserted(db.tasks, newId, db1.tasks[newId]);
  }

  /** Removing a key just inserted gives back the map it was inserted into. */
  lemma RemoveInserted<K, V>(m: map<K, V>, k: K, v: V)
    requires k !in m
    ensures m[k := v] - {k} == m
  {
  }

  /** Reverting a confirmed task `create` removes the task under its id and
      touches no other task. */
  lemma RevertCreateRemoves(db: Db, actionId: string, id: string, now: string)
    requires actionId in db.actions
    requires db.actions[actionId].status == Confirmed
    requires db.actions[actionId].entityType == TaskEntity && db.actions[actionId].actionType == Create
    requires db.actions[actionId].entityId == Some(id) && id != ""
    ensures RevertAction(db, actionId, now).Ok?
    ensures RevertAction(db, actionId, now).value.1.tasks == db.tasks - {id}
    ensures RevertAction(db, actionId, now).value.0.status == Reverted
  {
  }

  /** Reverting a confirmed task `delete` inserts the snapshot again, so the
      task table is back to what it was. */
  lemma RevertUndoesDelete(db: Db, actionId: string, now1: string, now2: string)
    requires actionId in db.actions
    requires WellKeyed(db.tasks)
    requires db.actions[actionId].status == Pending
    requires db.actions[actionId].entityType == TaskEntity && db.actions[actionId].actionType == Delete
    requires db.actions[actionId].entityId.Some? && db.actions[actionId].entityId.value in db.tasks
    requires db.actions[actionId].entityId.value != ""
    ensures ConfirmAction(db, actionId, "", now1).Ok?
    ensures
      var db1 := ConfirmAction(db, actionId, "", now1).value.1;
      var r := RevertAction(db1, actionId, now2);
      r.Ok? && r.value.1.tasks == db.tasks && r.value.0.status == Reverted
  {
    var id := db.actions[actionId].entityId.value;
    var db1 := ConfirmAction(db, actionId, "", now1).value.1;
    assert db1.tasks == db.tasks - {id};
    assert (db.tasks - {id})[id := db.tasks[id]] == db.tasks;
  }

  /** Confirming a task `update` the table accepts writes the payload over
      the task and keeps the task as it was as the snapshot. */
  lemma ConfirmUpdateWrites(db: Db, actionId: string, now: string)
    requires actionId in db.actions
    requires db.actions[actionId].status == Pending
    requires db.actions[actionId].entityType == TaskEntity && db.actions[actionId].actionType == Update
    requires db.actions[actionId].entityId.Some? && db.actions[actionId].entityId.value in db.tasks
    requires db.actions[actionId].entityId.value != ""
    requires ValidRow(db, TasksTable, SetField(db.actions[actionId].payload, "updatedAt", JStr(now)))
    ensures ConfirmAction(db, actionId, "", now).Ok?
    ensures
      var id := db.actions[actionId].entityId.value;
      var (a, db') := ConfirmAction(db, actionId, "", now).value;
      && a.status == Confirmed && a.entityId == Some(id) && a.snapshotBefore == Some(db.tasks[id])
      && a.entityType == TaskEntity && a.actionType == Update
      && db'.tasks == db.tasks[id := SetColumns(db.tasks[id], SetField(db.actions[actionId].payload, "updatedAt", JStr(now)))]
  {
    var written := SetField(db.actions[actionId].payload, "updatedAt", JStr(now));
    assert InputErrorOf(TasksTable, written).None? by {
      forall i | 0 <= i < |written|
        ensures MemberInputError(TasksTable, written[i]).None?
      {
        assert Accepted(TasksTable, written[i]);
      }
    }
  }

  /** Reverting a confirmed task `update` writes its snapshot over the task. */
  lemma RevertUpdateWrites(db: Db, actionId: string, now: string)
    requires actionId in db.actions
    requires db.actions[actionId].status == Confirmed
    requires db.actions[actionId].entityType == TaskEntity && db.actions[actionId].actionType == Update
    requires db.actions[actionId].entityId.Some? && db.actions[actionId].entityId.value in db.tasks
    requires db.actions[actionId].entityId.value != ""
    requires db.actions[actionId].snapshotBefore.Some?
    ensures RevertAction(db, actionId, now).Ok?
    ensures
      var id := db.actions[actionId].entityId.value;
      var (a, db') := RevertAction(db, actionId, now).value;
      && a.status == Reverted
      && db'.tasks == db.tasks[id := SetColumns(db.tasks[id],
           SetField(db.actions[actionId].snapshotBefore.value, "updatedAt", JStr(now)))]
  {
  }

  /** Writing a row's own values back over any row with the same columns
      gives every column other than `updatedAt` its old value. */
  lemma WriteBackRestores(before: Row, current: Row, now: string)
    requires DistinctKeys(before) && |current| == |before|
    requires forall i :: 0 <= i < |before| ==> current[i].0 == before[i].0
    ensures var restored := SetColumns(current, SetField(before, "updatedAt", JStr(now)));
      && |restored| == |before|
      && (forall i :: 0 <= i < |before| ==> restored[i].0 == before[i].0)
      && (forall i :: 0 <= i < |before| && before[i].0 != "updatedAt" ==> restored[i].1 == before[i].1)
  {
    var restored := SetColumns(current, SetField(before, "updatedAt", JStr(now)));
    forall i | 0 <= i < |before| && before[i].0 != "updatedAt"
      ensures restored[i].1 == before[i].1
    {
      GetAt(before, i);
    }
  }

  /** Reverting a confirmed task `update` writes the snapshot back: every
      column other than `updatedAt` has its value from before the update. */
  lemma RevertUndoesUpdate(db: Db, actionId: string, now1: string, now2: string)
    requires actionId in db.actions
    requires db.actions[actionId].status == Pending
    requires db.actions[actionId].entityType == TaskEntity && db.actions[actionId].actionType == Update
    requires db.actions[actionId].entityId.Some? && db.actions[actionId].entityId.value in db.tasks
    requires db.actions[actionId].entityId.value != ""
    requires DistinctKeys(db.tasks[db.actions[actionId].entityId.value])
    requires ValidRow(db, TasksTable, SetField(db.actions[actionId].payload, "updatedAt", JStr(now1)))
    ensures ConfirmAction(db, actionId, "", now1).Ok?
    ensures
      var id := db.actions[actionId].entityId.value;
      var before := db.tasks[id];
      var db1 := ConfirmAction(db, actionId, "", now1).value.1;
      var r := RevertAction(db1, actionId, now2);
      && r.Ok? && r.value.0.status == Reverted
      && id in r.value.1.tasks
      && r.value.1.tasks == db.tasks[id := r.value.1.tasks[id]]
      && |r.value.1.tasks[id]| == |before|
      && (forall i :: 0 <= i < |before| ==> r.value.1.tasks[id][i].0 == before[i].0)
      && (forall i :: 0 <= i < |before| && before[i].0 != "updatedAt" ==> r.value.1.tasks[id][i].1 == before[i].1)
  {
    var id := db.actions[actionId].entityId.value;
    var before := db.tasks[id];
    ConfirmUpdateWrites(db, actionId, now1);
    var db1 := ConfirmAction(db, actionId, "", now1).value.1;
    RevertAfterUpdate(db, db1, actionId, id, now2);
  }

  /** The revert half of `RevertUndoesUpdate`, about any state in which the
      update has been confirmed. */
  lemma RevertAfterUpdate(db: Db, db1: Db, actionId: string, id: string, now: string)
    requires id in db.tasks && DistinctKeys(db.tasks[id]) && id != ""
    requires actionId in db1.actions
    requires db1.actions[actionId].status == Confirmed
    requires db1.actions[actionId].entityType == TaskEntity && db1.actions[actionId].actionType == Update
    requires db1.actions[actionId].entityId == Some(id) && id in db1.tasks
    requires db1.actions[actionId].snapshotBefore == Some(db.tasks[id])
    requires |db1.tasks[id]| == |db.tasks[id]|
    requires forall i :: 0 <= i < |db.tasks[id]| ==> db1.tasks[id][i].0 == db.tasks[id][i].0
    requires forall k :: k in db.tasks && k != id ==> k in db1.tasks && db1.tasks[k] == db.tasks[k]
    requires db1.tasks.Keys == db.tasks.Keys
    ensures
      var before := db.tasks[id];
      var r := RevertAction(db1, actionId, now);
      && r.Ok? && r.value.0.status == Reverted
      && id in r.value.1.tasks
      && r.value.1.tasks == db.tasks[id := r.value.1.tasks[id]]
      && |r.value.1.tasks[id]| == |before|
      && (forall i :: 0 <= i < |before| ==> r.value.1.tasks[id][i].0 == before[i].0)
      && (forall i :: 0 <= i < |before| && before[i].0 != "updatedAt" ==> r.value.1.tasks[id][i].1 == before[i].1)
  {
    RevertUpdateWrites(db1, actionId, now);
    WriteBackRestores(db.tasks[id], db1.tasks[id], now);
  }

  /** The statuses an action can move between: confirming and reverting
      follow `pending -> confirmed -> reverted`, and rejecting is allowed from
      any state. */
  predicate Allowed(from: Status, to: Status) {
    (from == Pending && to == Confirmed) || (from == Confirmed && to == Reverted) || to == Rejected
  }

  /** Every operation moves the action it names along an allowed step and
      leaves the other actions alone. */
  lemma TransitionsAllowed(db: Db, actionId: string, newId: string, now: string)
    ensures ConfirmAction(db, actionId, newId, now).Ok? ==>
      Allowed(db.actions[actionId].status, ConfirmAction(db, actionId, newId, now).value.0.status)
    ensures RevertAction(db, actionId, now).Ok? ==>
      Allowed(db.actions[actionId].status, RevertAction(db, actionId, now).value.0.status)
    ensures actionId in db.actions ==>
      Allowed(db.actions[actionId].status, RejectAction(db, actionId).0.value.status)
    ensures RevertAction(db, actionId, now).Ok? ==> db.actions[actionId].status == Confirmed
  {
  }

  // ---------------------------------------------------------------------------
  // getOrCreateThread
  // ---------------------------------------------------------------------------

  /** A row of `ai_threads` as this action reads it: anchored to an entity
      of a kind. */
  datatype Thread = Thread(id: string, anchorEntityType: Option<string>, anchorEntityId: Option<string>,
                           title: Option<string>, createdAt: string, updatedAt: string)

  /** `existing.find(t => t.anchorEntityType === anchorType)` over the
      threads with the anchor id. */
  function FindAnchored(threads: seq<Thread>, anchorType: string, anchorId: string): (r: Option<nat>)
    ensures r.Some? ==>
      (r.value < |threads| && threads[r.value].anchorEntityId == Some(anchorId)
       && threads[r.value].anchorEntityType == Some(anchorType))
    ensures r.Some? ==> forall k :: 0 <= k < r.value ==>
      !(threads[k].anchorEntityId == Some(anchorId) && threads[k].anchorEntityType == Some(anchorType))
    ensures r.None? ==> forall k :: 0 <= k < |threads| ==>
      !(threads[k].anchorEntityId == Some(anchorId) && threads[k].anchorEntityType == Some(anchorType))
    decreases |threads|
  {
    if |threads| == 0 then None
    else if threads[0].anchorEntityId == Some(anchorId) && threads[0].anchorEntityType == Some(anchorType) then Some(0)
    else
      match FindAnchored(threads[1..], anchorType, anchorId)
      case Some(k) => Some(k + 1)
      case None => None
  }

  /** `getOrCreateThread(anchorType, anchorId)`: the first thread anchored to
      both, when both are given; otherwise a new thread with `id`. */
  function GetOrCreateThread(threads: seq<Thread>, anchorType: Option<string>, anchorId: Option<string>,
                             id: string, now: string): (r: (Thread, seq<Thread>))
    ensures r.1 == threads || r.1 == threads + [r.0]
    ensures r.1 == threads ==> r.0 in threads && r.0.anchorEntityType == anchorType && r.0.anchorEntityId == anchorId
    ensures r.1 != threads ==>
      && r.0 == Thread(id, Truthy(anchorType), Truthy(anchorId), None, now, now)
      && (Truthy(anchorType).Some? && Truthy(anchorId).Some? ==>
            forall k :: 0 <= k < |threads| ==>
              !(threads[k].anchorEntityId == anchorId && threads[k].anchorEntityType == anchorType))
  {
    var found :=
      if Truthy(anchorType).Some? && Truthy(anchorId).Some?
      then FindAnchored(threads, anchorType.value, anchorId.value) else None;
    match found
    case Some(k) => (threads[k], threads)
    case None =>
      var t := Thread(id, Truthy(anchorType), Truthy(anchorId), None, now, now);
      assert threads + [t] != threads by { assert |threads + [t]| != |threads|; }
      (t, threads + [t])
  }
}

=== FILE: ai_tools.dfy ===
/** The assistant's tools (apps/journey/src/lib/ai/tools.ts) and what the
    server does with a call (apps/journey/src/lib/ai/tool-executor.ts): read
    tools run at once against the tables, write tools are only described and
    wait for the user's confirmation. The tables are the rows a `select`
    returns, in that order. */
module AiTools {
  import opened Base
  import opened Text
  import opened Json
  import opened Uuid

  /** The arguments of a call, parsed from its JSON text. */
  type Args = seq<(string, Json)>

  // ---------------------------------------------------------------------------
  // Tool definitions
  // ---------------------------------------------------------------------------

  /** A function tool offered to the model: its name, the parameters its
      schema declares and the ones it requires. */
  datatype ToolDef = ToolDef(name: string, parameters: seq<string>, required: seq<string>)

  const ReadTools: seq<ToolDef> := [
    ToolDef("searchTasks", ["query", "status", "domain", "projectId"], []),
    ToolDef("getTask", ["taskId"], ["taskId"]),
    ToolDef("getProject", ["projectId"], ["projectId"]),
    ToolDef("getGoals", ["horizon", "status"], [])
  ]

  const WriteTools: seq<ToolDef> := [
    ToolDef("updateTask", ["taskId", "title", "description", "status", "domain", "priority"], ["taskId"]),
    ToolDef("createTask", ["title", "description", "domain", "projectId", "priority", "status"], ["title"]),
    ToolDef("deleteTask", ["taskId"], ["taskId"]),
    ToolDef("updateProject", ["projectId", "name", "description", "goals", "status"], ["projectId"])
  ]

  const AllTools: seq<ToolDef> := ReadTools + WriteTools

  const WriteToolNames: seq<string> := ["updateTask", "createTask", "deleteTask", "updateProject"]
  const ReadToolNames: seq<string> := ["searchTasks", "getTask", "getProject", "getGoals"]

  function Names(tools: seq<ToolDef>): (ns: seq<string>)
    ensures |ns| == |tools|
    ensures forall i :: 0 <= i < |tools| ==> ns[i] == tools[i].name
  {
    seq(|tools|, i requires 0 <= i < |tools| => tools[i].name)
  }

  /** `isWriteTool(name)`: the name list, not the definitions, decides; the
      two agree. */
  function IsWriteTool(name: string): (r: bool)
    ensures r <==> exists i :: 0 <= i < |WriteTools| && WriteTools[i].name == name
  {
    assert Names(WriteTools) == WriteToolNames;
    name in WriteToolNames
  }

  /** The name lists are the names of the definitions, in order; no name is
      offered twice; every required parameter is declared. */
  lemma ToolListsAgree()
    ensures Names(ReadTools) == ReadToolNames && Names(WriteTools) == WriteToolNames
    ensures Names(AllTools) == ReadToolNames + WriteToolNames
    ensures forall i, j :: 0 <= i < j < |AllTools| ==> AllTools[i].name != AllTools[j].name
    ensures forall i :: 0 <= i < |AllTools| ==>
      forall k :: 0 <= k < |AllTools[i].required| ==> AllTools[i].required[k] in AllTools[i].parameters
  {
  }

  /** A read tool is never a write tool. */
  lemma ReadToolsAreNotWriteTools(name: string)
    requires name in ReadToolNames
    ensures !IsWriteTool(name)
  {
  }

  // ---------------------------------------------------------------------------
  // executeReadTool
  // ---------------------------------------------------------------------------

  datatype TaskRec = TaskRec(id: string, title: string, status: string, domain: Option<string>,
                             projectId: Option<string>)
  datatype ProjectRec = ProjectRec(id: string, name: string, status: string)
  datatype GoalRec = GoalRec(id: string, title: string, horizon: string, status: string)

  datatype Tables = Tables(tasks: seq<TaskRec>, projects: seq<ProjectRec>, goals: seq<GoalRec>)

  datatype ToolData =
    | TaskList(tasks: seq<TaskRec>)
    | OneTask(task: TaskRec)
    | ProjectList(projects: seq<ProjectRec>)
    | ProjectWithTasks(project: ProjectRec, projectTasks: seq<TaskRec>)
    | GoalList(goals: seq<GoalRec>)

  /** `{ success: true, data }` or `{ success: false, error }`. A query
      whose parameter the database (or its driver) refuses ends in the
      catch block's `{ success: false, error: String(error) }`; that text is
      the driver's, which is not part of this model, so `QueryRefused`
      records only the parameter that caused it. */
  datatype ToolResult = Success(data: ToolData) | Failure(error: string) | QueryRefused(param: Option<Json>)

  /** `col === args[key]`: a string column equals the argument only when the
      argument is that same string. */
  predicate StrictEq(col: Option<string>, arg: Option<Json>) {
    col.Some? && arg == Some(JStr(col.value))
  }

  /** What the catch block reports when `query` is truthy but not a string:
      `String(error)` of the `TypeError` that calling `toLowerCase` throws. */
  const QueryTypeError := "TypeError: args.query.toLowerCase is not a function"

  /** A row passes the `status`, `domain` and `projectId` filters: each
      applies only when its argument is truthy. */
  predicate FieldsMatch(args: Args, t: TaskRec) {
    var st := Get(args, "status");
    var dom := Get(args, "domain");
    var pid := Get(args, "projectId");
    && (JsTruthyOpt(st) ==> StrictEq(Some(t.status), st))
    && (JsTruthyOpt(dom) ==> StrictEq(t.domain, dom))
    && (JsTruthyOpt(pid) ==> StrictEq(t.projectId, pid))
  }

  /** A row survives every `searchTasks` filter: the field filters and, when
      `query` is truthy, a case-insensitive substring test on the title. */
  predicate Selects(args: Args, t: TaskRec) {
    var q := Get(args, "query");
    && FieldsMatch(args, t)
    && (JsTruthyOpt(q) ==> q.value.JStr? && Contains(Lower(t.title), Lower(q.value.s)))
  }

  /** `if (cond) rows = rows.filter(p)`. */
  function FilterIf<T(==,!new)>(cond: bool, rows: seq<T>, p: T -> bool): (r: seq<T>)
    ensures !cond ==> r == rows
  {
    if cond then Filter(rows, p) else rows
  }

  /** The three field filters of `searchTasks`, applied one after another. */
  function FieldFiltered(tasks: seq<TaskRec>, args: Args): seq<TaskRec> {
    var st := Get(args, "status");
    var dom := Get(args, "domain");
    var pid := Get(args, "projectId");
    var s1 := FilterIf(JsTruthyOpt(st), tasks, (t: TaskRec) => StrictEq(Some(t.status), st));
    var s2 := FilterIf(JsTruthyOpt(dom), s1, (t: TaskRec) => StrictEq(t.domain, dom));
    FilterIf(JsTruthyOpt(pid), s2, (t: TaskRec) => StrictEq(t.projectId, pid))
  }

  function SearchTasks(tasks: seq<TaskRec>, args: Args): (r: ToolResult)
    ensures r.Success? ==> r.data.TaskList?
    ensures r.Failure? ==> r.error == QueryTypeError
  {
    var q := Get(args, "query");
    var rows := FieldFiltered(tasks, args);
    if !JsTruthyOpt(q) then Success(TaskList(rows))
    else if !q.value.JStr? then Failure(QueryTypeError)
    else
      var term := Lower(q.value.s);
      Success(TaskList(Filter(rows, (t: TaskRec) => Contains(Lower(t.title), term))))
  }

  /** `if (c) rows = rows.filter(p)` is a filter by `!c || p`. */
  lemma FilterIfIsFilter<T(!new)>(cond: bool, rows: seq<T>, p: T -> bool, p': T -> bool)
    requires forall x :: p'(x) == (cond ==> p(x))
    ensures FilterIf(cond, rows, p) == Filter(rows, p')
  {
    if cond {
      FilterSame(rows, p, p');
    } else {
      FilterAll(rows, p');
    }
  }

  /** The chained field filters are one filter by their conjunction. */
  lemma FieldFilteredSelects(tasks: seq<TaskRec>, args: Args)
    ensures FieldFiltered(tasks, args) == Filter(tasks, (t: TaskRec) => FieldsMatch(args, t))
  {
    var st := Get(args, "status");
    var dom := Get(args, "domain");
    var pid := Get(args, "projectId");
    var f1 := (t: TaskRec) => StrictEq(Some(t.status), st);
    var f2 := (t: TaskRec) => StrictEq(t.domain, dom);
    var f3 := (t: TaskRec) => StrictEq(t.projectId, pid);
    var g1 := (t: TaskRec) => JsTruthyOpt(st) ==> f1(t);
    var g2 := (t: TaskRec) => JsTruthyOpt(dom) ==> f2(t);
    var g3 := (t: TaskRec) => JsTruthyOpt(pid) ==> f3(t);
    var g12 := (t: TaskRec) => g1(t) && g2(t);
    var s1 := FilterIf(JsTruthyOpt(st), tasks, f1);
    var s2 := FilterIf(JsTruthyOpt(dom), s1, f2);
    FilterIfIsFilter(JsTruthyOpt(st), tasks, f1, g1);
    FilterIfIsFilter(JsTruthyOpt(dom), s1, f2, g2);
    FilterIfIsFilter(JsTruthyOpt(pid), s2, f3, g3);
    FilterFilter(tasks, g1, g2, g12);
    FilterFilter(tasks, g12, g3, (t: TaskRec) => FieldsMatch(args, t));
  }

  /** `searchTasks` returns exactly the rows every supplied filter accepts, in
      table order, unless `query` is truthy and not a string. */
  lemma SearchTasksSelects(tasks: seq<TaskRec>, args: Args)
    ensures var q := Get(args, "query");
      SearchTasks(tasks, args) ==
        if JsTruthyOpt(q) && !q.value.JStr? then Failure(QueryTypeError)
        else Success(TaskList(Filter(tasks, (t: TaskRec) => Selects(args, t))))
  {
    var q := Get(args, "query");
    var fields := (t: TaskRec) => FieldsMatch(args, t);
    FieldFilteredSelects(tasks, args);
    if !JsTruthyOpt(q) {
      FilterSame(tasks, fields, (t: TaskRec) => Selects(args, t));
    } else if q.value.JStr? {
      var term := Lower(q.value.s);
      FilterFilter(tasks, fields, (t: TaskRec) => Contains(Lower(t.title), term), (t: TaskRec) => Selects(args, t));
    }
  }

  /** A parameter for a uuid column that makes the query fail: `null`
      matches no row and text spelling a uuid is that uuid, while an absent
      argument (`undefined`), any other type and any other text are refused.
      (Numbers, booleans, arrays and objects reach the database as text that
      is never a uuid.) */
  predicate RefusedId(arg: Option<Json>) {
    arg != Some(JNull) && !(arg.Some? && arg.value.JStr? && IsUuid(arg.value.s))
  }

  /** `col = arg` on a uuid column: both denote the same uuid. */
  predicate UuidEq(col: Option<string>, arg: Option<Json>) {
    col.Some? && arg.Some? && arg.value.JStr? && SameUuid(col.value, arg.value.s)
  }

  /** `getTask`: the query on `tasks.id` fails for a refused id; otherwise
      the task with that uuid, or "Task not found". */
  function GetTask(tasks: seq<TaskRec>, args: Args): (r: ToolResult)
    ensures r.QueryRefused? <==> RefusedId(Get(args, "taskId"))
    ensures r.QueryRefused? ==> r.param == Get(args, "taskId")
    ensures r.Failure? <==>
      !RefusedId(Get(args, "taskId")) && forall i :: 0 <= i < |tasks| ==> !UuidEq(Some(tasks[i].id), Get(args, "taskId"))
    ensures r.Failure? ==> r.error == "Task not found"
    ensures r.Success? ==>
      (r.data.OneTask? && r.data.task in tasks && UuidEq(Some(r.data.task.id), Get(args, "taskId")))
  {
    var arg := Get(args, "taskId");
    if RefusedId(arg) then QueryRefused(arg)
    else match FindIndex(tasks, (t: TaskRec) => UuidEq(Some(t.id), arg))
    case None => Failure("Task not found")
    case Some(i) => Success(OneTask(tasks[i]))
  }

  /** A task is found by the id the database prints for it. */
  lemma GetTaskByPrintedId(tasks: seq<TaskRec>, i: nat, d: string)
    requires i < |tasks| && |d| == 32 && LowerHex(d) && tasks[i].id == Canonical(d)
    ensures GetTask(tasks, [("taskId", JStr(Canonical(d)))]).Success?
  {
    CanonicalReadsBack(d);
    assert UuidEq(Some(tasks[i].id), Get([("taskId", JStr(Canonical(d)))], "taskId"));
  }

  /** A task id that is not a uuid fails the query rather than finding
      nothing. */
  lemma ShortTaskIdRefused(tasks: seq<TaskRec>)
    ensures GetTask(tasks, [("taskId", JStr("3"))]) == QueryRefused(Some(JStr("3")))
  {
    ShortTextRefused();
  }

  function GetProjects(projects: seq<ProjectRec>, args: Args): (r: ToolResult)
    ensures r.Success? && r.data.ProjectList?
    ensures forall p :: p in r.data.projects <==>
      p in projects && (JsTruthyOpt(Get(args, "status")) ==> Get(args, "status") == Some(JStr(p.status)))
  {
    var st := Get(args, "status");
    Success(ProjectList(FilterIf(JsTruthyOpt(st), projects, (p: ProjectRec) => StrictEq(Some(p.status), st))))
  }

  /** `getProject`: the queries on `projects.id` and `tasks.project_id`
      fail for a refused id; otherwise the project with that uuid and the
      tasks that point to it, or "Project not found". */
  function GetProject(t: Tables, args: Args): (r: ToolResult)
    ensures r.QueryRefused? <==> RefusedId(Get(args, "projectId"))
    ensures r.QueryRefused? ==> r.param == Get(args, "projectId")
    ensures r.Failure? <==>
      !RefusedId(Get(args, "projectId"))
      && forall i :: 0 <= i < |t.projects| ==> !UuidEq(Some(t.projects[i].id), Get(args, "projectId"))
    ensures r.Failure? ==> r.error == "Project not found"
    ensures r.Success? ==>
      (&& r.data.ProjectWithTasks? && r.data.project in t.projects
       && UuidEq(Some(r.data.project.id), Get(args, "projectId"))
       && forall x :: x in r.data.projectTasks <==> x in t.tasks && UuidEq(x.projectId, Get(args, "projectId")))
  {
    var arg := Get(args, "projectId");
    if RefusedId(arg) then QueryRefused(arg)
    else match FindIndex(t.projects, (p: ProjectRec) => UuidEq(Some(p.id), arg))
    case None => Failure("Project not found")
    case Some(i) => Success(ProjectWithTasks(t.projects[i], Filter(t.tasks, (x: TaskRec) => UuidEq(x.projectId, arg))))
  }

  function GetGoals(goals: seq<GoalRec>, args: Args): (r: ToolResult)
    ensures r.Success? && r.data.GoalList?
    ensures forall g :: g in r.data.goals <==>
      && g in goals
      && (JsTruthyOpt(Get(args, "horizon")) ==> Get(args, "horizon") == Some(JStr(g.horizon)))
      && (JsTruthyOpt(Get(args, "status")) ==> Get(args, "status") == Some(JStr(g.status)))
  {
    var hz := Get(args, "horizon");
    var st := Get(args, "status");
    var s1 := FilterIf(JsTruthyOpt(hz), goals, (g: GoalRec) => StrictEq(Some(g.horizon), hz));
    Success(GoalList(FilterIf(JsTruthyOpt(st), s1, (g: GoalRec) => StrictEq(Some(g.status), st))))
  }

  /** `executeReadTool(name, args)`. It also serves `getProjects`, which no
      tool definition offers. */
  function ExecuteReadTool(t: Tables, name: string, args: Args): (r: ToolResult)
    ensures name !in ReadToolNames && name != "getProjects" <==> r == Failure("Unknown tool: " + name)
  {
    if name == "searchTasks" then SearchTasks(t.tasks, args)
    else if name == "getTask" then GetTask(t.tasks, args)
    else if name == "getProjects" then GetProjects(t.projects, args)
    else if name == "getProject" then GetProject(t, args)
    else if name == "getGoals" then GetGoals(t.goals, args)
    else Failure("Unknown tool: " + name)
  }

  // ---------------------------------------------------------------------------
  // describeWriteAction
  // ---------------------------------------------------------------------------

  /** `${k}: ${v}` for one argument. */
  function Change(entry: (string, Json)): string {
    entry.0 + ": " + JsString(entry.1)
  }

  /** The arguments other than `idKey`, each as `${k}: ${v}`, in argument
      order. */
  function Changes(args: Args, idKey: string): (parts: seq<string>)
    ensures forall i :: 0 <= i < |args| && args[i].0 != idKey ==> Change(args[i]) in parts
    ensures forall p :: p in parts ==> exists i :: 0 <= i < |args| && args[i].0 != idKey && p == Change(args[i])
    decreases |args|
  {
    if |args| == 0 then []
    else
      var rest := Changes(args[1..], idKey);
      assert forall i :: 1 <= i < |args| ==> args[i] == args[1..][i - 1];
      if args[0].0 != idKey then [Change(args[0])] + rest else rest
  }

  /** The argument naming the entity a write tool changes. */
  function TargetKey(name: string): string {
    if name == "updateTask" || name == "deleteTask" then "taskId"
    else if name == "updateProject" then "projectId"
    else "title"
  }

  function DescribeWriteAction(name: string, args: Args): string {
    var target := JsStringOpt(Get(args, TargetKey(name)));
    if name == "updateTask" then "Update task " + target + ": " + Join(Changes(args, "taskId"), ", ")
    else if name == "createTask" then "Create task: \"" + target + "\""
    else if name == "deleteTask" then "Delete task " + target
    else if name == "updateProject" then "Update project " + target + ": " + Join(Changes(args, "projectId"), ", ")
    else name + ": " + Stringify(JObj(args))
  }

  /** Text in the middle of a concatenation occurs in it. */
  lemma ContainsMiddle(a: string, b: string, c: string)
    ensures Contains(a + b + c, b)
  {
    assert OccursAt(b, b, 0);
    ContainsConcat(b, c, b);
    ContainsConcat(a, b + c, b);
    assert a + b + c == a + (b + c);
  }

  /** The shape of an update's description: the head, then every change. */
  lemma UpdateDescription(head: string, parts: seq<string>)
    ensures IsPrefix(head, head + Join(parts, ", "))
    ensures forall k :: 0 <= k < |parts| ==> Contains(head + Join(parts, ", "), parts[k])
  {
    forall k | 0 <= k < |parts|
      ensures Contains(head + Join(parts, ", "), parts[k])
    {
      JoinContains(parts, ", ", k);
      ContainsConcat(head, Join(parts, ", "), parts[k]);
    }
  }

  /** The description of an update, spelled out. */
  lemma UpdateDescriptionIs(name: string, args: Args)
    requires name == "updateTask" || name == "updateProject"
    ensures DescribeWriteAction(name, args) ==
      (if name == "updateTask" then "Update task " else "Update project ")
      + JsStringOpt(Get(args, TargetKey(name))) + ": " + Join(Changes(args, TargetKey(name)), ", ")
  {
  }

  /** A head `verb target: ` followed by the changes shows the target and
      every change. */
  lemma HeadThenChanges(verb: string, target: string, args: Args, idKey: string)
    ensures var d := verb + target + ": " + Join(Changes(args, idKey), ", ");
      && IsPrefix(verb + target + ": ", d)
      && Contains(d, target)
      && forall i :: 0 <= i < |args| && args[i].0 != idKey ==> Contains(d, Change(args[i]))
  {
    var joined := Join(Changes(args, idKey), ", ");
    UpdateDescription(verb + target + ": ", Changes(args, idKey));
    ContainsMiddle(verb, target, ": " + joined);
    assert verb + target + ": " + joined == verb + target + (": " + joined);
    ChangesListed(args, idKey, verb + target + ": ");
  }

  /** An update lists every argument other than its target. */
  lemma DescribeUpdateListsChanges(name: string, args: Args)
    requires name == "updateTask" || name == "updateProject"
    ensures var d := DescribeWriteAction(name, args);
      var verb := if name == "updateTask" then "Update task " else "Update project ";
      var target := JsStringOpt(Get(args, TargetKey(name)));
      && IsPrefix(verb + target + ": ", d)
      && Contains(d, target)
      && forall i :: 0 <= i < |args| && args[i].0 != TargetKey(name) ==> Contains(d, Change(args[i]))
  {
    var verb := if name == "updateTask" then "Update task " else "Update project ";
    UpdateDescriptionIs(name, args);
    HeadThenChanges(verb, JsStringOpt(Get(args, TargetKey(name))), args, TargetKey(name));
  }

  /** Each change of `Changes` occurs in a head followed by their join. */
  lemma ChangesListed(args: Args, idKey: string, head: string)
    ensures forall i :: 0 <= i < |args| && args[i].0 != idKey ==>
      Contains(head + Join(Changes(args, idKey), ", "), Change(args[i]))
  {
    var parts := Changes(args, idKey);
    UpdateDescription(head, parts);
    forall i | 0 <= i < |args| && args[i].0 != idKey
      ensures Contains(head + Join(parts, ", "), Change(args[i]))
    {
      var k :| 0 <= k < |parts| && parts[k] == Change(args[i]);
    }
  }

  /** Every description of a write tool shows its target: the id, or the
      title of a task to create. */
  lemma DescribeShowsTarget(name: string, args: Args)
    requires name in WriteToolNames
    ensures Contains(DescribeWriteAction(name, args), JsStringOpt(Get(args, TargetKey(name))))
  {
    var target := JsStringOpt(Get(args, TargetKey(name)));
    if name == "updateTask" || name == "updateProject" {
      DescribeUpdateListsChanges(name, args);
    } else if name == "createTask" {
      ContainsMiddle("Create task: \"", target, "\"");
    } else {
      ContainsMiddle("Delete task ", target, "");
      assert "Delete task " + target + "" == "Delete task " + target;
    }
  }
}

=== FILE: anchor_migration.dfy ===
/** The one-off migration of chat threads from entity anchors to page-path
    anchors (apps/journey/scripts/migrate-anchor-path.ts): which rows it
    rewrites, the path each anchor becomes, and the table it leaves. The
    database is a value; the console output is not modelled. */
module AnchorMigration {
  import opened Base
  import opened Text

  /** A thread row before the migration. `anchorPath` is `None` when the
      column is missing or the row was never migrated. */
  datatype OldThread = OldThread(id: string, anchorType: Option<string>, anchorId: Option<string>,
                                 anchorPath: Option<string>, title: Option<string>,
                                 createdAt: string, updatedAt: string)

  /** A thread row in the new schema. */
  datatype NewThread = NewThread(id: string, anchorPath: Option<string>, title: Option<string>,
                                 createdAt: string, updatedAt: string)

  /** The table: which columns it has, and its rows. */
  datatype Table =
    | OldTable(hasAnchorPath: bool, hasEntityColumns: bool, rows: seq<OldThread>)
    | NewTable(newRows: seq<NewThread>)

  /** What a run ends with. A failed run still leaves the table it altered
      before it failed. */
  datatype Outcome =
    | AlreadyMigrated
    | Migrated(table: Table, migrated: nat)
    | Failed(table: Table, message: string)

  /** `${v}` of a nullable column: a null prints as "null". */
  function Show(v: Option<string>): string {
    match v
    case None => "null"
    case Some(s) => s
  }

  /** The path an entity anchor becomes. */
  function AnchorPath(anchorType: Option<string>, anchorId: Option<string>): (path: string)
    ensures anchorType.None? || anchorType == Some("") ==> path == "/projects"
    ensures anchorType == Some("journal") ==> path == "/journal"
    ensures anchorType.Some? && anchorType.value != "" && anchorType.value != "journal" ==>
      path == "/" + anchorType.value + "s/" + Show(anchorId)
    ensures |path| > 0 && path[0] == '/'
  {
    if anchorType.None? || anchorType.value == "" then "/projects"
    else if anchorType.value == "journal" then "/journal"
    else "/" + anchorType.value + "s/" + Show(anchorId)
  }

  /** The entity a detail-page path names: `/projects/<id>`, `/tasks/<id>`
      or `/goals/<id>`. */
  function EntityOfPath(path: string): (r: Option<(string, string)>)
    ensures r.Some? ==> r.value.0 in ["project", "task", "goal"]
  {
    if IsPrefix("/projects/", path) then Some(("project", path[10..]))
    else if IsPrefix("/tasks/", path) then Some(("task", path[7..]))
    else if IsPrefix("/goals/", path) then Some(("goal", path[7..]))
    else None
  }

  /** The path of a project, task or goal anchor names that entity again, so
      no two such anchors share a thread path. */
  lemma AnchorPathRoundTrip(kind: string, id: string)
    requires kind in ["project", "task", "goal"]
    ensures EntityOfPath(AnchorPath(Some(kind), Some(id))) == Some((kind, id))
  {
    var p := AnchorPath(Some(kind), Some(id));
    if kind == "project" {
      assert p == "/projects/" + id;
      assert IsPrefix("/projects/", p);
      assert p[10..] == id;
    } else if kind == "task" {
      assert p == "/tasks/" + id;
      assert !IsPrefix("/projects/", p) by { assert p[1] != "/projects/"[1]; }
      assert IsPrefix("/tasks/", p);
      assert p[7..] == id;
    } else {
      assert p == "/goals/" + id;
      assert !IsPrefix("/projects/", p) by { assert p[1] != "/projects/"[1]; }
      assert !IsPrefix("/tasks/", p) by { assert p[1] != "/tasks/"[1]; }
      assert IsPrefix("/goals/", p);
      assert p[7..] == id;
    }
  }

  /** The row after the data step: a row still without a path gets its
      anchor's path; a row that has one keeps it. */
  function FillPath(t: OldThread): (r: OldThread)
    ensures r.anchorPath.Some?
    ensures t.anchorPath.Some? ==> r == t
    ensures t.anchorPath.None? ==> r == t.(anchorPath := Some(AnchorPath(t.anchorType, t.anchorId)))
  {
    if t.anchorPath.None? then t.(anchorPath := Some(AnchorPath(t.anchorType, t.anchorId))) else t
  }

  /** The copy into the new table, which keeps only the new columns. */
  function Project(t: OldThread): NewThread {
    NewThread(t.id, t.anchorPath, t.title, t.createdAt, t.updatedAt)
  }

  function CountUnmigrated(rows: seq<OldThread>): (n: nat)
    ensures n <= |rows|
  {
    |Filter(rows, (t: OldThread) => t.anchorPath.None?)|
  }

  /** How far a table is from the new schema: the steps a run still takes
      on it. */
  function Stage(table: Table): nat {
    match table
    case NewTable(_) => 0
    case OldTable(hasPath, hasEntity, _) => (if hasEntity then 2 else 0) + (if hasPath then 0 else 1)
  }

  /** The migration. A table that already has the path column and not the
      entity columns is left alone. A table with neither gets the path
      column, which is committed, and then fails on the entity columns. A
      run that migrates or fails leaves a table the next run reports as
      already migrated. */
  function Migrate(table: Table): (r: Outcome)
    ensures table.NewTable? ==> r == AlreadyMigrated
    ensures table.OldTable? && table.hasAnchorPath && !table.hasEntityColumns ==> r == AlreadyMigrated
    ensures table.OldTable? && !table.hasAnchorPath && !table.hasEntityColumns ==>
      && r.Failed? && r.table.OldTable? && r.table.hasAnchorPath && !r.table.hasEntityColumns
      && |r.table.rows| == |table.rows|
      && (forall k :: 0 <= k < |table.rows| ==> r.table.rows[k] == table.rows[k].(anchorPath := None))
    ensures table.OldTable? && table.hasEntityColumns ==>
      && r.Migrated? && r.table.NewTable?
      && |r.table.newRows| == |table.rows|
      && (forall k :: 0 <= k < |table.rows| ==>
            var before := table.rows[k];
            var row := r.table.newRows[k];
            && row.id == before.id && row.title == before.title
            && row.createdAt == before.createdAt && row.updatedAt == before.updatedAt
            && row.anchorPath.Some?
            && (table.hasAnchorPath && before.anchorPath.Some? ==> row.anchorPath == before.anchorPath)
            && (!table.hasAnchorPath || before.anchorPath.None? ==>
                  row.anchorPath == Some(AnchorPath(before.anchorType, before.anchorId))))
    ensures r.Migrated? <==> table.OldTable? && table.hasEntityColumns
    ensures r.Failed? <==> table.OldTable? && !table.hasAnchorPath && !table.hasEntityColumns
    ensures r.Migrated? || r.Failed? ==> Migrate(r.table) == AlreadyMigrated
    decreases Stage(table)
  {
    match table
    case NewTable(_) => AlreadyMigrated
    case OldTable(hasPath, hasEntity, rows) =>
      if hasPath && !hasEntity then AlreadyMigrated
      else
        var current := if hasPath then rows else seq(|rows|, k requires 0 <= k < |rows| => rows[k].(anchorPath := None));
        if !hasEntity then Failed(OldTable(true, false, current), "no such column: anchor_entity_type")
        else
          var filled := seq(|current|, k requires 0 <= k < |current| => FillPath(current[k]));
          var copied := seq(|filled|, k requires 0 <= k < |filled| => Project(filled[k]));
          Migrated(NewTable(copied), CountUnmigrated(current))
  }

  /** The count it reports is the number of rows that had no path: every
      row when the path column is new. */
  lemma MigratedCount(table: Table)
    requires table.OldTable? && table.hasEntityColumns
    ensures table.hasAnchorPath ==> Migrate(table).migrated == CountUnmigrated(table.rows)
    ensures !table.hasAnchorPath ==> Migrate(table).migrated == |table.rows|
  {
    if !table.hasAnchorPath {
      var rows := table.rows;
      var current := seq(|rows|, k requires 0 <= k < |rows| => rows[k].(anchorPath := None));
      FilterAll(current, (t: OldThread) => t.anchorPath.None?);
    }
  }
}

=== FILE: autocomplete.dfy ===
/** The universal mention autocomplete
    (apps/journey/src/components/mentions/universal-autocomplete.tsx): the
    four result groups flattened for the keyboard, the selection moved by
    the arrow keys, and the result Enter or Tab picks. The search itself is
    `MentionActions.RunAllSearch`; here its answer is an input. */
module Autocomplete {
  import opened Base
  import opened MentionTypes
  import opened MentionActions

  /** A result with its position in the flattened list. */
  datatype FlatResult = FlatResult(result: SearchResult, groupIndex: int)

  /** The groups in display order: tasks, projects, goals, memories. */
  function Concat(g: Grouped): (all: seq<SearchResult>)
    ensures |all| == |g.tasks| + |g.projects| + |g.goals| + |g.memories|
  {
    g.tasks + g.projects + g.goals + g.memories
  }

  /** Where each group starts in the flattened list (`renderGroup`'s
      `startIndex`), for groups 0 to 3. */
  function StartIndex(g: Grouped, group: nat): (start: nat)
    requires group < 4
    ensures group == 0 ==> start == 0
    ensures group > 0 ==> start == StartIndex(g, group - 1) + |GroupItems(g, group - 1)|
  {
    if group == 0 then 0
    else if group == 1 then |g.tasks|
    else if group == 2 then |g.tasks| + |g.projects|
    else |g.tasks| + |g.projects| + |g.goals|
  }

  function GroupItems(g: Grouped, group: nat): seq<SearchResult>
    requires group < 4
  {
    if group == 0 then g.tasks
    else if group == 1 then g.projects
    else if group == 2 then g.goals
    else g.memories
  }

  /** A group's results, each tagged with its flattened position. */
  function Tagged(items: seq<SearchResult>, start: int): (r: seq<FlatResult>)
    ensures |r| == |items|
    ensures forall i :: 0 <= i < |items| ==> r[i] == FlatResult(items[i], start + i)
  {
    seq(|items|, i requires 0 <= i < |items| => FlatResult(items[i], start + i))
  }

  /** `flatResults`: every result once, in display order, its `groupIndex`
      its own position. */
  function Flatten(g: Grouped): (flat: seq<FlatResult>)
    ensures |flat| == |Concat(g)|
    ensures forall k :: 0 <= k < |flat| ==> flat[k].groupIndex == k && flat[k].result == Concat(g)[k]
  {
    Tagged(g.tasks, StartIndex(g, 0)) + Tagged(g.projects, StartIndex(g, 1))
      + Tagged(g.goals, StartIndex(g, 2)) + Tagged(g.memories, StartIndex(g, 3))
  }

  /** The row a group draws at `startIndex + index` is the result Enter
      would pick at that position, so the highlighted row and the keyboard
      selection agree. */
  lemma RenderAgreesWithFlatten(g: Grouped, group: nat, index: nat)
    requires group < 4 && index < |GroupItems(g, group)|
    ensures StartIndex(g, group) + index < |Flatten(g)|
    ensures Flatten(g)[StartIndex(g, group) + index].result == GroupItems(g, group)[index]
  {
    ConcatAt(g, group, index);
  }

  lemma ConcatAt(g: Grouped, group: nat, index: nat)
    requires group < 4 && index < |GroupItems(g, group)|
    ensures StartIndex(g, group) + index < |Concat(g)|
    ensures Concat(g)[StartIndex(g, group) + index] == GroupItems(g, group)[index]
  {
    var a, b, c, d := g.tasks, g.projects, g.goals, g.memories;
    if group == 0 {
      AppendAt(a, b + c + d, 0, index);
    } else if group == 1 {
      AppendAt(a + b, c + d, |a|, index);
    } else if group == 2 {
      AppendAt(a + b + c, d, |a| + |b|, index);
    } else {
      AppendAt(a + b + c, d, |a| + |b| + |c|, index);
    }
  }

  /** Indexing into the middle of `x + y`, where `x` ends with the part
      starting at `start`. */
  lemma AppendAt<T>(x: seq<T>, y: seq<T>, start: nat, index: nat)
    requires start + index < |x + y|
    ensures (x + y)[start + index] == if start + index < |x| then x[start + index] else y[start + index - |x|]
  {
  }

  // ---------------------------------------------------------------------------
  // Keyboard
  // ---------------------------------------------------------------------------

  datatype Key = ArrowDown | ArrowUp | Enter | Tab | Escape | OtherKey

  /** What a key press does: the new selection, the result handed to
      `onSelect`, and whether `onClose` is called. */
  datatype KeyEffect = KeyEffect(selected: int, chosen: Option<SearchResult>, close: bool)

  /** `Math.min(prev + 1, totalResults - 1)` and `Math.max(prev - 1, 0)`. */
  function Step(total: nat, selected: int, key: Key): (next: int)
    ensures key == ArrowDown ==> next <= total - 1 && (next == selected + 1 || next == total - 1)
    ensures key == ArrowUp ==> next >= 0 && (next == selected - 1 || next == 0)
    ensures key != ArrowDown && key != ArrowUp ==> next == selected
  {
    match key
    case ArrowDown => if selected + 1 < total - 1 then selected + 1 else total - 1
    case ArrowUp => if selected - 1 > 0 then selected - 1 else 0
    case _ => selected
  }

  function HandleKey(flat: seq<FlatResult>, selected: int, key: Key): (e: KeyEffect)
    ensures e.selected == Step(|flat|, selected, key)
    ensures e.close <==> key == Escape
    ensures e.chosen.Some? <==> (key == Enter || key == Tab) && 0 <= selected < |flat|
    ensures e.chosen.Some? ==> e.chosen.value == flat[selected].result
  {
    var next := Step(|flat|, selected, key);
    match key
    case Enter => KeyEffect(next, Pick(flat, selected), false)
    case Tab => KeyEffect(next, Pick(flat, selected), false)
    case Escape => KeyEffect(next, None, true)
    case _ => KeyEffect(next, None, false)
  }

  /** `flatResults[selectedIndex]`, which is `undefined` outside the list. */
  function Pick(flat: seq<FlatResult>, selected: int): (r: Option<SearchResult>)
    ensures r.Some? <==> 0 <= selected < |flat|
    ensures r.Some? ==> r.value == flat[selected].result
  {
    if 0 <= selected < |flat| then Some(flat[selected].result) else None
  }

  /** The selection after a run of key presses. */
  function Navigate(total: nat, selected: int, keys: seq<Key>): int
    decreases |keys|
  {
    if |keys| == 0 then selected else Navigate(total, Step(total, selected, keys[0]), keys[1..])
  }

  /** With results on screen and the selection on one of them, arrow keys
      never move it off the list. */
  lemma {:induction false} NavigateStaysInRange(total: nat, selected: int, keys: seq<Key>)
    requires 0 <= selected < total
    ensures 0 <= Navigate(total, selected, keys) < total
    decreases |keys|
  {
    if |keys| > 0 {
      NavigateStaysInRange(total, Step(total, selected, keys[0]), keys[1..]);
    }
  }

  /** So after fresh results (selection 0) and any key presses, Enter picks
      a result whenever there is one. */
  lemma EnterPicksAfterNavigation(g: Grouped, keys: seq<Key>)
    requires |Flatten(g)| > 0
    ensures HandleKey(Flatten(g), Navigate(|Flatten(g)|, 0, keys), Enter).chosen.Some?
  {
    NavigateStaysInRange(|Flatten(g)|, 0, keys);
  }

  /** With no results, ArrowDown sets the selection (0, or -1 after an
      earlier ArrowDown) to -1, and Enter then picks nothing. */
  lemma EmptyListArrowDown(selected: int)
    requires selected >= -1
    ensures Step(0, selected, ArrowDown) == -1
    ensures Pick([], Step(0, selected, ArrowDown)).None?
  {
  }

  // ---------------------------------------------------------------------------
  // Results arriving
  // ---------------------------------------------------------------------------

  datatype View = View(results: Grouped, loading: bool, selected: int)

  const NoResults: Grouped := Grouped([], [], [], [])

  /** The effect that fetches results for a query, with `answer` the search's
      outcome and `cancelled` whether the query changed meanwhile. */
  function ReceiveResults(v: View, answer: Result<Grouped, string>, cancelled: bool): (r: View)
    ensures cancelled ==> r == v.(loading := true)
    ensures !cancelled && answer.Ok? ==> r == View(answer.value, false, 0)
    ensures !cancelled && answer.Err? ==> r == View(NoResults, false, v.selected)
  {
    var started := v.(loading := true);
    if cancelled then started
    else match answer
      case Ok(data) => View(data, false, 0)
      case Err(_) => View(NoResults, false, started.selected)
  }

  /** Moving the pointer over a row selects it. */
  function Hover(v: View, group: nat, index: nat): (r: View)
    requires group < 4 && index < |GroupItems(v.results, group)|
    ensures 0 <= r.selected < |Flatten(v.results)|
    ensures Flatten(v.results)[r.selected].result == GroupItems(v.results, group)[index]
    ensures r.(selected := v.selected) == v
  {
    RenderAgreesWithFlatten(v.results, group, index);
    v.(selected := StartIndex(v.results, group) + index)
  }

  /** The placeholder under the input. */
  function Placeholder(v: View, query: string): (r: Option<string>)
    ensures v.loading ==> r == Some("Searching...")
    ensures !v.loading && |Flatten(v.results)| > 0 ==> r.None?
    ensures !v.loading && |Flatten(v.results)| == 0 ==>
      r == Some(if query != "" then "No results found" else "Type to search tasks, projects, goals, and memories")
  {
    if v.loading then Some("Searching...")
    else if |Flatten(v.results)| > 0 then None
    else if query != "" then Some("No results found")
    else Some("Type to search tasks, projects, goals, and memories")
  }
}

=== FILE: base.dfy ===
/** Optional values and results with an error payload, shared by every module. */
module Base {

  datatype Option<+T> = None | Some(value: T) {

    /** The wrapped value, or `default` when there is none. */
    function GetOr(default: T): T {
      match this
      case Some(v) => v
      case None => default
    }
  }

  datatype Result<+T, +E> = Ok(value: T) | Err(error: E)

  /** `s.map(f)`: `f` of each element, in order. */
  function Map<A, B>(s: seq<A>, f: A -> B): (r: seq<B>)
    ensures |r| == |s|
    ensures forall k :: 0 <= k < |s| ==> r[k] == f(s[k])
  {
    seq(|s|, k requires 0 <= k < |s| => f(s[k]))
  }

  /** `s.filter(p)`: the elements `p` selects, in their order. */
  function Filter<T(==,!new)>(s: seq<T>, p: T -> bool): (r: seq<T>)
    ensures |r| <= |s|
    ensures forall x :: x in r <==> x in s && p(x)
    decreases |s|
  {
    if |s| == 0 then []
    else if p(s[0]) then [s[0]] + Filter(s[1..], p)
    else Filter(s[1..], p)
  }

  /** Filters that select the same elements give the same result. */
  lemma {:induction false} FilterSame<T(!new)>(s: seq<T>, p: T -> bool, q: T -> bool)
    requires forall x :: p(x) == q(x)
    ensures Filter(s, p) == Filter(s, q)
    decreases |s|
  {
    if |s| > 0 {
      FilterSame(s[1..], p, q);
    }
  }

  /** Filtering twice is filtering once by the conjunction. */
  lemma {:induction false} FilterFilter<T(!new)>(s: seq<T>, p: T -> bool, q: T -> bool, pq: T -> bool)
    requires forall x :: pq(x) == (p(x) && q(x))
    ensures Filter(Filter(s, p), q) == Filter(s, pq)
    decreases |s|
  {
    if |s| > 0 {
      FilterFilter(s[1..], p, q, pq);
      if p(s[0]) {
        assert Filter(s, p) == [s[0]] + Filter(s[1..], p);
        assert ([s[0]] + Filter(s[1..], p))[1..] == Filter(s[1..], p);
      }
    }
  }

  /** A filter that selects everything changes nothing. */
  lemma {:induction false} FilterAll<T(!new)>(s: seq<T>, p: T -> bool)
    requires forall i :: 0 <= i < |s| ==> p(s[i])
    ensures Filter(s, p) == s
    decreases |s|
  {
    if |s| > 0 {
      FilterAll(s[1..], p);
      assert [s[0]] + s[1..] == s;
    }
  }

  /** SQL's `LIMIT n`: the first `n` elements, or all of them when there
      are fewer. */
  function Take<T>(s: seq<T>, n: nat): (r: seq<T>)
    ensures |r| == (if n < |s| then n else |s|)
    ensures forall k :: 0 <= k < |r| ==> r[k] == s[k]
  {
    if n < |s| then s[..n] else s
  }

  /** Taking `n + 1` elements of a sequence with a head takes the head and
      `n` elements of the rest. */
  lemma TakeCons<T>(x: T, s: seq<T>, n: nat)
    ensures Take([x] + s, n + 1) == [x] + Take(s, n)
  {
    if n < |s| {
      assert ([x] + s)[..n + 1] == [x] + s[..n];
    }
  }

  /** `s.findIndex(p)`, with "not found" as `None`. */
  function FindIndex<T>(s: seq<T>, p: T -> bool): (r: Option<nat>)
    ensures r.Some? ==> r.value < |s| && p(s[r.value])
    ensures r.Some? ==> forall j :: 0 <= j < r.value ==> !p(s[j])
    ensures r.None? ==> forall j :: 0 <= j < |s| ==> !p(s[j])
  {
    FindFrom(s, p, 0)
  }

  function FindFrom<T>(s: seq<T>, p: T -> bool, i: nat): (r: Option<nat>)
    requires i <= |s|
    requires forall j :: 0 <= j < i ==> !p(s[j])
    ensures r.Some? ==> i <= r.value < |s| && p(s[r.value])
    ensures r.Some? ==> forall j :: 0 <= j < r.value ==> !p(s[j])
    ensures r.None? ==> forall j :: 0 <= j < |s| ==> !p(s[j])
    decreases |s| - i
  {
    if i == |s| then None
    else if p(s[i]) then Some(i)
    else FindFrom(s, p, i + 1)
  }

  /** Filtering a sequence with one more element at the end. */
  lemma {:induction false} FilterSnoc<T(!new)>(s: seq<T>, x: T, p: T -> bool)
    ensures Filter(s + [x], p) == Filter(s, p) + (if p(x) then [x] else [])
    decreases |s|
  {
    if |s| > 0 {
      assert (s + [x])[1..] == s[1..] + [x];
      FilterSnoc(s[1..], x, p);
    } else {
      assert s + [x] == [x];
    }
  }
}

=== FILE: chat_input.dfy ===
/** The chat box (apps/journey/src/components/ai-chat/chat-input.tsx): the
    mention autocomplete it opens while a `type#` is being typed, the splice
    that replaces the partial mention with the chosen one, sending, and the
    keys it leaves to the autocomplete. The textarea's cursor is an input. */
module ChatInput {
  import opened Base
  import opened Text
  import opened MentionTypes
  import opened MentionParser

  /** The text typed so far and the partial mention the autocomplete is
      open for, if any. */
  datatype Input = Input(message: string, autocomplete: Option<Partial>)

  /** `checkForAutocomplete()`: opens the autocomplete only when the text
      before the cursor ends in a keyword, `#` and digits. */
  function CheckForAutocomplete(s: Input, cursor: int): (r: Input)
    ensures r.message == s.message
    ensures r.autocomplete.Some? ==>
      EndsInPartial(s.message[..SliceEnd(|s.message|, cursor)], r.autocomplete.value.entityType,
                    r.autocomplete.value.query)
  {
    s.(autocomplete := DetectPartialMention(s.message, cursor))
  }

  /** ... and always does then, for the keyword and digits typed. */
  lemma CheckOpensOnPartial(s: Input, cursor: int, t: EntityType, q: string)
    requires EndsInPartial(s.message[..SliceEnd(|s.message|, cursor)], t, q)
    ensures CheckForAutocomplete(s, cursor).autocomplete ==
      Some(Partial(t, q, SliceEnd(|s.message|, cursor) - |q| - 1 - |TypeName(t)|))
  {
    DetectPartialIff(s.message, cursor, t, q);
  }

  // ---------------------------------------------------------------------------
  // Sending
  // ---------------------------------------------------------------------------

  /** `handleSubmit()`: sends the trimmed text unless it is blank or the box
      is disabled, and then empties the box. */
  function Submit(s: Input, disabled: bool): (r: (Input, Option<string>))
    ensures JsTrim(s.message) != "" && !disabled ==> r == (Input("", None), Some(JsTrim(s.message)))
    ensures JsTrim(s.message) == "" || disabled ==> r == (s, None)
    ensures r.1.Some? ==> |r.1.value| > 0 && !IsJsSpace(r.1.value[0]) && !IsJsSpace(r.1.value[|r.1.value| - 1])
  {
    var text := JsTrim(s.message);
    if text != "" && !disabled then (Input("", None), Some(text)) else (s, None)
  }

  // ---------------------------------------------------------------------------
  // Choosing a mention
  // ---------------------------------------------------------------------------

  /** The text that replaces the partial mention: `${entityType}#${shortCode}`. */
  function MentionText(result: SearchResult): (m: string)
    ensures m == TypeName(result.entityType) + "#" + NatToString(result.shortCode)
    ensures |m| > |TypeName(result.entityType)| + 1
  {
    TypeName(result.entityType) + "#" + NatToString(result.shortCode)
  }

  /** `handleSelectMention(result)` with the cursor where the user left it:
      the text from the keyword to the cursor becomes the mention, and the
      cursor moves right after it. Without an open autocomplete nothing
      happens. */
  function SelectMention(s: Input, cursor: nat, result: SearchResult): (r: (Input, Option<nat>))
    requires cursor <= |s.message|
    ensures s.autocomplete.None? ==> r == (s, None)
    ensures s.autocomplete.Some? ==>
      var start := SliceEnd(|s.message|, s.autocomplete.value.startIndex);
      && r.0.message == s.message[..start] + MentionText(result) + s.message[cursor..]
      && r.0.autocomplete.None?
      && r.1 == Some(s.autocomplete.value.startIndex + |MentionText(result)|)
  {
    match s.autocomplete
    case None => (s, None)
    case Some(p) =>
      var mention := MentionText(result);
      var before := s.message[..SliceEnd(|s.message|, p.startIndex)];
      (Input(before + mention + s.message[cursor..], None), Some(p.startIndex + |mention|))
  }

  /** With the autocomplete opened by the partial mention before the cursor,
      the chosen mention takes the partial one's place: the text before the
      keyword and after the cursor are kept, and the new cursor ends the
      mention. */
  lemma SelectReplacesPartial(s: Input, cursor: nat, result: SearchResult)
    requires cursor <= |s.message|
    requires s.autocomplete == DetectPartialMention(s.message, cursor) && s.autocomplete.Some?
    ensures var p := s.autocomplete.value;
      var r := SelectMention(s, cursor, result);
      && p.startIndex <= cursor
      && r.1.value <= |r.0.message|
      && r.0.message[..r.1.value] == s.message[..p.startIndex] + MentionText(result)
      && r.0.message[r.1.value..] == s.message[cursor..]
  {
    var p := s.autocomplete.value;
    var m := MentionText(result);
    var r := SelectMention(s, cursor, result);
    assert SliceEnd(|s.message|, p.startIndex) == p.startIndex;
    assert r.0.message == (s.message[..p.startIndex] + m) + s.message[cursor..];
  }

  /** Right after a choice, the text before the new cursor ends in the whole
      mention, so checking again reopens the autocomplete with the chosen
      short code as its query. */
  lemma SelectReopensAutocomplete(s: Input, cursor: nat, result: SearchResult)
    requires cursor <= |s.message| && Mentionable(result.entityType)
    requires s.autocomplete == DetectPartialMention(s.message, cursor) && s.autocomplete.Some?
    ensures var r := SelectMention(s, cursor, result);
      CheckForAutocomplete(r.0, r.1.value).autocomplete ==
        Some(Partial(result.entityType, NatToString(result.shortCode), s.autocomplete.value.startIndex))
  {
    SelectReplacesPartial(s, cursor, result);
    var p := s.autocomplete.value;
    var r := SelectMention(s, cursor, result);
    var t := result.entityType;
    var code := NatToString(result.shortCode);
    var msg := r.0.message;
    var c := r.1.value;
    var before := msg[..SliceEnd(|msg|, c)];
    var head := s.message[..p.startIndex];
    assert before == head + TypeName(t) + "#" + code;
    PartialOfMention(head, t, code);
    CheckOpensOnPartial(r.0, c, t, code);
  }

  /** Text that ends in a whole mention ends in a partial mention whose
      query is the mention's digits. */
  lemma PartialOfMention(head: string, t: EntityType, code: string)
    requires Mentionable(t) && AllDigits(code)
    ensures EndsInPartial(head + TypeName(t) + "#" + code, t, code)
  {
    var before := head + TypeName(t) + "#" + code;
    TypeNameLetters(t);
    assert MatchesAt(before, |head|, TypeName(t)) by {
      MatchesAtChars(before, |head|, TypeName(t));
      forall k | 0 <= k < |TypeName(t)| ensures LowerChar(before[|head| + k]) == TypeName(t)[k] {
        assert before[|head| + k] == TypeName(t)[k];
      }
    }
    assert before[|before| - |code| - 1] == '#';
    assert before[|before| - |code|..] == code;
  }

  // ---------------------------------------------------------------------------
  // Keys
  // ---------------------------------------------------------------------------

  /** What a key press in the box does. */
  datatype KeyAction = LeaveToAutocomplete | CloseAutocomplete | SubmitMessage | TypeKey

  /** `handleKeyDown`: with the autocomplete open the arrows, Tab and Enter
      belong to it and Escape closes it; otherwise Enter without Shift
      sends. */
  function KeyDown(s: Input, key: string, shift: bool): (a: KeyAction)
    ensures a == LeaveToAutocomplete <==>
      s.autocomplete.Some? && key in ["ArrowDown", "ArrowUp", "Tab", "Enter"]
    ensures a == CloseAutocomplete <==> s.autocomplete.Some? && key == "Escape"
    ensures a == SubmitMessage <==> s.autocomplete.None? && key == "Enter" && !shift
  {
    if s.autocomplete.Some? && key in ["ArrowDown", "ArrowUp", "Tab"] then LeaveToAutocomplete
    else if s.autocomplete.Some? && key == "Enter" then LeaveToAutocomplete
    else if key == "Escape" && s.autocomplete.Some? then CloseAutocomplete
    else if key == "Enter" && !shift then SubmitMessage
    else TypeKey
  }

  /** The state after a key press. */
  function PressKey(s: Input, key: string, shift: bool, disabled: bool): (r: (Input, Option<string>))
    ensures s.autocomplete.Some? ==> r.1.None?
    ensures key == "Escape" ==> r.0.autocomplete.None? && r.0.message == s.message
  {
    match KeyDown(s, key, shift)
    case CloseAutocomplete => (s.(autocomplete := None), None)
    case SubmitMessage => Submit(s, disabled)
    case _ => (s, None)
  }
}

=== FILE: chat_route.dfy ===
/** One turn of the assistant's chat endpoint
    (apps/journey/src/app/api/ai/chat/route.ts): pick the model, run the
    tool-call loop over the completions the language model returns, queue one
    pending action per write call, then create the actions in queue order.
    The completions, the fresh ids and the clock are parameters. */
module ChatRoute {
  import opened Base
  import opened Text
  import opened Json
  import opened AiActions
  import opened AiTools

  // ---------------------------------------------------------------------------
  // Model choice
  // ---------------------------------------------------------------------------

  const AllowedModels: seq<string> := ["gpt-5.2", "gpt-5.2-pro", "gpt-5-mini", "gpt-5-nano"]
  const DefaultModel: string := "gpt-5.2"

  /** The requested model when it is one of the allowed names, else the
      default. */
  function ChooseModel(requested: Option<Json>): (m: string)
    ensures m in AllowedModels
    ensures requested.Some? && requested.value.JStr? && requested.value.s in AllowedModels
      ==> m == requested.value.s
    ensures m != DefaultModel ==> requested == Some(JStr(m))
  {
    if JsTruthyOpt(requested) && requested.value.JStr? && requested.value.s in AllowedModels
    then requested.value.s
    else DefaultModel
  }

  // ---------------------------------------------------------------------------
  // What a write call becomes
  // ---------------------------------------------------------------------------

  /** JavaScript's `s.includes(sub)`, by scanning. */
  predicate Includes(s: string, sub: string)
    decreases |s|
  {
    IsPrefix(sub, s) || (|s| > 0 && Includes(s[1..], sub))
  }

  /** An occurrence in a non-empty text is at its start or in its tail. */
  lemma ContainsShift(s: string, sub: string)
    requires |s| > 0
    ensures Contains(s, sub) <==> IsPrefix(sub, s) || Contains(s[1..], sub)
  {
    if Contains(s[1..], sub) {
      var i :| 0 <= i <= |s[1..]| - |sub| && OccursAt(sub, s[1..], i);
      assert s[1..][i..i + |sub|] == s[i + 1..i + 1 + |sub|];
      assert OccursAt(sub, s, i + 1);
    }
    if IsPrefix(sub, s) {
      assert OccursAt(sub, s, 0);
    }
    if Contains(s, sub) {
      var i :| 0 <= i <= |s| - |sub| && OccursAt(sub, s, i);
      if i > 0 {
        assert s[1..][i - 1..i - 1 + |sub|] == s[i..i + |sub|];
        assert OccursAt(sub, s[1..], i - 1);
      }
    }
  }

  /** The scan finds exactly the occurrences. */
  lemma {:induction false} IncludesIffContains(s: string, sub: string)
    ensures Includes(s, sub) <==> Contains(s, sub)
    decreases |s|
  {
    if |s| > 0 {
      IncludesIffContains(s[1..], sub);
      ContainsShift(s, sub);
    } else {
      if Contains(s, sub) {
        var i :| 0 <= i <= |s| - |sub| && OccursAt(sub, s, i);
        assert |sub| == 0;
      }
      if |sub| == 0 {
        assert OccursAt(sub, s, 0);
      }
    }
  }

  /** `getEntityType(toolName)`: the first kind whose capitalised name the
      tool name includes; a task otherwise. */
  function GetEntityType(toolName: string): ActionEntity {
    if Includes(toolName, "Task") then TaskEntity
    else if Includes(toolName, "Project") then ProjectEntity
    else if Includes(toolName, "Goal") then GoalEntity
    else if Includes(toolName, "Journal") then JournalEntity
    else TaskEntity
  }

  /** `getActionType(toolName)`: by the verb the name starts with; an update
      otherwise. */
  function GetActionType(toolName: string): ActionType {
    if IsPrefix("create", toolName) then Create
    else if IsPrefix("update", toolName) then Update
    else if IsPrefix("delete", toolName) then Delete
    else Update
  }

  /** The verb and the kind each write tool was written for. */
  function IntendedKind(toolName: string): Option<(ActionType, ActionEntity)> {
    if toolName == "updateTask" then Some((Update, TaskEntity))
    else if toolName == "createTask" then Some((Create, TaskEntity))
    else if toolName == "deleteTask" then Some((Delete, TaskEntity))
    else if toolName == "updateProject" then Some((Update, ProjectEntity))
    else None
  }

  /** The name-based classification gives every write tool its intended
      verb and kind. */
  lemma WriteToolsClassified(toolName: string)
    requires IsWriteTool(toolName)
    ensures IntendedKind(toolName) == Some((GetActionType(toolName), GetEntityType(toolName)))
  {
    assert toolName in WriteToolNames by {
      var i :| 0 <= i < |WriteTools| && WriteTools[i].name == toolName;
    }
    if toolName == "updateProject" {
      ProjectKind(toolName);
    } else if toolName == "updateTask" {
      TaskKind("updateTask", Update);
    } else if toolName == "createTask" {
      TaskKind("createTask", Create);
    } else {
      TaskKind("deleteTask", Delete);
    }
  }

  lemma ProjectKind(name: string)
    requires name == "updateProject"
    ensures GetEntityType(name) == ProjectEntity
    ensures GetActionType(name) == Update
  {
    assert name[0] == 'u' && name[..6] == "update" && name[6..] == "Project";
    NotIncludesFirst(name, "Task");
    assert IsPrefix("Project", name[6..]);
    IncludesSuffix(name, 6, "Project");
    assert !IsPrefix("create", name) by {
      assert name[..6][0] != "create"[0];
    }
  }

  /** A six-letter verb followed by `Task`. */
  lemma TaskKind(toolName: string, verb: ActionType)
    requires |toolName| == 10 && toolName[6..] == "Task"
    requires verb == (if toolName[..6] == "create" then Create else if toolName[..6] == "update" then Update
                      else if toolName[..6] == "delete" then Delete else Update)
    ensures GetEntityType(toolName) == TaskEntity
    ensures GetActionType(toolName) == verb
  {
    assert IsPrefix("Task", toolName[6..]);
    IncludesSuffix(toolName, 6, "Task");
  }

  /** A text without the first character of `sub` does not include it. */
  lemma {:induction false} NotIncludesFirst(s: string, sub: string)
    requires |sub| > 0 && sub[0] !in s
    ensures !Includes(s, sub)
    decreases |s|
  {
    if |s| > 0 {
      assert s[0] != sub[0];
      assert forall c :: c in s[1..] ==> c in s;
      NotIncludesFirst(s[1..], sub);
    }
  }

  /** An occurrence in a suffix is an occurrence. */
  lemma {:induction false} IncludesSuffix(s: string, i: nat, sub: string)
    requires i <= |s| && Includes(s[i..], sub)
    ensures Includes(s, sub)
    decreases i
  {
    if i > 0 {
      assert s[1..][i - 1..] == s[i..];
      IncludesSuffix(s[1..], i - 1, sub);
    }
  }

  /** `args.taskId || args.projectId || args.goalId`: the first truthy one,
      else the last one as it is. */
  function PickEntityId(args: Args): (r: Option<Json>)
    ensures JsTruthyOpt(Get(args, "taskId")) ==> r == Get(args, "taskId")
    ensures !JsTruthyOpt(Get(args, "taskId")) && JsTruthyOpt(Get(args, "projectId")) ==> r == Get(args, "projectId")
    ensures !JsTruthyOpt(Get(args, "taskId")) && !JsTruthyOpt(Get(args, "projectId")) ==> r == Get(args, "goalId")
  {
    var t := Get(args, "taskId");
    var p := Get(args, "projectId");
    if JsTruthyOpt(t) then t else if JsTruthyOpt(p) then p else Get(args, "goalId")
  }

  /** One queued write: what `createAction` will be called with. The
      entity id is passed on as the arguments hold it, whatever its type. */
  datatype PendingAction = PendingAction(actionType: ActionType, entityType: ActionEntity, args: Args,
                                         entityId: Option<Json>, description: string, toolName: string)

  /** A tool call of a completion: `type === 'function'` is `isFunction`. */
  datatype ToolCall = ToolCall(id: string, isFunction: bool, name: string, args: Args)

  predicate IsWriteCall(c: ToolCall) {
    c.isFunction && IsWriteTool(c.name)
  }

  function PendingFor(c: ToolCall): PendingAction {
    PendingAction(GetActionType(c.name), GetEntityType(c.name), c.args,
                  PickEntityId(c.args), DescribeWriteAction(c.name, c.args), c.name)
  }

  /** The pending actions for a run of tool calls: one per function call of
      a write tool, in call order; read tools and other call types add
      nothing. */
  function QueuedWrites(calls: seq<ToolCall>): (r: seq<PendingAction>)
    ensures |r| <= |calls|
    ensures forall k :: 0 <= k < |r| ==> IsWriteTool(r[k].toolName)
  {
    var w := Filter(calls, IsWriteCall);
    assert forall k :: 0 <= k < |w| ==> w[k] in w;
    seq(|w|, k requires 0 <= k < |w| => PendingFor(w[k]))
  }

  lemma QueuedWritesSnoc(calls: seq<ToolCall>, c: ToolCall)
    ensures QueuedWrites(calls + [c]) == QueuedWrites(calls) + (if IsWriteCall(c) then [PendingFor(c)] else [])
  {
    FilterSnoc(calls, c, IsWriteCall);
  }

  // ---------------------------------------------------------------------------
  // The tool-call loop
  // ---------------------------------------------------------------------------

  /** One completion: the token counts it reports (`usage?.x`, absent when
      missing or null), its text and its tool calls. */
  datatype Completion = Completion(promptTokens: Option<nat>, completionTokens: Option<nat>,
                                   content: Option<string>, toolCalls: seq<ToolCall>)

  /** All tool calls of a run of completions, in order. */
  function CallsOf(rs: seq<Completion>): seq<ToolCall>
    decreases |rs|
  {
    if |rs| == 0 then [] else CallsOf(rs[..|rs| - 1]) + rs[|rs| - 1].toolCalls
  }

  /** The token totals `x += usage?.x || 0` accumulates. */
  function PromptSum(rs: seq<Completion>): nat
    decreases |rs|
  {
    if |rs| == 0 then 0 else PromptSum(rs[..|rs| - 1]) + rs[|rs| - 1].promptTokens.GetOr(0)
  }

  function CompletionSum(rs: seq<Completion>): nat
    decreases |rs|
  {
    if |rs| == 0 then 0 else CompletionSum(rs[..|rs| - 1]) + rs[|rs| - 1].completionTokens.GetOr(0)
  }

  /** The completion that ends the loop: the first one without tool calls. */
  function FinalIndex(rs: seq<Completion>): (r: Option<nat>)
    ensures r.Some? ==> r.value < |rs| && |rs[r.value].toolCalls| == 0
    ensures r.Some? ==> forall j :: 0 <= j < r.value ==> |rs[j].toolCalls| > 0
    ensures r.None? ==> forall j :: 0 <= j < |rs| ==> |rs[j].toolCalls| > 0
  {
    FindIndex(rs, (c: Completion) => |c.toolCalls| == 0)
  }

  datatype TurnOutcome = TurnOutcome(content: string, pending: seq<PendingAction>,
                                     promptTokens: nat, completionTokens: nat, rounds: nat)

  /** One round's `for (const tc of toolCalls)`: each write-tool call is
      queued as a pending action after the ones already queued. */
  method QueueRound(pending: seq<PendingAction>, before: seq<ToolCall>, calls: seq<ToolCall>)
    returns (r: seq<PendingAction>)
    requires pending == QueuedWrites(before)
    ensures r == QueuedWrites(before + calls)
  {
    r := pending;
    var j := 0;
    assert before + calls[..0] == before;
    while j < |calls|
      invariant 0 <= j <= |calls|
      invariant r == QueuedWrites(before + calls[..j])
    {
      QueuedWritesSnoc(before + calls[..j], calls[j]);
      assert before + calls[..j + 1] == (before + calls[..j]) + [calls[j]];
      if calls[j].isFunction && IsWriteTool(calls[j].name) {
        r := r + [PendingFor(calls[j])];
      }
      j := j + 1;
    }
    assert calls[..j] == calls;
  }

  /** Runs the loop over the completions the model returns, in order. The
      loop ends at the first completion without tool calls; when the given
      completions run out first, there is no outcome. */
  method RunToolLoop(rs: seq<Completion>) returns (r: Option<TurnOutcome>)
    ensures r.Some? <==> FinalIndex(rs).Some?
    ensures r.Some? ==>
      var n := FinalIndex(rs).value;
      && r.value.rounds == n
      && r.value.content == rs[n].content.GetOr("")
      && r.value.pending == QueuedWrites(CallsOf(rs[..n]))
      && r.value.promptTokens == PromptSum(rs[..n + 1])
      && r.value.completionTokens == CompletionSum(rs[..n + 1])
  {
    if |rs| == 0 {
      return None;
    }
    var i := 0;
    var pending: seq<PendingAction> := [];
    var prompt := rs[0].promptTokens.GetOr(0);
    var completion := rs[0].completionTokens.GetOr(0);
    assert rs[..1][..0] == [];
    while |rs[i].toolCalls| > 0
      invariant 0 <= i < |rs|
      invariant forall j :: 0 <= j < i ==> |rs[j].toolCalls| > 0
      invariant pending == QueuedWrites(CallsOf(rs[..i]))
      invariant prompt == PromptSum(rs[..i + 1])
      invariant completion == CompletionSum(rs[..i + 1])
      decreases |rs| - i
    {
      pending := QueueRound(pending, CallsOf(rs[..i]), rs[i].toolCalls);
      assert rs[..i + 1][..i] == rs[..i];
      if i + 1 == |rs| {
        FinalIndexNone(rs);
        return None;
      }
      i := i + 1;
      assert rs[..i + 1][..i] == rs[..i];
      prompt := prompt + rs[i].promptTokens.GetOr(0);
      completion := completion + rs[i].completionTokens.GetOr(0);
    }
    FinalIndexIs(rs, i);
    r := Some(TurnOutcome(rs[i].content.GetOr(""), pending, prompt, completion, i));
  }

  lemma FinalIndexIs(rs: seq<Completion>, n: nat)
    requires n < |rs| && |rs[n].toolCalls| == 0
    requires forall j :: 0 <= j < n ==> |rs[j].toolCalls| > 0
    ensures FinalIndex(rs) == Some(n)
  {
  }

  lemma FinalIndexNone(rs: seq<Completion>)
    requires forall j :: 0 <= j < |rs| ==> |rs[j].toolCalls| > 0
    ensures FinalIndex(rs).None?
  {
  }

  // ---------------------------------------------------------------------------
  // Creating the proposed actions
  // ---------------------------------------------------------------------------

  /** What the response shows of one created action. */
  datatype ProposedAction = ProposedAction(id: string, description: string, toolName: string, args: Args)

  /** The fresh ids are new to the table and to each other. */
  predicate FreshIds(db: Db, ids: seq<string>) {
    && (forall k :: 0 <= k < |ids| ==> ids[k] !in db.actions)
    && (forall j, k :: 0 <= j < k < |ids| ==> ids[j] != ids[k])
  }

  /** The action `createAction` stores for a pending write. */
  predicate StoredAs(a: Action, id: string, messageId: string, p: PendingAction) {
    && a.id == id && a.messageId == messageId && a.status == Pending
    && a.actionType == p.actionType && a.entityType == p.entityType
    && a.payload == p.args && Ok(a.entityId) == EntityIdColumn(p.entityId)
  }

  /** The entity id of every pending write is one the uuid column accepts. */
  predicate AcceptedIds(pending: seq<PendingAction>) {
    forall k :: 0 <= k < |pending| ==> EntityIdColumn(pending[k].entityId).Ok?
  }

  /** The state after the first `k` pending writes became actions. */
  predicate Proposed(db: Db, db': Db, messageId: string, pending: seq<PendingAction>, ids: seq<string>,
                     proposed: seq<ProposedAction>, k: nat)
    requires |ids| == |pending|
  {
    && k <= |pending|
    && |proposed| == k
    && FreshIds(db, ids[..k])
    && AcceptedIds(pending[..k])
    && (forall j :: 0 <= j < k ==>
          proposed[j] == ProposedAction(ids[j], pending[j].description, pending[j].toolName, pending[j].args))
    && (forall j :: 0 <= j < k ==>
          ids[j] in db'.actions && StoredAs(db'.actions[ids[j]], ids[j], messageId, pending[j]))
    && db'.actions.Keys == db.actions.Keys + (set x | x in ids[..k])
    && (forall id :: id in db.actions ==> db'.actions[id] == db.actions[id])
    && db'.tasks == db.tasks && db'.projects == db.projects && db'.goals == db.goals
  }

  /** Before the loop nothing is created. */
  lemma ProposedInit(db: Db, messageId: string, pending: seq<PendingAction>, ids: seq<string>)
    requires |ids| == |pending|
    ensures Proposed(db, db, messageId, pending, ids, [], 0)
  {
    assert ids[..0] == [];
    assert pending[..0] == [];
  }

  /** One more fresh id: new to the table and to the ids before it. */
  lemma FreshStep(db: Db, ids: seq<string>, k: nat)
    requires k < |ids| && FreshIds(db, ids[..k])
    requires ids[k] !in db.actions && ids[k] !in ids[..k]
    ensures FreshIds(db, ids[..k + 1])
  {
    assert ids[..k + 1] == ids[..k] + [ids[k]];
  }

  /** The table's keys grow by the id just used. */
  lemma KeysStep(before: set<string>, after: set<string>, used: seq<string>, id: string)
    requires after == before + (set x | x in used)
    ensures after + {id} == before + (set x | x in used + [id])
  {
    assert (set x | x in used + [id]) == (set x | x in used) + {id};
  }

  /** A created action extends the state by one. */
  lemma ProposedStep(db: Db, db': Db, messageId: string, pending: seq<PendingAction>, ids: seq<string>,
                     proposed: seq<ProposedAction>, k: nat, now: string, a: Action, db2: Db)
    requires |ids| == |pending| && k < |pending|
    requires Proposed(db, db', messageId, pending, ids, proposed, k)
    requires CreateAction(db', ids[k], now, messageId, pending[k].actionType, pending[k].entityType,
                          pending[k].args, pending[k].entityId) == Ok((a, db2))
    ensures Proposed(db, db2, messageId, pending, ids,
                     proposed + [ProposedAction(ids[k], pending[k].description, pending[k].toolName, pending[k].args)],
                     k + 1)
  {
    assert db2 == db'.(actions := db'.actions[ids[k] := a]);
    assert ids[k] !in db'.actions;
    FreshStep(db, ids, k);
    KeysStep(db.actions.Keys, db'.actions.Keys, ids[..k], ids[k]);
    assert ids[..k + 1] == ids[..k] + [ids[k]];
    assert pending[..k + 1] == pending[..k] + [pending[k]];
    assert AcceptedIds(pending[..k + 1]);
    assert StoredAs(a, ids[k], messageId, pending[k]);
  }

  /** A failed insert stops the run: the ids were not fresh or an entity id
      is refused. */
  lemma ProposedClash(db: Db, db': Db, messageId: string, pending: seq<PendingAction>, ids: seq<string>,
                      proposed: seq<ProposedAction>, k: nat, now: string)
    requires |ids| == |pending| && k < |pending|
    requires Proposed(db, db', messageId, pending, ids, proposed, k)
    requires CreateAction(db', ids[k], now, messageId, pending[k].actionType, pending[k].entityType,
                          pending[k].args, pending[k].entityId).Err?
    ensures !FreshIds(db, ids) || !AcceptedIds(pending)
  {
    if EntityIdColumn(pending[k].entityId).Ok? && ids[k] !in db.actions {
      assert ids[k] in ids[..k];
    }
  }

  /** Creates the actions one after another with `ids[k]` for the k-th. A
      failed insert (a duplicate id, or an entity id the uuid column
      refuses) stops the loop: the actions created before it stay, and
      `failure` holds the error. */
  method ProposeActions(db: Db, messageId: string, pending: seq<PendingAction>, ids: seq<string>, now: string)
    returns (proposed: seq<ProposedAction>, db': Db, failure: Option<ActionError>)
    requires |ids| == |pending|
    ensures failure.Some? <==> !FreshIds(db, ids) || !AcceptedIds(pending)
    ensures failure.Some? ==> failure.value == DuplicateKey || failure.value == InvalidUuid
    ensures FreshIds(db, ids) && !AcceptedIds(pending) ==> failure == Some(InvalidUuid)
    ensures failure.None? ==> |proposed| == |pending|
    ensures |proposed| <= |pending|
    ensures forall k :: 0 <= k < |proposed| ==>
      proposed[k] == ProposedAction(ids[k], pending[k].description, pending[k].toolName, pending[k].args)
    ensures forall k :: 0 <= k < |proposed| ==>
      ids[k] in db'.actions && StoredAs(db'.actions[ids[k]], ids[k], messageId, pending[k])
    ensures forall id :: id in db.actions ==> id in db'.actions && db'.actions[id] == db.actions[id]
    ensures db'.tasks == db.tasks && db'.projects == db.projects && db'.goals == db.goals
  {
    proposed := [];
    db' := db;
    failure := None;
    var k := 0;
    ProposedInit(db, messageId, pending, ids);
    while k < |pending|
      invariant Proposed(db, db', messageId, pending, ids, proposed, k)
    {
      var p := pending[k];
      match CreateAction(db', ids[k], now, messageId, p.actionType, p.entityType, p.args, p.entityId)
      case Err(e) =>
        failure := Some(e);
        ProposedClash(db, db', messageId, pending, ids, proposed, k, now);
        if FreshIds(db, ids) {
          assert forall j :: 0 <= j < k ==> ids[..k][j] != ids[k];
          assert ids[k] !in db'.actions;
        }
        return;
      case Ok((a, db2)) =>
        ProposedStep(db, db', messageId, pending, ids, proposed, k, now, a, db2);
        db' := db2;
        proposed := proposed + [ProposedAction(ids[k], p.description, p.toolName, p.args)];
        k := k + 1;
    }
    assert ids[..k] == ids;
    assert pending[..k] == pending;
  }

  // ---------------------------------------------------------------------------
  // POST
  // ---------------------------------------------------------------------------

  datatype ChatResponse =
    | Reply(threadId: string, messageId: string, response: string, proposedActions: seq<ProposedAction>)
    | ServerError(status: nat, error: string)

  /** The thread the turn is written to: the given one, or what
      `getOrCreateThread(path)` returns. That call passes the path where an
      anchor kind is expected and no anchor id, so it always creates a
      thread. */
  function ThreadFor(threads: seq<Thread>, threadId: Option<string>, path: Option<string>,
                     newId: string, now: string): (r: (string, seq<Thread>))
    ensures Truthy(threadId).Some? ==> r == (threadId.value, threads)
    ensures Truthy(threadId).None? ==>
      r.0 == newId && r.1 == threads + [Thread(newId, Truthy(path), None, None, now, now)]
  {
    if Truthy(threadId).Some? then (threadId.value, threads)
    else
      var (t, ts) := GetOrCreateThread(threads, path, None, newId, now);
      (t.id, ts)
  }

  /** The writes a turn queues: those of the rounds before the final
      completion. */
  function TurnWrites(rs: seq<Completion>): (p: seq<PendingAction>)
    requires FinalIndex(rs).Some?
    ensures |p| <= |QueuedWrites(CallsOf(rs))|
  {
    QueuedWritesPrefix(rs, FinalIndex(rs).value);
    QueuedWrites(CallsOf(rs[..FinalIndex(rs).value]))
  }

  /** One request: the thread, the loop, the saved message and the actions.
      `None` when the completions end while the model still calls tools. */
  method Post(db: Db, threads: seq<Thread>, threadId: Option<string>, path: Option<string>,
              requestedModel: Option<Json>, rs: seq<Completion>, newThreadId: string,
              messageId: string, actionIds: seq<string>, now: string)
    returns (model: string, r: Option<ChatResponse>, db': Db, threads': seq<Thread>)
    requires |actionIds| == |QueuedWrites(CallsOf(rs))|
    ensures model in AllowedModels
    ensures Truthy(threadId).Some? ==> threads' == threads
    ensures Truthy(threadId).None? ==> threads' == threads + [Thread(newThreadId, Truthy(path), None, None, now, now)]
    ensures r.Some? <==> FinalIndex(rs).Some?
    ensures r.Some? && r.value.Reply? ==>
      var n := FinalIndex(rs).value;
      && |r.value.proposedActions| == |QueuedWrites(CallsOf(rs[..n]))|
      && r.value.messageId == messageId
      && r.value.response == rs[n].content.GetOr("")
      && (Truthy(threadId).Some? ==> r.value.threadId == threadId.value)
      && (Truthy(threadId).None? ==> r.value.threadId == newThreadId)
    ensures r.Some? && r.value.ServerError? ==> r.value.status == 500
    ensures r.Some? ==>
      var pending := TurnWrites(rs);
      (r.value.ServerError? <==> !FreshIds(db, actionIds[..|pending|]) || !AcceptedIds(pending))
    ensures r.Some? ==>
      var pending := TurnWrites(rs);
      (FreshIds(db, actionIds[..|pending|]) && !AcceptedIds(pending) ==>
         r.value == ServerError(500, ErrorMessage(InvalidUuid)))
  {
    model := ChooseModel(requestedModel);
    var (tid, ts) := ThreadFor(threads, threadId, path, newThreadId, now);
    threads' := ts;
    var outcome := RunToolLoop(rs);
    db' := db;
    if outcome.None? {
      return model, None, db', threads';
    }
    var turn := outcome.value;
    var n := FinalIndex(rs).value;
    QueuedWritesPrefix(rs, n);
    var proposed, db2, failure :=
      ProposeActions(db, messageId, turn.pending, actionIds[..|turn.pending|], now);
    db' := db2;
    if failure.Some? {
      r := Some(ServerError(500, ErrorMessage(failure.value)));
    } else {
      r := Some(Reply(tid, messageId, turn.content, proposed));
    }
  }

  /** The calls of a prefix of the completions queue no more writes than
      all of them. */
  lemma {:induction false} QueuedWritesPrefix(rs: seq<Completion>, n: nat)
    requires n <= |rs|
    ensures |QueuedWrites(CallsOf(rs[..n]))| <= |QueuedWrites(CallsOf(rs))|
    decreases |rs| - n
  {
    if n < |rs| {
      QueuedWritesPrefix(rs, n + 1);
      assert rs[..n + 1][..n] == rs[..n];
      QueuedWritesAppend(CallsOf(rs[..n]), rs[n].toolCalls);
    } else {
      assert rs[..n] == rs;
    }
  }

  lemma {:induction false} QueuedWritesAppend(a: seq<ToolCall>, b: seq<ToolCall>)
    ensures |QueuedWrites(a)| <= |QueuedWrites(a + b)|
    decreases |b|
  {
    if |b| > 0 {
      QueuedWritesAppend(a, b[..|b| - 1]);
      assert a + b == (a + b[..|b| - 1]) + [b[|b| - 1]];
      QueuedWritesSnoc(a + b[..|b| - 1], b[|b| - 1]);
    } else {
      assert a + b == a;
    }
  }
}

=== FILE: chat_state.dfy ===
/** The chat panel's client state (apps/journey/src/hooks/useAIChatState.ts):
    each handler is a function from the state before to the state after,
    with what the server answered passed in. Local storage is the
    `lastViewed` parameter; the guards against overlapping loads are not
    modelled. */
module ChatState {
  import opened Base

  datatype ThreadSummary = ThreadSummary(id: string, title: Option<string>, messageCount: nat,
                                         createdAt: string, updatedAt: string)

  datatype Role = User | Assistant

  datatype Message = Message(id: string, threadId: string, role: Role, content: string,
                             toolCalls: Option<string>, createdAt: string)

  datatype State = State(isOpen: bool, threadId: Option<string>, threads: seq<ThreadSummary>,
                         messages: seq<Message>, isLoading: bool, path: Option<string>)

  const Initial: State := State(false, None, [], [], false, None)

  /** JavaScript truthiness of a nullable string. */
  predicate Present(s: Option<string>) {
    s.Some? && s.value != ""
  }

  function Ids(threads: seq<ThreadSummary>): seq<string> {
    Map(threads, (t: ThreadSummary) => t.id)
  }

  // ---------------------------------------------------------------------------
  // Context and visibility
  // ---------------------------------------------------------------------------

  /** `setContext(path)`: a different path forgets the thread, the list and
      the messages; the same path keeps them. */
  function SetContext(s: State, path: Option<string>): (r: State)
    ensures r.path == path && r.isOpen == s.isOpen && r.isLoading == s.isLoading
    ensures s.path != path ==> r.threadId.None? && r.threads == [] && r.messages == []
    ensures s.path == path ==> r == s
  {
    if s.path != path then s.(path := path, threadId := None, threads := [], messages := [])
    else s.(path := path)
  }

  lemma SetContextIdempotent(s: State, path: Option<string>)
    ensures SetContext(SetContext(s, path), path) == SetContext(s, path)
  {
  }

  function OpenChat(s: State): (r: State)
    ensures r.isOpen && r.(isOpen := s.isOpen) == s
  {
    s.(isOpen := true)
  }

  function CloseChat(s: State): (r: State)
    ensures !r.isOpen && r.(isOpen := s.isOpen) == s
  {
    s.(isOpen := false)
  }

  function ToggleChat(s: State): (r: State)
    ensures r.isOpen == !s.isOpen && r.(isOpen := s.isOpen) == s
  {
    s.(isOpen := !s.isOpen)
  }

  /** Toggling twice changes nothing; toggling a closed panel opens it. */
  lemma ToggleProperties(s: State)
    ensures ToggleChat(ToggleChat(s)) == s
    ensures !s.isOpen ==> ToggleChat(s) == OpenChat(s)
    ensures s.isOpen ==> ToggleChat(s) == CloseChat(s)
  {
  }

  function ClearMessages(s: State): (r: State)
    ensures r.messages == [] && r.threadId.None?
    ensures r.(messages := s.messages, threadId := s.threadId) == s
  {
    s.(messages := [], threadId := None)
  }

  // ---------------------------------------------------------------------------
  // Loading the threads of a page
  // ---------------------------------------------------------------------------

  /** The thread shown when a page's threads are loaded: the last one viewed
      there if it is still listed, else the first. */
  function ThreadToLoad(threads: seq<ThreadSummary>, lastViewed: Option<string>): (id: string)
    requires |threads| > 0
    ensures id in Ids(threads)
    ensures Present(lastViewed) && lastViewed.value in Ids(threads) ==> id == lastViewed.value
    ensures !(Present(lastViewed) && lastViewed.value in Ids(threads)) ==> id == threads[0].id
  {
    if Present(lastViewed) && lastViewed.value in Ids(threads) then lastViewed.value else threads[0].id
  }

  /** The effect that loads threads when the path changes, with `threads`
      the server's list for the path and `fetch` the lookup of one thread's
      messages. Nothing happens without a path or with a thread open. */
  function LoadThreads(s: State, threads: seq<ThreadSummary>, lastViewed: Option<string>,
                       fetch: string -> Option<seq<Message>>): (r: State)
    ensures !Present(s.path) || Present(s.threadId) ==> r == s
    ensures Present(s.path) && !Present(s.threadId) && |threads| == 0 ==> r == s.(threads := [])
    ensures Present(s.path) && !Present(s.threadId) && |threads| > 0 ==>
      var id := ThreadToLoad(threads, lastViewed);
      && (fetch(id).None? ==> r == s)
      && (fetch(id).Some? ==> r == s.(threads := threads, threadId := Some(id), messages := fetch(id).value))
  {
    if !Present(s.path) || Present(s.threadId) then s
    else if |threads| == 0 then s.(threads := [])
    else
      var id := ThreadToLoad(threads, lastViewed);
      match fetch(id)
      case None => s
      case Some(msgs) => s.(threads := threads, threadId := Some(id), messages := msgs)
  }

  // ---------------------------------------------------------------------------
  // Sending a message
  // ---------------------------------------------------------------------------

  /** What the chat endpoint answered: a reply, or an error. */
  datatype ChatReply = ChatReply(messageId: string, threadId: string, response: string,
                                 proposedActions: Option<string>)

  /** `sendMessage(message)` from start to end: the user's message is shown
      at once; on a reply the assistant's message follows and the reply's
      thread becomes the current one (a first message on a page also reloads
      the page's threads, given as `threadsAfter`); on an error only the
      loading flag is cleared. */
  function SendMessage(s: State, text: string, userMessageId: string, now: string,
                       reply: Result<ChatReply, string>, threadsAfter: seq<ThreadSummary>): (r: State)
    ensures !r.isLoading && r.isOpen == s.isOpen && r.path == s.path
    ensures |r.messages| >= |s.messages| + 1 && r.messages[..|s.messages|] == s.messages
    ensures r.messages[|s.messages|] == UserMessage(s, text, userMessageId, now)
    ensures reply.Err? ==> r == s.(messages := s.messages + [UserMessage(s, text, userMessageId, now)], isLoading := false)
    ensures reply.Ok? ==>
      && |r.messages| == |s.messages| + 2
      && r.messages[|s.messages| + 1].role == Assistant
      && r.messages[|s.messages| + 1].content == reply.value.response
      && r.threadId == Some(reply.value.threadId)
      && (if !Present(s.threadId) && Present(s.path) then r.threads == threadsAfter else r.threads == s.threads)
  {
    var user := UserMessage(s, text, userMessageId, now);
    var shown := s.(isLoading := true, messages := s.messages + [user]);
    match reply
    case Err(_) => shown.(isLoading := false)
    case Ok(data) =>
      var assistant := Message(data.messageId, data.threadId, Assistant, data.response, data.proposedActions, now);
      var threads := if !Present(s.threadId) && Present(s.path) then threadsAfter else shown.threads;
      shown.(threads := threads, threadId := Some(data.threadId), messages := shown.messages + [assistant],
             isLoading := false)
  }

  /** The user's message as it is shown before the reply: in the current
      thread, or in no thread yet. */
  function UserMessage(s: State, text: string, id: string, now: string): (m: Message)
    ensures m.role == User && m.content == text && m.toolCalls.None?
    ensures Present(s.threadId) ==> m.threadId == s.threadId.value
    ensures !Present(s.threadId) ==> m.threadId == ""
  {
    Message(id, if Present(s.threadId) then s.threadId.value else "", User, text, None, now)
  }

  // ---------------------------------------------------------------------------
  // Switching, creating and archiving threads
  // ---------------------------------------------------------------------------

  /** `switchThread(id)` with the server's answer; a thread the server does
      not find changes nothing. */
  function SwitchThread(s: State, fetched: Option<(string, seq<Message>)>): (r: State)
    ensures fetched.None? ==> r == s
    ensures fetched.Some? ==> r == s.(threadId := Some(fetched.value.0), messages := fetched.value.1)
  {
    match fetched
    case None => s
    case Some((id, msgs)) => s.(threadId := Some(id), messages := msgs)
  }

  /** `createNewThread()` with the server's answer: the id and times of the
      thread it created, or `None` when the call failed. A new thread goes
      first in the list, becomes current and starts empty. Without a path,
      or when the call fails, nothing changes. */
  function CreateNewThread(s: State, created: Option<(string, string, string)>): (r: State)
    ensures !Present(s.path) || created.None? ==> r == s
    ensures Present(s.path) && created.Some? ==>
      var (id, createdAt, updatedAt) := created.value;
      && r.threads == [ThreadSummary(id, None, 0, createdAt, updatedAt)] + s.threads
      && r.threadId == Some(id) && r.messages == []
      && r.(threads := s.threads, threadId := s.threadId, messages := s.messages) == s
  {
    if !Present(s.path) then s
    else match created
      case None => s
      case Some((id, createdAt, updatedAt)) =>
        s.(threads := [ThreadSummary(id, None, 0, createdAt, updatedAt)] + s.threads,
           threadId := Some(id), messages := [])
  }

  /** The list without the current thread. */
  function Remaining(threads: seq<ThreadSummary>, current: string): (r: seq<ThreadSummary>)
    ensures current !in Ids(r)
    ensures forall t :: t in r <==> t in threads && t.id != current
  {
    var r := Filter(threads, (t: ThreadSummary) => t.id != current);
    assert forall k :: 0 <= k < |r| ==> r[k] in r;
    r
  }

  /** `archiveCurrentThread()`: once the server has archived it (`archived`),
      the current thread leaves the list, the first remaining one (or none)
      becomes current with no messages, and when the list had another
      thread its messages are loaded (`fetched`, the server's answer for
      it). Without a current thread, or when archiving fails, nothing
      changes. */
  function ArchiveCurrentThread(s: State, archived: bool, fetched: Option<(string, seq<Message>)>): (r: State)
    ensures !Present(s.threadId) || !archived ==> r == s
    ensures Present(s.threadId) && archived ==>
      && r.threads == Remaining(s.threads, s.threadId.value)
      && s.threadId.value !in Ids(r.threads)
      && r.isOpen == s.isOpen && r.path == s.path
    ensures Present(s.threadId) && archived && (|s.threads| <= 1 || |r.threads| == 0 || fetched.None?) ==>
      && r.messages == []
      && (if |r.threads| > 0 && r.threads[0].id != "" then r.threadId == Some(r.threads[0].id) else r.threadId.None?)
    ensures Present(s.threadId) && archived && |s.threads| > 1 && |r.threads| > 0 && fetched.Some? ==>
      && r.threadId == Some(fetched.value.0)
      && r.messages == fetched.value.1
  {
    if !Present(s.threadId) || !archived then s
    else
      var current := s.threadId.value;
      var remaining := Remaining(s.threads, current);
      var next := if |remaining| > 0 && remaining[0].id != "" then Some(remaining[0].id) else None;
      var cleared := s.(threads := remaining, threadId := next, messages := []);
      if |s.threads| > 1 && |remaining| > 0 then SwitchThread(cleared, fetched) else cleared
  }

  /** Creating a thread and archiving it at once gives the list back. */
  lemma CreateThenArchive(s: State, id: string, createdAt: string, updatedAt: string)
    requires Present(s.path) && id != ""
    requires id !in Ids(s.threads)
    ensures ArchiveCurrentThread(CreateNewThread(s, Some((id, createdAt, updatedAt))), true, None).threads == s.threads
  {
    var t := ThreadSummary(id, None, 0, createdAt, updatedAt);
    var p := (x: ThreadSummary) => x.id != id;
    assert ([t] + s.threads)[1..] == s.threads;
    assert forall k :: 0 <= k < |s.threads| ==> p(s.threads[k]) by {
      forall k | 0 <= k < |s.threads| ensures p(s.threads[k]) {
        assert Ids(s.threads)[k] == s.threads[k].id;
      }
    }
    FilterAll(s.threads, p);
  }
}

=== FILE: goals_page.dfy ===
/** The goals page (apps/journey/src/app/goals/page.tsx): the horizon tabs,
    the goals shown under the selected tab, and the list updates after a
    save or a delete. */
module GoalsPage {
  import opened Base
  import opened Text

  datatype Goal = Goal(id: string, title: string, description: string, horizon: string, status: string)

  /** What the goal dialog saves. The dialog sends a status only when it
      edits an existing goal; for a new goal the status is absent. */
  datatype GoalData = GoalData(title: string, description: string, horizon: string, status: Option<string>)

  // ---------------------------------------------------------------------------
  // Horizon order
  // ---------------------------------------------------------------------------

  const HorizonOrder: seq<string> := ["daily", "weekly", "monthly", "quarterly", "yearly"]

  /** `horizonOrder.indexOf(h)`. */
  function OrderIndex(h: string): (i: int)
    ensures -1 <= i < |HorizonOrder|
    ensures i >= 0 ==> HorizonOrder[i] == h
    ensures i == -1 <==> h !in HorizonOrder
  {
    if h == "daily" then 0
    else if h == "weekly" then 1
    else if h == "monthly" then 2
    else if h == "quarterly" then 3
    else if h == "yearly" then 4
    else -1
  }

  /** The comparator of `sortHorizons` is negative: known horizons in their
      fixed order, then unknown ones in string order. */
  predicate Before(a: string, b: string) {
    var ai := OrderIndex(a);
    var bi := OrderIndex(b);
    if ai == -1 && bi == -1 then LexLess(a, b)
    else if ai == -1 then false
    else if bi == -1 then true
    else ai < bi
  }

  lemma BeforeIrreflexive(a: string)
    ensures !Before(a, a)
  {
    LexLessIrreflexive(a);
  }

  lemma BeforeAsymmetric(a: string, b: string)
    requires Before(a, b)
    ensures !Before(b, a)
  {
    BeforeIrreflexive(a);
    if Before(b, a) {
      BeforeTransitive(a, b, a);
    }
  }

  lemma BeforeTransitive(a: string, b: string, c: string)
    requires Before(a, b) && Before(b, c)
    ensures Before(a, c)
  {
    if OrderIndex(a) == -1 {
      LexLessTransitive(a, b, c);
    }
  }

  lemma BeforeTotal(a: string, b: string)
    requires a != b
    ensures Before(a, b) || Before(b, a)
  {
    if OrderIndex(a) == -1 && OrderIndex(b) == -1 {
      LexLessConnected(a, b);
    }
  }

  /** No element is placed after one it should precede. */
  predicate SortedBy(s: seq<string>) {
    forall i, j :: 0 <= i < j < |s| ==> !Before(s[j], s[i])
  }

  /** Places `x` before the first element it does not come after. */
  function Insert(x: string, s: seq<string>): (r: seq<string>)
    requires SortedBy(s)
    ensures SortedBy(r)
    ensures multiset(r) == multiset(s) + multiset{x}
    decreases |s|
  {
    if |s| == 0 then [x]
    else if !Before(s[0], x) then
      InsertFirstSorted(x, s);
      [x] + s
    else
      var rest := Insert(x, s[1..]);
      assert s == [s[0]] + s[1..];
      InsertLaterSorted(x, s, rest);
      [s[0]] + rest
  }

  lemma InsertFirstSorted(x: string, s: seq<string>)
    requires |s| > 0 && SortedBy(s) && !Before(s[0], x)
    ensures SortedBy([x] + s)
  {
    var r := [x] + s;
    forall i, j | 0 <= i < j < |r|
      ensures !Before(r[j], r[i])
    {
      if i == 0 && j > 1 {
        NotBeforeChain(r[j], s[0], x);
      }
    }
  }

  /** `!Before` chains: the order is a strict total order on strings. */
  lemma NotBeforeChain(a: string, b: string, c: string)
    requires !Before(a, b) && !Before(b, c)
    ensures !Before(a, c)
  {
    if Before(a, c) {
      if a == b {
      } else if b == c {
      } else {
        BeforeTotal(a, b);
        BeforeTotal(b, c);
        BeforeTransitive(b, a, c);
        BeforeTransitive(c, b, a);
        BeforeIrreflexive(c);
        assert false;
      }
    }
  }

  lemma InsertLaterSorted(x: string, s: seq<string>, rest: seq<string>)
    requires |s| > 0 && SortedBy(s) && Before(s[0], x)
    requires SortedBy(rest) && multiset(rest) == multiset(s[1..]) + multiset{x}
    ensures SortedBy([s[0]] + rest)
  {
    var r := [s[0]] + rest;
    forall i, j | 0 <= i < j < |r|
      ensures !Before(r[j], r[i])
    {
      if i == 0 {
        assert r[j] in multiset(rest);
        if r[j] == x {
          BeforeAsymmetric(s[0], x);
        } else {
          assert r[j] in multiset(s[1..]);
          var k :| 0 <= k < |s[1..]| && s[1..][k] == r[j];
          assert s[k + 1] == r[j];
        }
      }
    }
  }

  /** `sortHorizons(hs)`: the same horizons, ordered by the comparator. */
  function SortHorizons(hs: seq<string>): (r: seq<string>)
    ensures SortedBy(r)
    ensures multiset(r) == multiset(hs)
    decreases |hs|
  {
    if |hs| == 0 then []
    else
      assert hs == [hs[0]] + hs[1..];
      Insert(hs[0], SortHorizons(hs[1..]))
  }

  /** In a sorted list without repeats, known horizons come first in their
      fixed order and unknown ones follow in string order. */
  lemma SortedDistinctOrder(s: seq<string>, i: nat, j: nat)
    requires SortedBy(s) && i < j < |s| && s[i] != s[j]
    ensures Before(s[i], s[j])
    ensures OrderIndex(s[j]) != -1 ==> OrderIndex(s[i]) != -1 && OrderIndex(s[i]) < OrderIndex(s[j])
    ensures OrderIndex(s[i]) == -1 ==> OrderIndex(s[j]) == -1 && LexLess(s[i], s[j])
  {
    BeforeTotal(s[i], s[j]);
  }

  // ---------------------------------------------------------------------------
  // Tabs and the goals shown
  // ---------------------------------------------------------------------------

  /** Some occurrence of `a` in `xs` comes before every occurrence of `b`. */
  predicate OccursBefore(xs: seq<string>, a: string, b: string) {
    exists p :: 0 <= p < |xs| && xs[p] == a && forall q :: 0 <= q < |xs| && xs[q] == b ==> p < q
  }

  /** A value that occurs comes before one that does not occur at all. */
  lemma OccursBeforeAbsent(xs: seq<string>, a: string, b: string)
    requires a in xs && b !in xs
    ensures OccursBefore(xs, a, b)
  {
    var p :| 0 <= p < |xs| && xs[p] == a;
    assert forall q :: 0 <= q < |xs| ==> xs[q] != b;
  }

  /** Appending a value keeps an order already seen. */
  lemma OccursBeforeExtended(xs: seq<string>, x: string, a: string, b: string)
    requires OccursBefore(xs, a, b)
    ensures OccursBefore(xs + [x], a, b)
  {
    var ys := xs + [x];
    var p :| 0 <= p < |xs| && xs[p] == a && forall q :: 0 <= q < |xs| && xs[q] == b ==> p < q;
    assert ys[p] == a;
    forall q | 0 <= q < |ys| && ys[q] == b ensures p < q {
      if q < |xs| {
        assert xs[q] == b;
      }
    }
  }

  /** `[...new Set(xs)]`: each value once, in the order of first
      occurrence. */
  function Dedup(xs: seq<string>): (r: seq<string>)
    ensures forall x :: x in r <==> x in xs
    ensures forall i, j :: 0 <= i < j < |r| ==> r[i] != r[j]
    ensures forall i, j :: 0 <= i < j < |r| ==> OccursBefore(xs, r[i], r[j])
    decreases |xs|
  {
    if |xs| == 0 then []
    else
      var pre := xs[..|xs| - 1];
      var x := xs[|xs| - 1];
      var d := Dedup(pre);
      assert xs == pre + [x];
      assert forall x' :: x' in xs <==> x' in pre || x' == x;
      var r := if x in d then d else d + [x];
      assert forall i, j :: 0 <= i < j < |r| ==> OccursBefore(xs, r[i], r[j]) by {
        forall i, j | 0 <= i < j < |r| ensures OccursBefore(xs, r[i], r[j]) {
          if j < |d| {
            OccursBeforeExtended(pre, x, r[i], r[j]);
          } else {
            assert r[i] == d[i] && d[i] in pre && r[j] == x && x !in pre;
            OccursBeforeAbsent(pre, r[i], r[j]);
            OccursBeforeExtended(pre, x, r[i], r[j]);
          }
        }
      }
      r
  }

  predicate IsActive(g: Goal) {
    g.status == "active"
  }

  function Horizons(goals: seq<Goal>): (hs: seq<string>)
    ensures |hs| == |goals|
    ensures forall k :: 0 <= k < |goals| ==> hs[k] == goals[k].horizon
  {
    seq(|goals|, k requires 0 <= k < |goals| => goals[k].horizon)
  }

  /** The horizon tabs: each horizon with an active goal, once, sorted. */
  function ActiveHorizons(goals: seq<Goal>): (r: seq<string>)
    ensures forall h :: h in r <==> exists g :: g in goals && IsActive(g) && g.horizon == h
    ensures forall i, j :: 0 <= i < j < |r| ==> r[i] != r[j]
    ensures SortedBy(r)
  {
    var active := Filter(goals, IsActive);
    var hs := Horizons(active);
    var d := Dedup(hs);
    var r := SortHorizons(d);
    forall h ensures h in r <==> h in d {
      assert h in r <==> h in multiset(r);
    }
    forall h | h in hs ensures exists g :: g in goals && IsActive(g) && g.horizon == h {
      var k :| 0 <= k < |hs| && hs[k] == h;
      assert active[k] in active;
    }
    forall g | g in goals && IsActive(g) ensures g.horizon in hs {
      var k :| 0 <= k < |active| && active[k] == g;
      assert hs[k] == g.horizon;
    }
    DistinctPermutation(d, r);
    r
  }

  /** A rearrangement of a list without repeats has no repeats. */
  lemma DistinctPermutation(d: seq<string>, r: seq<string>)
    requires forall i, j :: 0 <= i < j < |d| ==> d[i] != d[j]
    requires multiset(r) == multiset(d)
    ensures forall i, j :: 0 <= i < j < |r| ==> r[i] != r[j]
  {
    forall i, j | 0 <= i < j < |r| ensures r[i] != r[j] {
      var x := r[i];
      TwoCopies(r, i, j);
      assert x in multiset(r);
      DistinctCount(d, x);
    }
  }

  /** Two equal elements at distinct positions count twice. */
  lemma TwoCopies(r: seq<string>, i: nat, j: nat)
    requires i < j < |r|
    ensures r[i] == r[j] ==> multiset(r)[r[i]] >= 2
  {
    var x := r[i];
    assert r == r[..i] + [x] + r[i + 1..j] + [r[j]] + r[j + 1..];
    assert multiset(r) == multiset(r[..i]) + multiset{x} + multiset(r[i + 1..j]) + multiset{r[j]}
      + multiset(r[j + 1..]);
  }

  lemma {:induction false} DistinctCount(d: seq<string>, x: string)
    requires forall i, j :: 0 <= i < j < |d| ==> d[i] != d[j]
    requires x in d
    ensures multiset(d)[x] == 1
    decreases |d|
  {
    assert d == [d[0]] + d[1..];
    if d[0] == x {
      assert x !in d[1..];
    } else {
      DistinctCount(d[1..], x);
    }
  }

  /** The goals under the selected tab. The tab is held as a plain string and
      the text "all" is the All tab, so a horizon that is itself named "all"
      shows every active goal under its tab. */
  function FilteredGoals(goals: seq<Goal>, tab: string): (r: seq<Goal>)
    ensures forall g :: g in r <==> g in goals && IsActive(g) && (tab == "all" || g.horizon == tab)
  {
    if tab == "all" then Filter(goals, IsActive)
    else Filter(goals, (g: Goal) => g.horizon == tab && IsActive(g))
  }

  /** Choosing the tab of a horizon named "all" shows the goals of every
      horizon, "daily" included. */
  lemma HorizonNamedAll()
    ensures var goals := [Goal("1", "a", "", "all", "active"), Goal("2", "b", "", "daily", "active")];
      FilteredGoals(goals, "all") == goals
  {
    var goals := [Goal("1", "a", "", "all", "active"), Goal("2", "b", "", "daily", "active")];
    assert IsActive(goals[0]) && IsActive(goals[1]);
    FilterAll(goals, IsActive);
  }

  // ---------------------------------------------------------------------------
  // Save and delete
  // ---------------------------------------------------------------------------

  /** `{ ...g, ...data }`. */
  function Merge(g: Goal, data: GoalData): Goal {
    Goal(g.id, data.title, data.description, data.horizon, data.status.GetOr(g.status))
  }

  function Ids(goals: seq<Goal>): seq<string> {
    Map(goals, (g: Goal) => g.id)
  }

  /** Saving an edited goal rewrites the goals with its id and only them. */
  function SaveEdit(goals: seq<Goal>, id: string, data: GoalData): (r: seq<Goal>)
    ensures Ids(r) == Ids(goals)
    ensures forall k :: 0 <= k < |goals| && goals[k].id != id ==> r[k] == goals[k]
    ensures forall k :: 0 <= k < |goals| && goals[k].id == id ==>
      && r[k].id == id
      && r[k].title == data.title
      && r[k].description == data.description
      && r[k].horizon == data.horizon
      && (data.status.Some? ==> r[k].status == data.status.value)
      && (data.status.None? ==> r[k].status == goals[k].status)
  {
    seq(|goals|, k requires 0 <= k < |goals| => if goals[k].id == id then Merge(goals[k], data) else goals[k])
  }

  /** Saving a new goal appends what the server created and selects its
      horizon's tab. */
  function SaveNew(goals: seq<Goal>, created: Goal, data: GoalData): (r: (seq<Goal>, string))
    ensures |r.0| == |goals| + 1 && r.0[..|goals|] == goals && r.0[|goals|] == created
    ensures r.1 == data.horizon
    ensures IsActive(created) && (data.horizon == "all" || created.horizon == data.horizon) ==>
      created in FilteredGoals(r.0, r.1)
  {
    (goals + [created], data.horizon)
  }

  function DeleteGoal(goals: seq<Goal>, id: string): (r: seq<Goal>)
    ensures forall g :: g in r <==> g in goals && g.id != id
    ensures id !in Ids(r)
  {
    var r := Filter(goals, (g: Goal) => g.id != id);
    assert forall k :: 0 <= k < |r| ==> r[k] in r;
    r
  }

  /** Deleting a goal just created gives the list back. */
  lemma DeleteUndoesSaveNew(goals: seq<Goal>, created: Goal, data: GoalData)
    requires created.id !in Ids(goals)
    ensures DeleteGoal(SaveNew(goals, created, data).0, created.id) == goals
  {
    var p := (g: Goal) => g.id != created.id;
    forall k | 0 <= k < |goals| ensures p(goals[k]) {
      assert Ids(goals)[k] == goals[k].id;
    }
    FilterAll(goals, p);
    FilterSnoc(goals, created, p);
  }
}

=== FILE: js_number.dfy ===
/** JavaScript's conversion of a value to a number: what `Number(v)` and the
    arithmetic operators apply to an operand (ToNumber, section 7.1.4 of
    ECMA-262, with the grammar StringNumericLiteral of section 7.1.4.1 for
    strings). Numbers are exact reals: rounding to binary64, and the
    overflow of a huge literal to an infinity, are not modelled. */
module JsNumber {
  import opened Base
  import opened Text
  import opened Json

  datatype Number = Finite(x: real) | PosInfinity | NegInfinity | NaN

  /** `m` times ten to the power `e`. */
  function Scale(m: real, e: int): real
    decreases if e < 0 then -e else e
  {
    if e == 0 then m else if e > 0 then 10.0 * Scale(m, e - 1) else Scale(m, e + 1) / 10.0
  }

  // ---------------------------------------------------------------------------
  // Decimal literals
  // ---------------------------------------------------------------------------

  predicate IsExponentMark(c: char) {
    c == 'e' || c == 'E'
  }

  predicate IsPoint(c: char) {
    c == '.'
  }

  /** The SignedInteger after an exponent mark: an optional sign, then one or
      more digits. */
  function ExponentValue(s: string): (r: Option<int>)
    ensures |s| > 0 && AllDigits(s) ==> r == Some(DecimalValue(s) as int)
    ensures |s| > 1 && s[0] == '-' && AllDigits(s[1..]) ==> r == Some(-(DecimalValue(s[1..]) as int))
    ensures r.Some? ==> |s| > 0
  {
    if |s| == 0 then None
    else if s[0] == '+' || s[0] == '-' then
      if |s| > 1 && AllDigits(s[1..]) then
        Some(if s[0] == '-' then -(DecimalValue(s[1..]) as int) else DecimalValue(s[1..]))
      else None
    else if AllDigits(s) then Some(DecimalValue(s))
    else None
  }

  /** Digits with at most one decimal point and at least one digit: `12`,
      `12.`, `.5`, `12.5`. */
  function MantissaValue(s: string): (r: Option<real>)
    ensures |s| > 0 && AllDigits(s) ==> r == Some(DecimalValue(s) as real)
    ensures r.Some? ==> |s| > 0 && forall j :: 0 <= j < |s| ==> IsDigit(s[j]) || IsPoint(s[j])
  {
    match FindIndex(s, IsPoint)
    case None =>
      if |s| > 0 && AllDigits(s) then Some(DecimalValue(s) as real) else None
    case Some(i) =>
      var whole := s[..i];
      var fraction := s[i + 1..];
      if |whole| + |fraction| > 0 && AllDigits(whole) && AllDigits(fraction) then
        assert forall j :: 0 <= j < |s| ==> j < i || j == i || s[j] == fraction[j - i - 1];
        Some(DecimalValue(whole) as real + Scale(DecimalValue(fraction) as real, -|fraction|))
      else None
  }

  /** StrUnsignedDecimalLiteral other than `Infinity`: a mantissa, then
      optionally an exponent mark and a SignedInteger. */
  function UnsignedValue(s: string): (r: Option<real>)
    ensures |s| > 0 && AllDigits(s) ==> r == Some(DecimalValue(s) as real)
    ensures r.Some? ==> |s| > 0 && (IsDigit(s[0]) || IsPoint(s[0]))
  {
    match FindIndex(s, IsExponentMark)
    case None => MantissaValue(s)
    case Some(i) =>
      var m := MantissaValue(s[..i]);
      var e := ExponentValue(s[i + 1..]);
      if m.Some? && e.Some? then Some(Scale(m.value, e.value)) else None
  }

  // ---------------------------------------------------------------------------
  // Hexadecimal, octal and binary literals
  // ---------------------------------------------------------------------------

  /** The value of `c` as a digit of a base up to 36: `0`-`9`, then the
      letters in either case. */
  function RadixDigit(c: char): (d: Option<nat>)
    ensures d.Some? ==> d.value < 36
    ensures IsDigit(c) ==> d == Some(DigitValue(c))
  {
    if IsDigit(c) then Some(DigitValue(c))
    else if 'a' <= c <= 'z' then Some(c as int - 'a' as int + 10)
    else if 'A' <= c <= 'Z' then Some(c as int - 'A' as int + 10)
    else None
  }

  predicate AllRadix(s: string, base: nat) {
    forall j :: 0 <= j < |s| ==> RadixDigit(s[j]).Some? && RadixDigit(s[j]).value < base
  }

  function RadixValue(s: string, base: nat): nat
    requires AllRadix(s, base)
  {
    if |s| == 0 then 0 else RadixValue(s[..|s| - 1], base) * base + RadixDigit(s[|s| - 1]).value
  }

  /** The base a NonDecimalIntegerLiteral names after its leading `0`. */
  function NonDecimalBase(c: char): (b: Option<nat>)
    ensures b.Some? ==> !IsDigit(c) && !IsExponentMark(c) && !IsPoint(c)
  {
    if c == 'x' || c == 'X' then Some(16)
    else if c == 'o' || c == 'O' then Some(8)
    else if c == 'b' || c == 'B' then Some(2)
    else None
  }

  // ---------------------------------------------------------------------------
  // Strings and values
  // ---------------------------------------------------------------------------

  /** `Number(s)` of a string: surrounding white space and line terminators
      are ignored, white space alone is zero, and anything that is not one
      whole numeric literal is NaN. */
  function StringToNumber(s: string): (r: Number)
    ensures JsTrim(s) == "" ==> r == Finite(0.0)
    ensures |JsTrim(s)| > 0 && AllDigits(JsTrim(s)) ==> r == Finite(DecimalValue(JsTrim(s)) as real)
    ensures r.PosInfinity? <==> JsTrim(s) == "Infinity" || JsTrim(s) == "+Infinity"
    ensures r.NegInfinity? <==> JsTrim(s) == "-Infinity"
  {
    LiteralValue(JsTrim(s))
  }

  /** The value of trimmed text: a `0x`, `0o` or `0b` literal, `Infinity`
      with an optional sign, or a decimal literal with an optional sign. */
  function LiteralValue(t: string): (r: Number)
    ensures t == "" ==> r == Finite(0.0)
    ensures |t| > 0 && AllDigits(t) ==> r == Finite(DecimalValue(t) as real)
    ensures r.PosInfinity? <==> t == "Infinity" || t == "+Infinity"
    ensures r.NegInfinity? <==> t == "-Infinity"
  {
    if t == "" then Finite(0.0)
    else if |t| > 2 && t[0] == '0' && NonDecimalBase(t[1]).Some? then
      var base := NonDecimalBase(t[1]).value;
      if AllRadix(t[2..], base) then Finite(RadixValue(t[2..], base) as real) else NaN
    else if t == "Infinity" || t == "+Infinity" then PosInfinity
    else if t == "-Infinity" then NegInfinity
    else if t[0] == '-' || t[0] == '+' then
      match UnsignedValue(t[1..])
      case Some(v) => Finite(if t[0] == '-' then -v else v)
      case None => NaN
    else
      match UnsignedValue(t)
      case Some(v) => Finite(v)
      case None => NaN
  }

  /** Text with no white space at either end is its own trimmed form. */
  lemma Unpadded(t: string)
    requires |t| > 0 && !IsJsSpace(t[0]) && !IsJsSpace(t[|t| - 1])
    ensures StringToNumber(t) == LiteralValue(t)
  {
    StripPadded("", t, "", IsJsSpace);
    assert "" + t + "" == t;
  }

  /** `Number(v)` of a parsed JSON value, `undefined` for an absent one:
      `null` is zero, booleans are one and zero, and strings, arrays and
      objects convert through their `String(v)`; `None` when that
      conversion throws a `TypeError`. */
  function ToNumber(v: Option<Json>): (r: Option<Number>)
    ensures r.None? <==> v.Some? && ToPrimitiveThrows(v.value)
    ensures v.None? ==> r == Some(NaN)
    ensures v.Some? && v.value.JNum? ==> r == Some(Finite(v.value.n as real))
    ensures v.Some? && v.value.JStr? ==> r == Some(StringToNumber(v.value.s))
    ensures v.Some? && v.value.JObj? && !ToPrimitiveThrows(v.value) ==> r == Some(NaN)
  {
    match v
    case None => Some(NaN)
    case Some(JNum(n)) => Some(Finite(n as real))
    case Some(JNull) => Some(Finite(0.0))
    case Some(JBool(b)) => Some(Finite(if b then 1.0 else 0.0))
    case Some(x) =>
      if ToPrimitiveThrows(x) then None
      else if x.JObj? then
        Unpadded("[object Object]");
        Some(StringToNumber(JsString(x)))
      else Some(StringToNumber(JsString(x)))
  }

  // ---------------------------------------------------------------------------
  // Spellings that read back
  // ---------------------------------------------------------------------------

  /** The decimal spelling of an integer, as `String(n)` writes it, reads back
      as that integer. */
  lemma IntegerSpelling(n: int)
    ensures StringToNumber(IntToString(n)) == Finite(n as real)
  {
    if n < 0 {
      var m: nat := -n;
      NegativeSpelling(m);
      assert IntToString(n) == "-" + NatToString(m);
      assert -(m as real) == n as real;
    } else {
      DigitsSpelling(n);
      assert IntToString(n) == NatToString(n);
    }
  }

  /** The decimal digits of a number read as that number. */
  lemma DigitsSpelling(m: nat)
    ensures StringToNumber(NatToString(m)) == Finite(m as real)
  {
    var u := NatToString(m);
    DecimalValueOfNatToString(m);
    assert IsDigit(u[0]) && IsDigit(u[|u| - 1]);
    Unpadded(u);
  }

  /** `-d` for the decimal digits `d` of a positive number reads as its
      negation. */
  lemma NegativeSpelling(m: nat)
    requires m > 0
    ensures StringToNumber("-" + NatToString(m)) == Finite(-(m as real))
  {
    var u := NatToString(m);
    DecimalValueOfNatToString(m);
    NegatedDigits(u);
    assert ("-" + u)[|"-" + u| - 1] == u[|u| - 1];
    Unpadded("-" + u);
  }

  /** A minus sign before a run of digits negates its value. */
  lemma NegatedDigits(u: string)
    requires |u| > 0 && AllDigits(u)
    ensures LiteralValue("-" + u) == Finite(-(DecimalValue(u) as real))
  {
    var t := "-" + u;
    assert t[0] == '-' && t[1..] == u;
    assert t != "-Infinity" by {
      assert "-Infinity"[1] == 'I';
      assert t[1] == u[0];
    }
    MinusLiteral(t);
  }

  /** A minus-signed literal other than `-Infinity` is its unsigned part negated. */
  lemma MinusLiteral(t: string)
    requires |t| > 1 && t[0] == '-' && t != "-Infinity"
    ensures LiteralValue(t) == match UnsignedValue(t[1..])
                               case Some(v) => Finite(-v)
                               case None => NaN
  {
    assert t != "" && t != "Infinity" && t != "+Infinity";
  }

  /** White space and line terminators around a spelling change nothing. */
  lemma PaddedIntegerSpelling(pre: string, n: int, post: string)
    requires forall j :: 0 <= j < |pre| ==> IsJsSpace(pre[j])
    requires forall j :: 0 <= j < |post| ==> IsJsSpace(post[j])
    ensures StringToNumber(pre + IntToString(n) + post) == Finite(n as real)
  {
    var t := IntToString(n);
    IntegerSpelling(n);
    StripPadded(pre, t, post, IsJsSpace);
    StripPadded("", t, "", IsJsSpace);
    assert "" + t + "" == t;
    assert JsTrim(pre + t + post) == JsTrim(t);
  }

  /** The exponent `k` or `-k` as `String` writes it. */
  function ExponentText(k: nat, negative: bool): string {
    (if negative then "-" else "") + NatToString(k)
  }

  /** `mek` and `me-k` read as `m` times ten to the `k` or to the `-k`. */
  lemma ExponentSpelling(m: nat, k: nat, negative: bool)
    ensures StringToNumber(NatToString(m) + "e" + ExponentText(k, negative))
      == Finite(Scale(m as real, if negative then -(k as int) else k as int))
  {
    var a := NatToString(m);
    var e := ExponentText(k, negative);
    DecimalValueOfNatToString(m);
    ExponentOf(k, negative);
    ExponentSplit(a, e);
    DigitsWithExponentRead(a, e);
  }

  /** A digit run with no `0x`-style prefix, an exponent mark and an exponent
      ending in a digit read as their unsigned value. */
  lemma DigitsWithExponentRead(a: string, e: string)
    requires |a| > 0 && AllDigits(a) && |e| > 0 && IsDigit(e[|e| - 1])
    requires UnsignedValue(a + "e" + e).Some?
    ensures StringToNumber(a + "e" + e) == Finite(UnsignedValue(a + "e" + e).value)
  {
    var t := a + "e" + e;
    assert t[0] == a[0];
    assert t[|t| - 1] == e[|e| - 1];
    assert |t| > 2 && t[0] == '0' ==> t[1] == 'e' || t[1] == a[1];
    UnsignedReads(t);
    Unpadded(t);
  }

  /** The spelling of an exponent reads back. */
  lemma ExponentOf(k: nat, negative: bool)
    ensures |ExponentText(k, negative)| > 0
    ensures IsDigit(ExponentText(k, negative)[|ExponentText(k, negative)| - 1])
    ensures ExponentValue(ExponentText(k, negative)) == Some(if negative then -(k as int) else k as int)
  {
    var d := NatToString(k);
    assert ExponentText(k, negative)[|ExponentText(k, negative)| - 1] == d[|d| - 1];
    DecimalValueOfNatToString(k);
    if negative {
      assert ("-" + d)[1..] == d;
    } else {
      assert "" + d == d;
    }
  }

  /** A digit run, an exponent mark and an exponent read as the scaled
      digits. */
  lemma ExponentSplit(a: string, e: string)
    requires |a| > 0 && AllDigits(a) && ExponentValue(e).Some?
    ensures UnsignedValue(a + "e" + e) == Some(Scale(DecimalValue(a) as real, ExponentValue(e).value))
  {
    var t := a + "e" + e;
    assert t[|a|] == 'e';
    assert forall j :: 0 <= j < |a| ==> t[j] == a[j];
    assert FindIndex(t, IsExponentMark) == Some(|a|);
    assert t[..|a|] == a;
    assert t[|a| + 1..] == e;
  }

  /** Text that starts with a decimal digit (and not a `0x`, `0o` or `0b`
      prefix) has its unsigned decimal value. */
  lemma UnsignedReads(t: string)
    requires |t| > 0 && IsDigit(t[0])
    requires |t| > 2 && t[0] == '0' ==> NonDecimalBase(t[1]).None?
    requires UnsignedValue(t).Some?
    ensures LiteralValue(t) == Finite(UnsignedValue(t).value)
  {
    assert t != "Infinity" && t != "+Infinity" && t != "-Infinity" by {
      assert "Infinity"[0] == 'I' && "+Infinity"[0] == '+' && "-Infinity"[0] == '-';
    }
  }

  /** `0x1F` is thirty-one. */
  lemma HexSpelling()
    ensures StringToNumber("0x1F") == Finite(31.0)
  {
    Unpadded("0x1F");
    assert "0x1F"[2..] == "1F";
    assert "1F"[..1] == "1";
    assert RadixValue("1F", 16) == 31;
  }

  /** A sign, a fraction and an exponent together: `-1.5e3` is minus one
      thousand five hundred. */
  lemma SignedDecimalSpelling()
    ensures StringToNumber("-1.5e3") == Finite(-1500.0)
  {
    assert UnsignedValue("1.5e3") == Some(1500.0) by {
      assert FindIndex("1.5e3", IsExponentMark) == Some(3);
      assert "1.5e3"[..3] == "1.5" && "1.5e3"[4..] == "3";
      FractionValue();
      assert ExponentValue("3") == Some(3);
      assert Scale(1.5, 3) == 1500.0;
    }
    assert LiteralValue("-1.5e3") == Finite(-1500.0) by {
      assert "-1.5e3"[1..] == "1.5e3";
      assert "-1.5e3" != "-Infinity";
    }
    Unpadded("-1.5e3");
  }

  /** `1.5` as a mantissa. */
  lemma FractionValue()
    ensures MantissaValue("1.5") == Some(1.5)
  {
    assert FindIndex("1.5", IsPoint) == Some(1);
    assert "1.5"[..1] == "1" && "1.5"[2..] == "5";
    assert AllDigits("1") && AllDigits("5");
    assert DecimalValue("1") == 1 && DecimalValue("5") == 5;
    assert Scale(5.0, -1) == 0.5;
  }

  /** A literal may start at its point: `.5` is one half. */
  lemma PointSpelling()
    ensures StringToNumber(".5") == Finite(0.5)
  {
    assert UnsignedValue(".5") == Some(0.5) by {
      assert FindIndex(".5", IsExponentMark).None?;
      assert FindIndex(".5", IsPoint) == Some(0);
      assert ".5"[..0] == "" && ".5"[1..] == "5";
      assert DecimalValue("") == 0 && DecimalValue("5") == 5;
      assert Scale(5.0, -1) == 0.5;
    }
    Unpadded(".5");
  }

  /** Text after a literal makes NaN. */
  lemma TrailingTextIsNaN()
    ensures StringToNumber("12abc") == NaN
  {
    Unpadded("12abc");
    assert FindIndex("12abc", IsExponentMark).None?;
    assert FindIndex("12abc", IsPoint).None?;
    assert !AllDigits("12abc") by {
      assert !IsDigit("12abc"[2]);
    }
  }

  /** A second point makes NaN. */
  lemma SecondPointIsNaN()
    ensures StringToNumber("1.2.3") == NaN
  {
    Unpadded("1.2.3");
    assert FindIndex("1.2.3", IsExponentMark).None?;
    assert FindIndex("1.2.3", IsPoint) == Some(1);
    assert "1.2.3"[2..] == "2.3";
    assert !AllDigits("2.3") by {
      assert !IsDigit("2.3"[1]);
    }
  }

  /** An array converts through its joined elements: `[]` is zero and a
      one-element array is its element's number. */
  lemma ArraySpelling(n: int)
    ensures ToNumber(Some(JArr([]))) == Some(Finite(0.0))
    ensures ToNumber(Some(JArr([JNum(n)]))) == Some(Finite(n as real))
  {
    assert !ToPrimitiveThrows(JArr([JNum(n)])) by {
      assert [JNum(n)][0] == JNum(n);
    }
    assert JsString(JArr([])) == "";
    assert JsJoinItems(JArr([JNum(n)]), [JNum(n)]) == JsString(JNum(n));
    assert JsString(JArr([JNum(n)])) == IntToString(n);
    IntegerSpelling(n);
  }

  /** An object with its own `toString` member cannot be converted, and
      neither can an array holding one; one with only a `valueOf` member
      prints as any object does and is NaN. */
  lemma ToStringMemberThrows()
    ensures ToNumber(Some(JObj([("toString", JNum(1))]))) == None
    ensures ToNumber(Some(JArr([JNull, JObj([("toString", JNum(1))])]))) == None
    ensures ToNumber(Some(JObj([("valueOf", JNum(1))]))) == Some(NaN)
  {
    assert Keys([("toString", JNum(1))]) == ["toString"];
    assert Keys([("valueOf", JNum(1))]) == ["valueOf"];
    assert [JNull, JObj([("toString", JNum(1))])][1] == JObj([("toString", JNum(1))]);
  }
}

=== FILE: json.dfy ===
/** JSON values as JavaScript and Python see them after parsing, with the
    conversions the sources apply to them: JavaScript truthiness, `String(v)`
    (what a template literal prints), `JSON.stringify`, Python truthiness and
    `str(v)`. Numbers are integers; floating point is not modelled. */
module Json {
  import opened Base
  import opened Text

  datatype Json =
    | JNull
    | JBool(b: bool)
    | JNum(n: int)
    | JStr(s: string)
    | JArr(items: seq<Json>)
    | JObj(fields: seq<(string, Json)>)

  /** An object literal: its members in insertion order (the order of
      `Object.entries`), each key once. */
  predicate DistinctKeys(fields: seq<(string, Json)>) {
    forall i, j :: 0 <= i < j < |fields| ==> fields[i].0 != fields[j].0
  }

  type Object = fields: seq<(string, Json)> | DistinctKeys(fields) witness []

  /** The value stored under `key`, if the object has that member. */
  function Get(fields: seq<(string, Json)>, key: string): (r: Option<Json>)
    ensures r.Some? <==> exists i :: 0 <= i < |fields| && fields[i].0 == key
    ensures r.Some? ==> exists i :: 0 <= i < |fields| && fields[i] == (key, r.value)
    decreases |fields|
  {
    if |fields| == 0 then None
    else if fields[0].0 == key then Some(fields[0].1)
    else
      Get(fields[1..], key)
  }

  /** The member at `i` is found when no earlier member has its key. */
  lemma {:induction false} GetAt(fields: seq<(string, Json)>, i: nat)
    requires i < |fields|
    requires forall j :: 0 <= j < i ==> fields[j].0 != fields[i].0
    ensures Get(fields, fields[i].0) == Some(fields[i].1)
    decreases i
  {
    if i > 0 {
      GetAt(fields[1..], i - 1);
    }
  }

  /** The keys of an object, in order. */
  function Keys(fields: seq<(string, Json)>): seq<string> {
    Map(fields, (p: (string, Json)) => p.0)
  }

  /** JavaScript truthiness (`if (v)`, `v || d`) of a parsed JSON value. */
  predicate JsTruthy(v: Json) {
    match v
    case JNull => false
    case JBool(b) => b
    case JNum(n) => n != 0
    case JStr(s) => s != ""
    case JArr(_) => true
    case JObj(_) => true
  }

  /** JavaScript truthiness of a property that may be absent (`undefined`). */
  predicate JsTruthyOpt(v: Option<Json>) {
    v.Some? && JsTruthy(v.value)
  }

  /** `String(v)`: what `${v}` prints. Arrays print their elements joined by
      commas, with `null` elements printed as the empty string. */
  function JsString(v: Json): string
    decreases v, 1
  {
    match v
    case JNull => "null"
    case JBool(b) => if b then "true" else "false"
    case JNum(n) => IntToString(n)
    case JStr(s) => s
    case JArr(items) => JsJoinItems(v, items)
    case JObj(_) => "[object Object]"
  }

  function JsJoinItems(ghost parent: Json, items: seq<Json>): string
    requires forall i :: 0 <= i < |items| ==> items[i] < parent
    decreases parent, 0, |items|
  {
    if |items| == 0 then ""
    else
      var first := if items[0].JNull? then "" else JsString(items[0]);
      if |items| == 1 then first else first + "," + JsJoinItems(parent, items[1..])
  }

  /** Whether converting `v` to a primitive throws a `TypeError`, which
      `String(v)`, `${v}` and `Number(v)` all do first. A parsed object
      whose own `toString` member is data rather than a function has no way
      to become a primitive (its inherited `valueOf` returns the object
      itself), so both hints throw; an array converts by joining its
      elements, so it throws when one of them does. `JsString` gives the
      text only when this does not hold. */
  predicate ToPrimitiveThrows(v: Json) {
    match v
    case JObj(fields) => "toString" in Keys(fields)
    case JArr(items) => exists i :: 0 <= i < |items| && ToPrimitiveThrows(items[i])
    case _ => false
  }

  /** `String(v)` of a property that may be absent: `undefined` prints as
      itself. */
  function JsStringOpt(v: Option<Json>): string {
    match v
    case None => "undefined"
    case Some(x) => JsString(x)
  }

  /** Lower-case hexadecimal digit. */
  function HexDigit(d: nat): char
    requires d < 16
  {
    if d < 10 then DigitChar(d) else ('a' as int + d - 10) as char
  }

  /** The escape `JSON.stringify` writes for one character of a string. */
  function EscapeChar(c: char): (r: string)
    ensures |r| >= 1
    ensures c != '"' && c != '\\' && c as int >= 0x20 ==> r == [c]
  {
    if c == '"' then "\\\""
    else if c == '\\' then "\\\\"
    else if c == '\n' then "\\n"
    else if c == '\r' then "\\r"
    else if c == '\t' then "\\t"
    else if c as int == 0x08 then "\\b"
    else if c as int == 0x0C then "\\f"
    else if c as int < 0x20 then "\\u00" + [HexDigit(c as int / 16), HexDigit(c as int % 16)]
    else [c]
  }

  function EscapeString(s: string): string
    decreases |s|
  {
    if |s| == 0 then "" else EscapeChar(s[0]) + EscapeString(s[1..])
  }

  /** `JSON.stringify(s)` of a string. */
  function Quote(s: string): string {
    "\"" + EscapeString(s) + "\""
  }

  /** `JSON.stringify(v)` with no indentation. */
  function Stringify(v: Json): string
    decreases v, 1
  {
    match v
    case JNull => "null"
    case JBool(b) => if b then "true" else "false"
    case JNum(n) => IntToString(n)
    case JStr(s) => Quote(s)
    case JArr(items) => "[" + StringifyItems(v, items) + "]"
    case JObj(fields) => "{" + StringifyFields(v, fields) + "}"
  }

  function StringifyItems(ghost parent: Json, items: seq<Json>): string
    requires forall i :: 0 <= i < |items| ==> items[i] < parent
    decreases parent, 0, |items|
  {
    if |items| == 0 then ""
    else if |items| == 1 then Stringify(items[0])
    else Stringify(items[0]) + "," + StringifyItems(parent, items[1..])
  }

  function StringifyFields(ghost parent: Json, fields: seq<(string, Json)>): string
    requires forall i :: 0 <= i < |fields| ==> fields[i].1 < parent
    decreases parent, 0, |fields|
  {
    if |fields| == 0 then ""
    else
      var member := Quote(fields[0].0) + ":" + Stringify(fields[0].1);
      if |fields| == 1 then member else member + "," + StringifyFields(parent, fields[1..])
  }

  /** Python truthiness of a parsed JSON value (`if v:`). */
  predicate PyTruthy(v: Json) {
    match v
    case JNull => false
    case JBool(b) => b
    case JNum(n) => n != 0
    case JStr(s) => s != ""
    case JArr(items) => |items| > 0
    case JObj(fields) => |fields| > 0
  }

  /** Python's `str(v)` for the scalar values an f-string prints. A list or
      dictionary prints as a simplified `repr` (see README). */
  function PyStr(v: Json): string
    decreases v, 1
  {
    match v
    case JNull => "None"
    case JBool(b) => if b then "True" else "False"
    case JNum(n) => IntToString(n)
    case JStr(s) => s
    case JArr(items) => "[" + PyReprItems(v, items) + "]"
    case JObj(fields) => "{" + PyReprFields(v, fields) + "}"
  }

  function PyRepr(v: Json): string
    decreases v, 2
  {
    if v.JStr? then "'" + v.s + "'" else PyStr(v)
  }

  function PyReprItems(ghost parent: Json, items: seq<Json>): string
    requires forall i :: 0 <= i < |items| ==> items[i] < parent
    decreases parent, 0, |items|
  {
    if |items| == 0 then ""
    else if |items| == 1 then PyRepr(items[0])
    else PyRepr(items[0]) + ", " + PyReprItems(parent, items[1..])
  }

  function PyReprFields(ghost parent: Json, fields: seq<(string, Json)>): string
    requires forall i :: 0 <= i < |fields| ==> fields[i].1 < parent
    decreases parent, 0, |fields|
  {
    if |fields| == 0 then ""
    else
      var member := "'" + fields[0].0 + "': " + PyRepr(fields[0].1);
      if |fields| == 1 then member else member + ", " + PyReprFields(parent, fields[1..])
  }
}

=== FILE: kanban_board.dfy ===
/** The kanban board (apps/journey/src/components/kanban/board.tsx): the
    domain filter, the four status columns, moving a card by drag and drop,
    and the list updates after a save or a delete. The server calls are
    inputs: whether the status update succeeded, and the task the server
    created. */
module KanbanBoard {
  import opened Base

  datatype Task = Task(id: string, title: string, description: string, domain: string,
                       priority: int, status: string)

  /** What the task dialog saves; the status is not part of it. */
  datatype TaskData = TaskData(title: string, description: string, domain: string, priority: int)

  /** The board's columns, in order. */
  const Statuses: seq<string> := ["backlog", "todo", "in_progress", "done"]

  /** The domain filter's choices; "all" shows every task. */
  const Domains: seq<string> := ["all", "work", "side", "chores"]

  function Ids(tasks: seq<Task>): seq<string> {
    Map(tasks, (t: Task) => t.id)
  }

  predicate DistinctIds(tasks: seq<Task>) {
    forall i, j :: 0 <= i < j < |tasks| ==> tasks[i].id != tasks[j].id
  }

  // ---------------------------------------------------------------------------
  // Columns
  // ---------------------------------------------------------------------------

  /** The tasks of the selected domain, in board order. */
  function FilteredTasks(tasks: seq<Task>, domain: string): (r: seq<Task>)
    ensures domain == "all" ==> r == tasks
    ensures forall t :: t in r <==> t in tasks && (domain == "all" || t.domain == domain)
  {
    if domain == "all" then tasks else Filter(tasks, (t: Task) => t.domain == domain)
  }

  function WithStatus(tasks: seq<Task>, status: string): seq<Task> {
    Filter(tasks, (t: Task) => t.status == status)
  }

  /** One column per status: a shown task is in the column of its status, and
      a task whose status is not a column is in none. */
  function TasksByStatus(tasks: seq<Task>, domain: string): (columns: seq<seq<Task>>)
    ensures |columns| == |Statuses|
    ensures forall k, t :: 0 <= k < |Statuses| ==>
      (t in columns[k] <==> t in FilteredTasks(tasks, domain) && t.status == Statuses[k])
  {
    var shown := FilteredTasks(tasks, domain);
    seq(|Statuses|, k requires 0 <= k < |Statuses| => WithStatus(shown, Statuses[k]))
  }

  /** When every task has a column status, the columns hold as many cards as
      the filter shows. */
  lemma ColumnsCoverShown(tasks: seq<Task>, domain: string)
    requires forall t :: t in tasks ==> t.status in Statuses
    ensures var c := TasksByStatus(tasks, domain);
      |c[0]| + |c[1]| + |c[2]| + |c[3]| == |FilteredTasks(tasks, domain)|
  {
    var shown := FilteredTasks(tasks, domain);
    forall i | 0 <= i < |shown| ensures shown[i].status in Statuses {
      assert shown[i] in shown;
    }
    StatusCounts(shown);
  }

  lemma {:induction false} StatusCounts(s: seq<Task>)
    requires forall i :: 0 <= i < |s| ==> s[i].status in Statuses
    ensures |WithStatus(s, "backlog")| + |WithStatus(s, "todo")| + |WithStatus(s, "in_progress")|
      + |WithStatus(s, "done")| == |s|
  {
    if |s| > 0 {
      StatusCounts(s[1..]);
    }
  }

  // ---------------------------------------------------------------------------
  // Drag and drop
  // ---------------------------------------------------------------------------

  /** The card a drag starts with: the first task with the dragged id. */
  function FindTask(tasks: seq<Task>, id: string): (r: Option<Task>)
    ensures r.Some? <==> id in Ids(tasks)
    ensures r.Some? ==> r.value in tasks && r.value.id == id
    ensures r.Some? ==> exists i :: 0 <= i < |tasks| && tasks[i] == r.value
                                    && forall j :: 0 <= j < i ==> tasks[j].id != id
  {
    match FindIndex(tasks, (t: Task) => t.id == id)
    case None =>
      assert id !in Ids(tasks);
      None
    case Some(i) =>
      assert Ids(tasks)[i] == id;
      Some(tasks[i])
  }

  /** A drop moves the card when it lands on a column, the card exists, and
      the column is not the card's own. */
  predicate Moves(tasks: seq<Task>, over: Option<string>, id: string) {
    && over.Some?
    && FindTask(tasks, id).Some?
    && FindTask(tasks, id).value.status != over.value
    && over.value in Statuses
  }

  /** The optimistic update: every task with the id takes the new status. */
  function SetStatus(tasks: seq<Task>, id: string, status: string): (r: seq<Task>)
    ensures Ids(r) == Ids(tasks)
    ensures forall k :: 0 <= k < |tasks| ==>
      r[k] == (if tasks[k].id == id then tasks[k].(status := status) else tasks[k])
  {
    seq(|tasks|, k requires 0 <= k < |tasks| => if tasks[k].id == id then tasks[k].(status := status) else tasks[k])
  }

  /** `handleDragEnd` as written: when the server rejects the move the board
      goes back to the tasks it was first given, whatever changed since. */
  function DragEndAsWritten(tasks: seq<Task>, initial: seq<Task>, over: Option<string>, id: string,
                            serverOk: bool): (r: seq<Task>)
    ensures !Moves(tasks, over, id) ==> r == tasks
    ensures Moves(tasks, over, id) && serverOk ==> r == SetStatus(tasks, id, over.value)
    ensures Moves(tasks, over, id) && !serverOk ==> r == initial
  {
    if !Moves(tasks, over, id) then tasks
    else if serverOk then SetStatus(tasks, id, over.value)
    else initial
  }

  /** A card created after the board was shown, dragged to another column
      while the server is failing, disappears from the board. */
  lemma AsWrittenDropsNewCard()
    ensures var t := Task("t1", "new", "", "work", 1, "todo");
      && DragEndAsWritten([t], [], Some("done"), "t1", false) == []
      && DragEnd([t], Some("done"), "t1", false) == [t]
  {
    var t := Task("t1", "new", "", "work", 1, "todo");
    assert Ids([t])[0] == "t1";
    assert Moves([t], Some("done"), "t1");
  }

  /** `handleDragEnd` with the rollback it evidently intends: a rejected move
      restores the board as it was before the drop. */
  function DragEnd(tasks: seq<Task>, over: Option<string>, id: string, serverOk: bool): (r: seq<Task>)
    ensures Ids(r) == Ids(tasks)
    ensures !Moves(tasks, over, id) || !serverOk ==> r == tasks
    ensures Moves(tasks, over, id) && serverOk ==>
      forall k :: 0 <= k < |tasks| ==>
        (if tasks[k].id == id then r[k] == tasks[k].(status := over.value) else r[k] == tasks[k])
  {
    if Moves(tasks, over, id) && serverOk then SetStatus(tasks, id, over.value) else tasks
  }

  /** A move that the server rejects leaves no trace. */
  lemma RejectedMoveRestores(tasks: seq<Task>, over: Option<string>, id: string)
    ensures DragEnd(tasks, over, id, false) == tasks
  {
  }

  /** Dragging a card back to its column undoes an accepted move (a card
      from a status that is not a column cannot be dropped back). */
  lemma MoveBackUndoes(tasks: seq<Task>, over: Option<string>, id: string)
    requires DistinctIds(tasks)
    requires Moves(tasks, over, id) && FindTask(tasks, id).value.status in Statuses
    ensures var from := FindTask(tasks, id).value.status;
      DragEnd(DragEnd(tasks, over, id, true), Some(from), id, true) == tasks
  {
    var from := FindTask(tasks, id).value.status;
    var moved := DragEnd(tasks, over, id, true);
    var i :| 0 <= i < |tasks| && tasks[i] == FindTask(tasks, id).value;
    assert moved[i] == tasks[i].(status := over.value);
    assert Ids(moved)[i] == id;
    var found := FindTask(moved, id).value;
    var j :| 0 <= j < |moved| && moved[j] == found;
    assert Ids(moved)[j] == id;
    assert tasks[j].id == id by {
      assert Ids(tasks)[j] == Ids(moved)[j];
    }
    assert j == i;
    assert Moves(moved, Some(from), id);
    var back := DragEnd(moved, Some(from), id, true);
    forall k | 0 <= k < |tasks| ensures back[k] == tasks[k] {
      if tasks[k].id == id {
        assert k == i;
      }
    }
  }

  // ---------------------------------------------------------------------------
  // Save and delete
  // ---------------------------------------------------------------------------

  /** `{ ...t, ...data }`: the dialog's fields replace the task's, the status
      stays. */
  function Merge(t: Task, data: TaskData): (r: Task)
    ensures r.id == t.id && r.status == t.status
    ensures r.title == data.title && r.description == data.description
    ensures r.domain == data.domain && r.priority == data.priority
  {
    t.(title := data.title, description := data.description, domain := data.domain, priority := data.priority)
  }

  /** Saving an edited task rewrites the tasks with its id and only them. */
  function SaveEdit(tasks: seq<Task>, id: string, data: TaskData): (r: seq<Task>)
    ensures Ids(r) == Ids(tasks)
    ensures forall k :: 0 <= k < |tasks| ==>
      r[k] == (if tasks[k].id == id then Merge(tasks[k], data) else tasks[k])
  {
    seq(|tasks|, k requires 0 <= k < |tasks| => if tasks[k].id == id then Merge(tasks[k], data) else tasks[k])
  }

  /** Saving a new task appends what the server created. */
  function SaveNew(tasks: seq<Task>, created: Task): (r: seq<Task>)
    ensures |r| == |tasks| + 1 && r[..|tasks|] == tasks && r[|tasks|] == created
  {
    tasks + [created]
  }

  function DeleteTask(tasks: seq<Task>, id: string): (r: seq<Task>)
    ensures forall t :: t in r <==> t in tasks && t.id != id
    ensures id !in Ids(r)
  {
    var r := Filter(tasks, (t: Task) => t.id != id);
    assert forall k :: 0 <= k < |r| ==> r[k] in r;
    r
  }

  /** Deleting a task just created gives the board back. */
  lemma DeleteUndoesSaveNew(tasks: seq<Task>, created: Task)
    requires created.id !in Ids(tasks)
    ensures DeleteTask(SaveNew(tasks, created), created.id) == tasks
  {
    var p := (t: Task) => t.id != created.id;
    forall k | 0 <= k < |tasks| ensures p(tasks[k]) {
      assert Ids(tasks)[k] == tasks[k].id;
    }
    FilterAll(tasks, p);
    FilterSnoc(tasks, created, p);
  }

  /** Saving the same edit twice is saving it once. */
  lemma SaveEditIdempotent(tasks: seq<Task>, id: string, data: TaskData)
    ensures SaveEdit(SaveEdit(tasks, id, data), id, data) == SaveEdit(tasks, id, data)
  {
  }
}

=== FILE: linear_cli.dfy ===
/** The Linear command-line entry point (scripts/linear.py): help, the
    command table, and the hand-off of the remaining arguments to a
    command. Importing the package loads `.env` first, so a run starts from
    the process environment with the file's settings applied. */
module LinearCli {
  import opened Base
  import opened LinearConfig
  import opened LinearCommands

  /** `COMMANDS`, in its written order. */
  const Commands: seq<string> := ["list", "create", "update", "status", "delete", "states"]

  const HelpFlags: seq<string> := ["-h", "--help", "help"]

  /** What `show_help()` prints. */
  const HelpLines: seq<string> := [
    "Usage: linear.py <command> [args]",
    "",
    "Commands:",
    "  list                            List all tasks",
    "  create \"Title\" label [priority] Create task (label: work/side/chores)",
    "  update <id> \"New title\"         Update task title",
    "  status <id> <status>            Change status (backlog/todo/progress/done)",
    "  delete <ids>                    Delete issues (e.g., DEF-1,DEF-2 or 1,2,3)",
    "  states                          List workflow states"
  ]

  /** `COMMANDS[command].run(args)`. */
  function RunCommand(command: string, args: seq<string>, env: Env, server: Server): Run
    requires command in Commands
  {
    if command == "list" then ListIssues(env, server)
    else if command == "create" then Create(args, env, server)
    else if command == "update" then Update(args, env, server)
    else if command == "status" then Status(args, env, server)
    else if command == "delete" then Delete(args, env, server)
    else ListStates(env, server)
  }

  /** `main()` on `argv` (the script's name first). */
  function Main(argv: seq<string>, env: Env, server: Server): (r: Run)
    ensures |argv| < 2 || argv[1] in HelpFlags ==> r.output == HelpLines && r.ending == Exited(0)
    ensures |argv| >= 2 && argv[1] !in HelpFlags && argv[1] !in Commands ==>
      && r.output == ["Unknown command: " + argv[1]] + HelpLines
      && r.queries == [] && ExitCode(r.ending) == 1
    ensures |argv| >= 2 && argv[1] !in HelpFlags && argv[1] in Commands ==>
      r == RunCommand(argv[1], argv[2..], env, server)
    ensures r.queries != [] ==> |argv| >= 2 && argv[1] in Commands
  {
    if |argv| < 2 || argv[1] in HelpFlags then Run(HelpLines, [], Exited(0))
    else if argv[1] !in Commands then Run(["Unknown command: " + argv[1]] + HelpLines, [], Exited(1))
    else RunCommand(argv[1], argv[2..], env, server)
  }

  /** The script as started: `.env` (its lines, when the file exists) is
      loaded into the process environment before `main()` runs; a setting the
      environment refuses raises during the import, before any command, help
      included, and the script exits with 1. */
  function Program(argv: seq<string>, processEnv: Env, dotEnv: Option<seq<string>>, server: Server): (r: Run)
    ensures var load := LoadDotEnv(processEnv, dotEnv);
      load.Err? ==> r == Run([], [], Raised(load.error)) && (load.error == EmbeddedNull || load.error == InvalidName)
    ensures r.ending.Raised? ==> ExitCode(r.ending) == 1
    ensures var load := LoadDotEnv(processEnv, dotEnv);
      load.Ok? ==> r == Main(argv, load.value, server)
    ensures dotEnv.None? ==> r == Main(argv, processEnv, server)
  {
    match LoadDotEnv(processEnv, dotEnv)
    case Err(e) => Run([], [], Raised(e))
    case Ok(env) => Main(argv, env, server)
  }

  /** The table has six distinct commands, none of them a help flag, so
      every name reaches exactly one of help, a command, or the unknown
      command message. */
  lemma CommandTable()
    ensures |Commands| == 6
    ensures forall i, j :: 0 <= i < j < |Commands| ==> Commands[i] != Commands[j]
    ensures forall f :: f in HelpFlags ==> f !in Commands
  {
  }

  /** Help exits 0; anything the dispatcher itself rejects exits 1 and
      sends nothing; a command's own checks exit 1 too. */
  lemma ExitCodes(argv: seq<string>, env: Env, server: Server)
    ensures var r := Main(argv, env, server);
      r.ending.Exited? ==> (r.ending.code == 0 <==> |argv| < 2 || argv[1] in HelpFlags)
  {
    var r := Main(argv, env, server);
    if |argv| >= 2 && argv[1] !in HelpFlags && argv[1] in Commands {
      var cmd := argv[1];
      var args := argv[2..];
      if cmd == "list" {
      } else if cmd == "create" {
        assert r == Create(args, env, server);
      } else if cmd == "update" {
        assert r == Update(args, env, server);
      } else if cmd == "status" {
        assert r == Status(args, env, server);
      } else if cmd == "delete" {
        assert r == Delete(args, env, server);
      }
    }
  }

  /** A command's arguments are the ones after its name: `linear.py create
      T work` creates issue T with label work and the default priority. */
  lemma HandlerGetsRest(title: string, name: string, env: Env, server: Server)
    ensures Main(["linear.py", "create", title, name], env, server) == Create([title, name], env, server)
  {
    assert ["linear.py", "create", title, name][2..] == [title, name];
  }
}

=== FILE: linear_commands.dfy ===
/** The Linear command-line tool's commands (scripts/linear/create.py,
    status.py, update.py, delete.py, list.py, states.py): the argument checks
    made before any request, the GraphQL documents sent, and the lines
    printed for the server's answers. The environment, the API's answers
    (`server`, the parsed JSON body for each document sent, or the error the
    transport raised) are inputs; a run records what was printed, what was
    sent and how it ended. */
module LinearCommands {
  import opened Base
  import opened Text
  import opened Json
  import opened LinearConfig

  /** How a command ends: returning, `sys.exit(code)`, or an exception that
      nothing catches. */
  datatype Ending = Returned | Exited(code: nat) | Raised(error: string)

  /** Lines printed, documents sent (in order), and the ending. */
  datatype Run = Run(output: seq<string>, queries: seq<string>, ending: Ending)

  /** `client.query(document)`: the parsed answer, or the error raised. */
  type Server = string -> Result<Json, string>

  /** The process's exit status: an uncaught exception exits with 1. */
  function ExitCode(e: Ending): (code: nat)
    ensures code == 0 <==> e.Returned? || e == Exited(0)
  {
    match e
    case Returned => 0
    case Exited(c) => c
    case Raised(_) => 1
  }

  // ---------------------------------------------------------------------------
  // Python's dictionary access on a parsed answer
  // ---------------------------------------------------------------------------

  const EmptyDict: Json := JObj([])

  /** `v.get(key, default)`: only a dictionary has `get`. */
  function PyGet(v: Json, key: string, default: Json): Result<Json, string> {
    match v
    case JObj(fields) => Ok(Get(fields, key).GetOr(default))
    case _ => Err("AttributeError")
  }

  /** `v.get(k1, {}).get(k2, {})...` along `keys`. */
  function Dig(v: Json, keys: seq<string>): Result<Json, string>
    decreases |keys|
  {
    if |keys| == 0 then Ok(v)
    else match PyGet(v, keys[0], EmptyDict)
      case Err(e) => Err(e)
      case Ok(w) => Dig(w, keys[1..])
  }

  /** `v[key]`: a missing key raises `KeyError`, a value that is not a
      dictionary `TypeError`. */
  function PyIndex(v: Json, key: string): Result<Json, string> {
    match v
    case JObj(fields) => (match Get(fields, key) case Some(w) => Ok(w) case None => Err("KeyError"))
    case _ => Err("TypeError")
  }

  /** `for x in v`: a list gives its items, a string its characters, a
      dictionary its keys; anything else is not iterable. */
  function PyIter(v: Json): (r: Result<seq<Json>, string>)
    ensures v.JArr? ==> r == Ok(v.items)
    ensures v.JStr? ==> r.Ok? && |r.value| == |v.s|
    ensures v.JObj? ==> r.Ok? && |r.value| == |v.fields|
    ensures r.Err? <==> !(v.JArr? || v.JStr? || v.JObj?)
  {
    match v
    case JArr(items) => Ok(items)
    case JStr(s) => Ok(seq(|s|, i requires 0 <= i < |s| => JStr([s[i]])))
    case JObj(fields) => Ok(seq(|fields|, i requires 0 <= i < |fields| => JStr(fields[i].0)))
    case _ => Err("TypeError")
  }

  /** Python's `int(s)` on ASCII text: surrounding whitespace, an optional
      sign, then at least one digit; anything else raises `ValueError`. */
  function PyInt(s: string): (r: Option<int>)
    ensures r.Some? ==> |PyStrip(s)| > 0 && AllDigits(PyStrip(s)[1..])
    ensures r.Some? && PyStrip(s)[0] == '-' ==> |PyStrip(s)| > 1 && r.value == -(DecimalValue(PyStrip(s)[1..]) as int)
    ensures r.Some? && PyStrip(s)[0] == '+' ==> |PyStrip(s)| > 1 && r.value == DecimalValue(PyStrip(s)[1..])
    ensures r.Some? && PyStrip(s)[0] != '-' && PyStrip(s)[0] != '+' ==>
      IsDigit(PyStrip(s)[0]) && r.value == DecimalValue(PyStrip(s))
  {
    var t := PyStrip(s);
    var negative := |t| > 0 && t[0] == '-';
    var digits := if |t| > 0 && (t[0] == '-' || t[0] == '+') then t[1..] else t;
    if |digits| > 0 && AllDigits(digits) then
      Some(if negative then -(DecimalValue(digits) as int) else DecimalValue(digits))
    else None
  }

  /** Text with no whitespace at either end is its own strip. */
  lemma PyStripKeeps(s: string)
    requires |s| > 0 && !IsPySpace(s[0]) && !IsPySpace(s[|s| - 1])
    ensures PyStrip(s) == s
  {
    assert SkipForward(s, IsPySpace, 0) == 0;
    assert SkipBackward(s, IsPySpace, 0, |s|) == |s|;
    assert s[0..|s|] == s;
  }

  /** `int()` reads back every integer written in decimal, with its sign. */
  lemma PyIntReadsInt(n: int)
    ensures PyInt(IntToString(n)) == Some(n)
  {
    if n >= 0 {
      PyIntReadsDecimal(n);
    } else {
      var d := NatToString(-n);
      var s := IntToString(n);
      assert s == "-" + d;
      assert s[|s| - 1] == d[|d| - 1] && IsDigit(d[|d| - 1]);
      PyStripKeeps(s);
      assert s[1..] == d;
      DecimalValueOfNatToString(-n);
    }
  }

  /** `int()` reads back every priority the usage line offers, and every
      number written in decimal. */
  lemma PyIntReadsDecimal(n: nat)
    ensures PyInt(NatToString(n)) == Some(n)
  {
    var s := NatToString(n);
    assert IsDigit(s[0]) && IsDigit(s[|s| - 1]);
    PyStripKeeps(s);
    DecimalValueOfNatToString(n);
  }

  // ---------------------------------------------------------------------------
  // Mutations: create, status, update
  // ---------------------------------------------------------------------------

  /** What a mutation command prints for the server's answer: the success
      line built from the returned issue when `data.<field>.success` is
      truthy, otherwise `failure` and the whole answer. */
  function Report(answer: Json, field: string, line: Json -> Result<string, string>,
                  failure: string): (r: (seq<string>, Ending))
    ensures r.1.Returned? || r.1.Raised?
    ensures r.1.Raised? ==> r.0 == []
    ensures r.1.Returned? ==> |r.0| == 1 || r.0 == [failure, PyStr(answer)]
  {
    match Dig(answer, ["data", field])
    case Err(e) => ([], Raised(e))
    case Ok(data) =>
      match PyGet(data, "success", JNull)
      case Err(e) => ([], Raised(e))
      case Ok(success) =>
        if !PyTruthy(success) then ([failure, PyStr(answer)], Returned)
        else match PyGet(data, "issue", EmptyDict)
          case Err(e) => ([], Raised(e))
          case Ok(issue) =>
            match line(issue)
            case Err(e) => ([], Raised(e))
            case Ok(l) => ([l], Returned)
  }

  /** Sends one document and reports on the answer. */
  function Mutate(q: string, server: Server, field: string, line: Json -> Result<string, string>,
                  failure: string): (r: Run)
    ensures r.queries == [q]
    ensures r.ending.Returned? || r.ending.Raised?
  {
    match server(q)
    case Err(e) => Run([], [q], Raised(e))
    case Ok(answer) =>
      var (out, ending) := Report(answer, field, line, failure);
      Run(out, [q], ending)
  }

  /** An answer of the shape the API gives: `{"data": {field: {"success": s,
      "issue": issue}}}`. */
  function Answer(field: string, success: bool, issue: Json): Json {
    JObj([("data", JObj([(field, JObj([("success", JBool(success)), ("issue", issue)]))]))])
  }

  /** Both members of a two-member object are found. */
  lemma GetPair(a: string, va: Json, b: string, vb: Json)
    requires a != b
    ensures Get([(a, va), (b, vb)], a) == Some(va)
    ensures Get([(a, va), (b, vb)], b) == Some(vb)
  {
    GetAt([(a, va), (b, vb)], 1);
  }

  /** A successful answer prints the line built from its issue. */
  lemma ReportSuccess(field: string, issue: Json, line: Json -> Result<string, string>, failure: string)
    ensures Report(Answer(field, true, issue), field, line, failure) ==
      match line(issue)
      case Ok(l) => ([l], Returned)
      case Err(e) => ([], Raised(e))
  {
    var inner := JObj([("success", JBool(true)), ("issue", issue)]);
    var data := JObj([(field, inner)]);
    assert Dig(inner, []) == Ok(inner);
    assert Dig(data, [field]) == Ok(inner) by { assert [field][1..] == []; }
    assert Dig(Answer(field, true, issue), ["data", field]) == Ok(inner) by { assert ["data", field][1..] == [field]; }
    GetPair("success", JBool(true), "issue", issue);
  }

  /** A rejected answer prints the failure line and the whole answer. */
  lemma ReportRejected(field: string, issue: Json, line: Json -> Result<string, string>, failure: string)
    ensures Report(Answer(field, false, issue), field, line, failure) ==
      ([failure, PyStr(Answer(field, false, issue))], Returned)
  {
    var inner := JObj([("success", JBool(false)), ("issue", issue)]);
    var data := JObj([(field, inner)]);
    assert Dig(inner, []) == Ok(inner);
    assert Dig(data, [field]) == Ok(inner) by { assert [field][1..] == []; }
    assert Dig(Answer(field, false, issue), ["data", field]) == Ok(inner) by { assert ["data", field][1..] == [field]; }
    GetPair("success", JBool(false), "issue", issue);
  }

  function IssueObject(identifier: string, title: string): Json {
    JObj([("identifier", JStr(identifier)), ("title", JStr(title))])
  }

  const CreateUsage: string := "Usage: create \"Title\" work|side|chores [priority 0-4]"
  const CreateFailure: string := "Failed to create issue"

  lemma JoinThree(a: string, b: string, c: string, sep: string)
    ensures Join([a, b, c], sep) == a + sep + b + sep + c
  {
    assert [a, b, c][1..] == [b, c];
    assert [b, c][1..] == [c];
    assert Join([b, c], sep) == b + sep + c;
    assert Join([a, b, c], sep) == a + sep + (b + sep + c);
  }

  lemma JoinFour(a: string, b: string, c: string, d: string, sep: string)
    ensures Join([a, b, c, d], sep) == a + sep + b + sep + c + sep + d
  {
    assert [a, b, c, d][1..] == [b, c, d];
    JoinThree(b, c, d, sep);
    assert Join([a, b, c, d], sep) == a + sep + (b + sep + c + sep + d);
  }

  /** `Label must be: work, side, chores`, from the table's keys. */
  function LabelError(): (m: string)
    ensures m == "Label must be: work, side, chores"
  {
    TablesAreClosed("");
    JoinThree("work", "side", "chores", ", ");
    "Label must be: " + Join(TableKeys(Labels), ", ")
  }

  /** An f-string: the literal pieces with the values put between them. */
  function Fill(pieces: seq<string>, values: seq<string>): string
    requires |pieces| == |values| + 1
    decreases |values|
  {
    if |values| == 0 then pieces[0]
    else pieces[0] + values[0] + Fill(pieces[1..], values[1..])
  }

  /** Every value put into an f-string occurs in the text. */
  lemma {:induction false} FillContains(pieces: seq<string>, values: seq<string>, k: nat)
    requires |pieces| == |values| + 1 && k < |values|
    ensures Contains(Fill(pieces, values), values[k])
    decreases |values|
  {
    var rest := Fill(pieces[1..], values[1..]);
    if k == 0 {
      assert Fill(pieces, values)[|pieces[0]|..|pieces[0]| + |values[0]|] == values[0];
      assert OccursAt(values[0], Fill(pieces, values), |pieces[0]|);
    } else {
      FillContains(pieces[1..], values[1..], k - 1);
      ContainsConcat(pieces[0] + values[0], rest, values[k]);
      assert Fill(pieces, values) == (pieces[0] + values[0]) + rest;
    }
  }

  const CreatePieces: seq<string> := [
    "\n        mutation { issueCreate(input: {\n            title: \"",
    "\",\n            teamId: \"",
    "\",\n            projectId: \"",
    "\",\n            labelIds: [\"",
    "\"],\n            priority: ",
    "\n        }) {\n            success\n            issue { id identifier title }\n        } }\n    "
  ]

  /** The `issueCreate` document. */
  function CreateMutation(title: string, labelId: string, priority: int): string {
    Fill(CreatePieces, [title, TeamId, ProjectId, labelId, IntToString(priority)])
  }

  /** The document carries the title, the team, the project, the label's id
      and the priority. */
  lemma CreateMutationEmbeds(title: string, labelId: string, priority: int)
    ensures var q := CreateMutation(title, labelId, priority);
      && Contains(q, title) && Contains(q, TeamId) && Contains(q, ProjectId)
      && Contains(q, labelId) && Contains(q, IntToString(priority))
  {
    var values := [title, TeamId, ProjectId, labelId, IntToString(priority)];
    FillContains(CreatePieces, values, 0);
    FillContains(CreatePieces, values, 1);
    FillContains(CreatePieces, values, 2);
    FillContains(CreatePieces, values, 3);
    FillContains(CreatePieces, values, 4);
  }

  /** `Created: <identifier> - <title>`. */
  function CreatedLine(issue: Json): Result<string, string> {
    match PyGet(issue, "identifier", JNull)
    case Err(e) => Err(e)
    case Ok(id) =>
      match PyGet(issue, "title", JNull)
      case Err(e) => Err(e)
      case Ok(title) => Ok("Created: " + PyStr(id) + " - " + PyStr(title))
  }

  /** The exception `int(s)` raises on text that is not an integer. */
  function IntError(s: string): string {
    "ValueError: invalid literal for int() with base 10: " + PyRepr(JStr(s))
  }

  /** `create "Title" label [priority]`. The priority is read before the
      label is checked; nothing is sent unless there are two arguments, the
      priority is an integer, the label is known and the key is set. */
  function Create(args: seq<string>, env: Env, server: Server): (r: Run)
    ensures |args| < 2 ==> r == Run([CreateUsage], [], Exited(1))
    ensures r.queries != [] ==>
      && |args| >= 2 && Lower(args[1]) in TableKeys(Labels) && NewClient(env).Ok?
      && (|args| > 2 ==> PyInt(args[2]).Some?)
      && r.queries == [CreateMutation(args[0], Lookup(Labels, Lower(args[1])).value,
                                      if |args| > 2 then PyInt(args[2]).value else 3)]
    ensures r.ending.Exited? ==> r.ending.code == 1 && r.queries == [] && |r.output| == 1
    ensures |args| >= 2 && Lower(args[1]) !in TableKeys(Labels) && (|args| == 2 || PyInt(args[2]).Some?) ==>
      r == Run([LabelError()], [], Exited(1))
    ensures |args| > 2 && PyInt(args[2]).None? ==> r == Run([], [], Raised(IntError(args[2])))
  {
    if |args| < 2 then Run([CreateUsage], [], Exited(1))
    else
      var title := args[0];
      var labelName := Lower(args[1]);
      var priority := if |args| > 2 then PyInt(args[2]) else Some(3);
      if priority.None? then Run([], [], Raised(IntError(args[2])))
      else match Lookup(Labels, labelName)
        case None => Run([LabelError()], [], Exited(1))
        case Some(labelId) =>
          match NewClient(env)
          case Err(e) => Run([], [], Raised("RuntimeError: " + e))
          case Ok(_) => Mutate(CreateMutation(title, labelId, priority.value), server, "issueCreate",
                               CreatedLine, CreateFailure)
  }

  /** With two arguments the issue is created with priority 3, and a
      successful answer prints the new issue's identifier and title. */
  lemma CreateDefaultsPriority(title: string, name: string, env: Env, server: Server, id: string, t: string)
    requires Lower(name) in TableKeys(Labels) && NewClient(env).Ok?
    requires server(CreateMutation(title, Lookup(Labels, Lower(name)).value, 3)) ==
      Ok(Answer("issueCreate", true, IssueObject(id, t)))
    ensures Create([title, name], env, server) ==
      Run(["Created: " + id + " - " + t], [CreateMutation(title, Lookup(Labels, Lower(name)).value, 3)], Returned)
  {
    ReportSuccess("issueCreate", IssueObject(id, t), CreatedLine, CreateFailure);
    GetPair("identifier", JStr(id), "title", JStr(t));
  }

  /** A rejected create prints the failure line and then the whole answer. */
  lemma CreateReportsFailure(args: seq<string>, env: Env, server: Server, issue: Json)
    requires |args| >= 2 && Lower(args[1]) in TableKeys(Labels) && NewClient(env).Ok?
    requires |args| > 2 ==> PyInt(args[2]).Some?
    requires var q := CreateMutation(args[0], Lookup(Labels, Lower(args[1])).value,
                                     if |args| > 2 then PyInt(args[2]).value else 3);
      server(q) == Ok(Answer("issueCreate", false, issue))
    ensures Create(args, env, server).output ==
      [CreateFailure, PyStr(Answer("issueCreate", false, issue))]
    ensures Create(args, env, server).ending == Returned
  {
    ReportRejected("issueCreate", issue, CreatedLine, CreateFailure);
  }

  const StatusFailure: string := "Failed to update status"

  /** `sep.join(STATES.keys())`: the state names in table order. */
  function StateNames(sep: string): (m: string)
    ensures m == "backlog" + sep + "todo" + sep + "progress" + sep + "done"
  {
    TablesAreClosed("");
    JoinFour("backlog", "todo", "progress", "done", sep);
    Join(TableKeys(States), sep)
  }

  function StatusUsage(): string {
    "Usage: status <issue-id> " + StateNames(" | ")
  }

  function StatusError(): string {
    "Status must be: " + StateNames(", ")
  }

  const StatusPieces: seq<string> := [
    "\n        mutation { issueUpdate(id: \"",
    "\", input: {\n            stateId: \"",
    "\"\n        }) {\n            success\n            issue { id identifier title state { name } }\n        } }\n    "
  ]

  /** The `issueUpdate` document that moves an issue to a state. */
  function StatusMutation(issueId: string, stateId: string): string {
    Fill(StatusPieces, [issueId, stateId])
  }

  /** The document names the issue and the state's id. */
  lemma StatusMutationEmbeds(issueId: string, stateId: string)
    ensures Contains(StatusMutation(issueId, stateId), issueId)
    ensures Contains(StatusMutation(issueId, stateId), stateId)
  {
    FillContains(StatusPieces, [issueId, stateId], 0);
    FillContains(StatusPieces, [issueId, stateId], 1);
  }

  /** `<identifier>: <title> -> <state>`, the state's name defaulting to "". */
  function StatusLine(issue: Json): Result<string, string> {
    match Dig(issue, ["state"])
    case Err(e) => Err(e)
    case Ok(st) =>
      match PyGet(st, "name", JStr(""))
      case Err(e) => Err(e)
      case Ok(state) =>
        match PyGet(issue, "identifier", JNull)
        case Err(e) => Err(e)
        case Ok(id) =>
          match PyGet(issue, "title", JNull)
          case Err(e) => Err(e)
          case Ok(title) => Ok(PyStr(id) + ": " + PyStr(title) + " -> " + PyStr(state))
  }

  /** The status line of an issue with and without a state. */
  lemma StatusLineOf(ident: string, title: string, stateName: Option<string>)
    ensures var issue := match stateName
        case None => IssueObject(ident, title)
        case Some(n) => JObj(IssueObject(ident, title).fields + [("state", JObj([("name", JStr(n))]))]);
      StatusLine(issue) == Ok(ident + ": " + title + " -> " + stateName.GetOr(""))
  {
    match stateName
    case None =>
      StatusLineBare(ident, title);
      assert ident + ": " + title + " -> " + "" == ident + ": " + title + " -> ";
    case Some(n) =>
      StatusLineStated(ident, title, n);
  }

  lemma StatusLineBare(ident: string, title: string)
    ensures StatusLine(IssueObject(ident, title)) == Ok(ident + ": " + title + " -> ")
  {
    var issue := IssueObject(ident, title);
    GetPair("identifier", JStr(ident), "title", JStr(title));
    assert Get(issue.fields, "state").None?;
    assert ["state"][1..] == [];
    assert Dig(EmptyDict, []) == Ok(EmptyDict);
    assert Dig(issue, ["state"]) == Ok(EmptyDict);
    assert PyGet(EmptyDict, "name", JStr("")) == Ok(JStr(""));
    assert PyGet(issue, "identifier", JNull) == Ok(JStr(ident));
    assert PyGet(issue, "title", JNull) == Ok(JStr(title));
    assert ident + ": " + title + " -> " + "" == ident + ": " + title + " -> ";
  }

  lemma StatusLineStated(ident: string, title: string, n: string)
    ensures StatusLine(JObj(IssueObject(ident, title).fields + [("state", JObj([("name", JStr(n))]))])) ==
      Ok(ident + ": " + title + " -> " + n)
  {
    var st := JObj([("name", JStr(n))]);
    var all := IssueObject(ident, title).fields + [("state", st)];
    var issue := JObj(all);
    GetAt(all, 0);
    GetAt(all, 1);
    GetAt(all, 2);
    assert ["state"][1..] == [];
    assert Dig(st, []) == Ok(st);
    assert Dig(issue, ["state"]) == Ok(st);
    assert PyGet(st, "name", JStr("")) == Ok(JStr(n));
    assert PyGet(issue, "identifier", JNull) == Ok(JStr(ident));
    assert PyGet(issue, "title", JNull) == Ok(JStr(title));
  }

  /** `status <issue-id> <state>`: nothing is sent unless there are two
      arguments, the lower-cased state is known and the key is set. */
  function Status(args: seq<string>, env: Env, server: Server): (r: Run)
    ensures |args| < 2 ==> r == Run([StatusUsage()], [], Exited(1))
    ensures r.queries != [] ==>
      && |args| >= 2 && Lower(args[1]) in TableKeys(States) && NewClient(env).Ok?
      && r.queries == [StatusMutation(args[0], Lookup(States, Lower(args[1])).value)]
    ensures |args| >= 2 && Lower(args[1]) !in TableKeys(States) ==> r == Run([StatusError()], [], Exited(1))
    ensures r.ending.Exited? ==> r.ending.code == 1 && r.queries == []
  {
    if |args| < 2 then Run([StatusUsage()], [], Exited(1))
    else
      match Lookup(States, Lower(args[1]))
      case None => Run([StatusError()], [], Exited(1))
      case Some(stateId) =>
        match NewClient(env)
        case Err(e) => Run([], [], Raised("RuntimeError: " + e))
        case Ok(_) => Mutate(StatusMutation(args[0], stateId), server, "issueUpdate", StatusLine, StatusFailure)
  }

  /** A moved issue prints as `<identifier>: <title> -> <state>`; when the
      answer has no state the name prints empty. */
  lemma StatusReportsMove(id: string, state: string, env: Env, server: Server,
                          ident: string, title: string, stateName: Option<string>)
    requires Lower(state) in TableKeys(States) && NewClient(env).Ok?
    requires var issue := match stateName
        case None => IssueObject(ident, title)
        case Some(n) => JObj(IssueObject(ident, title).fields + [("state", JObj([("name", JStr(n))]))]);
      server(StatusMutation(id, Lookup(States, Lower(state)).value)) == Ok(Answer("issueUpdate", true, issue))
    ensures Status([id, state], env, server).output == [ident + ": " + title + " -> " + stateName.GetOr("")]
    ensures Status([id, state], env, server).ending == Returned
  {
    var issue := match stateName
      case None => IssueObject(ident, title)
      case Some(n) => JObj(IssueObject(ident, title).fields + [("state", JObj([("name", JStr(n))]))]);
    ReportSuccess("issueUpdate", issue, StatusLine, StatusFailure);
    StatusLineOf(ident, title, stateName);
  }

  /** A rejected move prints the failure line and then the whole answer. */
  lemma StatusReportsFailure(id: string, state: string, env: Env, server: Server, issue: Json)
    requires Lower(state) in TableKeys(States) && NewClient(env).Ok?
    requires server(StatusMutation(id, Lookup(States, Lower(state)).value)) == Ok(Answer("issueUpdate", false, issue))
    ensures Status([id, state], env, server) ==
      Run([StatusFailure, PyStr(Answer("issueUpdate", false, issue))],
          [StatusMutation(id, Lookup(States, Lower(state)).value)], Returned)
  {
    ReportRejected("issueUpdate", issue, StatusLine, StatusFailure);
  }

  const UpdateUsage: string := "Usage: update <issue-id> \"New title\""
  const UpdateFailure: string := "Failed to update issue"

  const UpdatePieces: seq<string> := [
    "\n        mutation { issueUpdate(id: \"",
    "\", input: {\n            title: \"",
    "\"\n        }) {\n            success\n            issue { id identifier title }\n        } }\n    "
  ]

  /** The `issueUpdate` document that renames an issue. */
  function UpdateMutation(issueId: string, title: string): string {
    Fill(UpdatePieces, [issueId, title])
  }

  /** `Updated: <identifier> - <title>`. */
  function UpdatedLine(issue: Json): Result<string, string> {
    match PyGet(issue, "identifier", JNull)
    case Err(e) => Err(e)
    case Ok(id) =>
      match PyGet(issue, "title", JNull)
      case Err(e) => Err(e)
      case Ok(title) => Ok("Updated: " + PyStr(id) + " - " + PyStr(title))
  }

  /** `update <issue-id> "New title"`. */
  function Update(args: seq<string>, env: Env, server: Server): (r: Run)
    ensures |args| < 2 ==> r == Run([UpdateUsage], [], Exited(1))
    ensures r.queries != [] ==> |args| >= 2 && NewClient(env).Ok? && r.queries == [UpdateMutation(args[0], args[1])]
    ensures r.ending.Exited? ==> r.ending.code == 1 && r.queries == []
  {
    if |args| < 2 then Run([UpdateUsage], [], Exited(1))
    else
      match NewClient(env)
      case Err(e) => Run([], [], Raised("RuntimeError: " + e))
      case Ok(_) => Mutate(UpdateMutation(args[0], args[1]), server, "issueUpdate", UpdatedLine, UpdateFailure)
  }

  /** A renamed issue prints as `Updated: <identifier> - <title>`. */
  lemma UpdateReportsRename(id: string, newTitle: string, env: Env, server: Server, ident: string, title: string)
    requires NewClient(env).Ok?
    requires server(UpdateMutation(id, newTitle)) == Ok(Answer("issueUpdate", true, IssueObject(ident, title)))
    ensures Update([id, newTitle], env, server) ==
      Run(["Updated: " + ident + " - " + title], [UpdateMutation(id, newTitle)], Returned)
  {
    ReportSuccess("issueUpdate", IssueObject(ident, title), UpdatedLine, UpdateFailure);
    GetPair("identifier", JStr(ident), "title", JStr(title));
  }

  // ---------------------------------------------------------------------------
  // delete
  // ---------------------------------------------------------------------------

  const DeleteUsage: string := "Usage: delete <identifiers> (e.g., DEF-1,DEF-2 or 1,2,3)"

  /** The comma-separated parts of the argument, each stripped. */
  function Identifiers(arg: string): (ids: seq<string>)
    ensures |ids| == |Split(arg, ',')| >= 1
    ensures forall k :: 0 <= k < |ids| ==> ids[k] == PyStrip(Split(arg, ',')[k])
  {
    var parts := Split(arg, ',');
    seq(|parts|, k requires 0 <= k < |parts| => PyStrip(parts[k]))
  }

  /** A bare issue number gets the team's `DEF-` prefix. */
  function Normalize(ident: string): string {
    if |ident| > 0 && AllDigits(ident) then "DEF-" + ident else ident
  }

  /** The prefix is added once: a normalised identifier is left alone, and
      a number and its `DEF-` form name the same issue. */
  lemma NormalizeIdempotent(ident: string)
    ensures Normalize(Normalize(ident)) == Normalize(ident)
    ensures |ident| > 0 && AllDigits(ident) ==> Normalize("DEF-" + ident) == Normalize(ident)
  {
    if |ident| > 0 && AllDigits(ident) {
      assert !IsDigit(("DEF-" + ident)[0]);
    }
  }

  const LookupPieces: seq<string> := ["{ issue(id: \"", "\") { id } }"]

  const DeletePieces: seq<string> := [
    "\n            mutation { issueDelete(id: \"",
    "\") { success } }\n        "
  ]

  function LookupQuery(ident: string): string {
    Fill(LookupPieces, [ident])
  }

  function DeleteMutation(uuid: string): string {
    Fill(DeletePieces, [uuid])
  }

  /** The three lines `delete` prints for an identifier. */
  predicate IsOutcome(line: string, ident: string) {
    line in [ident + ": not found", ident + ": deleted", ident + ": failed to delete"]
  }

  /** One identifier: look its issue up, and delete it if there is one. */
  function DeleteOne(raw: string, server: Server): (r: Run)
    ensures r.ending.Returned? || r.ending.Raised?
    ensures r.ending.Returned? ==> |r.output| == 1 && IsOutcome(r.output[0], Normalize(raw))
    ensures r.ending.Raised? ==> r.output == []
    ensures 1 <= |r.queries| <= 2 && r.queries[0] == LookupQuery(Normalize(raw))
  {
    var ident := Normalize(raw);
    var q := LookupQuery(ident);
    match server(q)
    case Err(e) => Run([], [q], Raised(e))
    case Ok(answer) =>
      match Dig(answer, ["data"])
      case Err(e) => Run([], [q], Raised(e))
      case Ok(data) =>
        match PyGet(data, "issue", JNull)
        case Err(e) => Run([], [q], Raised(e))
        case Ok(issue) =>
          if !PyTruthy(issue) then Run([ident + ": not found"], [q], Returned)
          else match PyIndex(issue, "id")
            case Err(e) => Run([], [q], Raised(e))
            case Ok(uuid) =>
              var d := DeleteMutation(PyStr(uuid));
              match server(d)
              case Err(e) => Run([], [q, d], Raised(e))
              case Ok(answer2) =>
                match Dig(answer2, ["data", "issueDelete"])
                case Err(e) => Run([], [q, d], Raised(e))
                case Ok(result) =>
                  match PyGet(result, "success", JNull)
                  case Err(e) => Run([], [q, d], Raised(e))
                  case Ok(success) =>
                    Run([ident + (if PyTruthy(success) then ": deleted" else ": failed to delete")], [q, d], Returned)
  }

  /** The loop over the identifiers: an identifier that is not found does
      not stop the rest; an exception does. */
  function DeleteEach(ids: seq<string>, server: Server): (r: Run)
    ensures r.ending.Returned? || r.ending.Raised?
    ensures |r.output| <= |ids|
    ensures r.ending.Returned? ==> |r.output| == |ids|
    decreases |ids|
  {
    if |ids| == 0 then Run([], [], Returned)
    else
      var one := DeleteOne(ids[0], server);
      if !one.ending.Returned? then one
      else
        var rest := DeleteEach(ids[1..], server);
        Run(one.output + rest.output, one.queries + rest.queries, rest.ending)
  }

  /** The `k`-th line printed is the outcome for the `k`-th identifier. */
  lemma {:induction false} DeleteEachOutcomes(ids: seq<string>, server: Server)
    ensures var out := DeleteEach(ids, server).output;
      forall k :: 0 <= k < |out| ==> IsOutcome(out[k], Normalize(ids[k]))
    decreases |ids|
  {
    if |ids| > 0 {
      var one := DeleteOne(ids[0], server);
      if one.ending.Returned? {
        var rest := DeleteEach(ids[1..], server);
        DeleteEachOutcomes(ids[1..], server);
        var out := one.output + rest.output;
        assert DeleteEach(ids, server).output == out;
        forall k | 0 <= k < |out| ensures IsOutcome(out[k], Normalize(ids[k])) {
          if k > 0 {
            assert out[k] == rest.output[k - 1];
            assert ids[k] == ids[1..][k - 1];
          }
        }
      }
    }
  }

  /** An answer without the issue: `{"data": {"issue": null}}`. */
  const NotFound: Json := JObj([("data", JObj([("issue", JNull)]))])

  /** An identifier the API does not know prints `not found` and the loop
      goes on to the next one. */
  lemma NotFoundContinues(ids: seq<string>, server: Server)
    requires |ids| > 0 && server(LookupQuery(Normalize(ids[0]))) == Ok(NotFound)
    ensures var rest := DeleteEach(ids[1..], server);
      DeleteEach(ids, server) ==
        Run([Normalize(ids[0]) + ": not found"] + rest.output,
            [LookupQuery(Normalize(ids[0]))] + rest.queries, rest.ending)
  {
    NotFoundLine(ids[0], server);
  }

  lemma NotFoundLine(raw: string, server: Server)
    requires server(LookupQuery(Normalize(raw))) == Ok(NotFound)
    ensures DeleteOne(raw, server) == Run([Normalize(raw) + ": not found"], [LookupQuery(Normalize(raw))], Returned)
  {
    assert ["data"][1..] == [];
    var data := JObj([("issue", JNull)]);
    assert Get(NotFound.fields, "data") == Some(data);
    assert Dig(data, []) == Ok(data);
    assert Dig(NotFound, ["data"]) == Ok(data);
    assert PyGet(data, "issue", JNull) == Ok(JNull);
  }

  /** The answers for an issue that exists and a delete the API accepts or
      refuses. */
  function Found(uuid: string): Json {
    JObj([("data", JObj([("issue", JObj([("id", JStr(uuid))]))]))])
  }

  function DeleteAnswer(success: bool): Json {
    JObj([("data", JObj([("issueDelete", JObj([("success", JBool(success))]))]))])
  }

  /** A found issue is deleted by its id, and the line says whether the API
      accepted the delete. */
  lemma DeletedLine(raw: string, server: Server, uuid: string, success: bool)
    requires server(LookupQuery(Normalize(raw))) == Ok(Found(uuid))
    requires server(DeleteMutation(uuid)) == Ok(DeleteAnswer(success))
    ensures DeleteOne(raw, server) ==
      Run([Normalize(raw) + (if success then ": deleted" else ": failed to delete")],
          [LookupQuery(Normalize(raw)), DeleteMutation(uuid)], Returned)
  {
    var issue := JObj([("id", JStr(uuid))]);
    var data := JObj([("issue", issue)]);
    assert Dig(data, []) == Ok(data);
    assert Dig(Found(uuid), ["data"]) == Ok(data) by { assert ["data"][1..] == []; }
    assert PyIndex(issue, "id") == Ok(JStr(uuid));
    var result := JObj([("success", JBool(success))]);
    var inner := JObj([("issueDelete", result)]);
    assert Dig(result, []) == Ok(result);
    assert Dig(inner, ["issueDelete"]) == Ok(result) by { assert ["issueDelete"][1..] == []; }
    assert Dig(DeleteAnswer(success), ["data", "issueDelete"]) == Ok(result) by {
      assert ["data", "issueDelete"][1..] == ["issueDelete"];
    }
  }

  /** `delete <identifiers>`: nothing is sent without an argument or a key;
      otherwise one line per identifier, in order, unless an exception ends
      the loop early. */
  function Delete(args: seq<string>, env: Env, server: Server): (r: Run)
    ensures |args| == 0 ==> r == Run([DeleteUsage], [], Exited(1))
    ensures r.queries != [] ==> |args| > 0 && NewClient(env).Ok?
    ensures |args| > 0 && r.ending.Returned? ==> |r.output| == |Identifiers(args[0])|
    ensures |args| > 0 && NewClient(env).Ok? ==>
      && |r.output| <= |Identifiers(args[0])|
      && forall k :: 0 <= k < |r.output| ==> IsOutcome(r.output[k], Normalize(Identifiers(args[0])[k]))
    ensures r.ending.Exited? ==> r.ending.code == 1 && r.queries == []
  {
    if |args| == 0 then Run([DeleteUsage], [], Exited(1))
    else
      var ids := Identifiers(args[0]);
      match NewClient(env)
      case Err(e) => Run([], [], Raised("RuntimeError: " + e))
      case Ok(_) =>
        DeleteEachOutcomes(ids, server);
        DeleteEach(ids, server)
  }

  // ---------------------------------------------------------------------------
  // list and states
  // ---------------------------------------------------------------------------

  /** Prints one line per item until a line cannot be built. */
  function PrintEach(items: seq<Json>, line: Json -> Result<string, string>): (r: (seq<string>, Ending))
    ensures r.1.Returned? || r.1.Raised?
    ensures |r.0| <= |items|
    ensures r.1.Returned? ==> |r.0| == |items|
    ensures forall k :: 0 <= k < |r.0| ==> line(items[k]) == Ok(r.0[k])
    ensures r.1.Raised? ==> |r.0| < |items| && line(items[|r.0|]).Err?
    decreases |items|
  {
    if |items| == 0 then ([], Returned)
    else match line(items[0])
      case Err(e) => ([], Raised(e))
      case Ok(l) =>
        var (rest, ending) := PrintEach(items[1..], line);
        ([l] + rest, ending)
  }

  /** Sends a query and prints a line for each node under `path` + `nodes`. */
  function ListNodes(q: string, path: seq<string>, env: Env, server: Server,
                     line: Json -> Result<string, string>): (r: Run)
    ensures r.queries != [] ==> NewClient(env).Ok? && r.queries == [q]
    ensures r.ending.Returned? || r.ending.Raised?
  {
    match NewClient(env)
    case Err(e) => Run([], [], Raised("RuntimeError: " + e))
    case Ok(_) =>
      match server(q)
      case Err(e) => Run([], [q], Raised(e))
      case Ok(answer) =>
        match Dig(answer, path)
        case Err(e) => Run([], [q], Raised(e))
        case Ok(container) =>
          match PyGet(container, "nodes", JArr([]))
          case Err(e) => Run([], [q], Raised(e))
          case Ok(nodes) =>
            match PyIter(nodes)
            case Err(e) => Run([], [q], Raised(e))
            case Ok(items) =>
              var (out, ending) := PrintEach(items, line);
              Run(out, [q], ending)
  }

  const ListPieces: seq<string> := [
    "\n        { project(id: \"",
    "\") {\n            issues { nodes {\n                id identifier title\n                state { name }\n"
    + "                labels { nodes { name } }\n                priority\n            } }\n        } }\n    "
  ]

  function ListQuery(): string {
    Fill(ListPieces, [ProjectId])
  }

  /** ` [l1, l2]` after an issue with labels, nothing otherwise. */
  function LabelSuffix(labels: seq<string>): (s: string)
    ensures s == "" <==> |labels| == 0
    ensures forall k :: 0 <= k < |labels| ==> Contains(s, labels[k])
  {
    if |labels| == 0 then ""
    else
      var joined := Join(labels, ", ");
      forall k | 0 <= k < |labels| ensures Contains(" [" + joined + "]", labels[k]) {
        JoinContains(labels, ", ", k);
        ContainsConcat(" [", joined, labels[k]);
        ContainsConcat(" [" + joined, "]", labels[k]);
      }
      " [" + joined + "]"
  }

  /** `[l["name"] for l in nodes]`. */
  function LabelValues(nodes: seq<Json>): (r: Result<seq<Json>, string>)
    ensures r.Ok? <==> forall k :: 0 <= k < |nodes| ==> PyIndex(nodes[k], "name").Ok?
    ensures r.Ok? ==> |r.value| == |nodes|
    ensures r.Ok? ==> forall k :: 0 <= k < |nodes| ==> r.value[k] == PyIndex(nodes[k], "name").value
    decreases |nodes|
  {
    if |nodes| == 0 then Ok([])
    else
      assert forall k :: 1 <= k < |nodes| ==> nodes[k] == nodes[1..][k - 1];
      match PyIndex(nodes[0], "name")
      case Err(e) => Err(e)
      case Ok(name) =>
        match LabelValues(nodes[1..])
        case Err(e) => Err(e)
        case Ok(rest) => Ok([name] + rest)
  }

  /** The items `str.join` accepts: strings only, else `TypeError`. */
  function JoinableStrings(vs: seq<Json>): (r: Result<seq<string>, string>)
    ensures r.Ok? <==> forall k :: 0 <= k < |vs| ==> vs[k].JStr?
    ensures r.Ok? ==> |r.value| == |vs| && forall k :: 0 <= k < |vs| ==> vs[k] == JStr(r.value[k])
    ensures r.Err? ==> r.error == "TypeError"
    decreases |vs|
  {
    if |vs| == 0 then Ok([])
    else
      assert forall k :: 1 <= k < |vs| ==> vs[k] == vs[1..][k - 1];
      match vs[0]
      case JStr(s) =>
        (match JoinableStrings(vs[1..])
         case Err(e) => Err(e)
         case Ok(rest) => Ok([s] + rest))
      case _ => Err("TypeError")
  }

  /** The names of an issue's labels as `', '.join` uses them: `l["name"]`
      for each label node, each of which must be a string. */
  function LabelNames(nodes: seq<Json>): (r: Result<seq<string>, string>)
    ensures r.Ok? <==> forall k :: 0 <= k < |nodes| ==>
      PyIndex(nodes[k], "name").Ok? && PyIndex(nodes[k], "name").value.JStr?
    ensures r.Ok? ==> |r.value| == |nodes|
    ensures r.Ok? ==> forall k :: 0 <= k < |nodes| ==> PyIndex(nodes[k], "name") == Ok(JStr(r.value[k]))
    ensures (forall k :: 0 <= k < |nodes| ==> PyIndex(nodes[k], "name").Ok?) && r.Err? ==> r.error == "TypeError"
  {
    match LabelValues(nodes)
    case Err(e) => Err(e)
    case Ok(vs) => JoinableStrings(vs)
  }

  /** `<identifier>: <title> (<state>)` and the label suffix. */
  function IssueLine(issue: Json): Result<string, string> {
    match Dig(issue, ["state"])
    case Err(e) => Err(e)
    case Ok(st) =>
      match PyGet(st, "name", JStr(""))
      case Err(e) => Err(e)
      case Ok(state) =>
        match Dig(issue, ["labels"])
        case Err(e) => Err(e)
        case Ok(ls) =>
          match PyGet(ls, "nodes", JArr([]))
          case Err(e) => Err(e)
          case Ok(lnodes) =>
            match PyIter(lnodes)
            case Err(e) => Err(e)
            case Ok(items) =>
              match LabelNames(items)
              case Err(e) => Err(e)
              case Ok(labels) =>
                match PyIndex(issue, "identifier")
                case Err(e) => Err(e)
                case Ok(id) =>
                  match PyIndex(issue, "title")
                  case Err(e) => Err(e)
                  case Ok(title) =>
                    Ok(PyStr(id) + ": " + PyStr(title) + " (" + PyStr(state) + ")" + LabelSuffix(labels))
  }

  /** `list`: one line per issue of the project. */
  function ListIssues(env: Env, server: Server): (r: Run)
    ensures r.queries != [] ==> NewClient(env).Ok? && r.queries == [ListQuery()]
    ensures r.ending.Returned? || r.ending.Raised?
  {
    ListNodes(ListQuery(), ["data", "project", "issues"], env, server, IssueLine)
  }

  /** An issue as the list query returns it. */
  function IssueNode(ident: string, title: string, stateName: Option<string>, labels: seq<string>): Json {
    var state := match stateName case None => [] case Some(n) => [("state", JObj([("name", JStr(n))]))];
    var labelNodes := seq(|labels|, k requires 0 <= k < |labels| => JObj([("name", JStr(labels[k]))]));
    JObj([("identifier", JStr(ident)), ("title", JStr(title)), ("labels", JObj([("nodes", JArr(labelNodes))]))] + state)
  }

  /** The line for an issue: identifier, title, state name (empty when the
      issue has no state) and the labels in their order when there are any. */
  lemma IssueLineOf(ident: string, title: string, stateName: Option<string>, labels: seq<string>)
    ensures IssueLine(IssueNode(ident, title, stateName, labels)) ==
      Ok(ident + ": " + title + " (" + stateName.GetOr("") + ")" + LabelSuffix(labels))
  {
    var issue := IssueNode(ident, title, stateName, labels);
    var labelNodes := seq(|labels|, k requires 0 <= k < |labels| => JObj([("name", JStr(labels[k]))]));
    IssueNodeParts(ident, title, stateName, labels);
    LabelNamesOf(labels);
    assert PyIndex(issue, "identifier") == Ok(JStr(ident));
    assert PyIndex(issue, "title") == Ok(JStr(title));
  }

  /** What the list loop reads from an issue node before its identifier and
      title: the state's name and the label nodes. */
  lemma IssueNodeParts(ident: string, title: string, stateName: Option<string>, labels: seq<string>)
    ensures var issue := IssueNode(ident, title, stateName, labels);
      var labelNodes := seq(|labels|, k requires 0 <= k < |labels| => JObj([("name", JStr(labels[k]))]));
      && Dig(issue, ["state"]).Ok?
      && PyGet(Dig(issue, ["state"]).value, "name", JStr("")) == Ok(JStr(stateName.GetOr("")))
      && Dig(issue, ["labels"]) == Ok(JObj([("nodes", JArr(labelNodes))]))
      && PyGet(Dig(issue, ["labels"]).value, "nodes", JArr([])) == Ok(JArr(labelNodes))
      && PyIndex(issue, "identifier") == Ok(JStr(ident))
      && PyIndex(issue, "title") == Ok(JStr(title))
  {
    var issue := IssueNode(ident, title, stateName, labels);
    var labelNodes := seq(|labels|, k requires 0 <= k < |labels| => JObj([("name", JStr(labels[k]))]));
    IssueNodeMembers(ident, title, stateName, labels);
    var st := if stateName.Some? then JObj([("name", JStr(stateName.value))]) else EmptyDict;
    DigOne(issue, "state");
    IssueStateName(stateName);
    DigOne(issue, "labels");
    LabelNodesOf(labelNodes);
  }

  /** Digging one key deep is one `get` with an empty dictionary as default. */
  lemma DigOne(v: Json, key: string)
    requires v.JObj?
    ensures Dig(v, [key]) == Ok(Get(v.fields, key).GetOr(EmptyDict))
  {
    assert [key][1..] == [];
  }

  lemma IssueStateName(stateName: Option<string>)
    ensures var st := if stateName.Some? then JObj([("name", JStr(stateName.value))]) else EmptyDict;
      PyGet(st, "name", JStr("")) == Ok(JStr(stateName.GetOr("")))
  {
  }

  lemma LabelNodesOf(labelNodes: seq<Json>)
    ensures PyGet(JObj([("nodes", JArr(labelNodes))]), "nodes", JArr([])) == Ok(JArr(labelNodes))
  {
  }

  /** Where each member of an issue node is found. */
  lemma IssueNodeMembers(ident: string, title: string, stateName: Option<string>, labels: seq<string>)
    ensures var fields := IssueNode(ident, title, stateName, labels).fields;
      && Get(fields, "identifier") == Some(JStr(ident))
      && Get(fields, "title") == Some(JStr(title))
      && Get(fields, "labels") == Some(JObj([("nodes", JArr(seq(|labels|, k requires 0 <= k < |labels| => JObj([("name", JStr(labels[k]))]))))]))
      && Get(fields, "state") == (if stateName.Some? then Some(JObj([("name", JStr(stateName.value))])) else None)
  {
    var fields := IssueNode(ident, title, stateName, labels).fields;
    GetAt(fields, 0);
    GetAt(fields, 1);
    GetAt(fields, 2);
    if stateName.Some? {
      GetAt(fields, 3);
    }
  }

  lemma LabelNamesOf(labels: seq<string>)
    ensures LabelNames(seq(|labels|, k requires 0 <= k < |labels| => JObj([("name", JStr(labels[k]))]))) == Ok(labels)
  {
    var nodes := seq(|labels|, k requires 0 <= k < |labels| => JObj([("name", JStr(labels[k]))]));
    assert forall k :: 0 <= k < |nodes| ==> PyIndex(nodes[k], "name") == Ok(JStr(labels[k]));
    var r := LabelNames(nodes);
    assert r.value == labels;
  }

  /** A label whose name is not a string makes the listing raise
      `TypeError` in `', '.join`, instead of printing it. */
  lemma LabelNameNotString(name: Json)
    requires !name.JStr?
    ensures LabelNames([JObj([("name", name)])]) == Err("TypeError")
  {
    assert PyIndex(JObj([("name", name)]), "name") == Ok(name);
  }

  /** The answer to the list query for a project with these issues. */
  function ListAnswer(issues: seq<Json>): Json {
    JObj([("data", JObj([("project", JObj([("issues", JObj([("nodes", JArr(issues))]))]))]))])
  }

  /** With the key set, `list` prints exactly one line per issue, each the
      issue's line; a project without issues prints nothing. */
  lemma ListPrintsEachIssue(env: Env, server: Server, issues: seq<Json>)
    requires NewClient(env).Ok? && server(ListQuery()) == Ok(ListAnswer(issues))
    requires forall k :: 0 <= k < |issues| ==> IssueLine(issues[k]).Ok?
    ensures ListIssues(env, server).ending == Returned
    ensures |ListIssues(env, server).output| == |issues|
    ensures forall k :: 0 <= k < |issues| ==> IssueLine(issues[k]) == Ok(ListIssues(env, server).output[k])
  {
    ListAnswerNodes(issues);
    ListNodesOf(ListQuery(), ["data", "project", "issues"], env, server, IssueLine, issues);
    var pe := PrintEach(issues, IssueLine);
    assert ListIssues(env, server) == Run(pe.0, [ListQuery()], pe.1);
    assert pe.1 == Returned;
  }

  /** What a listing prints when the answer has the nodes where it looks. */
  lemma ListNodesOf(q: string, path: seq<string>, env: Env, server: Server,
                    line: Json -> Result<string, string>, items: seq<Json>)
    requires NewClient(env).Ok? && server(q).Ok?
    requires Dig(server(q).value, path) == Ok(JObj([("nodes", JArr(items))]))
    ensures ListNodes(q, path, env, server, line) == Run(PrintEach(items, line).0, [q], PrintEach(items, line).1)
  {
    assert PyGet(JObj([("nodes", JArr(items))]), "nodes", JArr([])) == Ok(JArr(items));
  }

  lemma ListAnswerNodes(issues: seq<Json>)
    ensures Dig(ListAnswer(issues), ["data", "project", "issues"]) == Ok(JObj([("nodes", JArr(issues))]))
  {
    var n := JObj([("nodes", JArr(issues))]);
    var i := JObj([("issues", n)]);
    var p := JObj([("project", i)]);
    assert Dig(n, []) == Ok(n);
    assert Dig(i, ["issues"]) == Ok(n) by { assert ["issues"][1..] == []; }
    assert Dig(p, ["project", "issues"]) == Ok(n) by { assert ["project", "issues"][1..] == ["issues"]; }
    assert ["data", "project", "issues"][1..] == ["project", "issues"];
  }

  const StatesPieces: seq<string> := [
    "\n        { team(id: \"",
    "\") {\n            states { nodes { id name type } }\n        } }\n    "
  ]

  function StatesQuery(): string {
    Fill(StatesPieces, [TeamId])
  }

  /** `<name> (<type>): <id>`. */
  function StateLine(state: Json): Result<string, string> {
    match PyIndex(state, "name")
    case Err(e) => Err(e)
    case Ok(name) =>
      match PyIndex(state, "type")
      case Err(e) => Err(e)
      case Ok(kind) =>
        match PyIndex(state, "id")
        case Err(e) => Err(e)
        case Ok(id) => Ok(PyStr(name) + " (" + PyStr(kind) + "): " + PyStr(id))
  }

  /** `states`: one line per workflow state of the team. */
  function ListStates(env: Env, server: Server): (r: Run)
    ensures r.queries != [] ==> NewClient(env).Ok? && r.queries == [StatesQuery()]
    ensures r.ending.Returned? || r.ending.Raised?
  {
    ListNodes(StatesQuery(), ["data", "team", "states"], env, server, StateLine)
  }

  /** A workflow state as the states query returns it. */
  function StateNode(id: string, name: string, kind: string): Json {
    JObj([("id", JStr(id)), ("name", JStr(name)), ("type", JStr(kind))])
  }

  /** The line for a state: its name, its type in parentheses, and its id. */
  lemma StateLineOf(id: string, name: string, kind: string)
    ensures StateLine(StateNode(id, name, kind)) == Ok(name + " (" + kind + "): " + id)
  {
    var fields := StateNode(id, name, kind).fields;
    GetAt(fields, 0);
    GetAt(fields, 1);
    GetAt(fields, 2);
  }

  /** The answer to the states query for a team with these states. */
  function StatesAnswer(states: seq<Json>): Json {
    JObj([("data", JObj([("team", JObj([("states", JObj([("nodes", JArr(states))]))]))]))])
  }

  /** With the key set, `states` prints exactly one line per state, in the
      answer's order: `<name> (<type>): <id>`. */
  lemma ListStatesPrintsEachState(env: Env, server: Server, states: seq<(string, string, string)>)
    requires NewClient(env).Ok?
    requires server(StatesQuery()) ==
      Ok(StatesAnswer(seq(|states|, k requires 0 <= k < |states| => StateNode(states[k].0, states[k].1, states[k].2))))
    ensures ListStates(env, server).ending == Returned
    ensures ListStates(env, server).queries == [StatesQuery()]
    ensures |ListStates(env, server).output| == |states|
    ensures forall k :: 0 <= k < |states| ==>
      ListStates(env, server).output[k] == states[k].1 + " (" + states[k].2 + "): " + states[k].0
  {
    var nodes := seq(|states|, k requires 0 <= k < |states| => StateNode(states[k].0, states[k].1, states[k].2));
    var n := JObj([("nodes", JArr(nodes))]);
    var s := JObj([("states", n)]);
    var t := JObj([("team", s)]);
    assert Dig(n, []) == Ok(n);
    assert Dig(s, ["states"]) == Ok(n) by { assert ["states"][1..] == []; }
    assert Dig(t, ["team", "states"]) == Ok(n) by { assert ["team", "states"][1..] == ["states"]; }
    assert ["data", "team", "states"][1..] == ["team", "states"];
    forall k | 0 <= k < |states|
      ensures StateLine(nodes[k]) == Ok(states[k].1 + " (" + states[k].2 + "): " + states[k].0)
    {
      StateLineOf(states[k].0, states[k].1, states[k].2);
    }
    ListNodesOf(StatesQuery(), ["data", "team", "states"], env, server, StateLine, nodes);
  }
}

=== FILE: linear_config.dfy ===
/** The Linear command-line tool's configuration (scripts/linear/__init__.py):
    the `.env` lines it loads into the environment, its fixed team, project,
    label and workflow-state ids, and the client's API-key check. The file
    is given as its lines and the environment as a map. */
module LinearConfig {
  import opened Base
  import opened Text

  type Env = map<string, string>

  // ---------------------------------------------------------------------------
  // .env lines
  // ---------------------------------------------------------------------------

  /** Python's `line.startswith("#")`. */
  predicate IsComment(line: string) {
    |line| > 0 && line[0] == '#'
  }

  /** `value.strip('"').strip("'")`. */
  function Unquote(value: string): string {
    StripChar(StripChar(value, '"'), '\'')
  }

  /** The setting one line of the file makes, if any: the stripped line is
      not blank, not a comment and has an `=`; the key is the text before
      the first `=` and the value the rest with surrounding `"` and then `'`
      characters removed. */
  function EnvEntry(raw: string): Option<(string, string)> {
    var line := PyStrip(raw);
    if line == "" || IsComment(line) then None
    else match FindIndex(line, (c: char) => c == '=')
      case None => None
      case Some(i) => Some((line[..i], Unquote(line[i + 1..])))
  }

  /** A line is skipped exactly when, stripped, it is blank, a comment or
      has no `=`; otherwise it splits at its first `=`, the key keeping the
      text before it and the value the rest, unquoted. */
  lemma EnvEntryShape(raw: string)
    ensures var line := PyStrip(raw);
      EnvEntry(raw).Some? <==> line != "" && !IsComment(line) && '=' in line
    ensures EnvEntry(raw).Some? ==>
      var line := PyStrip(raw);
      var (key, value) := EnvEntry(raw).value;
      && |key| < |line| && line[..|key|] == key && line[|key|] == '=' && '=' !in key
      && value == Unquote(line[|key| + 1..])
  {
    var line := PyStrip(raw);
    if line != "" && !IsComment(line) {
      match FindIndex(line, (c: char) => c == '=')
      case None =>
      case Some(i) =>
        assert EnvEntry(raw) == Some((line[..i], Unquote(line[i + 1..])));
        assert forall j :: 0 <= j < i ==> line[..i][j] == line[j];
    }
  }

  type Entry = Option<(string, string)>

  /** The setting each line makes, in file order. */
  function Entries(lines: seq<string>): (es: seq<Entry>)
    ensures |es| == |lines|
    ensures forall i :: 0 <= i < |lines| ==> es[i] == EnvEntry(lines[i])
  {
    seq(|lines|, i requires 0 <= i < |lines| => EnvEntry(lines[i]))
  }

  /** What `os.environ[key] = value` raises on POSIX, in the order Python
      checks: a NUL character in the key or the value is refused while the
      arguments are converted (`ValueError`); an empty key then reaches the
      C library's `setenv`, which fails with EINVAL (`OSError`). */
  const EmbeddedNull: string := "ValueError: embedded null byte"
  const InvalidName: string := "OSError: [Errno 22] Invalid argument"

  /** The exception a setting raises, if any. */
  function Refusal(e: Entry): (r: Option<string>)
    ensures r.Some? <==> e.Some? && (e.value.0 == "" || '\0' in e.value.0 || '\0' in e.value.1)
    ensures r == Some(EmbeddedNull) <==> e.Some? && ('\0' in e.value.0 || '\0' in e.value.1)
    ensures r == Some(InvalidName) <==> e.Some? && e.value.0 == "" && '\0' !in e.value.1
  {
    if e.None? then None
    else if '\0' in e.value.0 || '\0' in e.value.1 then Some(EmbeddedNull)
    else if e.value.0 == "" then Some(InvalidName)
    else None
  }

  predicate Legal(e: Entry) {
    Refusal(e).None?
  }

  /** The environment after the loop over the file's lines: each setting is
      written over whatever the key held. The first setting the environment
      refuses raises while the package is imported, so the whole program
      fails with that exception. */
  function LoadEnv(env: Env, lines: seq<string>): (r: Result<Env, string>)
    ensures r.Err? <==> exists i :: 0 <= i < |lines| && !Legal(EnvEntry(lines[i]))
    ensures r.Err? ==>
      exists i :: 0 <= i < |lines| && Refusal(EnvEntry(lines[i])) == Some(r.error)
                  && forall j :: 0 <= j < i ==> Legal(EnvEntry(lines[j]))
    ensures r.Err? ==> r.error == EmbeddedNull || r.error == InvalidName
  {
    var es := Entries(lines);
    match FindIndex(es, (e: Entry) => !Legal(e))
    case Some(i) => Err(Refusal(es[i]).value)
    case None => Ok(Assign(env, es))
  }

  /** A line `=x` sets the empty name, which `setenv` refuses. */
  lemma EmptyKeyRaises(env: Env)
    ensures EnvEntry("=x") == Some(("", "x"))
    ensures LoadEnv(env, ["=x"]) == Err(InvalidName)
  {
    var s := "=x";
    assert SkipForward(s, IsPySpace, 0) == 0;
    assert SkipBackward(s, IsPySpace, 0, |s|) == |s|;
    assert s[0..|s|] == s;
    assert PyStrip(s) == s;
    assert FindIndex(s, (c: char) => c == '=') == Some(0);
    assert s[1..] == "x";
    assert StripChar("x", '"') == "x" by {
      assert SkipForward("x", c => c == '"', 0) == 0;
      assert SkipBackward("x", c => c == '"', 0, 1) == 1;
      assert "x"[0..1] == "x";
    }
    assert StripChar("x", '\'') == "x" by {
      assert SkipForward("x", c => c == '\'', 0) == 0;
      assert SkipBackward("x", c => c == '\'', 0, 1) == 1;
      assert "x"[0..1] == "x";
    }
    assert !Legal(EnvEntry(["=x"][0]));
    assert FindIndex(Entries(["=x"]), (e: Entry) => !Legal(e)) == Some(0);
  }

  /** A NUL character is refused before the empty name is: the line `=<NUL>`
      raises `ValueError`, not `OSError`. */
  lemma NulRefusedBeforeEmptyName(env: Env)
    ensures EnvEntry("=\0") == Some(("", "\0"))
    ensures LoadEnv(env, ["=\0"]) == Err(EmbeddedNull)
  {
    NulLine();
    assert Refusal(EnvEntry(["=\0"][0])) == Some(EmbeddedNull);
    assert FindIndex(Entries(["=\0"]), (e: Entry) => !Legal(e)) == Some(0);
  }

  lemma NulLine()
    ensures EnvEntry("=\0") == Some(("", "\0"))
  {
    assert !IsPySpace('=') && !IsPySpace('\0');
    var s := "=\0";
    assert SkipForward(s, IsPySpace, 0) == 0;
    assert SkipBackward(s, IsPySpace, 0, |s|) == |s|;
    assert s[0..|s|] == s;
    assert PyStrip(s) == s;
    assert FindIndex(s, (c: char) => c == '=') == Some(0);
    assert s[1..] == "\0";
    assert StripChar("\0", '"') == "\0" by {
      assert SkipForward("\0", c => c == '"', 0) == 0;
      assert SkipBackward("\0", c => c == '"', 0, 1) == 1;
      assert "\0"[0..1] == "\0";
    }
    assert StripChar("\0", '\'') == "\0" by {
      assert SkipForward("\0", c => c == '\'', 0) == 0;
      assert SkipBackward("\0", c => c == '\'', 0, 1) == 1;
      assert "\0"[0..1] == "\0";
    }
  }

  function Assign(env: Env, es: seq<Entry>): Env
    decreases |es|
  {
    if |es| == 0 then env
    else
      var next := match es[0] case None => env case Some((k, v)) => env[k := v];
      Assign(next, es[1..])
  }

  /** Whether a setting is for `key`. */
  predicate Sets(e: Entry, key: string) {
    e.Some? && e.value.0 == key
  }

  /** The position of the last setting for `key`, read from the end. */
  function LastIndex(es: seq<Entry>, key: string): (r: Option<nat>)
    ensures r.Some? ==> r.value < |es| && Sets(es[r.value], key)
    ensures r.Some? ==> forall j :: r.value < j < |es| ==> !Sets(es[j], key)
    ensures r.None? ==> forall i :: 0 <= i < |es| ==> !Sets(es[i], key)
    decreases |es|
  {
    if |es| == 0 then None
    else
      var n := |es| - 1;
      if Sets(es[n], key) then Some(n)
      else
        var init := es[..n];
        assert forall i :: 0 <= i < n ==> init[i] == es[i];
        LastIndex(init, key)
  }

  /** The value the file's last line for `key` sets. */
  function LastSetting(lines: seq<string>, key: string): Option<string> {
    var es := Entries(lines);
    match LastIndex(es, key)
    case None => None
    case Some(i) => Some(es[i].value.1)
  }

  /** When the environment accepts every setting, the last occurrence of a
      key wins, and a key the file never sets keeps its value from the
      environment. */
  lemma LoadEnvLastWins(env: Env, lines: seq<string>, key: string)
    ensures LoadEnv(env, lines).Ok? ==>
      var r := LoadEnv(env, lines).value;
      match LastSetting(lines, key)
      case Some(v) => key in r && r[key] == v
      case None => (key in r <==> key in env) && (key in env ==> r[key] == env[key])
  {
    AssignLastWins(env, Entries(lines), key);
  }

  lemma {:induction false} AssignLastWins(env: Env, es: seq<Entry>, key: string)
    ensures var r := Assign(env, es);
      match LastIndex(es, key)
      case Some(i) => key in r && r[key] == es[i].value.1
      case None => (key in r <==> key in env) && (key in env ==> r[key] == env[key])
    decreases |es|
  {
    if |es| > 0 {
      var next := match es[0] case None => env case Some((k, v)) => env[k := v];
      AssignLastWins(next, es[1..], key);
      LastIndexCons(es, key);
    }
  }

  /** Reading from the end and splitting off the first setting agree. */
  lemma {:induction false} LastIndexCons(es: seq<Entry>, key: string)
    requires |es| > 0
    ensures LastIndex(es, key) ==
      (if LastIndex(es[1..], key).Some? then Some(LastIndex(es[1..], key).value + 1)
       else if Sets(es[0], key) then Some(0)
       else None)
    decreases |es|
  {
    if |es| > 1 {
      var init := es[..|es| - 1];
      assert init[1..] == es[1..][..|es[1..]| - 1];
      assert es[1..][|es[1..]| - 1] == es[|es| - 1];
      LastIndexCons(init, key);
    }
  }

  /** Loading `.env` when the file exists (`file` is its lines). */
  function LoadDotEnv(env: Env, file: Option<seq<string>>): (r: Result<Env, string>)
    ensures file.None? ==> r == Ok(env)
    ensures file.Some? ==> r == LoadEnv(env, file.value)
  {
    match file
    case None => Ok(env)
    case Some(lines) => LoadEnv(env, lines)
  }

  // ---------------------------------------------------------------------------
  // Fixed ids
  // ---------------------------------------------------------------------------

  const ApiUrl: string := "https://api.linear.app/graphql"
  const TeamId: string := "0da72f3c-bf78-4d83-ad6b-8128b4040999"
  const ProjectId: string := "44d3b9b5-4966-472f-9994-b86ba173799e"

  /** `LABELS`, in its written order. */
  const Labels: seq<(string, string)> := [
    ("work", "bc5e0a3b-91ca-4ee2-9271-6bba9bb7e4d3"),
    ("side", "f8ecff5e-34d2-48e6-b614-5c38b5121c45"),
    ("chores", "a9973006-abb6-479e-8b4e-3d0972642605")
  ]

  /** `STATES`, in its written order. */
  const States: seq<(string, string)> := [
    ("backlog", "dc9df7ee-d38a-4701-a423-c093a09eceb4"),
    ("todo", "bec1ce29-ad92-46c3-9a2e-2c2aa721be8d"),
    ("progress", "3935826a-11d4-48c0-be9c-b5b8e553c614"),
    ("done", "5df0601e-ba42-4c1e-be3d-eb8f97e406a2")
  ]

  /** The names of a table, in order (`table.keys()`). */
  function TableKeys(t: seq<(string, string)>): seq<string> {
    Map(t, (p: (string, string)) => p.0)
  }

  /** `table[key]` for a key `in` the table. */
  function Lookup(t: seq<(string, string)>, key: string): (r: Option<string>)
    ensures r.Some? <==> key in TableKeys(t)
    ensures r.Some? ==> (key, r.value) in t
    decreases |t|
  {
    if |t| == 0 then None
    else if t[0].0 == key then Some(t[0].1)
    else
      var r := Lookup(t[1..], key);
      assert TableKeys(t) == [t[0].0] + TableKeys(t[1..]);
      r
  }

  /** The label names are exactly work, side and chores, the state names
      exactly backlog, todo, progress and done, each once. */
  lemma TablesAreClosed(name: string)
    ensures name in TableKeys(Labels) <==> name in {"work", "side", "chores"}
    ensures name in TableKeys(States) <==> name in {"backlog", "todo", "progress", "done"}
    ensures TableKeys(Labels) == ["work", "side", "chores"]
    ensures TableKeys(States) == ["backlog", "todo", "progress", "done"]
  {
    assert TableKeys(Labels) == ["work", "side", "chores"];
    assert TableKeys(States) == ["backlog", "todo", "progress", "done"];
  }

  // ---------------------------------------------------------------------------
  // The client
  // ---------------------------------------------------------------------------

  const KeyMissing: string := "LINEAR_API_KEY not set"

  /** `LinearClient()`: the API key from the environment, or the
      `RuntimeError` raised when it is absent or empty. */
  function NewClient(env: Env): (r: Result<string, string>)
    ensures r.Ok? <==> "LINEAR_API_KEY" in env && env["LINEAR_API_KEY"] != ""
    ensures r.Ok? ==> r.value == env["LINEAR_API_KEY"]
    ensures r.Err? ==> r.error == KeyMissing
  {
    if "LINEAR_API_KEY" in env && env["LINEAR_API_KEY"] != "" then Ok(env["LINEAR_API_KEY"])
    else Err(KeyMissing)
  }
}

=== FILE: mention_actions.dfy ===
/** The server side of mentions (apps/journey/src/actions/mentions.ts):
    short-code assignment, routing of autocomplete searches, the
    post-processing of title searches and the batch resolution of parsed
    mentions. Database tables are sequences of rows in the order the
    database returns them. */
module MentionActions {
  import opened Base
  import opened Text
  import opened MentionTypes
  import opened MentionResolver

  // ---------------------------------------------------------------------------
  // assignShortCode
  // ---------------------------------------------------------------------------

  /** A row of `entity_short_codes`. */
  datatype ShortCodeRow = ShortCodeRow(userId: string, entityType: EntityType, entityId: string, shortCode: nat)

  predicate Owns(row: ShortCodeRow, userId: string, t: EntityType) {
    row.userId == userId && row.entityType == t
  }

  /** `COALESCE(MAX(short_code), 0)` over the user's rows of kind `t`. */
  function MaxCode(rows: seq<ShortCodeRow>, userId: string, t: EntityType): (m: nat)
    ensures forall i :: 0 <= i < |rows| && Owns(rows[i], userId, t) ==> rows[i].shortCode <= m
    ensures m == 0 || exists i :: 0 <= i < |rows| && Owns(rows[i], userId, t) && rows[i].shortCode == m
    decreases |rows|
  {
    if |rows| == 0 then 0
    else
      var rest := MaxCode(rows[1..], userId, t);
      assert forall i :: 1 <= i < |rows| ==> rows[i] == rows[1..][i - 1];
      if Owns(rows[0], userId, t) && rows[0].shortCode > rest then rows[0].shortCode else rest
  }

  /** `assignShortCode(entityType, entityId)`: the next code after the
      largest one the user has for that kind, stored in a new row. */
  function AssignShortCode(rows: seq<ShortCodeRow>, userId: string, t: EntityType, entityId: string)
    : (r: (nat, seq<ShortCodeRow>))
    ensures r.0 >= 1
    ensures forall i :: 0 <= i < |rows| && Owns(rows[i], userId, t) ==> rows[i].shortCode < r.0
    ensures (forall i :: 0 <= i < |rows| ==> !Owns(rows[i], userId, t)) ==> r.0 == 1
    ensures r.1 == rows + [ShortCodeRow(userId, t, entityId, r.0)]
  {
    var code := MaxCode(rows, userId, t) + 1;
    (code, rows + [ShortCodeRow(userId, t, entityId, code)])
  }

  /** No user has the same code twice for one kind. */
  predicate CodesUnique(rows: seq<ShortCodeRow>) {
    forall i, j ::
      (0 <= i < j < |rows| && rows[i].userId == rows[j].userId && rows[i].entityType == rows[j].entityType)
      ==> rows[i].shortCode != rows[j].shortCode
  }

  lemma AssignKeepsCodesUnique(rows: seq<ShortCodeRow>, userId: string, t: EntityType, entityId: string)
    requires CodesUnique(rows)
    ensures CodesUnique(AssignShortCode(rows, userId, t, entityId).1)
  {
    var r := AssignShortCode(rows, userId, t, entityId);
    var rows' := r.1;
    forall i, j | 0 <= i < j < |rows'| && rows'[i].userId == rows'[j].userId
      && rows'[i].entityType == rows'[j].entityType
      ensures rows'[i].shortCode != rows'[j].shortCode
    {
      if j == |rows| {
        assert Owns(rows[i], userId, t);
      } else {
        assert rows'[i] == rows[i] && rows'[j] == rows[j];
      }
    }
  }

  // ---------------------------------------------------------------------------
  // getShortCode / getEntityIdByShortCode
  // ---------------------------------------------------------------------------

  /** A row of the user's with kind `t` and short code `code`. */
  predicate HasCode(row: ShortCodeRow, userId: string, t: EntityType, code: nat) {
    Owns(row, userId, t) && row.shortCode == code
  }

  /** `getShortCode(entityType, entityId)`: the code of the first of the
      user's rows of the kind for the entity, `result[0]`. */
  function GetShortCode(rows: seq<ShortCodeRow>, userId: string, t: EntityType, entityId: string): (r: Option<nat>)
    ensures r.Some? <==> exists i :: 0 <= i < |rows| && Owns(rows[i], userId, t) && rows[i].entityId == entityId
    ensures r.Some? ==> exists i :: (0 <= i < |rows| && Owns(rows[i], userId, t)
      && rows[i].entityId == entityId && rows[i].shortCode == r.value
      && forall j :: 0 <= j < i ==> !(Owns(rows[j], userId, t) && rows[j].entityId == entityId))
    decreases |rows|
  {
    if |rows| == 0 then None
    else if Owns(rows[0], userId, t) && rows[0].entityId == entityId then Some(rows[0].shortCode)
    else
      var r := GetShortCode(rows[1..], userId, t, entityId);
      assert forall i :: 1 <= i < |rows| ==> rows[i] == rows[1..][i - 1];
      if r.Some? then
        var i :| 0 <= i < |rows[1..]| && Owns(rows[1..][i], userId, t) && rows[1..][i].entityId == entityId
          && rows[1..][i].shortCode == r.value
          && forall j :: 0 <= j < i ==> !(Owns(rows[1..][j], userId, t) && rows[1..][j].entityId == entityId);
        assert forall j :: 0 <= j < i + 1 ==> !(Owns(rows[j], userId, t) && rows[j].entityId == entityId) by {
          forall j | 0 <= j < i + 1 ensures !(Owns(rows[j], userId, t) && rows[j].entityId == entityId) {
            if j > 0 { assert rows[j] == rows[1..][j - 1]; }
          }
        }
        r
      else r
  }

  /** `getEntityIdByShortCode(entityType, shortCode)`: the entity of the
      first of the user's rows of the kind with the code, `result[0]`. */
  function GetEntityIdByShortCode(rows: seq<ShortCodeRow>, userId: string, t: EntityType, code: nat): (r: Option<string>)
    ensures r.Some? <==> exists i :: 0 <= i < |rows| && HasCode(rows[i], userId, t, code)
    ensures r.Some? ==> exists i :: (0 <= i < |rows| && HasCode(rows[i], userId, t, code)
      && rows[i].entityId == r.value
      && forall j :: 0 <= j < i ==> !HasCode(rows[j], userId, t, code))
    decreases |rows|
  {
    if |rows| == 0 then None
    else if HasCode(rows[0], userId, t, code) then Some(rows[0].entityId)
    else
      var r := GetEntityIdByShortCode(rows[1..], userId, t, code);
      assert forall i :: 1 <= i < |rows| ==> rows[i] == rows[1..][i - 1];
      if r.Some? then
        var i :| 0 <= i < |rows[1..]| && HasCode(rows[1..][i], userId, t, code)
          && rows[1..][i].entityId == r.value
          && forall j :: 0 <= j < i ==> !HasCode(rows[1..][j], userId, t, code);
        assert forall j :: 0 <= j < i + 1 ==> !HasCode(rows[j], userId, t, code) by {
          forall j | 0 <= j < i + 1 ensures !HasCode(rows[j], userId, t, code) {
            if j > 0 { assert rows[j] == rows[1..][j - 1]; }
          }
        }
        r
      else r
  }

  /** A lookup that finds nothing in `rows` finds the appended row when it
      matches. */
  lemma {:induction false} LookupAppended(rows: seq<ShortCodeRow>, x: ShortCodeRow, userId: string, t: EntityType)
    requires Owns(x, userId, t)
    requires forall i :: 0 <= i < |rows| && Owns(rows[i], userId, t) ==>
      rows[i].shortCode != x.shortCode && rows[i].entityId != x.entityId
    ensures GetEntityIdByShortCode(rows + [x], userId, t, x.shortCode) == Some(x.entityId)
    ensures GetShortCode(rows + [x], userId, t, x.entityId) == Some(x.shortCode)
    decreases |rows|
  {
    if |rows| > 0 {
      assert (rows + [x])[1..] == rows[1..] + [x];
      LookupAppended(rows[1..], x, userId, t);
    }
  }

  /** After `assignShortCode`, looking the new code up gives the entity
      back, and an entity that had no code of its kind gets the new one. */
  lemma AssignThenLookup(rows: seq<ShortCodeRow>, userId: string, t: EntityType, entityId: string)
    ensures var (code, rows') := AssignShortCode(rows, userId, t, entityId);
      GetEntityIdByShortCode(rows', userId, t, code) == Some(entityId)
    ensures GetShortCode(rows, userId, t, entityId).None? ==>
      var (code, rows') := AssignShortCode(rows, userId, t, entityId);
      GetShortCode(rows', userId, t, entityId) == Some(code)
  {
    var (code, rows') := AssignShortCode(rows, userId, t, entityId);
    var x := ShortCodeRow(userId, t, entityId, code);
    if GetShortCode(rows, userId, t, entityId).None? {
      LookupAppended(rows, x, userId, t);
    } else {
      LookupCodeAppended(rows, x, userId, t);
    }
  }

  /** The code-only half of `LookupAppended`. */
  lemma {:induction false} LookupCodeAppended(rows: seq<ShortCodeRow>, x: ShortCodeRow, userId: string, t: EntityType)
    requires Owns(x, userId, t)
    requires forall i :: 0 <= i < |rows| && Owns(rows[i], userId, t) ==> rows[i].shortCode != x.shortCode
    ensures GetEntityIdByShortCode(rows + [x], userId, t, x.shortCode) == Some(x.entityId)
    decreases |rows|
  {
    if |rows| > 0 {
      assert (rows + [x])[1..] == rows[1..] + [x];
      LookupCodeAppended(rows[1..], x, userId, t);
    }
  }

  // ---------------------------------------------------------------------------
  // Search routing
  // ---------------------------------------------------------------------------

  /** The lookup a search runs: by short-code prefix or by title. */
  datatype SearchPlan =
    | ByShortCodePrefix(entityType: EntityType, prefix: nat, limit: nat)
    | ByTitle(entityType: EntityType, query: string, limit: nat)

  /** `/^\d+$/.test(query) && query.length > 0`. */
  predicate IsNumericQuery(query: string) {
    |query| > 0 && AllDigits(query)
  }

  /** `searchEntitiesForMention(entityType, query)`: a numeric query looks up
      codes starting with its digits (`parseInt` drops leading zeros), any
      other query searches titles; both return at most ten results. */
  function SearchEntitiesForMention(t: EntityType, query: string): (p: SearchPlan)
    ensures p.entityType == t && p.limit == 10
    ensures p.ByShortCodePrefix? <==> IsNumericQuery(query)
    ensures p.ByShortCodePrefix? ==> p.prefix == DecimalValue(query)
    ensures p.ByShortCodePrefix? ==> NatToString(p.prefix) == query || query[0] == '0'
    ensures p.ByTitle? ==> p.query == query
  {
    if IsNumericQuery(query) then
      ShortCodeCanonical(query);
      ByShortCodePrefix(t, DecimalValue(query), 10)
    else ByTitle(t, query, 10)
  }

  /** A numeral without a leading zero is the shortest spelling of its
      value. */
  lemma {:induction false} ShortCodeCanonical(s: string)
    requires |s| > 0 && AllDigits(s)
    ensures s[0] != '0' ==> NatToString(DecimalValue(s)) == s
    decreases |s|
  {
    if s[0] != '0' && |s| > 1 {
      var init := s[..|s| - 1];
      ShortCodeCanonical(init);
      assert init[0] == s[0];
      assert DecimalValue(init) > 0 by {
        DecimalValuePositive(init);
      }
      var v := DecimalValue(s);
      assert v / 10 == DecimalValue(init) && v % 10 == DigitValue(s[|s| - 1]);
      assert DigitChar(v % 10) == s[|s| - 1];
      assert s == init + [s[|s| - 1]];
    } else if s[0] != '0' {
      assert s[..0] == [];
      assert DecimalValue(s) == DigitValue(s[0]);
      assert DigitChar(DecimalValue(s)) == s[0];
      assert s == [s[0]];
    }
  }

  lemma {:induction false} DecimalValuePositive(s: string)
    requires |s| > 0 && AllDigits(s) && s[0] != '0'
    ensures DecimalValue(s) >= 1
    decreases |s|
  {
    if |s| > 1 {
      DecimalValuePositive(s[..|s| - 1]);
    }
  }

  /** The WHERE clause of `searchByShortCodePrefix`: the user's rows of the
      kind whose code, as text, starts with the digits of `prefix`
      (`CAST(short_code AS TEXT) LIKE 'prefix%'`; the prefix is all digits,
      so the pattern has no wildcard before its final `%`). */
  predicate CodeSelected(row: ShortCodeRow, userId: string, t: EntityType, prefix: nat) {
    Owns(row, userId, t) && IsPrefix(NatToString(prefix), NatToString(row.shortCode))
  }

  /** `searchByShortCodePrefix`'s query: the selected rows, at most `limit`
      of them. When fewer than `limit` are returned, every selected row is
      among them. */
  function ShortCodesWithPrefix(rows: seq<ShortCodeRow>, userId: string, t: EntityType,
                                prefix: nat, limit: nat): (r: seq<ShortCodeRow>)
    ensures |r| <= limit
    ensures forall k :: 0 <= k < |r| ==> CodeSelected(r[k], userId, t, prefix) && r[k] in rows
    ensures |r| < limit ==>
      forall i :: 0 <= i < |rows| && CodeSelected(rows[i], userId, t, prefix) ==> rows[i] in r
    decreases |rows|
  {
    if |rows| == 0 || limit == 0 then []
    else
      assert forall i :: 1 <= i < |rows| ==> rows[i] == rows[1..][i - 1];
      if CodeSelected(rows[0], userId, t, prefix) then
        [rows[0]] + ShortCodesWithPrefix(rows[1..], userId, t, prefix, limit - 1)
      else ShortCodesWithPrefix(rows[1..], userId, t, prefix, limit)
  }

  /** The rows the WHERE clause of `searchByShortCodePrefix` selects, in
      table order. */
  function CodeMatching(rows: seq<ShortCodeRow>, userId: string, t: EntityType, prefix: nat): seq<ShortCodeRow> {
    Filter(rows, (row: ShortCodeRow) => CodeSelected(row, userId, t, prefix))
  }

  /** The query is its WHERE clause followed by its LIMIT: the first `limit`
      selected rows in table order. */
  lemma {:induction false} ShortCodesWithPrefixIsLimitedWhere(rows: seq<ShortCodeRow>, userId: string,
                                                             t: EntityType, prefix: nat, limit: nat)
    ensures ShortCodesWithPrefix(rows, userId, t, prefix, limit) == Take(CodeMatching(rows, userId, t, prefix), limit)
    decreases |rows|
  {
    if |rows| > 0 && limit > 0 {
      var m := CodeMatching(rows[1..], userId, t, prefix);
      if CodeSelected(rows[0], userId, t, prefix) {
        ShortCodesWithPrefixIsLimitedWhere(rows[1..], userId, t, prefix, limit - 1);
        assert CodeMatching(rows, userId, t, prefix) == [rows[0]] + m;
        TakeCons(rows[0], m, limit - 1);
      } else {
        ShortCodesWithPrefixIsLimitedWhere(rows[1..], userId, t, prefix, limit);
        assert CodeMatching(rows, userId, t, prefix) == m;
      }
    }
  }

  /** Which groups the universal autocomplete fills. */
  datatype AllSearchPlan =
    | OneGroup(entityType: EntityType)
    | FourGroups(query: string)

  /** The kinds the universal autocomplete offers, in the order it tests
      them against the query. */
  const SearchableTypes: seq<EntityType> := [Task, Project, Goal, Memory]

  /** The first searchable kind whose name starts with the lower-cased
      query, for queries of three characters or more. */
  function TypeMatch(query: string): (r: Option<EntityType>)
    ensures r.Some? ==> r.value in SearchableTypes && |query| >= 3 && IsPrefix(Lower(query), TypeName(r.value))
  {
    var q := Lower(query);
    if |q| < 3 then None
    else if IsPrefix(q, "task") then Some(Task)
    else if IsPrefix(q, "project") then Some(Project)
    else if IsPrefix(q, "goal") then Some(Goal)
    else if IsPrefix(q, "memory") then Some(Memory)
    else None
  }

  /** The searchable kinds begin with different letters, so a query names at
      most one of them and the search order does not matter. */
  lemma TypeMatchIff(query: string, t: EntityType)
    ensures TypeMatch(query) == Some(t) <==>
      t in SearchableTypes && |query| >= 3 && IsPrefix(Lower(query), TypeName(t))
  {
    var q := Lower(query);
    if t in SearchableTypes && |query| >= 3 && IsPrefix(q, TypeName(t)) {
      assert q[0] == TypeName(t)[0];
    }
  }

  /** `searchAllEntities(query)`: a query naming a kind lists that kind's ten
      newest entities with no content filter; any other query searches the
      four kinds with at most five results each. */
  function SearchAllEntities(query: string): (p: AllSearchPlan)
    ensures p.OneGroup? <==> TypeMatch(query).Some?
    ensures p.OneGroup? ==> p.entityType == TypeMatch(query).value
    ensures p.FourGroups? ==> p.query == query
  {
    match TypeMatch(query)
    case Some(t) => OneGroup(t)
    case None => FourGroups(query)
  }

  /** The four result groups of the universal autocomplete. */
  datatype Grouped = Grouped(tasks: seq<SearchResult>, projects: seq<SearchResult>,
                             goals: seq<SearchResult>, memories: seq<SearchResult>)

  /** Runs a plan with `search(kind, query, limit)` standing for
      `searchByTitle`. */
  function RunAllSearch(p: AllSearchPlan, search: (EntityType, string, nat) -> seq<SearchResult>): (g: Grouped)
    ensures p.OneGroup? ==>
      (var rs := search(p.entityType, "", 10);
       && g.tasks == (if p.entityType == Task then rs else [])
       && g.projects == (if p.entityType == Project then rs else [])
       && g.goals == (if p.entityType == Goal then rs else [])
       && g.memories == (if p.entityType == Memory then rs else []))
    ensures p.FourGroups? ==>
      g == Grouped(search(Task, p.query, 5), search(Project, p.query, 5),
                   search(Goal, p.query, 5), search(Memory, p.query, 5))
  {
    match p
    case OneGroup(t) =>
      var rs := search(t, "", 10);
      Grouped(if t == Task then rs else [], if t == Project then rs else [],
              if t == Goal then rs else [], if t == Memory then rs else [])
    case FourGroups(q) =>
      Grouped(search(Task, q, 5), search(Project, q, 5), search(Goal, q, 5), search(Memory, q, 5))
  }

  /** A plan that names a kind fills exactly that kind's group. */
  lemma OneGroupOnly(query: string, search: (EntityType, string, nat) -> seq<SearchResult>)
    requires TypeMatch(query).Some?
    ensures
      var g := RunAllSearch(SearchAllEntities(query), search);
      var t := TypeMatch(query).value;
      && (t != Task ==> g.tasks == [])
      && (t != Project ==> g.projects == [])
      && (t != Goal ==> g.goals == [])
      && (t != Memory ==> g.memories == [])
      && t != Journal
  {
  }

  // ---------------------------------------------------------------------------
  // searchByTitle
  // ---------------------------------------------------------------------------

  /** `content.slice(0, 50) + (content.length > 50 ? '...' : '')`. */
  function Truncate50(content: string): (title: string)
    ensures |content| <= 50 ==> title == content
    ensures |content| > 50 ==>
      (|title| == 53 && IsPrefix(content[..50], title) && title[50..] == "...")
  {
    if |content| > 50 then content[..50] + "..." else content
  }

  /** Truncating a title again changes nothing. */
  lemma Truncate50Idempotent(content: string)
    ensures Truncate50(Truncate50(content)) == Truncate50(content)
  {
    if |content| > 50 {
      var t := Truncate50(content);
      assert t[..50] == content[..50];
    }
  }

  /** A row of an entity table joined with its short code (`LEFT JOIN`):
      `text` is the title, name or content and `status` is absent for
      journal entries and memories. */
  datatype TitleRow = TitleRow(entityId: string, text: string, status: Option<string>, shortCode: Option<nat>)

  // ---------------------------------------------------------------------------
  // LIKE patterns
  // ---------------------------------------------------------------------------

  /** PostgreSQL's `text LIKE pattern` with the default escape character:
      `%` matches any run of characters, `_` any one character, and `\`
      makes the character after it literal. PostgreSQL refuses a pattern
      that ends in a lone `\`; the `%query%` patterns built here end in a
      `%`, so that case does not arise, and the model lets such a pattern
      match nothing. */
  predicate LikeMatch(text: string, pattern: string)
    decreases |text| + |pattern|
  {
    if |pattern| == 0 then |text| == 0
    else if pattern[0] == '%' then
      LikeMatch(text, pattern[1..]) || (|text| > 0 && LikeMatch(text[1..], pattern))
    else if |text| == 0 then false
    else if pattern[0] == '_' then LikeMatch(text[1..], pattern[1..])
    else if pattern[0] == '\\' then
      |pattern| >= 2 && text[0] == pattern[1] && LikeMatch(text[1..], pattern[2..])
    else text[0] == pattern[0] && LikeMatch(text[1..], pattern[1..])
  }

  /** Text with no wildcard and no escape character. */
  predicate PlainText(q: string) {
    forall i :: 0 <= i < |q| ==> q[i] != '%' && q[i] != '_' && q[i] != '\\'
  }

  /** `title ILIKE '%query%'`: ILIKE lower-cases the title and the whole
      pattern, wildcards and escapes included, and matches them with LIKE. */
  predicate ILikeContains(s: string, query: string) {
    LikeMatch(Lower(s), "%" + Lower(query) + "%")
  }

  /** A lone `%` matches any text. */
  lemma {:induction false} TrailingPercent(text: string)
    ensures LikeMatch(text, "%")
    decreases |text|
  {
    if |text| > 0 {
      TrailingPercent(text[1..]);
    }
  }

  /** Plain text at the head of a pattern matches itself only. */
  lemma {:induction false} PlainHead(text: string, q: string, rest: string)
    requires PlainText(q)
    ensures LikeMatch(text, q + rest) <==> IsPrefix(q, text) && LikeMatch(text[|q|..], rest)
    decreases |q|
  {
    if |q| == 0 {
      assert q + rest == rest;
      assert text[0..] == text;
    } else {
      assert (q + rest)[0] == q[0];
      assert (q + rest)[1..] == q[1..] + rest;
      assert PlainText(q[1..]) by {
        forall i | 0 <= i < |q[1..]| ensures q[1..][i] != '%' && q[1..][i] != '_' && q[1..][i] != '\\' {
          assert q[1..][i] == q[i + 1];
        }
      }
      if |text| > 0 {
        PlainHead(text[1..], q[1..], rest);
        if |q| <= |text| {
          assert text[1..][|q| - 1..] == text[|q|..];
          assert text[..|q|] == [text[0]] + text[1..][..|q| - 1];
          assert q == [q[0]] + q[1..];
        }
      }
    }
  }

  /** A leading `%` lets the rest of the pattern match from any position. */
  lemma {:induction false} LeadingPercent(text: string, p: string)
    ensures LikeMatch(text, "%" + p) <==> exists i :: 0 <= i <= |text| && LikeMatch(text[i..], p)
    decreases |text|
  {
    var pp := "%" + p;
    assert pp[0] == '%' && pp[1..] == p;
    assert text[0..] == text;
    if |text| > 0 {
      LeadingPercent(text[1..], p);
      if LikeMatch(text[1..], pp) {
        var i :| 0 <= i <= |text[1..]| && LikeMatch(text[1..][i..], p);
        assert text[1..][i..] == text[i + 1..];
      }
      if i :| 0 < i <= |text| && LikeMatch(text[i..], p) {
        assert text[1..][i - 1..] == text[i..];
      }
    }
  }

  /** For a query with no wildcard and no escape, `ILIKE '%query%'` is the
      case-insensitive substring test. */
  lemma PlainQueryIsSubstring(s: string, query: string)
    requires PlainText(query)
    ensures ILikeContains(s, query) <==> Contains(Lower(s), Lower(query))
  {
    var t, q := Lower(s), Lower(query);
    assert PlainText(q);
    assert "%" + q + "%" == "%" + (q + "%");
    LeadingPercent(t, q + "%");
    if ILikeContains(s, query) {
      var i :| 0 <= i <= |t| && LikeMatch(t[i..], q + "%");
      PlainHead(t[i..], q, "%");
      assert OccursAt(q, t, i);
    }
    if Contains(t, q) {
      var i :| 0 <= i <= |t| - |q| && OccursAt(q, t, i);
      PlainHead(t[i..], q, "%");
      TrailingPercent(t[i..][|q|..]);
      assert LikeMatch(t[i..], q + "%");
    }
  }

  /** `_` stands for any one character: `a_c` finds `abc`, which holds no
      `a_c`. */
  lemma UnderscoreIsWildcard()
    ensures ILikeContains("abc", "a_c")
    ensures !Contains("abc", "a_c")
  {
    assert Lower("a_c") == "a_c";
    assert Lower("abc") == "abc";
    assert "%" + Lower("a_c") + "%" == "%a_c%";
    assert LikeMatch("", "");
    assert LikeMatch("", "%");
    assert LikeMatch("c", "c%");
    assert LikeMatch("bc", "_c%");
    assert LikeMatch("abc", "a_c%");
    assert "abc"[0..3][1] == 'b';
    assert !OccursAt("a_c", "abc", 0);
  }

  /** `%` stands for any run of characters: `50%` finds `50 ways`. */
  lemma PercentIsWildcard()
    ensures ILikeContains("50 ways", "50%")
  {
    assert Lower("50%") == "50%";
    assert Lower("50 ways") == "50 ways";
    assert "%" + Lower("50%") + "%" == "%50%%";
    TrailingPercent(" ways");
    assert LikeMatch(" ways", "%%");
    assert LikeMatch("0 ways", "0%%");
    assert LikeMatch("50 ways", "50%%");
    assert LikeMatch("50 ways", "%50%%");
  }

  /** An escaped `_` is literal: `a\_c` finds `A_C` but not `abc`. */
  lemma EscapedUnderscoreIsLiteral()
    ensures ILikeContains("A_C", "a\\_c")
    ensures !ILikeContains("abc", "a\\_c")
  {
    assert Lower("a\\_c") == "a\\_c";
    assert Lower("A_C") == "a_c";
    assert Lower("abc") == "abc";
    assert "%" + Lower("a\\_c") + "%" == "%a\\_c%";
    assert LikeMatch("", "%");
    assert LikeMatch("c", "c%");
    assert LikeMatch("_c", "\\_c%");
    assert LikeMatch("a_c", "a\\_c%");
    assert LikeMatch("a_c", "%a\\_c%");
    assert !LikeMatch("", "a\\_c%");
    assert !LikeMatch("", "%a\\_c%");
    assert !LikeMatch("c", "a\\_c%");
    assert !LikeMatch("c", "%a\\_c%");
    assert !LikeMatch("bc", "a\\_c%");
    assert !LikeMatch("bc", "%a\\_c%");
    assert !LikeMatch("bc", "\\_c%");
    assert !LikeMatch("abc", "a\\_c%");
    assert !LikeMatch("abc", "%a\\_c%");
  }

  /** The WHERE clause of `searchByTitle`: every row when the query is
      empty, otherwise the rows whose text the pattern matches. */
  predicate TitleSelected(row: TitleRow, query: string) {
    query == "" || ILikeContains(row.text, query)
  }

  /** The rows the WHERE clause selects, in table order. */
  function Matching(rows: seq<TitleRow>, query: string): seq<TitleRow> {
    Filter(rows, (row: TitleRow) => TitleSelected(row, query))
  }

  /** The rows the query returns: selected rows, at most `limit` of them.
      When fewer than `limit` are returned, every selected row is among
      them. */
  function SelectTitleRows(rows: seq<TitleRow>, query: string, limit: nat): (r: seq<TitleRow>)
    ensures |r| <= limit
    ensures forall k :: 0 <= k < |r| ==> r[k] in rows && TitleSelected(r[k], query)
    ensures |r| < limit ==> forall i :: 0 <= i < |rows| && TitleSelected(rows[i], query) ==> rows[i] in r
    decreases |rows|
  {
    if |rows| == 0 || limit == 0 then []
    else
      assert forall i :: 1 <= i < |rows| ==> rows[i] == rows[1..][i - 1];
      if TitleSelected(rows[0], query) then
        [rows[0]] + SelectTitleRows(rows[1..], query, limit - 1)
      else SelectTitleRows(rows[1..], query, limit)
  }

  /** The query is its WHERE clause followed by its LIMIT: the first `limit`
      selected rows in the order the rows come (newest first). */
  lemma {:induction false} SelectTitleRowsIsLimitedWhere(rows: seq<TitleRow>, query: string, limit: nat)
    ensures SelectTitleRows(rows, query, limit) == Take(Matching(rows, query), limit)
    decreases |rows|
  {
    if |rows| > 0 && limit > 0 {
      var m := Matching(rows[1..], query);
      if TitleSelected(rows[0], query) {
        SelectTitleRowsIsLimitedWhere(rows[1..], query, limit - 1);
        assert Matching(rows, query) == [rows[0]] + m;
        TakeCons(rows[0], m, limit - 1);
      } else {
        SelectTitleRowsIsLimitedWhere(rows[1..], query, limit);
        assert Matching(rows, query) == m;
      }
    }
  }

  /** The search result built from a row that has a short code. */
  function ToResult(t: EntityType, row: TitleRow): SearchResult
    requires row.shortCode.Some?
  {
    if t == Journal || t == Memory then
      SearchResult(t, row.entityId, row.shortCode.value, Truncate50(row.text), None)
    else SearchResult(t, row.entityId, row.shortCode.value, row.text, row.status)
  }

  /** `.filter(r => r.shortCode !== null).map(...)`. */
  function WithShortCodes(t: EntityType, rows: seq<TitleRow>): (r: seq<SearchResult>)
    ensures |r| <= |rows|
    ensures forall k :: 0 <= k < |r| ==>
      exists i :: 0 <= i < |rows| && rows[i].shortCode.Some? && r[k] == ToResult(t, rows[i])
    decreases |rows|
  {
    if |rows| == 0 then []
    else
      var rest := WithShortCodes(t, rows[1..]);
      assert forall i :: 1 <= i < |rows| ==> rows[i] == rows[1..][i - 1];
      if rows[0].shortCode.Some? then [ToResult(t, rows[0])] + rest else rest
  }

  /** Every row with a short code yields a result. */
  lemma {:induction false} WithShortCodesComplete(t: EntityType, rows: seq<TitleRow>, i: nat)
    requires i < |rows| && rows[i].shortCode.Some?
    ensures ToResult(t, rows[i]) in WithShortCodes(t, rows)
    decreases |rows|
  {
    if i > 0 {
      WithShortCodesComplete(t, rows[1..], i - 1);
    }
  }

  /** `searchByTitle(userId, entityType, query, limit)` over the user's rows
      of the kind, newest first: among the first `limit` selected rows,
      exactly those with a short code give a result. */
  function SearchByTitle(t: EntityType, rows: seq<TitleRow>, query: string, limit: nat): (r: seq<SearchResult>)
    ensures |r| <= limit
    ensures forall k :: 0 <= k < |r| ==>
      (r[k].entityType == t && (t == Journal || t == Memory ==> r[k].status.None? && |r[k].title| <= 53))
    ensures var m := Take(Matching(rows, query), limit);
      forall k :: 0 <= k < |r| ==>
        exists j :: 0 <= j < |m| && m[j].shortCode.Some? && r[k] == ToResult(t, m[j])
    ensures var m := Take(Matching(rows, query), limit);
      forall j :: 0 <= j < |m| && m[j].shortCode.Some? ==> ToResult(t, m[j]) in r
  {
    var selected := SelectTitleRows(rows, query, limit);
    SelectTitleRowsIsLimitedWhere(rows, query, limit);
    forall j | 0 <= j < |selected| && selected[j].shortCode.Some?
      ensures ToResult(t, selected[j]) in WithShortCodes(t, selected)
    {
      WithShortCodesComplete(t, selected, j);
    }
    var r := WithShortCodes(t, selected);
    forall k | 0 <= k < |r|
      ensures exists j :: 0 <= j < |selected| && selected[j].shortCode.Some? && r[k] == ToResult(t, selected[j])
    {
      var i :| 0 <= i < |selected| && selected[i].shortCode.Some? && r[k] == ToResult(t, selected[i]);
    }
    r
  }

  // ---------------------------------------------------------------------------
  // resolveMentions
  // ---------------------------------------------------------------------------

  /** What an entity table knows about an entity. */
  datatype Details = Details(title: string, status: Option<string>)

  /** `shortCodeToEntityId.get(code)`: the map is built from the user's rows
      of the kind in table order, so the last row with the code wins. */
  function CodeToEntityId(rows: seq<ShortCodeRow>, userId: string, t: EntityType, code: nat): (r: Option<string>)
    ensures r.Some? <==> exists i :: 0 <= i < |rows| && HasCode(rows[i], userId, t, code)
    ensures r.Some? ==>
      exists i :: (0 <= i < |rows| && HasCode(rows[i], userId, t, code) && rows[i].entityId == r.value
                   && forall j :: i < j < |rows| ==> !HasCode(rows[j], userId, t, code))
    decreases |rows|
  {
    if |rows| == 0 then None
    else
      var last := rows[|rows| - 1];
      var init := rows[..|rows| - 1];
      assert forall i :: 0 <= i < |init| ==> init[i] == rows[i];
      if HasCode(last, userId, t, code) then Some(last.entityId)
      else CodeToEntityId(init, userId, t, code)
  }

  /** The resolution of one mention, with the page link of the entity found. */
  function ResolveOne(m: ParsedMention, rows: seq<ShortCodeRow>, userId: string,
                      entities: map<(EntityType, string), Details>): ResolvedMention
  {
    match CodeToEntityId(rows, userId, m.entityType, m.shortCode)
    case Some(id) =>
      if id != "" && (m.entityType, id) in entities then
        var d := entities[(m.entityType, id)];
        CreateResolvedMention(m, Some(EntityData(id, d.title, d.status)))
      else Unresolved(m)
    case None => Unresolved(m)
  }

  /** The resolution of one mention as written: the link is built from the
      short code instead of the entity id. */
  function ResolveOneAsWritten(m: ParsedMention, rows: seq<ShortCodeRow>, userId: string,
                               entities: map<(EntityType, string), Details>): (r: ResolvedMention)
    ensures r.found ==> r.url == Some(GetEntityUrl(m.entityType, NatToString(m.shortCode)))
  {
    var r := ResolveOne(m, rows, userId, entities);
    if r.found then r.(url := Some(GetEntityUrl(m.entityType, NatToString(m.shortCode)))) else r
  }

  /** Whether a mention is found: its code maps to a non-empty entity id
      that the entity table has. */
  predicate Resolvable(m: ParsedMention, rows: seq<ShortCodeRow>, userId: string,
                       entities: map<(EntityType, string), Details>) {
    var id := CodeToEntityId(rows, userId, m.entityType, m.shortCode);
    id.Some? && id.value != "" && (m.entityType, id.value) in entities
  }

  lemma ResolveOneFound(m: ParsedMention, rows: seq<ShortCodeRow>, userId: string,
                        entities: map<(EntityType, string), Details>)
    ensures ResolveOne(m, rows, userId, entities).found <==> Resolvable(m, rows, userId, entities)
    ensures Resolvable(m, rows, userId, entities) && Mentionable(m.entityType) ==>
      var r := ResolveOne(m, rows, userId, entities);
      && r.entityId == CodeToEntityId(rows, userId, m.entityType, m.shortCode)
      && ParseEntityUrl(r.url.value) == Some((m.entityType, r.entityId.value))
  {
    if Resolvable(m, rows, userId, entities) && Mentionable(m.entityType) {
      var id := CodeToEntityId(rows, userId, m.entityType, m.shortCode).value;
      var d := entities[(m.entityType, id)];
      ResolvedUrlReadsBack(m, EntityData(id, d.title, d.status));
    }
  }

  /** The index of the last mention with the same key as `ms[i]`: every
      mention of a key is overwritten in the result map by the last one. */
  function LastWithKey(ms: seq<ParsedMention>, i: nat): (j: nat)
    requires i < |ms|
    ensures i <= j < |ms| && Key(ms[j]) == Key(ms[i])
    ensures forall k :: j < k < |ms| ==> Key(ms[k]) != Key(ms[i])
    decreases |ms| - i
  {
    if exists k :: i < k < |ms| && Key(ms[k]) == Key(ms[i]) then
      var k :| i < k < |ms| && Key(ms[k]) == Key(ms[i]);
      LastWithKey(ms, k)
    else i
  }

  /** `resolveMentions(mentions)`: one result per input, in input order. The
      result for a mention is the resolution of the last mention with the
      same key, since later mentions overwrite earlier ones in the map. */
  function ResolveMentions(ms: seq<ParsedMention>, rows: seq<ShortCodeRow>, userId: string,
                           entities: map<(EntityType, string), Details>): (r: seq<ResolvedMention>)
    ensures |r| == |ms|
    ensures forall i :: 0 <= i < |ms| ==> Key(r[i].mention) == Key(ms[i])
    ensures forall i :: 0 <= i < |ms| ==> (r[i].found <==> Resolvable(ms[i], rows, userId, entities))
    ensures forall i :: 0 <= i < |ms| && (forall k :: i < k < |ms| ==> Key(ms[k]) != Key(ms[i])) ==>
      r[i].mention == ms[i]
  {
    seq(|ms|, i requires 0 <= i < |ms| =>
      var j := LastWithKey(ms, i);
      ResolveOneFound(ms[j], rows, userId, entities);
      ResolveOne(ms[j], rows, userId, entities))
  }

  /** The same batch with the links as written. */
  function ResolveMentionsAsWritten(ms: seq<ParsedMention>, rows: seq<ShortCodeRow>, userId: string,
                                    entities: map<(EntityType, string), Details>): (r: seq<ResolvedMention>)
    ensures |r| == |ms|
    ensures forall i :: 0 <= i < |ms| && r[i].found ==>
      r[i].url == Some(GetEntityUrl(ms[i].entityType, NatToString(ms[i].shortCode)))
  {
    seq(|ms|, i requires 0 <= i < |ms| => ResolveOneAsWritten(ms[LastWithKey(ms, i)], rows, userId, entities))
  }

  /** As written, `task#1` naming the task with id `abc` links to
      `/tasks/1`, a page for an entity with id `1`, instead of `/tasks/abc`. */
  lemma AsWrittenUrlUsesShortCode()
    ensures
      var m := ParsedMention(Task, 1, "task#1", 0, 6);
      var rows := [ShortCodeRow("u", Task, "abc", 1)];
      var entities := map[(Task, "abc") := Details("Write report", None)];
      var wrong := ResolveMentionsAsWritten([m], rows, "u", entities);
      var right := ResolveMentions([m], rows, "u", entities);
      && wrong[0].found && wrong[0].url == Some("/tasks/1")
      && right[0].found && right[0].url == Some("/tasks/abc")
  {
    var m := ParsedMention(Task, 1, "task#1", 0, 6);
    var rows := [ShortCodeRow("u", Task, "abc", 1)];
    var entities := map[(Task, "abc") := Details("Write report", None)];
    assert CodeToEntityId(rows, "u", Task, 1) == Some("abc");
    assert LastWithKey([m], 0) == 0;
    assert NatToString(1) == "1";
    var r := ResolveOne(m, rows, "u", entities);
    assert r == CreateResolvedMention(m, Some(EntityData("abc", "Write report", None)));
    assert GetEntityUrl(Task, "abc") == "/tasks/" + "abc" == "/tasks/abc";
    assert r.url == Some("/tasks/abc");
    assert GetEntityUrl(Task, NatToString(1)) == "/tasks/" + "1" == "/tasks/1";
    assert ResolveOneAsWritten(m, rows, "u", entities).url == Some("/tasks/1");
  }
}

=== FILE: mention_parser.dfy ===
/** The `type#N` mention language of apps/journey/src/lib/mentions/parser.ts.

    The global pattern `\b(task|project|goal|journal)#(\d+)\b` with the `gi`
    flags is spelled out by hand: without the `u` flag only ASCII letters fold
    case, `\d` is `[0-9]` and `\w` is `[A-Za-z0-9_]`. The four keywords start
    with different letters, so at most one of them can match at a position,
    and because `\d+` may only give back digits, a match needs the whole digit
    run to be followed by a non-word character or the end of the text. */
module MentionParser {
  import opened Base
  import opened Text
  import opened MentionTypes

  // ---------------------------------------------------------------------------
  // Matching at one position
  // ---------------------------------------------------------------------------

  /** The keyword of the mentionable kind spelled, in any letter case, at
      `text[i..]`. */
  function KeywordAt(text: string, i: nat): (r: Option<EntityType>)
    ensures r.Some? ==> Mentionable(r.value) && MatchesAt(text, i, TypeName(r.value))
  {
    KeywordAmong(text, i, [Task, Project, Goal, Journal])
  }

  /** The first of `kinds`, tried in order as the alternation does, whose
      keyword is spelled at `text[i..]`. */
  function KeywordAmong(text: string, i: nat, kinds: seq<EntityType>): (r: Option<EntityType>)
    ensures r.Some? ==> r.value in kinds && MatchesAt(text, i, TypeName(r.value))
    decreases |kinds|
  {
    if |kinds| == 0 then None
    else if MatchesAt(text, i, TypeName(kinds[0])) then Some(kinds[0])
    else KeywordAmong(text, i, kinds[1..])
  }

  /** A keyword needs a letter where it starts. */
  lemma KeywordStartsWithLetter(text: string, i: nat)
    requires KeywordAt(text, i).Some?
    ensures i < |text| && IsLower(LowerChar(text[i]))
  {
    var w := TypeName(KeywordAt(text, i).value);
    assert LowerChar(text[i + 0]) == w[0];
  }

  /** The length of the run of digits starting at `j`. */
  function DigitRun(text: string, j: nat): (n: nat)
    requires j <= |text|
    ensures j + n <= |text|
    ensures forall k :: j <= k < j + n ==> IsDigit(text[k])
    ensures j + n < |text| ==> !IsDigit(text[j + n])
    decreases |text| - j
  {
    if j < |text| && IsDigit(text[j]) then 1 + DigitRun(text, j + 1) else 0
  }

  /** `\b` before position `i` whose character is a word character. */
  predicate WordStart(text: string, i: nat)
    requires i <= |text|
  {
    i == 0 || !IsWordChar(text[i - 1])
  }

  /** `\b` after a digit that ends at position `e`. */
  predicate WordEnd(text: string, e: nat)
    requires e <= |text|
  {
    e == |text| || !IsWordChar(text[e])
  }

  /** The mention the pattern matches when a search reaches position `i`. */
  function MatchAt(text: string, i: nat): (r: Option<ParsedMention>)
    requires i <= |text|
    ensures r.Some? ==> r.value.startIndex == i < r.value.endIndex <= |text|
  {
    if !WordStart(text, i) then None
    else match KeywordAt(text, i)
      case None => None
      case Some(t) => MatchAfter(text, i, t)
  }

  /** The rest of a match once the keyword of kind `t` is found at `i`: `#`
      and a digit run followed by `\b`. */
  function MatchAfter(text: string, i: nat, t: EntityType): (r: Option<ParsedMention>)
    requires i + |TypeName(t)| <= |text|
    ensures r.Some? ==> r.value.startIndex == i < r.value.endIndex <= |text|
  {
    var h := i + |TypeName(t)|;
    if h < |text| && text[h] == '#' then
      var d := DigitRun(text, h + 1);
      var e := h + 1 + d;
      if d > 0 && WordEnd(text, e) then
        Some(ParsedMention(t, DecimalValue(text[h + 1..e]), text[i..e], i, e))
      else None
    else None
  }

  /** The text of a mention: the keyword of its kind in any letter case, `#`,
      and a non-empty digit run whose decimal value is the short code. */
  predicate IsMentionToken(raw: string, t: EntityType, code: nat) {
    var n := |TypeName(t)|;
    && Mentionable(t)
    && n + 1 < |raw|
    && MatchesAt(raw, 0, TypeName(t))
    && raw[n] == '#'
    && AllDigits(raw[n + 1..])
    && DecimalValue(raw[n + 1..]) == code
  }

  /** A mention whose raw text sits at `[startIndex, endIndex)` of `text`. */
  predicate Placed(text: string, m: ParsedMention) {
    && m.startIndex < m.endIndex <= |text|
    && m.endIndex == m.startIndex + |m.raw|
    && text[m.startIndex..m.endIndex] == m.raw
  }

  /** A mention that is exactly the match found at its start in `text`. */
  predicate WellPlaced(text: string, m: ParsedMention) {
    && Placed(text, m)
    && IsMentionToken(m.raw, m.entityType, m.shortCode)
    && MatchAt(text, m.startIndex) == Some(m)
  }

  lemma MatchIsWellPlaced(text: string, i: nat)
    requires i <= |text| && MatchAt(text, i).Some?
    ensures WellPlaced(text, MatchAt(text, i).value)
  {
    var t, e := MatchAtParts(text, i);
    TokenOfSlice(text, i, e, t);
  }

  /** What a match at `i` is made of: a keyword, `#` and a digit run ending
      at `e`. */
  lemma MatchAtParts(text: string, i: nat) returns (t: EntityType, e: nat)
    requires i <= |text| && MatchAt(text, i).Some?
    ensures Mentionable(t) && MatchesAt(text, i, TypeName(t))
    ensures i + |TypeName(t)| + 1 < e <= |text| && text[i + |TypeName(t)|] == '#'
    ensures forall k :: i + |TypeName(t)| + 1 <= k < e ==> IsDigit(text[k])
    ensures MatchAt(text, i).value ==
      ParsedMention(t, DecimalValue(text[i + |TypeName(t)| + 1..e]), text[i..e], i, e)
  {
    t := KeywordAt(text, i).value;
    e := MatchAfterParts(text, i, t);
  }

  lemma MatchAfterParts(text: string, i: nat, t: EntityType) returns (e: nat)
    requires i + |TypeName(t)| <= |text| && MatchAfter(text, i, t).Some?
    ensures i + |TypeName(t)| + 1 < e <= |text| && text[i + |TypeName(t)|] == '#'
    ensures forall k :: i + |TypeName(t)| + 1 <= k < e ==> IsDigit(text[k])
    ensures MatchAfter(text, i, t).value ==
      ParsedMention(t, DecimalValue(text[i + |TypeName(t)| + 1..e]), text[i..e], i, e)
  {
    var h := i + |TypeName(t)|;
    e := h + 1 + DigitRun(text, h + 1);
  }

  /** The text from a keyword through the end of the digit run after its
      `#` is a mention token. */
  lemma TokenOfSlice(text: string, i: nat, e: nat, t: EntityType)
    requires Mentionable(t) && MatchesAt(text, i, TypeName(t))
    requires i + |TypeName(t)| + 1 < e <= |text| && text[i + |TypeName(t)|] == '#'
    requires forall k :: i + |TypeName(t)| + 1 <= k < e ==> IsDigit(text[k])
    ensures IsMentionToken(text[i..e], t, DecimalValue(text[i + |TypeName(t)| + 1..e]))
  {
    var w := TypeName(t);
    var n := |w|;
    var raw := text[i..e];
    MatchesAtSlice(text, i, e, w);
    assert raw[n] == text[i + n];
    assert raw[n + 1..] == text[i + n + 1..e];
  }

  /** No match begins strictly inside another match: inside the keyword the
      previous character is a letter, and `#` and digits start no keyword. */
  lemma NoMatchInside(text: string, i: nat, p: nat)
    requires i <= |text| && MatchAt(text, i).Some?
    requires i < p < MatchAt(text, i).value.endIndex
    ensures MatchAt(text, p).None?
  {
    var m := MatchAt(text, i).value;
    var w := TypeName(m.entityType);
    var n := |w|;
    if p <= i + n {
      TypeNameLetters(m.entityType);
      MatchesAtChars(text, i, w);
      assert LowerChar(text[i + (p - 1 - i)]) == w[p - 1 - i];
      assert IsWordChar(text[p - 1]);
    } else {
      assert text[p] == '#' || IsDigit(text[p]);
      if KeywordAt(text, p).Some? {
        KeywordStartsWithLetter(text, p);
      }
    }
  }

  // ---------------------------------------------------------------------------
  // parseMentions / hasMentions
  // ---------------------------------------------------------------------------

  /** The positions where the pattern matches. */
  predicate HasMatchAt(text: string, p: int) {
    0 <= p <= |text| && MatchAt(text, p).Some?
  }

  predicate Ordered(ms: seq<ParsedMention>) {
    forall k :: 0 <= k < |ms| - 1 ==> ms[k].endIndex <= ms[k + 1].startIndex
  }

  /** The global `exec` loop started at `lastIndex = i`: the search moves one
      position on after a failure and to the end of the match after a hit. */
  function ParseFrom(text: string, i: nat): seq<ParsedMention>
    requires i <= |text|
    decreases |text| - i
  {
    if i == |text| then []
    else match MatchAt(text, i)
      case Some(m) => [m] + ParseFrom(text, m.endIndex)
      case None => ParseFrom(text, i + 1)
  }

  /** Every parsed mention is the match at its own start, and they come in
      text order without overlapping. */
  lemma {:induction false} ParseFromSound(text: string, i: nat)
    requires i <= |text|
    ensures forall k :: 0 <= k < |ParseFrom(text, i)| ==>
      WellPlaced(text, ParseFrom(text, i)[k]) && i <= ParseFrom(text, i)[k].startIndex
    ensures Ordered(ParseFrom(text, i))
    decreases |text| - i
  {
    if i < |text| {
      var r := ParseFrom(text, i);
      match MatchAt(text, i)
      case Some(m) =>
        MatchIsWellPlaced(text, i);
        ParseFromSound(text, m.endIndex);
        var rest := ParseFrom(text, m.endIndex);
        assert r == [m] + rest;
        SoundCons(text, m, rest, i);
      case None =>
        assert r == ParseFrom(text, i + 1);
        ParseFromSound(text, i + 1);
    }
  }

  /** Putting a well-placed mention at `i` before the mentions found from
      its end keeps them well placed, at or after `i`, and in order. */
  lemma SoundCons(text: string, m: ParsedMention, rest: seq<ParsedMention>, i: nat)
    requires WellPlaced(text, m) && m.startIndex == i && i < m.endIndex
    requires forall k :: 0 <= k < |rest| ==> WellPlaced(text, rest[k]) && m.endIndex <= rest[k].startIndex
    requires Ordered(rest)
    ensures forall k :: 0 <= k < |[m] + rest| ==> WellPlaced(text, ([m] + rest)[k]) && i <= ([m] + rest)[k].startIndex
    ensures Ordered([m] + rest)
  {
    var all := [m] + rest;
    forall k | 0 <= k < |all| ensures WellPlaced(text, all[k]) && i <= all[k].startIndex {
      if k > 0 {
        assert all[k] == rest[k - 1];
      }
    }
    forall k | 0 <= k < |all| - 1 ensures all[k].endIndex <= all[k + 1].startIndex {
      if k > 0 {
        assert all[k] == rest[k - 1] && all[k + 1] == rest[k];
      } else {
        assert all[1] == rest[0];
      }
    }
  }

  /** Every position at or after `i` where the pattern matches is the start
      of a parsed mention, the `k`-th one. */
  lemma {:induction false} ParseFromComplete(text: string, i: nat, p: nat) returns (k: nat)
    requires i <= p <= |text| && HasMatchAt(text, p)
    ensures k < |ParseFrom(text, i)| && ParseFrom(text, i)[k].startIndex == p
    decreases |text| - i
  {
    if MatchAt(text, i).Some? {
      var m := MatchAt(text, i).value;
      ParseFromHit(text, i);
      if p == i {
        k := 0;
      } else {
        AfterMatch(text, i, p);
        var k0 := ParseFromComplete(text, m.endIndex, p);
        k := k0 + 1;
        assert ([m] + ParseFrom(text, m.endIndex))[k] == ParseFrom(text, m.endIndex)[k0];
      }
    } else {
      assert i < p;
      ParseFromMiss(text, i);
      k := ParseFromComplete(text, i + 1, p);
    }
  }

  /** One step of the search after a hit at `i`. */
  lemma ParseFromHit(text: string, i: nat)
    requires i <= |text| && MatchAt(text, i).Some?
    ensures ParseFrom(text, i) ==
      [MatchAt(text, i).value] + ParseFrom(text, MatchAt(text, i).value.endIndex)
  {
  }

  /** One step of the search after a miss at `i`. */
  lemma ParseFromMiss(text: string, i: nat)
    requires i < |text| && MatchAt(text, i).None?
    ensures ParseFrom(text, i) == ParseFrom(text, i + 1)
  {
  }

  /** A later match starts at or after the end of the match at `i`. */
  lemma AfterMatch(text: string, i: nat, p: nat)
    requires i < p <= |text| && MatchAt(text, i).Some? && HasMatchAt(text, p)
    ensures MatchAt(text, i).value.endIndex <= p
  {
    if p < MatchAt(text, i).value.endIndex {
      NoMatchInside(text, i, p);
      assert false;
    }
  }

  /** `parseMentions(text)`: the well-placed matches in text order, which
      are exactly the positions where the pattern matches. */
  function ParseMentions(text: string): (r: seq<ParsedMention>)
    ensures forall k :: 0 <= k < |r| ==> WellPlaced(text, r[k])
    ensures Ordered(r)
    ensures forall p :: 0 <= p <= |text| ==>
      (HasMatchAt(text, p) <==> exists k :: 0 <= k < |r| && r[k].startIndex == p)
  {
    ParseFromSound(text, 0);
    var r := ParseFrom(text, 0);
    forall p | 0 <= p <= |text| && HasMatchAt(text, p)
      ensures exists k :: 0 <= k < |r| && r[k].startIndex == p
    {
      var k := ParseFromComplete(text, 0, p);
    }
    r
  }

  /** `hasMentions(text)`: the pattern's `test`, which asks whether it
      matches anywhere. */
  predicate HasMentions(text: string) {
    exists p :: 0 <= p <= |text| && HasMatchAt(text, p)
  }

  lemma HasMentionsIffParsed(text: string)
    ensures HasMentions(text) <==> |ParseMentions(text)| > 0
  {
    var r := ParseMentions(text);
    if |r| > 0 {
      assert HasMatchAt(text, r[0].startIndex);
    }
  }

  /** Parsed mentions start strictly increasing and never overlap. */
  lemma {:induction false} ParsedStrictlyIncreasing(text: string, a: nat, b: nat)
    requires a < b < |ParseMentions(text)|
    ensures ParseMentions(text)[a].endIndex <= ParseMentions(text)[b].startIndex
    ensures ParseMentions(text)[a].startIndex < ParseMentions(text)[b].startIndex
    decreases b - a
  {
    var r := ParseMentions(text);
    if b > a + 1 {
      ParsedStrictlyIncreasing(text, a, b - 1);
    }
    assert WellPlaced(text, r[b - 1]);
  }

  // ---------------------------------------------------------------------------
  // getUniqueMentions
  // ---------------------------------------------------------------------------

  function KeysOf(ms: seq<ParsedMention>): set<(EntityType, nat)> {
    set k | 0 <= k < |ms| :: Key(ms[k])
  }

  lemma KeysOfAppend(ms: seq<ParsedMention>, x: ParsedMention)
    ensures KeysOf(ms + [x]) == KeysOf(ms) + {Key(x)}
  {
    var a := KeysOf(ms + [x]);
    var b := KeysOf(ms) + {Key(x)};
    forall y | y in a ensures y in b {
      var k :| 0 <= k < |ms| + 1 && Key((ms + [x])[k]) == y;
      if k < |ms| {
        assert Key(ms[k]) == y;
      }
    }
    forall y | y in b ensures y in a {
      if y == Key(x) {
        assert (ms + [x])[|ms|] == x;
      } else {
        var k :| 0 <= k < |ms| && Key(ms[k]) == y;
        assert (ms + [x])[k] == ms[k];
      }
    }
  }

  /** The reference: every mention whose key has not appeared before it. */
  function FirstOccurrences(ms: seq<ParsedMention>): seq<ParsedMention>
    decreases |ms|
  {
    if |ms| == 0 then []
    else
      var init := ms[..|ms| - 1];
      var last := ms[|ms| - 1];
      FirstOccurrences(init) + (if Key(last) in KeysOf(init) then [] else [last])
  }

  /** The loop of `getUniqueMentions`: one pass with a set of seen keys. */
  method UniqueMentions(mentions: seq<ParsedMention>) returns (unique: seq<ParsedMention>)
    ensures unique == FirstOccurrences(mentions)
  {
    var seen: set<(EntityType, nat)> := {};
    unique := [];
    var i := 0;
    while i < |mentions|
      invariant 0 <= i <= |mentions|
      invariant seen == KeysOf(mentions[..i])
      invariant unique == FirstOccurrences(mentions[..i])
    {
      var mention := mentions[i];
      assert mentions[..i + 1] == mentions[..i] + [mention];
      KeysOfAppend(mentions[..i], mention);
      if Key(mention) !in seen {
        seen := seen + {Key(mention)};
        unique := unique + [mention];
      }
      i := i + 1;
    }
    assert mentions[..i] == mentions;
  }

  /** `getUniqueMentions(text)`. */
  method GetUniqueMentions(text: string) returns (unique: seq<ParsedMention>)
    ensures unique == FirstOccurrences(ParseMentions(text))
  {
    unique := UniqueMentions(ParseMentions(text));
  }

  /** `idx` lists, in increasing order, positions of `s` holding `sub`. */
  predicate Embeds<T(==)>(idx: seq<nat>, sub: seq<T>, s: seq<T>) {
    && |idx| == |sub|
    && (forall k :: 0 <= k < |idx| ==> idx[k] < |s| && s[idx[k]] == sub[k])
    && (forall a, b :: 0 <= a < b < |idx| ==> idx[a] < idx[b])
  }

  /** The unique mentions are a subsequence of the parse with the same keys
      and no key twice; `idx` shows where each comes from. */
  lemma {:induction false} FirstOccurrencesProperties(ms: seq<ParsedMention>) returns (idx: seq<nat>)
    ensures Embeds(idx, FirstOccurrences(ms), ms)
    ensures forall k :: 0 <= k < |idx| ==> Key(ms[idx[k]]) !in KeysOf(ms[..idx[k]])
    ensures KeysOf(FirstOccurrences(ms)) == KeysOf(ms)
    ensures DistinctKeys(FirstOccurrences(ms))
    decreases |ms|
  {
    if |ms| == 0 {
      idx := [];
    } else {
      var init := ms[..|ms| - 1];
      var last := ms[|ms| - 1];
      var idx0 := FirstOccurrencesProperties(init);
      var f := FirstOccurrences(init);
      var r := FirstOccurrences(ms);
      assert ms == init + [last];
      KeysOfAppend(init, last);
      if Key(last) in KeysOf(init) {
        assert r == f;
        idx := idx0;
        EmbedsExtend(idx0, f, init, last);
      } else {
        assert r == f + [last];
        KeysOfAppend(f, last);
        idx := idx0 + [|ms| - 1];
        EmbedsAppend(idx0, f, init, last);
        DistinctKeysAppend(f, last);
      }
    }
  }

  /** Indices into `s` still point at the same mentions, with the same
      prefixes before them, once `s` grows at the end. */
  lemma EmbedsExtend(idx: seq<nat>, sub: seq<ParsedMention>, s: seq<ParsedMention>, x: ParsedMention)
    requires Embeds(idx, sub, s)
    requires forall k :: 0 <= k < |idx| ==> Key(s[idx[k]]) !in KeysOf(s[..idx[k]])
    ensures Embeds(idx, sub, s + [x])
    ensures forall k :: 0 <= k < |idx| ==> Key((s + [x])[idx[k]]) !in KeysOf((s + [x])[..idx[k]])
  {
    var t := s + [x];
    forall k | 0 <= k < |idx| ensures t[..idx[k]] == s[..idx[k]] && t[idx[k]] == s[idx[k]] {
    }
  }

  /** Appending a mention with a new key to both the sub-sequence and the
      sequence extends the embedding by its position. */
  lemma EmbedsAppend(idx: seq<nat>, sub: seq<ParsedMention>, s: seq<ParsedMention>, x: ParsedMention)
    requires Embeds(idx, sub, s)
    requires forall k :: 0 <= k < |idx| ==> Key(s[idx[k]]) !in KeysOf(s[..idx[k]])
    requires Key(x) !in KeysOf(s)
    ensures Embeds(idx + [|s|], sub + [x], s + [x])
    ensures forall k :: 0 <= k < |idx| + 1 ==>
      Key((s + [x])[(idx + [|s|])[k]]) !in KeysOf((s + [x])[..(idx + [|s|])[k]])
  {
    EmbedsExtend(idx, sub, s, x);
    assert (s + [x])[..|s|] == s;
  }

  /** No two of `ms` share a key. */
  predicate DistinctKeys(ms: seq<ParsedMention>) {
    forall i, j :: 0 <= i < j < |ms| ==> Key(ms[i]) != Key(ms[j])
  }

  /** A mention with a new key keeps the keys distinct. */
  lemma DistinctKeysAppend(f: seq<ParsedMention>, last: ParsedMention)
    requires DistinctKeys(f) && Key(last) !in KeysOf(f)
    ensures DistinctKeys(f + [last])
  {
    var r := f + [last];
    forall i, j | 0 <= i < j < |r|
      ensures Key(r[i]) != Key(r[j])
    {
      if j == |r| - 1 {
        assert r[i] == f[i];
      } else {
        assert r[i] == f[i] && r[j] == f[j];
      }
    }
  }

  // ---------------------------------------------------------------------------
  // detectPartialMention
  // ---------------------------------------------------------------------------

  /** The end of `text.slice(0, cursor)`: a negative end counts back from
      the length, and an end past the length is clamped. */
  function SliceEnd(len: nat, cursor: int): (e: nat)
    ensures e <= len
    ensures 0 <= cursor <= len ==> e == cursor
  {
    if cursor < 0 then (if len + cursor < 0 then 0 else len + cursor)
    else if cursor > len then len
    else cursor
  }

  /** The mention being typed: the kind, the digits typed so far and where
      the keyword starts. */
  datatype Partial = Partial(entityType: EntityType, query: string, startIndex: nat)

  /** The length of the run of digits that ends the text. */
  function TrailingDigits(s: string): (n: nat)
    ensures n <= |s|
    ensures forall k :: |s| - n <= k < |s| ==> IsDigit(s[k])
    ensures AllDigits(s[|s| - n..])
    ensures n < |s| ==> !IsDigit(s[|s| - n - 1])
    decreases |s|
  {
    if |s| > 0 && IsDigit(s[|s| - 1]) then
      var init := s[..|s| - 1];
      var m := TrailingDigits(init);
      assert forall k :: |init| - m <= k < |init| ==> s[k] == init[k];
      1 + m
    else 0
  }

  /** The keyword, in any letter case, that ends right before position `h`. */
  function KeywordBefore(s: string, h: nat): (r: Option<EntityType>)
    requires h <= |s|
    ensures r.Some? ==> Mentionable(r.value) && EndsWithKeyword(s, h, r.value)
  {
    if EndsWithKeyword(s, h, Task) then Some(Task)
    else if EndsWithKeyword(s, h, Project) then Some(Project)
    else if EndsWithKeyword(s, h, Goal) then Some(Goal)
    else if EndsWithKeyword(s, h, Journal) then Some(Journal)
    else None
  }

  /** The kind's keyword, in any letter case, ends right before `h`. */
  predicate EndsWithKeyword(s: string, h: nat, t: EntityType) {
    MatchesAt(s, h - |TypeName(t)|, TypeName(t))
  }

  /** The text before the cursor ends in `keyword#digits` for kind `t`, with
      `q` the digits. */
  predicate EndsInPartial(before: string, t: EntityType, q: string) {
    var n := |TypeName(t)|;
    && Mentionable(t)
    && AllDigits(q)
    && n + 1 + |q| <= |before|
    && MatchesAt(before, |before| - |q| - 1 - n, TypeName(t))
    && before[|before| - |q| - 1] == '#'
    && before[|before| - |q|..] == q
  }

  /** `/(task|project|goal|journal)#(\d*)$/i` against the text before the
      cursor: the kind, the digits typed so far and where the keyword starts. */
  function DetectPartialMention(text: string, cursor: int): (r: Option<Partial>)
    ensures r.Some? ==>
      var before := text[..SliceEnd(|text|, cursor)];
      && EndsInPartial(before, r.value.entityType, r.value.query)
      && r.value.startIndex == |before| - |r.value.query| - 1 - |TypeName(r.value.entityType)|
  {
    PartialAtEnd(text[..SliceEnd(|text|, cursor)])
  }

  /** The same pattern against a whole text, anchored at its end. */
  function PartialAtEnd(before: string): (r: Option<Partial>)
    ensures r.Some? ==>
      && EndsInPartial(before, r.value.entityType, r.value.query)
      && r.value.startIndex == |before| - |r.value.query| - 1 - |TypeName(r.value.entityType)|
  {
    var d := TrailingDigits(before);
    if d < |before| && before[|before| - d - 1] == '#' then
      var h := |before| - d - 1;
      match KeywordBefore(before, h)
      case None => None
      case Some(t) =>
        var q := before[h + 1..];
        assert |q| == d;
        Some(Partial(t, q, h - |TypeName(t)|))
    else None
  }

  /** The last three letters of a keyword that ends at `h`. */
  lemma EndLetters(s: string, h: nat, w: string)
    requires |w| >= 3 && |w| <= h <= |s| && MatchesAt(s, h - |w|, w)
    ensures LowerChar(s[h - 1]) == w[|w| - 1]
    ensures LowerChar(s[h - 2]) == w[|w| - 2]
    ensures LowerChar(s[h - 3]) == w[|w| - 3]
  {
    var i := h - |w|;
    MatchesAtChars(s, i, w);
    assert LowerChar(s[i + (|w| - 1)]) == w[|w| - 1];
    assert LowerChar(s[i + (|w| - 2)]) == w[|w| - 2];
    assert LowerChar(s[i + (|w| - 3)]) == w[|w| - 3];
  }

  /** Two words that differ in one of their last three letters cannot both
      end, in any letter case, right before `h`. */
  lemma EndingsDiffer(s: string, h: nat, w: string, v: string)
    requires |w| >= 3 && |v| >= 3 && |w| <= h <= |s| && MatchesAt(s, h - |w|, w)
    requires w[|w| - 1] != v[|v| - 1] || w[|w| - 2] != v[|v| - 2] || w[|w| - 3] != v[|v| - 3]
    ensures !MatchesAt(s, h - |v|, v)
  {
    EndLetters(s, h, w);
    if |v| <= h && MatchesAt(s, h - |v|, v) {
      EndLetters(s, h, v);
    }
  }

  /** No keyword is a case-insensitive suffix of another, so the keyword
      before `#` is determined by the text. */
  lemma KeywordBeforeComplete(s: string, h: nat, t: EntityType)
    requires h <= |s| && Mentionable(t) && |TypeName(t)| <= h
    requires MatchesAt(s, h - |TypeName(t)|, TypeName(t))
    ensures KeywordBefore(s, h) == Some(t)
  {
    match t
    case Task =>
    case Project =>
      EndingsDiffer(s, h, "project", "task");
    case Goal =>
      EndingsDiffer(s, h, "goal", "task");
      EndingsDiffer(s, h, "goal", "project");
    case Journal =>
      EndingsDiffer(s, h, "journal", "task");
      EndingsDiffer(s, h, "journal", "project");
      EndingsDiffer(s, h, "journal", "goal");
  }

  /** The autocomplete fires exactly when the text before the cursor ends in
      a keyword, `#` and zero or more digits, and then reports that keyword
      and those digits. */
  lemma DetectPartialIff(text: string, cursor: int, t: EntityType, q: string)
    ensures EndsInPartial(text[..SliceEnd(|text|, cursor)], t, q) ==>
      DetectPartialMention(text, cursor) ==
        Some(Partial(t, q, SliceEnd(|text|, cursor) - |q| - 1 - |TypeName(t)|))
  {
    var before := text[..SliceEnd(|text|, cursor)];
    if EndsInPartial(before, t, q) {
      PartialAtEndIff(before, t, q);
    }
  }

  lemma PartialAtEndIff(before: string, t: EntityType, q: string)
    requires EndsInPartial(before, t, q)
    ensures PartialAtEnd(before) == Some(Partial(t, q, |before| - |q| - 1 - |TypeName(t)|))
  {
    PartialDigits(before, t, q);
    var d := TrailingDigits(before);
    var h := |before| - d - 1;
    assert h == |before| - |q| - 1 && before[h] == '#';
    KeywordBeforeComplete(before, h, t);
    assert before[h + 1..] == q;
    assert d < |before| && before[|before| - d - 1] == '#';
  }

  /** The digits of a partial mention are the whole trailing digit run,
      since `#` is not a digit. */
  lemma PartialDigits(before: string, t: EntityType, q: string)
    requires EndsInPartial(before, t, q)
    ensures TrailingDigits(before) == |q|
  {
    var d := TrailingDigits(before);
    var n := |before|;
    forall j | n - |q| <= j < n ensures IsDigit(before[j]) {
      assert before[j] == before[n - |q|..][j - (n - |q|)];
    }
    assert !IsDigit(before[n - |q| - 1]);
  }
}

=== FILE: mention_resolver.dfy ===
/** Links, resolution records and colours for mentions
    (apps/journey/src/lib/mentions/resolver.ts). */
module MentionResolver {
  import opened Base
  import opened Text
  import opened MentionTypes

  /** The path prefix of the page of each linkable kind. */
  function UrlPrefix(t: EntityType): Option<string> {
    match t
    case Task => Some("/tasks/")
    case Project => Some("/projects/")
    case Goal => Some("/goals/")
    case Journal => Some("/journal/")
    case Memory => None
  }

  /** `getEntityUrl(entityType, entityId)`: the entity's page, or the root
      for a kind without pages. */
  function GetEntityUrl(t: EntityType, entityId: string): (url: string)
    ensures Mentionable(t) ==> url == UrlPrefix(t).value + entityId
    ensures !Mentionable(t) ==> url == "/"
  {
    match UrlPrefix(t)
    case Some(prefix) => prefix + entityId
    case None => "/"
  }

  /** The page path read back: which kind's page it is and the id after the
      prefix. */
  function ParseEntityUrl(url: string): Option<(EntityType, string)> {
    if IsPrefix("/tasks/", url) then Some((Task, url[7..]))
    else if IsPrefix("/projects/", url) then Some((Project, url[10..]))
    else if IsPrefix("/goals/", url) then Some((Goal, url[7..]))
    else if IsPrefix("/journal/", url) then Some((Journal, url[9..]))
    else None
  }

  /** Every link of a mentionable kind reads back as its kind and id, so two
      different entities never share a link. */
  lemma ParseGetEntityUrl(t: EntityType, entityId: string)
    requires Mentionable(t)
    ensures ParseEntityUrl(GetEntityUrl(t, entityId)) == Some((t, entityId))
  {
    var url := GetEntityUrl(t, entityId);
    var p := UrlPrefix(t).value;
    assert url[..|p|] == p;
    assert url[|p|..] == entityId;
    assert url[1] == p[1];
  }

  lemma GetEntityUrlInjective(t1: EntityType, id1: string, t2: EntityType, id2: string)
    requires Mentionable(t1) && Mentionable(t2)
    requires GetEntityUrl(t1, id1) == GetEntityUrl(t2, id2)
    ensures t1 == t2 && id1 == id2
  {
    ParseGetEntityUrl(t1, id1);
    ParseGetEntityUrl(t2, id2);
  }

  /** What the server found for a mention. */
  datatype EntityData = EntityData(entityId: string, title: string, status: Option<string>)

  /** `createResolvedMention(mention, entityData)`. */
  function CreateResolvedMention(m: ParsedMention, data: Option<EntityData>): (r: ResolvedMention)
    ensures r.mention == m
    ensures r.found <==> data.Some?
    ensures r.found ==>
      (r.entityId == Some(data.value.entityId)
       && r.title == Some(data.value.title) && r.status == data.value.status)
    ensures r.found ==> r.url == Some(GetEntityUrl(m.entityType, data.value.entityId))
    ensures !r.found ==> r.entityId.None? && r.title.None? && r.status.None? && r.url.None?
  {
    match data
    case Some(d) =>
      var url := GetEntityUrl(m.entityType, d.entityId);
      ResolvedMention(m, Some(d.entityId), Some(d.title), d.status, Some(url), true)
    case None => Unresolved(m)
  }

  /** The link of a found mention leads back to the kind of the mention and
      the id that was found. */
  lemma ResolvedUrlReadsBack(m: ParsedMention, d: EntityData)
    requires Mentionable(m.entityType)
    ensures ParseEntityUrl(CreateResolvedMention(m, Some(d)).url.value) == Some((m.entityType, d.entityId))
  {
    ParseGetEntityUrl(m.entityType, d.entityId);
  }

  /** A mention with nothing found for it. */
  function Unresolved(m: ParsedMention): (r: ResolvedMention)
    ensures r.mention == m && !r.found
    ensures r.entityId.None? && r.title.None? && r.status.None? && r.url.None?
  {
    ResolvedMention(m, None, None, None, None, false)
  }

  /** A pair of CSS classes: the badge background and the text colour. */
  datatype Classes = Classes(badge: string, text: string)

  /** The colour family of each kind; kinds without their own colour are
      grey. */
  function ColorName(t: EntityType): string {
    match t
    case Task => "blue"
    case Project => "purple"
    case Goal => "green"
    case Journal => "amber"
    case Memory => "gray"
  }

  /** `getMentionColorClasses(entityType)`: a light badge and dark text of
      the same colour family, different for every kind. */
  function GetMentionColorClasses(t: EntityType): (r: Classes)
    ensures r.badge == "bg-" + ColorName(t) + "-100"
    ensures r.text == "text-" + ColorName(t) + "-700"
  {
    var c := ColorName(t);
    Classes("bg-" + c + "-100", "text-" + c + "-700")
  }

  /** `getNotFoundClasses()`. */
  function GetNotFoundClasses(): (r: Classes)
    ensures r.badge == "bg-red-100"
    ensures r.text == "text-red-700 line-through"
  {
    Classes("bg-red-100", "text-red-700 line-through")
  }

  /** Different kinds get different colours, and no kind looks like a
      mention that was not found. */
  lemma ColorClassesDistinct(t1: EntityType, t2: EntityType)
    ensures t1 != t2 ==> GetMentionColorClasses(t1) != GetMentionColorClasses(t2)
    ensures GetMentionColorClasses(t1) != GetNotFoundClasses()
  {
    var b1 := GetMentionColorClasses(t1).badge;
    var b2 := GetMentionColorClasses(t2).badge;
    assert b1[3] == ColorName(t1)[0] && b1[4] == ColorName(t1)[1];
    assert b2[3] == ColorName(t2)[0] && b2[4] == ColorName(t2)[1];
    assert GetNotFoundClasses().badge[3] == 'r';
  }
}

=== FILE: mention_segments.dfy ===
/** Splitting a text into plain pieces and mention pieces for inline
    rendering (`useMentionsWithPositions` in
    apps/journey/src/hooks/useMentions.ts). */
module MentionSegments {
  import opened Base
  import opened MentionTypes
  import opened MentionParser
  import opened MentionResolver

  datatype Segment = TextSegment(content: string) | MentionSegment(mention: ResolvedMention)

  function RKey(r: ResolvedMention): (EntityType, nat) {
    Key(r.mention)
  }

  /** `new Map(mentions.map(m => [key, m]))`: later entries overwrite
      earlier ones with the same key. */
  function ResolvedMap(rs: seq<ResolvedMention>): (lookup: map<(EntityType, nat), ResolvedMention>)
    ensures forall i :: 0 <= i < |rs| ==> RKey(rs[i]) in lookup
    ensures forall key :: key in lookup ==> RKey(lookup[key]) == key
    ensures forall i :: 0 <= i < |rs| && (forall j :: i < j < |rs| ==> RKey(rs[j]) != RKey(rs[i])) ==>
      lookup[RKey(rs[i])] == rs[i]
    decreases |rs|
  {
    if |rs| == 0 then map[]
    else
      var init := rs[..|rs| - 1];
      var last := rs[|rs| - 1];
      var m := ResolvedMap(init);
      assert forall i :: 0 <= i < |init| ==> init[i] == rs[i];
      m[RKey(last) := last]
  }

  /** Every key of the map is the key of one of the given records. */
  lemma {:induction false} ResolvedMapKeys(rs: seq<ResolvedMention>, key: (EntityType, nat))
    requires key in ResolvedMap(rs)
    ensures exists i :: 0 <= i < |rs| && RKey(rs[i]) == key
    decreases |rs|
  {
    var init := rs[..|rs| - 1];
    if key != RKey(rs[|rs| - 1]) {
      ResolvedMapKeys(init, key);
      var i :| 0 <= i < |init| && RKey(init[i]) == key;
      assert rs[i] == init[i];
    }
  }

  /** The segment for one parsed mention: the resolved record with its key,
      or a not-found record built from the parsed mention. */
  function MentionSegmentFor(m: ParsedMention, lookup: map<(EntityType, nat), ResolvedMention>): ResolvedMention {
    if Key(m) in lookup then lookup[Key(m)] else Unresolved(m)
  }

  /** The loop over `parseMentions(text)` from `lastIndex = last` onward. */
  function SegmentsFrom(text: string, ms: seq<ParsedMention>, last: nat,
                        lookup: map<(EntityType, nat), ResolvedMention>): seq<Segment>
    requires last <= |text|
    requires forall k :: 0 <= k < |ms| ==> Placed(text, ms[k])
    requires Ordered(ms)
    requires |ms| > 0 ==> last <= ms[0].startIndex
    decreases |ms|
  {
    if |ms| == 0 then
      if last < |text| then [TextSegment(text[last..])] else []
    else
      var m := ms[0];
      assert Placed(text, m);
      var before := if m.startIndex > last then [TextSegment(text[last..m.startIndex])] else [];
      before + [MentionSegment(MentionSegmentFor(m, lookup))]
        + SegmentsFrom(text, ms[1..], m.endIndex, lookup)
  }

  /** The segments of `text` given the mentions the server resolved. */
  function BuildSegments(text: string, resolved: seq<ResolvedMention>): seq<Segment> {
    if |resolved| == 0 then [TextSegment(text)]
    else SegmentsFrom(text, ParseMentions(text), 0, ResolvedMap(resolved))
  }

  /** The text of a list of segments when the `k`-th mention segment is
      written as `raws[k]`. */
  function Render(segs: seq<Segment>, raws: seq<string>): string
    decreases |segs|
  {
    if |segs| == 0 then ""
    else match segs[0]
      case TextSegment(c) => c + Render(segs[1..], raws)
      case MentionSegment(_) =>
        (if |raws| > 0 then raws[0] else "") + Render(segs[1..], if |raws| > 0 then raws[1..] else [])
  }

  function Raws(ms: seq<ParsedMention>): (r: seq<string>)
    ensures |r| == |ms| && forall k :: 0 <= k < |ms| ==> r[k] == ms[k].raw
  {
    seq(|ms|, k requires 0 <= k < |ms| => ms[k].raw)
  }

  /** The mention segments, in order. */
  function MentionsOf(segs: seq<Segment>): seq<ResolvedMention>
    decreases |segs|
  {
    if |segs| == 0 then []
    else match segs[0]
      case TextSegment(_) => MentionsOf(segs[1..])
      case MentionSegment(r) => [r] + MentionsOf(segs[1..])
  }

  predicate NoEmptyText(segs: seq<Segment>) {
    forall k :: 0 <= k < |segs| && segs[k].TextSegment? ==> segs[k].content != ""
  }

  lemma MentionsOfAppend(a: seq<Segment>, b: seq<Segment>)
    ensures MentionsOf(a + b) == MentionsOf(a) + MentionsOf(b)
    decreases |a|
  {
    if |a| == 0 {
      assert a + b == b;
    } else {
      assert (a + b)[0] == a[0];
      assert (a + b)[1..] == a[1..] + b;
      MentionsOfAppend(a[1..], b);
    }
  }

  lemma NoEmptyTextAppend(a: seq<Segment>, b: seq<Segment>)
    requires NoEmptyText(a) && NoEmptyText(b)
    ensures NoEmptyText(a + b)
  {
    forall k | 0 <= k < |a + b| && (a + b)[k].TextSegment?
      ensures (a + b)[k].content != ""
    {
      if k >= |a| {
        assert (a + b)[k] == b[k - |a|];
      }
    }
  }

  lemma RenderAppendText(c: string, b: seq<Segment>, raws: seq<string>)
    ensures Render([TextSegment(c)] + b, raws) == c + Render(b, raws)
  {
    assert ([TextSegment(c)] + b)[1..] == b;
  }

  lemma RenderAppendMention(r: ResolvedMention, b: seq<Segment>, raw: string, raws: seq<string>)
    ensures Render([MentionSegment(r)] + b, [raw] + raws) == raw + Render(b, raws)
  {
    assert ([MentionSegment(r)] + b)[1..] == b;
    assert ([raw] + raws)[1..] == raws;
  }

  /** Writing each mention segment as the raw text of its parsed mention
      gives back the text from `last` on. */
  lemma {:induction false} SegmentsFromRender(text: string, ms: seq<ParsedMention>, last: nat,
                                              lookup: map<(EntityType, nat), ResolvedMention>)
    requires last <= |text|
    requires forall k :: 0 <= k < |ms| ==> Placed(text, ms[k])
    requires Ordered(ms)
    requires |ms| > 0 ==> last <= ms[0].startIndex
    ensures Render(SegmentsFrom(text, ms, last, lookup), Raws(ms)) == text[last..]
    decreases |ms|
  {
    var segs := SegmentsFrom(text, ms, last, lookup);
    if |ms| == 0 {
      if last < |text| {
        assert segs == [TextSegment(text[last..])] + [];
        RenderAppendText(text[last..], [], []);
      }
    } else {
      var m := ms[0];
      assert Placed(text, m);
      var mid := MentionSegmentFor(m, lookup);
      var rest := SegmentsFrom(text, ms[1..], m.endIndex, lookup);
      SegmentsFromRender(text, ms[1..], m.endIndex, lookup);
      assert Raws(ms) == [m.raw] + Raws(ms[1..]);
      RenderStep(text, m, last, mid, rest, Raws(ms[1..]));
    }
  }

  /** One mention and the plain text before it render back to the text from
      `last` to the mention's end. */
  lemma RenderStep(text: string, m: ParsedMention, last: nat, mid: ResolvedMention,
                   rest: seq<Segment>, raws: seq<string>)
    requires Placed(text, m) && last <= m.startIndex
    requires Render(rest, raws) == text[m.endIndex..]
    ensures var before := if m.startIndex > last then [TextSegment(text[last..m.startIndex])] else [];
      Render(before + [MentionSegment(mid)] + rest, [m.raw] + raws) == text[last..]
  {
    var seg := MentionSegment(mid);
    RenderAppendMention(mid, rest, m.raw, raws);
    assert text[last..] == text[last..m.startIndex] + m.raw + text[m.endIndex..];
    if m.startIndex > last {
      assert [TextSegment(text[last..m.startIndex])] + [seg] + rest == [TextSegment(text[last..m.startIndex])] + ([seg] + rest);
      RenderAppendText(text[last..m.startIndex], [seg] + rest, [m.raw] + raws);
    } else {
      assert [] + [seg] + rest == [seg] + rest;
    }
  }

  /** A leading text segment adds no mention. */
  lemma MentionsAfterText(before: seq<Segment>, mid: Segment, rest: seq<Segment>)
    requires mid.MentionSegment?
    requires |before| <= 1 && (|before| == 1 ==> before[0].TextSegment?)
    ensures MentionsOf(before + ([mid] + rest)) == [mid.mention] + MentionsOf(rest)
  {
    MentionsOfAppend(before, [mid] + rest);
    MentionsOfAppend([mid], rest);
    assert MentionsOf([mid]) == [mid.mention];
    if |before| == 1 {
      assert MentionsOf(before) == MentionsOf(before[1..]);
    }
  }

  /** The mention segments are the parsed mentions in order, each replaced by
      the resolved record of its key or a not-found record. */
  lemma {:induction false} SegmentsFromMentions(text: string, ms: seq<ParsedMention>, last: nat,
                                                lookup: map<(EntityType, nat), ResolvedMention>)
    requires last <= |text|
    requires forall k :: 0 <= k < |ms| ==> Placed(text, ms[k])
    requires Ordered(ms)
    requires |ms| > 0 ==> last <= ms[0].startIndex
    ensures |MentionsOf(SegmentsFrom(text, ms, last, lookup))| == |ms|
    ensures forall k :: 0 <= k < |ms| ==>
      MentionsOf(SegmentsFrom(text, ms, last, lookup))[k] == MentionSegmentFor(ms[k], lookup)
    decreases |ms|
  {
    var segs := SegmentsFrom(text, ms, last, lookup);
    if |ms| == 0 {
      if last < |text| {
        assert segs == [TextSegment(text[last..])];
        assert MentionsOf(segs) == MentionsOf(segs[1..]);
      }
    } else {
      var m := ms[0];
      assert Placed(text, m);
      var before := if m.startIndex > last then [TextSegment(text[last..m.startIndex])] else [];
      var mid := MentionSegment(MentionSegmentFor(m, lookup));
      var rest := SegmentsFrom(text, ms[1..], m.endIndex, lookup);
      assert segs == before + ([mid] + rest);
      SegmentsFromMentions(text, ms[1..], m.endIndex, lookup);
      MentionsAfterText(before, mid, rest);
      var r := MentionsOf(segs);
      forall k | 0 <= k < |ms|
        ensures r[k] == MentionSegmentFor(ms[k], lookup)
      {
        if k > 0 {
          assert r[k] == MentionsOf(rest)[k - 1];
          assert ms[1..][k - 1] == ms[k];
        }
      }
    }
  }

  /** Plain segments are never empty when there are mentions to place. */
  lemma {:induction false} SegmentsFromNoEmptyText(text: string, ms: seq<ParsedMention>, last: nat,
                                                   lookup: map<(EntityType, nat), ResolvedMention>)
    requires last <= |text|
    requires forall k :: 0 <= k < |ms| ==> Placed(text, ms[k])
    requires Ordered(ms)
    requires |ms| > 0 ==> last <= ms[0].startIndex
    ensures NoEmptyText(SegmentsFrom(text, ms, last, lookup))
    decreases |ms|
  {
    if |ms| > 0 {
      var m := ms[0];
      assert Placed(text, m);
      var before := if m.startIndex > last then [TextSegment(text[last..m.startIndex])] else [];
      var mid := MentionSegment(MentionSegmentFor(m, lookup));
      var rest := SegmentsFrom(text, ms[1..], m.endIndex, lookup);
      assert SegmentsFrom(text, ms, last, lookup) == before + ([mid] + rest);
      SegmentsFromNoEmptyText(text, ms[1..], m.endIndex, lookup);
      NoEmptyTextAppend([mid], rest);
      NoEmptyTextAppend(before, [mid] + rest);
    }
  }

  /** Writing each mention segment as the raw text of its parsed mention
      always gives back the text. */
  lemma BuildSegmentsRender(text: string, resolved: seq<ResolvedMention>)
    ensures Render(BuildSegments(text, resolved), Raws(ParseMentions(text))) == text
  {
    var ms := ParseMentions(text);
    if |resolved| > 0 {
      assert forall k :: 0 <= k < |ms| ==> Placed(text, ms[k]);
      SegmentsFromRender(text, ms, 0, ResolvedMap(resolved));
      assert text[0..] == text;
    } else {
      RenderAppendText(text, [], Raws(ms));
      assert [TextSegment(text)] + [] == [TextSegment(text)];
    }
  }

  /** With resolved mentions there is one mention segment per parsed
      mention, in parse order, with the parsed mention's key; it is the
      resolved record of that key or a not-found fallback, and no plain
      segment is empty. */
  lemma BuildSegmentsMentions(text: string, resolved: seq<ResolvedMention>)
    requires |resolved| > 0
    ensures
      var ms := ParseMentions(text);
      var rs := MentionsOf(BuildSegments(text, resolved));
      && |rs| == |ms|
      && (forall k :: 0 <= k < |ms| ==> RKey(rs[k]) == Key(ms[k]))
      && (forall k :: 0 <= k < |ms| ==>
            if Key(ms[k]) in ResolvedMap(resolved) then rs[k] == ResolvedMap(resolved)[Key(ms[k])]
            else rs[k] == Unresolved(ms[k]))
      && NoEmptyText(BuildSegments(text, resolved))
  {
    var ms := ParseMentions(text);
    var lookup := ResolvedMap(resolved);
    assert forall k :: 0 <= k < |ms| ==> Placed(text, ms[k]);
    var segs := SegmentsFrom(text, ms, 0, lookup);
    assert BuildSegments(text, resolved) == segs;
    SegmentsFromMentions(text, ms, 0, lookup);
    SegmentsFromNoEmptyText(text, ms, 0, lookup);
    var rs := MentionsOf(segs);
    forall k | 0 <= k < |ms|
      ensures RKey(rs[k]) == Key(ms[k])
    {
      assert rs[k] == MentionSegmentFor(ms[k], lookup);
    }
  }
}

=== FILE: mention_types.dfy ===
/** The records the mention language passes around: entity kinds, parsed and
    resolved mentions, and autocomplete search results. */
module MentionTypes {
  import opened Base
  import opened Text

  /** The kinds of entity a short code can name. Only the first four can be
      written as `type#N` in text; memories appear in the universal
      autocomplete. */
  datatype EntityType = Task | Project | Goal | Journal | Memory

  /** The spelling of an entity kind in text, URLs and keys. */
  function TypeName(t: EntityType): string {
    match t
    case Task => "task"
    case Project => "project"
    case Goal => "goal"
    case Journal => "journal"
    case Memory => "memory"
  }

  /** Every kind is spelled with lower-case ASCII letters. */
  lemma TypeNameLetters(t: EntityType)
    ensures |TypeName(t)| >= 4
    ensures forall k :: 0 <= k < |TypeName(t)| ==> IsLower(TypeName(t)[k])
  {
  }

  /** The kinds the mention regular expression accepts. */
  predicate Mentionable(t: EntityType) {
    t != Memory
  }

  /** One `type#N` occurrence: `raw` is the matched text, which sits at
      `[startIndex, endIndex)` of the text it was parsed from. */
  datatype ParsedMention = ParsedMention(
    entityType: EntityType,
    shortCode: nat,
    raw: string,
    startIndex: nat,
    endIndex: nat)

  /** The de-duplication key `${entityType}#${shortCode}`. */
  function Key(m: ParsedMention): (EntityType, nat) {
    (m.entityType, m.shortCode)
  }

  /** A parsed mention together with what the lookup found for it. */
  datatype ResolvedMention = ResolvedMention(
    mention: ParsedMention,
    entityId: Option<string>,
    title: Option<string>,
    status: Option<string>,
    url: Option<string>,
    found: bool)

  /** One autocomplete candidate. */
  datatype SearchResult = SearchResult(
    entityType: EntityType,
    entityId: string,
    shortCode: nat,
    title: string,
    status: Option<string>)
}

=== FILE: telegram_auth.dfy ===
/** Linking a Telegram account to a user
    (apps/journey/src/app/api/auth/telegram/route.ts): the Login Widget's
    data check (the "checking authorization" scheme of the Telegram Login
    Widget: every received field except `hash`, sorted by key, written as
    `key=value` lines and signed with HMAC-SHA-256 under SHA-256 of the bot
    token), the five-minute freshness window, and the profile table the
    three handlers read and write. The signature is a function parameter
    (`sign(botToken, checkString)` is the lower-case hex HMAC); the clock,
    the signed-in user and the request body are inputs. */
module TelegramAuth {
  import opened Base
  import opened Text
  import opened JsNumber
  import opened Json

  type Fields = seq<(string, Json)>

  // ---------------------------------------------------------------------------
  // The data-check string
  // ---------------------------------------------------------------------------

  /** `const { hash, ...rest } = data`. */
  function WithoutHash(f: Fields): (r: Fields)
    ensures forall e :: e in r <==> e in f && e.0 != "hash"
    ensures DistinctKeys(f) ==> DistinctKeys(r)
    decreases |f|
  {
    if |f| == 0 then []
    else
      var t := WithoutHash(f[1..]);
      assert forall e :: e in f <==> e == f[0] || e in f[1..] by {
        assert f == [f[0]] + f[1..];
      }
      if f[0].0 == "hash" then t
      else
        assert DistinctKeys(f) ==> forall i :: 0 <= i < |t| ==> t[i].0 != f[0].0 by {
          if DistinctKeys(f) {
            forall i | 0 <= i < |t| ensures t[i].0 != f[0].0 {
              assert t[i] in f[1..];
              var j :| 0 <= j < |f[1..]| && f[1..][j] == t[i];
              assert f[j + 1] == t[i];
            }
          }
        }
        [f[0]] + t
  }

  /** Strictly increasing keys: the order `Object.keys(rest).sort()` gives. */
  predicate SortedKeys(s: Fields) {
    forall i, j :: 0 <= i < j < |s| ==> LexLess(s[i].0, s[j].0)
  }

  function InsertByKey(x: (string, Json), s: Fields): (r: Fields)
    requires SortedKeys(s)
    requires forall i :: 0 <= i < |s| ==> s[i].0 != x.0
    ensures SortedKeys(r)
    ensures forall e :: e in r <==> e in s || e == x
    ensures |r| == |s| + 1
    decreases |s|
  {
    if |s| == 0 then [x]
    else if LexLess(x.0, s[0].0) then
      var r := [x] + s;
      assert SortedKeys(r) by {
        forall i, j | 0 <= i < j < |r| ensures LexLess(r[i].0, r[j].0) {
          if i == 0 && j > 1 {
            LexLessTransitive(x.0, s[0].0, r[j].0);
          }
        }
      }
      r
    else
      LexLessConnected(x.0, s[0].0);
      var rest := InsertByKey(x, s[1..]);
      var r := [s[0]] + rest;
      assert SortedKeys(r) by {
        forall i, j | 0 <= i < j < |r| ensures LexLess(r[i].0, r[j].0) {
          if i == 0 {
            assert r[j] in rest;
            if r[j] != x {
              var k :| 0 <= k < |s[1..]| && s[1..][k] == r[j];
              assert s[k + 1] == r[j];
            }
          }
        }
      }
      assert forall e :: e in s <==> e == s[0] || e in s[1..] by {
        assert s == [s[0]] + s[1..];
      }
      r
  }

  /** The fields in key order. */
  function SortByKey(f: Fields): (r: Fields)
    requires DistinctKeys(f)
    ensures SortedKeys(r)
    ensures forall e :: e in r <==> e in f
    ensures |r| == |f|
    decreases |f|
  {
    if |f| == 0 then []
    else
      var t := SortByKey(f[1..]);
      assert forall e :: e in f <==> e == f[0] || e in f[1..] by {
        assert f == [f[0]] + f[1..];
      }
      forall i | 0 <= i < |t| ensures t[i].0 != f[0].0 {
        assert t[i] in f[1..];
        var j :| 0 <= j < |f[1..]| && f[1..][j] == t[i];
        assert f[j + 1] == t[i];
      }
      InsertByKey(f[0], t)
  }

  /** Two key-sorted lists with the same members are the same list. */
  lemma {:induction false} SortedUnique(a: Fields, b: Fields)
    requires SortedKeys(a) && SortedKeys(b)
    requires forall e :: e in a <==> e in b
    ensures a == b
    decreases |a|
  {
    SameMembersSameEmptiness(a, b);
    if |a| > 0 {
      assert a[0] in b && b[0] in a;
      HeadBelow(a, b[0]);
      HeadBelow(b, a[0]);
      LexLessAsymmetric(a[0].0, b[0].0);
      forall e ensures e in a[1..] <==> e in b[1..] {
        MemberOfTail(a, e);
        MemberOfTail(b, e);
      }
      SortedUnique(a[1..], b[1..]);
    }
  }

  lemma SameMembersSameEmptiness(a: Fields, b: Fields)
    requires forall e :: e in a <==> e in b
    ensures |a| == 0 <==> |b| == 0
  {
    if |a| > 0 {
      assert a[0] in b;
    }
    if |b| > 0 {
      assert b[0] in a;
    }
  }

  /** The first entry of a key-sorted list has the least key. */
  lemma HeadBelow(s: Fields, e: (string, Json))
    requires SortedKeys(s) && |s| > 0
    ensures e in s && e != s[0] ==> LexLess(s[0].0, e.0)
  {
    if e in s && e != s[0] {
      var k :| 0 <= k < |s| && s[k] == e;
      assert k != 0;
    }
  }

  lemma LexLessAsymmetric(x: string, y: string)
    ensures !(LexLess(x, y) && LexLess(y, x))
  {
    LexLessIrreflexive(x);
    if LexLess(x, y) && LexLess(y, x) {
      LexLessTransitive(x, y, x);
    }
  }

  lemma MemberOfTail(s: Fields, e: (string, Json))
    requires SortedKeys(s) && |s| > 0
    ensures e in s[1..] <==> e in s && e != s[0]
  {
    assert s == [s[0]] + s[1..];
    if e in s[1..] {
      var k :| 0 <= k < |s[1..]| && s[1..][k] == e;
      assert LexLess(s[0].0, s[k + 1].0);
      LexLessIrreflexive(s[0].0);
    }
  }

  /** One line of the check string: `${k}=${rest[k]}`. */
  function Line(e: (string, Json)): string {
    e.0 + "=" + JsString(e.1)
  }

  function Lines(s: Fields): (ls: seq<string>)
    ensures |ls| == |s|
    ensures forall i :: 0 <= i < |s| ==> ls[i] == Line(s[i])
  {
    seq(|s|, i requires 0 <= i < |s| => Line(s[i]))
  }

  /** The data-check string of a parsed request body. */
  function CheckString(data: Fields): string
    requires DistinctKeys(data)
  {
    Join(Lines(SortByKey(WithoutHash(data))), "\n")
  }

  /** Every received field but `hash` is signed: its line is in the check
      string. */
  lemma CheckStringHasField(data: Fields, e: (string, Json))
    requires DistinctKeys(data)
    requires e in data && e.0 != "hash"
    ensures Contains(CheckString(data), Line(e))
  {
    var sorted := SortByKey(WithoutHash(data));
    assert e in sorted;
    var k :| 0 <= k < |sorted| && sorted[k] == e;
    JoinContains(Lines(sorted), "\n", k);
  }

  /** The check string depends on the fields received and not on their
      order. */
  lemma CheckStringOrderFree(a: Fields, b: Fields)
    requires DistinctKeys(a) && DistinctKeys(b)
    requires forall e :: e in a <==> e in b
    ensures CheckString(a) == CheckString(b)
  {
    SortedUnique(SortByKey(WithoutHash(a)), SortByKey(WithoutHash(b)));
  }

  /** The hash is not part of what it signs: any `hash` value gives the same
      check string. */
  lemma CheckStringIgnoresHash(data: Fields, h: Json)
    requires DistinctKeys(data) && DistinctKeys(data + [("hash", h)])
    ensures CheckString(data + [("hash", h)]) == CheckString(data)
  {
    var d := data + [("hash", h)];
    assert forall e :: e in WithoutHash(d) <==> e in WithoutHash(data);
    SortedUnique(SortByKey(WithoutHash(d)), SortByKey(WithoutHash(data)));
  }

  // ---------------------------------------------------------------------------
  // Freshness and the signature
  // ---------------------------------------------------------------------------

  /** `now - data.auth_date > 300`, with `auth_date` converted as the
      subtraction converts it: a NaN age is never too old, and a date of
      minus infinity always is. */
  predicate TooOld(now: int, authDate: Option<Json>) {
    match ToNumber(authDate)
    case Some(Finite(x)) => (now as real) - x > 300.0
    case Some(NegInfinity) => true
    case _ => false
  }

  /** Some signed field's value cannot be printed, so writing its
      `${k}=${v}` line throws. */
  predicate LineThrows(data: Fields) {
    exists e :: e in data && e.0 != "hash" && ToPrimitiveThrows(e.1)
  }

  /** `verifyTelegramAuth(data, botToken)`: `Some(ok)` for the boolean it
      returns, `None` when it throws a `TypeError`. The date is converted
      first, so an unconvertible date throws whatever else arrived; a date
      too old answers `false` before any line is written; only then can a
      field's line throw. */
  function Verify(data: Fields, botToken: string, now: int, sign: (string, string) -> string): (r: Option<bool>)
    requires DistinctKeys(data)
    ensures r.None? <==>
      ToNumber(Get(data, "auth_date")).None? || (!TooOld(now, Get(data, "auth_date")) && LineThrows(data))
    ensures ToNumber(Get(data, "auth_date")).Some? && TooOld(now, Get(data, "auth_date")) ==> r == Some(false)
    ensures r == Some(true) ==> Get(data, "hash") == Some(JStr(sign(botToken, CheckString(data))))
    ensures r == Some(true) ==> ToNumber(Get(data, "auth_date")).Some?
    ensures r == Some(true) && ToNumber(Get(data, "auth_date")).value.Finite? ==>
      (now as real) - ToNumber(Get(data, "auth_date")).value.x <= 300.0
    ensures r == Some(true) ==> !ToNumber(Get(data, "auth_date")).value.NegInfinity?
    ensures (&& ToNumber(Get(data, "auth_date")).Some? && !TooOld(now, Get(data, "auth_date")) && !LineThrows(data)
             && Get(data, "hash") == Some(JStr(sign(botToken, CheckString(data))))) ==> r == Some(true)
  {
    if ToNumber(Get(data, "auth_date")).None? then None
    else if TooOld(now, Get(data, "auth_date")) then Some(false)
    else if LineThrows(data) then None
    else Some(Get(data, "hash") == Some(JStr(sign(botToken, CheckString(data)))))
  }

  /** Data the widget signed a minute ago, sent with its own signature,
      verifies, whatever order its fields arrive in. */
  lemma SignedDataVerifies(data: Fields, arrived: Fields, botToken: string, now: int, authDate: int,
                           sign: (string, string) -> string)
    requires DistinctKeys(data) && Get(data, "hash").None? && Get(data, "auth_date") == Some(JNum(authDate))
    requires now - authDate <= 300
    requires DistinctKeys(arrived)
    requires forall e :: e in arrived <==> e in data || e == ("hash", JStr(sign(botToken, CheckString(data))))
    requires forall e :: e in data ==> !ToPrimitiveThrows(e.1)
    ensures Verify(arrived, botToken, now, sign) == Some(true)
  {
    var h := JStr(sign(botToken, CheckString(data)));
    var d := data + [("hash", h)];
    HashAppended(data, h);
    CheckStringIgnoresHash(data, h);
    assert forall e :: e in d <==> e in data || e == ("hash", h);
    CheckStringOrderFree(arrived, d);
    ArrivedMembers(data, arrived, h, authDate);
  }

  /** A date sent as the text of its number is judged as the number. */
  lemma TextDateAsNumber(now: int, d: int)
    ensures TooOld(now, Some(JStr(IntToString(d)))) == TooOld(now, Some(JNum(d)))
  {
    IntegerSpelling(d);
  }

  /** A negative date written as text, `"-5"`, is far in the past: the data
      is refused whatever its signature. */
  lemma NegativeTextDateRefused(data: Fields, botToken: string, now: int, sign: (string, string) -> string)
    requires DistinctKeys(data) && Get(data, "auth_date") == Some(JStr("-5")) && now > 295
    ensures Verify(data, botToken, now, sign) == Some(false)
  {
    assert IntToString(-5) == "-5";
    IntegerSpelling(-5);
  }

  /** The fields that arrive hold the signed `hash` and the `auth_date`. */
  lemma ArrivedMembers(data: Fields, arrived: Fields, h: Json, authDate: int)
    requires Get(data, "auth_date") == Some(JNum(authDate))
    requires DistinctKeys(arrived)
    requires forall e :: e in arrived <==> e in data || e == ("hash", h)
    ensures Get(arrived, "hash") == Some(h)
    ensures Get(arrived, "auth_date") == Some(JNum(authDate))
  {
    GetMember(arrived, "hash", h);
    assert ("auth_date", JNum(authDate)) in data;
    GetMember(arrived, "auth_date", JNum(authDate));
  }

  /** Appending a `hash` to fields that have none keeps the keys distinct. */
  lemma HashAppended(data: Fields, h: Json)
    requires DistinctKeys(data) && Get(data, "hash").None?
    ensures DistinctKeys(data + [("hash", h)])
  {
    var d := data + [("hash", h)];
    assert forall i :: 0 <= i < |data| ==> data[i].0 != "hash";
    forall i, j | 0 <= i < j < |d| ensures d[i].0 != d[j].0 {
      assert d[i] == data[i];
    }
  }

  /** In an object with distinct keys, a member is what `Get` finds. */
  lemma GetMember(f: Fields, key: string, v: Json)
    requires DistinctKeys(f) && (key, v) in f
    ensures Get(f, key) == Some(v)
  {
    var i :| 0 <= i < |f| && f[i] == (key, v);
    GetAt(f, i);
  }

  // ---------------------------------------------------------------------------
  // The profile table and the handlers
  // ---------------------------------------------------------------------------

  datatype Profile = Profile(userId: string, telegramId: Option<Json>, telegramUsername: Option<Json>,
                             updatedAt: string)

  /** `userId` is the table's key. */
  predicate UniqueUsers(ps: seq<Profile>) {
    forall i, j :: 0 <= i < j < |ps| ==> ps[i].userId != ps[j].userId
  }

  /** No Telegram account is linked to two users. */
  predicate UniqueLinks(ps: seq<Profile>) {
    forall i, j :: 0 <= i < j < |ps| && ps[i].telegramId.Some? ==> ps[i].telegramId != ps[j].telegramId
  }

  /** `where(eq(userProfiles.telegramId, data.id))`. */
  function LinkedTo(ps: seq<Profile>, id: Option<Json>): (r: seq<Profile>)
    ensures forall p :: p in r <==> p in ps && id.Some? && p.telegramId == id
  {
    Filter(ps, (p: Profile) => id.Some? && p.telegramId == id)
  }

  /** The insert with `onConflictDoUpdate` on `userId`: the user's row is
      rewritten in place, or appended when there is none. */
  function Upsert(ps: seq<Profile>, userId: string, telegramId: Option<Json>, username: Option<Json>,
                  now: string): (r: seq<Profile>)
    ensures userId in UserIds(ps) ==>
      && |r| == |ps| && UserIds(r) == UserIds(ps)
      && forall k :: 0 <= k < |ps| ==>
           r[k] == (if ps[k].userId == userId then Profile(userId, telegramId, username, now) else ps[k])
    ensures userId !in UserIds(ps) ==> r == ps + [Profile(userId, telegramId, username, now)]
  {
    var row := Profile(userId, telegramId, username, now);
    if userId in UserIds(ps) then
      var r := seq(|ps|, k requires 0 <= k < |ps| => if ps[k].userId == userId then row else ps[k]);
      assert UserIds(r) == UserIds(ps) by {
        forall k | 0 <= k < |ps| ensures UserIds(r)[k] == UserIds(ps)[k] {
        }
      }
      r
    else
      ps + [row]
  }

  function UserIds(ps: seq<Profile>): (ids: seq<string>)
    ensures |ids| == |ps|
    ensures forall k :: 0 <= k < |ps| ==> ids[k] == ps[k].userId
  {
    seq(|ps|, k requires 0 <= k < |ps| => ps[k].userId)
  }

  datatype Response =
    | Unauthorized
    | NotConfigured
    | InvalidAuth
    | AlreadyLinked
    | LinkFailed
    | Linked(id: Option<Json>, username: Option<Json>, firstName: Option<Json>)

  function StatusCode(r: Response): nat {
    match r
    case Unauthorized => 401
    case NotConfigured => 500
    case InvalidAuth => 400
    case AlreadyLinked => 409
    case LinkFailed => 500
    case Linked(_, _, _) => 200
  }

  function ErrorText(r: Response): Option<string> {
    match r
    case Unauthorized => Some("Unauthorized")
    case NotConfigured => Some("Bot token not configured")
    case InvalidAuth => Some("Invalid Telegram auth data")
    case AlreadyLinked => Some("This Telegram account is already linked to another user")
    case LinkFailed => Some("Failed to link Telegram")
    case Linked(_, _, _) => None
  }

  /** `data.username || null`. */
  function UsernameOrNull(v: Option<Json>): Option<Json> {
    if JsTruthyOpt(v) then v else None
  }

  /** A request that reaches the link step: a signed-in user, a configured
      bot token, and an object body that verifies. */
  predicate Verified(user: Option<string>, botToken: Option<string>, body: Option<Json>, now: int,
                     sign: (string, string) -> string) {
    && user.Some? && botToken.Some? && botToken.value != ""
    && body.Some? && body.value.JObj? && DistinctKeys(body.value.fields)
    && Verify(body.value.fields, botToken.value, now, sign) == Some(true)
  }

  /** A request whose verification throws: it reaches the check, which
      throws a `TypeError` that the handler's `catch` answers. */
  predicate VerifyThrows(user: Option<string>, botToken: Option<string>, body: Option<Json>, now: int,
                         sign: (string, string) -> string) {
    && user.Some? && botToken.Some? && botToken.value != ""
    && body.Some? && body.value.JObj? && DistinctKeys(body.value.fields)
    && Verify(body.value.fields, botToken.value, now, sign).None?
  }

  /** The first row holding the account belongs to another user. */
  predicate Conflicts(ps: seq<Profile>, id: Option<Json>, user: string) {
    var existing := LinkedTo(ps, id);
    |existing| > 0 && existing[0].userId != user
  }

  /** `POST`: link the signed-in user to the Telegram account in the body.
      `body` is `None` when the body is not JSON; a body that is not an
      object is answered like one (see README). */
  function Post(ps: seq<Profile>, user: Option<string>, botToken: Option<string>, body: Option<Json>,
                now: int, nowIso: string, sign: (string, string) -> string): (r: (Response, seq<Profile>))
    ensures !r.0.Linked? ==> r.1 == ps
    ensures user.None? ==> r.0 == Unauthorized
    ensures user.Some? && (botToken.None? || botToken.value == "") ==> r.0 == NotConfigured
    ensures (r.0.Linked? || r.0 == AlreadyLinked) ==> Verified(user, botToken, body, now, sign)
    ensures Verified(user, botToken, body, now, sign) ==>
      (r.0 == AlreadyLinked <==> Conflicts(ps, Get(body.value.fields, "id"), user.value))
    ensures Verified(user, botToken, body, now, sign) && !Conflicts(ps, Get(body.value.fields, "id"), user.value) ==>
      r.0.Linked?
    ensures VerifyThrows(user, botToken, body, now, sign) ==> r.0 == LinkFailed
    ensures r.0 == InvalidAuth ==>
      && user.Some? && botToken.Some? && body.Some? && body.value.JObj? && DistinctKeys(body.value.fields)
      && Verify(body.value.fields, botToken.value, now, sign) == Some(false)
    ensures r.0.Linked? ==>
      Verified(user, botToken, body, now, sign) &&
      var id := Get(body.value.fields, "id");
      && r.0.id == id
      && !Conflicts(ps, id, user.value)
      && r.1 == Upsert(ps, user.value, id, UsernameOrNull(Get(body.value.fields, "username")), nowIso)
  {
    if user.None? then (Unauthorized, ps)
    else if botToken.None? || botToken.value == "" then (NotConfigured, ps)
    else if body.None? || !body.value.JObj? || !DistinctKeys(body.value.fields) then (LinkFailed, ps)
    else
      var data := body.value.fields;
      match Verify(data, botToken.value, now, sign)
      case None => (LinkFailed, ps)
      case Some(false) => (InvalidAuth, ps)
      case Some(true) =>
        var id := Get(data, "id");
        if Conflicts(ps, id, user.value) then (AlreadyLinked, ps)
        else
          var username := UsernameOrNull(Get(data, "username"));
          (Linked(id, Get(data, "username"), Get(data, "first_name")), Upsert(ps, user.value, id, username, nowIso))
  }

  /** A body whose `auth_date` is an object with its own `toString` member
      makes the age check throw: the handler answers 500 "Failed to link
      Telegram" and the table is left as it was. */
  lemma ObjectDateFails(ps: seq<Profile>, u: string, botToken: string, now: int, nowIso: string,
                        sign: (string, string) -> string)
    requires botToken != ""
    ensures var body := Some(JObj([("auth_date", JObj([("toString", JNum(1))]))]));
      var r := Post(ps, Some(u), Some(botToken), body, now, nowIso, sign);
      r.0 == LinkFailed && StatusCode(r.0) == 500 && r.1 == ps
  {
    var fields := [("auth_date", JObj([("toString", JNum(1))]))];
    assert Get(fields, "auth_date") == Some(JObj([("toString", JNum(1))]));
    assert Keys([("toString", JNum(1))]) == ["toString"];
    assert ToNumber(Get(fields, "auth_date")).None?;
  }

  /** In a table where no account is linked twice, two rows holding the same
      account are the same row. */
  lemma OneHolder(ps: seq<Profile>, p: Profile, q: Profile)
    requires UniqueLinks(ps) && p in ps && q in ps
    requires p.telegramId.Some? && p.telegramId == q.telegramId
    ensures p == q
  {
    var i :| 0 <= i < |ps| && ps[i] == p;
    var j :| 0 <= j < |ps| && ps[j] == q;
    assert !(i < j) && !(j < i);
  }

  /** In such a table, the 409 answer (see `Post`) means exactly that the
      account is linked to someone else. */
  lemma ConflictIff(ps: seq<Profile>, id: Option<Json>, user: string)
    requires UniqueLinks(ps)
    ensures Conflicts(ps, id, user) <==> exists p :: p in ps && id.Some? && p.telegramId == id && p.userId != user
  {
    var existing := LinkedTo(ps, id);
    if p :| p in ps && id.Some? && p.telegramId == id && p.userId != user {
      assert p in existing;
      assert existing[0] in existing;
      OneHolder(ps, p, existing[0]);
    }
    if |existing| > 0 {
      assert existing[0] in existing;
    }
  }

  /** Linking keeps the table's key and never links one account twice. */
  lemma PostKeepsLinksUnique(ps: seq<Profile>, user: Option<string>, botToken: Option<string>,
                             body: Option<Json>, now: int, nowIso: string, sign: (string, string) -> string)
    requires UniqueUsers(ps) && UniqueLinks(ps)
    ensures UniqueUsers(Post(ps, user, botToken, body, now, nowIso, sign).1)
    ensures UniqueLinks(Post(ps, user, botToken, body, now, nowIso, sign).1)
  {
    var r := Post(ps, user, botToken, body, now, nowIso, sign);
    if r.0.Linked? {
      var u := user.value;
      var id := Get(body.value.fields, "id");
      var name := UsernameOrNull(Get(body.value.fields, "username"));
      var row := Profile(u, id, name, nowIso);
      var existing := LinkedTo(ps, id);
      forall k | 0 <= k < |ps| && id.Some? && ps[k].telegramId == id
        ensures ps[k].userId == u
      {
        assert ps[k] in existing;
        assert existing[0] in existing;
        OneHolder(ps, ps[k], existing[0]);
      }
      if u in UserIds(ps) {
        LinkInPlace(ps, u, row);
      } else {
        forall k | 0 <= k < |ps| ensures ps[k].userId != u {
          assert UserIds(ps)[k] == ps[k].userId;
        }
        LinkAppended(ps, row);
      }
    }
  }

  /** Rewriting the user's own row with an account no other row holds. */
  lemma LinkInPlace(ps: seq<Profile>, u: string, row: Profile)
    requires UniqueUsers(ps) && UniqueLinks(ps) && row.userId == u && u in UserIds(ps)
    requires forall k :: 0 <= k < |ps| && row.telegramId.Some? && ps[k].telegramId == row.telegramId ==> ps[k].userId == u
    ensures var out := Upsert(ps, u, row.telegramId, row.telegramUsername, row.updatedAt);
      UniqueUsers(out) && UniqueLinks(out)
  {
    var out := Upsert(ps, u, row.telegramId, row.telegramUsername, row.updatedAt);
    assert forall k :: 0 <= k < |ps| ==> out[k].userId == ps[k].userId by {
      forall k | 0 <= k < |ps| ensures out[k].userId == ps[k].userId {
        assert UserIds(out)[k] == UserIds(ps)[k];
      }
    }
    forall i, j | 0 <= i < j < |out| && out[i].telegramId.Some?
      ensures out[i].telegramId != out[j].telegramId
    {
      if ps[i].userId == u {
        assert ps[j].userId != u;
      } else if ps[j].userId == u {
        assert ps[i].userId != u;
      }
    }
  }

  /** Appending a row for a new user with an account no row holds. */
  lemma LinkAppended(ps: seq<Profile>, row: Profile)
    requires UniqueUsers(ps) && UniqueLinks(ps)
    requires forall k :: 0 <= k < |ps| ==> ps[k].userId != row.userId
    requires forall k :: 0 <= k < |ps| && row.telegramId.Some? ==> ps[k].telegramId != row.telegramId
    ensures UniqueUsers(ps + [row]) && UniqueLinks(ps + [row])
  {
    var out := ps + [row];
    forall i, j | 0 <= i < j < |out| && out[i].telegramId.Some?
      ensures out[i].telegramId != out[j].telegramId
    {
      assert out[i] == ps[i];
    }
  }

  /** `GET`: whether the user's profile has a (truthy) Telegram id. */
  datatype LinkStatus = StatusUnauthorized | NotLinked | IsLinked(id: Json, username: Option<Json>)

  function GetStatus(ps: seq<Profile>, user: Option<string>): (r: LinkStatus)
    ensures user.None? <==> r == StatusUnauthorized
    ensures r.IsLinked? ==> exists p :: p in ps && p.userId == user.value && p.telegramId == Some(r.id)
    ensures user.Some? && (forall p :: p in ps ==> p.userId != user.value) ==> r == NotLinked
    ensures user.Some? && UniqueUsers(ps) ==> forall p :: p in ps && p.userId == user.value ==>
      r == (if JsTruthyOpt(p.telegramId) then IsLinked(p.telegramId.value, p.telegramUsername) else NotLinked)
  {
    if user.None? then StatusUnauthorized
    else
      var mine := Filter(ps, (p: Profile) => p.userId == user.value);
      if |mine| == 0 then NotLinked
      else
        assert mine[0] in mine;
        UniqueUser(ps, mine[0], user.value);
        if !JsTruthyOpt(mine[0].telegramId) then NotLinked
        else IsLinked(mine[0].telegramId.value, mine[0].telegramUsername)
  }

  /** With `userId` as the key, a user has at most one profile. */
  lemma UniqueUser(ps: seq<Profile>, q: Profile, u: string)
    requires q in ps && q.userId == u
    ensures UniqueUsers(ps) ==> forall p :: p in ps && p.userId == u ==> p == q
  {
    if UniqueUsers(ps) {
      forall p | p in ps && p.userId == u ensures p == q {
        var i :| 0 <= i < |ps| && ps[i] == p;
        var j :| 0 <= j < |ps| && ps[j] == q;
        assert i == j;
      }
    }
  }

  /** `DELETE`: clears the user's Telegram id and username. */
  function Unlink(ps: seq<Profile>, user: string, now: string): (r: seq<Profile>)
    ensures |r| == |ps| && UserIds(r) == UserIds(ps)
    ensures forall k :: 0 <= k < |ps| ==>
      r[k] == (if ps[k].userId == user then Profile(user, None, None, now) else ps[k])
  {
    seq(|ps|, k requires 0 <= k < |ps| => if ps[k].userId == user then Profile(user, None, None, now) else ps[k])
  }

  /** After unlinking, the user reads as not linked. */
  lemma UnlinkThenStatus(ps: seq<Profile>, user: string, now: string)
    ensures GetStatus(Unlink(ps, user, now), Some(user)) == NotLinked
  {
    var r := Unlink(ps, user, now);
    var mine := Filter(r, (p: Profile) => p.userId == user);
    if |mine| > 0 {
      assert mine[0] in r;
    }
  }

  /** After a successful link with a truthy id, the user reads as linked to
      that account. */
  lemma PostThenStatus(ps: seq<Profile>, user: Option<string>, botToken: Option<string>, body: Option<Json>,
                       now: int, nowIso: string, sign: (string, string) -> string)
    requires UniqueUsers(ps)
    requires Post(ps, user, botToken, body, now, nowIso, sign).0.Linked?
    requires JsTruthyOpt(Post(ps, user, botToken, body, now, nowIso, sign).0.id)
    ensures var r := Post(ps, user, botToken, body, now, nowIso, sign);
      GetStatus(r.1, user) == IsLinked(r.0.id.value, UsernameOrNull(Get(body.value.fields, "username")))
  {
    var r := Post(ps, user, botToken, body, now, nowIso, sign);
    UpsertThenStatus(ps, user.value, r.0.id, UsernameOrNull(Get(body.value.fields, "username")), nowIso);
  }

  /** After the upsert of a truthy id, the user reads as linked to it. */
  lemma UpsertThenStatus(ps: seq<Profile>, u: string, id: Option<Json>, username: Option<Json>, nowIso: string)
    requires UniqueUsers(ps)
    requires JsTruthyOpt(id)
    ensures GetStatus(Upsert(ps, u, id, username, nowIso), Some(u)) == IsLinked(id.value, username)
  {
    var row := Profile(u, id, username, nowIso);
    var out := Upsert(ps, u, id, username, nowIso);
    var mine := Filter(out, (p: Profile) => p.userId == u);
    assert forall p :: p in out && p.userId == u ==> p == row by {
      forall p | p in out && p.userId == u ensures p == row {
        var k :| 0 <= k < |out| && out[k] == p;
        if u !in UserIds(ps) {
          assert forall j :: 0 <= j < |ps| ==> UserIds(ps)[j] != u;
          assert k == |ps|;
        }
      }
    }
    assert row in out by {
      if u in UserIds(ps) {
        var k :| 0 <= k < |ps| && UserIds(ps)[k] == u;
        assert out[k] == row;
      } else {
        assert out[|ps|] == row;
      }
    }
    assert row in mine;
    assert mine[0] in mine;
  }
}

=== FILE: text.dfy ===
/** Character classes, decimal numerals and the string helpers (split, join,
    strip, lexicographic order) that the JavaScript and Python sources use. */
module Text {

  // ---------------------------------------------------------------------------
  // Character classes
  // ---------------------------------------------------------------------------

  /** `\d` in a JavaScript regular expression without the `u` flag, and the
      ASCII digits Python's `isdigit` accepts. */
  predicate IsDigit(c: char) {
    '0' <= c <= '9'
  }

  predicate AllDigits(s: string) {
    forall i :: 0 <= i < |s| ==> IsDigit(s[i])
  }

  predicate IsUpper(c: char) {
    'A' <= c <= 'Z'
  }

  predicate IsLower(c: char) {
    'a' <= c <= 'z'
  }

  /** A character of `\w`: the side a `\b` boundary is tested against. */
  predicate IsWordChar(c: char) {
    IsUpper(c) || IsLower(c) || IsDigit(c) || c == '_'
  }

  /** Characters removed by JavaScript's `String.prototype.trim`
      (white space and line terminators). */
  predicate IsJsSpace(c: char) {
    var n := c as int;
    n == 0x09 || n == 0x0A || n == 0x0B || n == 0x0C || n == 0x0D || n == 0x20
    || n == 0xA0 || n == 0x1680 || (0x2000 <= n <= 0x200A) || n == 0x2028
    || n == 0x2029 || n == 0x202F || n == 0x205F || n == 0x3000 || n == 0xFEFF
  }

  /** Characters removed by Python's argument-less `str.strip`. */
  predicate IsPySpace(c: char) {
    var n := c as int;
    (0x09 <= n <= 0x0D) || (0x1C <= n <= 0x20) || n == 0x85 || n == 0xA0
    || n == 0x1680 || (0x2000 <= n <= 0x200A) || n == 0x2028 || n == 0x2029
    || n == 0x202F || n == 0x205F || n == 0x3000
  }

  // ---------------------------------------------------------------------------
  // ASCII case folding
  // ---------------------------------------------------------------------------

  function LowerChar(c: char): (r: char)
    ensures IsUpper(c) ==> IsLower(r) && r as int == c as int + 32
    ensures !IsUpper(c) ==> r == c
  {
    if IsUpper(c) then (c as int + 32) as char else c
  }

  /** Lower-cases the ASCII letters of `s` and keeps every other character. */
  function Lower(s: string): (r: string)
    ensures |r| == |s|
    ensures forall i :: 0 <= i < |s| ==> r[i] == LowerChar(s[i])
  {
    seq(|s|, i requires 0 <= i < |s| => LowerChar(s[i]))
  }

  /** `word` (written in lower case) occurs at `s[i..]` in any letter case:
      its first letter, and then the rest of it one position on. */
  predicate MatchesAt(s: string, i: int, word: string)
    decreases |word|
  {
    && 0 <= i && i + |word| <= |s|
    && (|word| > 0 ==> LowerChar(s[i]) == word[0] && MatchesAt(s, i + 1, word[1..]))
  }

  /** The same, character by character. */
  lemma {:induction false} MatchesAtChars(s: string, i: int, word: string)
    ensures MatchesAt(s, i, word) <==>
      0 <= i && i + |word| <= |s| && forall k :: 0 <= k < |word| ==> LowerChar(s[i + k]) == word[k]
    decreases |word|
  {
    if |word| > 0 && 0 <= i && i + |word| <= |s| {
      var tail := word[1..];
      MatchesAtChars(s, i + 1, tail);
      if forall k :: 0 <= k < |word| ==> LowerChar(s[i + k]) == word[k] {
        assert LowerChar(s[i + 0]) == word[0];
        forall k | 0 <= k < |tail| ensures LowerChar(s[i + 1 + k]) == tail[k] {
          assert LowerChar(s[i + (k + 1)]) == word[k + 1];
        }
      }
      if MatchesAt(s, i, word) {
        forall k | 0 <= k < |word| ensures LowerChar(s[i + k]) == word[k] {
          if k > 0 {
            assert LowerChar(s[i + 1 + (k - 1)]) == tail[k - 1];
          }
        }
      }
    }
  }

  lemma MatchesAtLower(s: string, i: int, word: string)
    requires 0 <= i && i + |word| <= |s|
    ensures MatchesAt(s, i, word) <==> Lower(s[i..i + |word|]) == word
  {
    MatchesAtChars(s, i, word);
    if Lower(s[i..i + |word|]) == word {
      forall k | 0 <= k < |word|
        ensures LowerChar(s[i + k]) == word[k]
      {
        assert Lower(s[i..i + |word|])[k] == LowerChar(s[i..i + |word|][k]);
      }
    }
  }

  /** A case-insensitive occurrence survives cutting out the piece of text
      around it. */
  lemma MatchesAtSlice(s: string, i: int, j: int, word: string)
    requires 0 <= i && i + |word| <= j <= |s| && MatchesAt(s, i, word)
    ensures MatchesAt(s[i..j], 0, word)
  {
    MatchesAtChars(s, i, word);
    MatchesAtChars(s[i..j], 0, word);
    forall k | 0 <= k < |word|
      ensures LowerChar(s[i..j][0 + k]) == word[k]
    {
      assert s[i..j][k] == s[i + k];
    }
  }

  // ---------------------------------------------------------------------------
  // Decimal numerals
  // ---------------------------------------------------------------------------

  function DigitValue(c: char): (d: nat)
    requires IsDigit(c)
    ensures d < 10
  {
    c as int - '0' as int
  }

  function DigitChar(d: nat): (c: char)
    requires d < 10
    ensures IsDigit(c) && DigitValue(c) == d
  {
    ('0' as int + d) as char
  }

  /** The value of a run of decimal digits, as `parseInt(s, 10)` and `int(s)`
      compute it (leading zeros allowed). */
  function DecimalValue(s: string): nat
    requires AllDigits(s)
  {
    if |s| == 0 then 0 else DecimalValue(s[..|s| - 1]) * 10 + DigitValue(s[|s| - 1])
  }

  /** The shortest decimal spelling of `n`, as JavaScript's `String(n)` and
      Python's `str(n)` print a non-negative integer. */
  function NatToString(n: nat): (s: string)
    ensures |s| > 0 && AllDigits(s)
    ensures |s| > 1 ==> s[0] != '0'
    decreases n
  {
    if n < 10 then [DigitChar(n)] else NatToString(n / 10) + [DigitChar(n % 10)]
  }

  function IntToString(i: int): (s: string)
    ensures |s| > 0
  {
    if i < 0 then "-" + NatToString(-i) else NatToString(i)
  }

  lemma {:induction false} DecimalValueOfNatToString(n: nat)
    ensures DecimalValue(NatToString(n)) == n
    decreases n
  {
    if n >= 10 {
      var s := NatToString(n);
      DecimalValueOfNatToString(n / 10);
      assert s[..|s| - 1] == NatToString(n / 10);
    }
  }

  // ---------------------------------------------------------------------------
  // Prefixes, substrings, lexicographic order
  // ---------------------------------------------------------------------------

  predicate IsPrefix(p: string, s: string) {
    |p| <= |s| && s[..|p|] == p
  }

  predicate IsSuffix(p: string, s: string) {
    |p| <= |s| && s[|s| - |p|..] == p
  }

  predicate OccursAt(sub: string, s: string, i: int) {
    0 <= i && i + |sub| <= |s| && s[i..i + |sub|] == sub
  }

  /** JavaScript's `s.includes(sub)` and Python's `sub in s`. */
  predicate Contains(s: string, sub: string) {
    exists i :: 0 <= i <= |s| - |sub| && OccursAt(sub, s, i)
  }

  /** Strict lexicographic order by code point: Python's `<` on strings, and
      JavaScript's default `sort()` on text whose characters all lie in the
      Basic Multilingual Plane (JavaScript compares UTF-16 code units). */
  predicate LexLess(a: string, b: string)
    decreases |a|
  {
    if |a| == 0 then |b| > 0
    else if |b| == 0 then false
    else if a[0] != b[0] then a[0] < b[0]
    else LexLess(a[1..], b[1..])
  }

  lemma {:induction false} LexLessIrreflexive(a: string)
    ensures !LexLess(a, a)
    decreases |a|
  {
    if |a| > 0 {
      LexLessIrreflexive(a[1..]);
    }
  }

  lemma {:induction false} LexLessTransitive(a: string, b: string, c: string)
    requires LexLess(a, b) && LexLess(b, c)
    ensures LexLess(a, c)
    decreases |a|
  {
    if |a| > 0 && |b| > 0 && |c| > 0 && a[0] == b[0] && b[0] == c[0] {
      LexLessTransitive(a[1..], b[1..], c[1..]);
    }
  }

  lemma {:induction false} LexLessConnected(a: string, b: string)
    requires a != b
    ensures LexLess(a, b) || LexLess(b, a)
    decreases |a|
  {
    if |a| > 0 && |b| > 0 && a[0] == b[0] {
      assert a[1..] != b[1..] by {
        assert a == [a[0]] + a[1..] && b == [b[0]] + b[1..];
      }
      LexLessConnected(a[1..], b[1..]);
    }
  }

  // ---------------------------------------------------------------------------
  // Join, split, strip
  // ---------------------------------------------------------------------------

  /** `parts.join(sep)` / `sep.join(parts)`. */
  function Join(parts: seq<string>, sep: string): string
    decreases |parts|
  {
    if |parts| == 0 then ""
    else if |parts| == 1 then parts[0]
    else parts[0] + sep + Join(parts[1..], sep)
  }

  /** An occurrence survives putting text before or after it. */
  lemma ContainsConcat(a: string, b: string, sub: string)
    ensures Contains(a, sub) ==> Contains(a + b, sub)
    ensures Contains(b, sub) ==> Contains(a + b, sub)
  {
    if Contains(a, sub) {
      var i :| 0 <= i <= |a| - |sub| && OccursAt(sub, a, i);
      assert (a + b)[i..i + |sub|] == a[i..i + |sub|];
      assert OccursAt(sub, a + b, i);
    }
    if Contains(b, sub) {
      var i :| 0 <= i <= |b| - |sub| && OccursAt(sub, b, i);
      assert (a + b)[|a| + i..|a| + i + |sub|] == b[i..i + |sub|];
      assert OccursAt(sub, a + b, |a| + i);
    }
  }

  /** Every part occurs in the joined text. */
  lemma {:induction false} JoinContains(parts: seq<string>, sep: string, k: nat)
    requires k < |parts|
    ensures Contains(Join(parts, sep), parts[k])
    decreases |parts|
  {
    if |parts| == 1 || k == 0 {
      var j := Join(parts, sep);
      if |parts| > 1 {
        assert j == parts[0] + (sep + Join(parts[1..], sep));
        ContainsConcat(parts[0], sep + Join(parts[1..], sep), parts[0]);
      }
      assert OccursAt(parts[0], parts[0], 0);
    } else {
      JoinContains(parts[1..], sep, k - 1);
      assert Join(parts, sep) == (parts[0] + sep) + Join(parts[1..], sep);
      ContainsConcat(parts[0] + sep, Join(parts[1..], sep), parts[k]);
    }
  }

  /** Python's `s.split(c)` for a one-character separator: the maximal
      separator-free pieces, always at least one. */
  function Split(s: string, c: char): (parts: seq<string>)
    ensures |parts| >= 1
    ensures forall k :: 0 <= k < |parts| ==> c !in parts[k]
    decreases |s|
  {
    if |s| == 0 then [""]
    else
      var rest := Split(s[1..], c);
      if s[0] == c then [""] + rest else [[s[0]] + rest[0]] + rest[1..]
  }

  /** Joining the pieces of a split with the separator gives back the input. */
  lemma {:induction false} JoinSplit(s: string, c: char)
    ensures Join(Split(s, c), [c]) == s
    decreases |s|
  {
    if |s| > 0 {
      var rest := Split(s[1..], c);
      JoinSplit(s[1..], c);
      if s[0] == c {
        assert Split(s, c) == [""] + rest;
      } else {
        var parts := Split(s, c);
        assert parts == [[s[0]] + rest[0]] + rest[1..];
        if |rest| == 1 {
          assert Join(parts, [c]) == [s[0]] + rest[0];
        } else {
          assert parts[1..] == rest[1..];
          assert Join(parts, [c]) == [s[0]] + rest[0] + [c] + Join(rest[1..], [c]);
        }
      }
    }
  }

  /** The index of the first character of `s` at or after `i` that `strip`
      does not select (or `|s|`). */
  function SkipForward(s: string, strip: char -> bool, i: nat): (k: nat)
    requires i <= |s|
    requires forall j :: 0 <= j < i ==> strip(s[j])
    ensures i <= k <= |s|
    ensures forall j :: 0 <= j < k ==> strip(s[j])
    ensures k < |s| ==> !strip(s[k])
    decreases |s| - i
  {
    if i < |s| && strip(s[i]) then SkipForward(s, strip, i + 1) else i
  }

  /** The end of `s[lo..j]` once the trailing characters `strip` selects are
      dropped. */
  function SkipBackward(s: string, strip: char -> bool, lo: nat, j: nat): (e: nat)
    requires lo <= j <= |s|
    requires forall t :: j <= t < |s| ==> strip(s[t])
    ensures lo <= e <= j
    ensures forall t :: e <= t < |s| ==> strip(s[t])
    ensures e > lo ==> !strip(s[e - 1])
    decreases j
  {
    if j > lo && strip(s[j - 1]) then SkipBackward(s, strip, lo, j - 1) else j
  }

  /** Removes every leading and trailing character selected by `strip`:
      Python's `str.strip(chars)`, and with the white-space classes above,
      Python's `str.strip()` and JavaScript's `trim()`. */
  function Strip(s: string, strip: char -> bool): (r: string)
    ensures exists i :: (0 <= i <= |s| - |r| && OccursAt(r, s, i)
      && (forall j :: 0 <= j < i ==> strip(s[j]))
      && (forall j :: i + |r| <= j < |s| ==> strip(s[j])))
    ensures |r| > 0 ==> !strip(r[0]) && !strip(r[|r| - 1])
  {
    var k := SkipForward(s, strip, 0);
    var e := SkipBackward(s, strip, k, |s|);
    var r := s[k..e];
    assert OccursAt(r, s, k);
    r
  }

  /** Stripping text padded on both sides with selected characters leaves
      exactly the text, when its own first and last characters are kept. */
  lemma StripPadded(pre: string, mid: string, post: string, strip: char -> bool)
    requires forall j :: 0 <= j < |pre| ==> strip(pre[j])
    requires forall j :: 0 <= j < |post| ==> strip(post[j])
    requires |mid| > 0 && !strip(mid[0]) && !strip(mid[|mid| - 1])
    ensures Strip(pre + mid + post, strip) == mid
  {
    var s := pre + mid + post;
    var r := Strip(s, strip);
    var i :| 0 <= i <= |s| - |r| && OccursAt(r, s, i)
      && (forall j :: 0 <= j < i ==> strip(s[j]))
      && (forall j :: i + |r| <= j < |s| ==> strip(s[j]));
    assert s[|pre|] == mid[0];
    assert s[|pre| + |mid| - 1] == mid[|mid| - 1];
    assert i <= |pre|;
    assert |r| > 0;
    assert r[0] == s[i];
    assert i == |pre|;
    assert r[|r| - 1] == s[i + |r| - 1];
    assert i + |r| == |pre| + |mid|;
    assert s[|pre|..|pre| + |mid|] == mid;
  }

  function PyStrip(s: string): string {
    Strip(s, IsPySpace)
  }

  function JsTrim(s: string): string {
    Strip(s, IsJsSpace)
  }

  /** Python's `str.strip(q)` for a single quote character `q`. */
  function StripChar(s: string, q: char): string {
    Strip(s, c => c == q)
  }
}

=== FILE: uuid.dfy ===
/** PostgreSQL's `uuid` type, which the app's id columns use
    (apps/journey/src/db/schema.ts): the texts such a column accepts and the
    value each one denotes. Following section 8.12 of the PostgreSQL
    documentation ("UUID Type"), a uuid is written as 32 hexadecimal digits
    in either letter case, with an optional `-` after any group of four
    digits, optionally enclosed in `{` and `}`; the database prints it in
    lower case in the 8-4-4-4-12 form. Any other text makes the statement
    fail with "invalid input syntax for type uuid". */
module Uuid {
  import opened Base
  import opened Text

  predicate IsHexDigit(c: char) {
    '0' <= c <= '9' || 'a' <= c <= 'f' || 'A' <= c <= 'F'
  }

  /** Lower-case hexadecimal digits only. */
  predicate LowerHex(d: string) {
    forall i :: 0 <= i < |d| ==> '0' <= d[i] <= '9' || 'a' <= d[i] <= 'f'
  }

  /** Lower-casing four hexadecimal digits gives lower-case hexadecimal
      digits. */
  lemma LowerOfHex(g: string)
    requires |g| == 4 && forall i :: 0 <= i < 4 ==> IsHexDigit(g[i])
    ensures LowerHex(Lower(g))
  {
  }

  /** Reads `n` groups of four digits that make up the whole of `s`, with an
      optional `-` after every group but the last; the digits, lower-cased. */
  function Groups(s: string, n: nat): (r: Option<string>)
    ensures r.Some? ==> |r.value| == 4 * n && LowerHex(r.value)
    decreases n
  {
    if n == 0 then (if |s| == 0 then Some("") else None)
    else if |s| < 4 || !IsHexDigit(s[0]) || !IsHexDigit(s[1]) || !IsHexDigit(s[2]) || !IsHexDigit(s[3]) then None
    else
      var rest := if n > 1 && |s| > 4 && s[4] == '-' then s[5..] else s[4..];
      match Groups(rest, n - 1)
      case None => None
      case Some(d) =>
        LowerOfHex(s[..4]);
        Some(Lower(s[..4]) + d)
  }

  /** The value a text denotes in a uuid column: its 32 digits in lower
      case, or `None` when the column refuses the text. */
  function UuidDigits(s: string): (r: Option<string>)
    ensures r.Some? ==> |r.value| == 32 && LowerHex(r.value)
  {
    if |s| > 0 && s[0] == '{' then
      if |s| >= 2 && s[|s| - 1] == '}' then Groups(s[1..|s| - 1], 8) else None
    else Groups(s, 8)
  }

  predicate IsUuid(s: string) {
    UuidDigits(s).Some?
  }

  /** `a` and `b` denote the same uuid: what `=` on a uuid column compares. */
  predicate SameUuid(a: string, b: string) {
    UuidDigits(a).Some? && UuidDigits(a) == UuidDigits(b)
  }

  /** The digits `d` written in groups of four, with a `-` after the k-th
      group exactly when `hyphens[k]` holds. */
  function Spell(d: string, hyphens: seq<bool>): (s: string)
    requires |d| == 4 * (|hyphens| + 1)
    ensures |s| >= 4 && s[..4] == d[..4]
    decreases |hyphens|
  {
    if |hyphens| == 0 then d
    else d[..4] + (if hyphens[0] then "-" else "") + Spell(d[4..], hyphens[1..])
  }

  /** Where the database's 8-4-4-4-12 form puts its hyphens among the eight
      groups of four digits. */
  const PrintedHyphens: seq<bool> := [false, true, true, true, true, false, false]

  /** How the database prints the uuid with digits `d`. */
  function Canonical(d: string): string
    requires |d| == 32
  {
    Spell(d, PrintedHyphens)
  }

  /** Lower-case digits spelled with hyphens after any groups read back as
      those digits. */
  lemma {:induction false} SpellReadsBack(d: string, hyphens: seq<bool>)
    requires |d| == 4 * (|hyphens| + 1) && LowerHex(d)
    ensures Groups(Spell(d, hyphens), |hyphens| + 1) == Some(d)
    decreases |hyphens|
  {
    var s := Spell(d, hyphens);
    var n := |hyphens| + 1;
    assert forall i :: 0 <= i < 4 ==> IsHexDigit(s[i]) by {
      assert forall i :: 0 <= i < 4 ==> s[i] == s[..4][i] == d[i];
    }
    assert Lower(d[..4]) == d[..4];
    if |hyphens| == 0 {
      assert s[4..] == [];
      assert d[..4] + "" == d;
    } else {
      var tail := Spell(d[4..], hyphens[1..]);
      var sep: string := if hyphens[0] then "-" else "";
      assert s == d[..4] + sep + tail;
      SpellReadsBack(d[4..], hyphens[1..]);
      if hyphens[0] {
        assert s[4] == '-' && s[5..] == tail;
      } else {
        assert s[4..] == tail;
        assert tail[0] == tail[..4][0] == d[4..][0];
        assert s[4] != '-';
      }
      assert d[..4] + d[4..] == d;
    }
  }

  /** The printed form reads back as the uuid it prints. */
  lemma CanonicalReadsBack(d: string)
    requires |d| == 32 && LowerHex(d)
    ensures UuidDigits(Canonical(d)) == Some(d)
  {
    SpellReadsBack(d, PrintedHyphens);
    assert Canonical(d)[0] == Canonical(d)[..4][0] == d[0];
  }

  /** The same spelling between braces denotes the same uuid. */
  lemma BracedReadsBack(d: string, hyphens: seq<bool>)
    requires |d| == 4 * (|hyphens| + 1) && |hyphens| == 7 && LowerHex(d)
    ensures UuidDigits("{" + Spell(d, hyphens) + "}") == Some(d)
  {
    var s := Spell(d, hyphens);
    var b := "{" + s + "}";
    assert b[1..|b| - 1] == s;
    SpellReadsBack(d, hyphens);
  }

  /** A short numeral is not a uuid: `"3"` is refused. */
  lemma ShortTextRefused()
    ensures !IsUuid("3")
  {
  }
}
